=== FILE: README.md ===
# direct-ring-cache, modelled in Dafny

direct-ring-cache is a slab-style buffer pool. A pool holds fixed-size *partitions*, and each partition is carved into fixed-size *slices*. A slice is checked out through a *slice selector*, stitched into a growable logical byte buffer (`PartitionBufferImpl`), and later given back. The repository keeps several historical variants of this design side by side. This project models each variant as its own class, keeping its own cursor policy and its own defects. It proves what each one guarantees, and where the code and its tests disagree, it proves what the code actually does.

The modules follow the program's structure:

- `errors.dfy` (`Errors`): the Java exceptions the core throws, as an `Error` value; `Result` and `Outcome` carry them.
- `bitset.dfy` (`BitSet`): `FixedLengthBitSet`, with its `long[]` as an array of 64-bit words. A ghost bit view states what every operation does. `testAndSet` is included because `AbstractPartition` calls it.
- `slices.dfy` (`Slices`): the lock protocol of `AbstractPartitionSlice`, plus the two pooled slice kinds (`ByteBufferPartitionSlice` and `UnsafePartitionSlice`) with their cursors, bulk copies and `clear`.
- `partitions.dfy` (`Partitions`): the bounded `AbstractPartition`, with its 5-attempt `get`, ownership-checked `free` and one-shot `close`. Also the `AbstractPooledPartition` variant and the unbounded `ByteBufferUnpooledPartition`, whose registry is keyed by id.
- `selectors.dfy` (`Selectors`): the round-robin, thread-affinity and processor-affinity slice selectors. Each is a state-machine function, and a class whose methods are proved against it.
- `pools.dfy` (`Pools`): `PartitionBufferPoolImpl`, covering construction, slice request and return through the selector, the accounting getters, and `close`.
- `legacy.dfy` (`LegacyPartitions`): the three older partitions (`Partition`, `ByteBufferPartition`, `UnsafeBufferPartition`), each with its own `nextSlice` policy and its shared-buffer slices.
- `partition_buffer.dfy` (`PartitionBuffers`): the logical buffer as functions on a value state. This covers address translation, growth, writes and reads, and capacity accounting. Next to them sit the as-written definitions of the defective lines.
- `logical_buffer.dfy` (`LogicalBuffer`): the `PartitionBufferImpl` class, with its slice array, its cursors and its byte order. Its methods are proved against `PartitionBuffers`. This file also holds the byte-order codec (`BufferUtils.put*`/`get*`) driven through that class.
- `buffer_utils.dfy` (`BufferUtils`): the pure parts of `BufferUtils`: Java's integer casts, `buildShort`/`buildInt`/`buildLong`, `rangeCheck`, and the size-descriptor parser. It also has the power-of-two test that the builder calls.
- `buffers.dfy` (`Buffers`): the `Buffers.allocate*` validation chain and its nested pool over `Partition`.
- `builder.dfy` (`PoolBuilder`): the `PartitionBufferBuilder` constructors and `allocatePool` overloads.

Java integers are modelled as unbounded `int` values with explicit wrap-around where the source computes in `int` or `long` (`ToInt`, `ToLong`). Java's truncating `/` and `%` are written out wherever an operand can be negative. Exceptions become `Err`/`Fail` values, in the order the source would throw them. Each concurrent operation is one sequential step.

## Model

| member | source | states |
|---|---|---|
| BitSet.WordCount | directringcache-module/src/main/java/com/github/directringcache/impl/FixedLengthBitSet.java:11-14 | the word array holds ceil(bits / 64) words: 64 words cover every bit and leave fewer than 64 positions of padding |
| BitSet.FixedLengthBitSet.constructor | directringcache-module/src/main/java/com/github/directringcache/impl/FixedLengthBitSet.java:11-14 | a new set records `bits` and starts with every position of every word clear |
| BitSet.CardinalityCountsBits | directringcache-module/src/main/java/com/github/directringcache/impl/FixedLengthBitSet.java:62-68 | summing Long.bitCount over the words counts exactly the set positions of the bit view |
| BitSet.BitsOfUpdate | directringcache-module/src/main/java/com/github/directringcache/impl/FixedLengthBitSet.java:180-182 | updating bit i % 64 of word i / 64 changes position i of the bit view and no other |
| BitSet.BitsOfCombine | directringcache-module/src/main/java/com/github/directringcache/impl/FixedLengthBitSet.java:110-148 | after a bulk operation, position p combines the receiver's and the operand's bit p when the operand has that word, and keeps the receiver's bit otherwise |
| BitSet.FirstClearSpec | directringcache-module/src/main/java/com/github/directringcache/impl/FixedLengthBitSet.java:74-88 | the scan result is -1 exactly when every position from the start is set; otherwise it is a clear position with every position before it (from the start) set |
| BitSet.FirstClearIs | directringcache-module/src/main/java/com/github/directringcache/impl/FixedLengthBitSet.java:74-88 | conversely, the first clear position (or -1 when all are set) is the scan's result, so the scan is characterised both ways |
| BitSet.FullIffAllSet | directringcache-module/src/main/java/com/github/directringcache/impl/FixedLengthBitSet.java:58-68 | with no padding bit set, cardinality never exceeds bits, and equals bits exactly when every one of the first bits positions is set |
| BitSet.JavaDiv | directringcache-module/src/main/java/com/github/directringcache/impl/FixedLengthBitSet.java:180-182 | `bitIndex / 64` truncates toward zero: Euclidean quotient for non-negative operands, the negated quotient of the magnitude otherwise |
| BitSet.FixedLengthBitSet.Size | directringcache-module/src/main/java/com/github/directringcache/impl/FixedLengthBitSet.java:54-56 | size() is the bit count given at construction |
| BitSet.FixedLengthBitSet.Get | directringcache-module/src/main/java/com/github/directringcache/impl/FixedLengthBitSet.java:22-26 | get(i) is the bit at position i when 0 <= i <= bits (the inclusive upper bound of rangeCheck) and the word exists, and IndexOutOfBounds otherwise |
| BitSet.FixedLengthBitSet.Store | directringcache-module/src/main/java/com/github/directringcache/impl/FixedLengthBitSet.java:16-46 | a range-checked store changes exactly position i of the bit view; a rejected index leaves every word as it was |
| BitSet.FixedLengthBitSet.Set | directringcache-module/src/main/java/com/github/directringcache/impl/FixedLengthBitSet.java:28-32 | set(i) makes position i true and changes nothing else; an out-of-range i fails with IndexOutOfBounds and changes nothing |
| BitSet.FixedLengthBitSet.Clear | directringcache-module/src/main/java/com/github/directringcache/impl/FixedLengthBitSet.java:42-46 | clear(i) makes position i false and changes nothing else; an out-of-range i fails and changes nothing |
| BitSet.FixedLengthBitSet.Flip | directringcache-module/src/main/java/com/github/directringcache/impl/FixedLengthBitSet.java:16-20 | flip(i) negates position i and changes nothing else; an out-of-range i fails and changes nothing |
| BitSet.FixedLengthBitSet.SetTo | directringcache-module/src/main/java/com/github/directringcache/impl/FixedLengthBitSet.java:34-40 | set(i, value) stores value at position i, through set or clear |
| BitSet.FixedLengthBitSet.TestAndSet | directringcache-module/src/main/java/com/github/directringcache/impl/AbstractPartition.java:75 | testAndSet(i), called by the partitions but absent from the bitset class: reports whether position i was clear and leaves it set |
| BitSet.FixedLengthBitSet.Reset | directringcache-module/src/main/java/com/github/directringcache/impl/FixedLengthBitSet.java:48-52 | reset() clears every position of every word |
| BitSet.FixedLengthBitSet.Cardinality | directringcache-module/src/main/java/com/github/directringcache/impl/FixedLengthBitSet.java:62-68 | cardinality() is the number of set positions, padding included |
| BitSet.FixedLengthBitSet.IsEmpty | directringcache-module/src/main/java/com/github/directringcache/impl/FixedLengthBitSet.java:58-60 | isEmpty() holds exactly when the population count equals size(), i.e. when the set is full (the name is inverted) |
| BitSet.FixedLengthBitSet.NextNotSet | directringcache-module/src/main/java/com/github/directringcache/impl/FixedLengthBitSet.java:74-88 | nextNotSet(i) is the first clear position at or above 64 * (i / 64) with Java division, padding included, or -1; a negative word index fails with IndexOutOfBounds |
| BitSet.FixedLengthBitSet.NextNotSetWithin | directringcache-module/src/main/java/com/github/directringcache/impl/FixedLengthBitSet.java:74-88 | the scan the test suite expects: the first clear position from 64 * (i / 64) on but below size(), or -1 exactly when all of those are set; a position it reports reads as clear through get(), so it is never padding |
| BitSet.FixedLengthBitSet.NextNotSetWrapping | directringcache-module/src/main/java/com/github/directringcache/impl/FixedLengthBitSet.java:74-88 | the wrapping scan the test suite expects: the bounded scan from i's word, else the bounded scan from 0; -1 exactly when every one of the size() positions is set, and a position it reports reads as clear through get() |
| BitSet.FixedLengthBitSet.FirstNotSet | directringcache-module/src/main/java/com/github/directringcache/impl/FixedLengthBitSet.java:70-72 | firstNotSet() is the first clear position from 0, or -1 |
| BitSet.FixedLengthBitSet.Combine | directringcache-module/src/main/java/com/github/directringcache/impl/FixedLengthBitSet.java:110-148 | a bulk operation fails with IndexOutOfBounds and changes nothing when the operand has more words; otherwise it combines the first operand-length words and keeps the rest |
| BitSet.FixedLengthBitSet.And | directringcache-module/src/main/java/com/github/directringcache/impl/FixedLengthBitSet.java:110-118 | and(): Combine with bitwise and |
| BitSet.FixedLengthBitSet.AndNot | directringcache-module/src/main/java/com/github/directringcache/impl/FixedLengthBitSet.java:120-128 | andNot(): Combine with and-not |
| BitSet.FixedLengthBitSet.Or | directringcache-module/src/main/java/com/github/directringcache/impl/FixedLengthBitSet.java:130-138 | or(): Combine with bitwise or |
| BitSet.FixedLengthBitSet.Xor | directringcache-module/src/main/java/com/github/directringcache/impl/FixedLengthBitSet.java:140-148 | xor(): Combine with exclusive or |
| BitSet.PrefixPopCount | directringcache-module/src/main/java/com/github/directringcache/impl/FixedLengthBitSet.java:62-68 | a set whose first k positions are set and the rest clear has cardinality k |
| BitSet.FillInOrder | directringcache-module/src/test/java/com/github/directringcache/FixedLengthBitSetTestCase.java:16-23 | the test's fill loop on an empty set: nextNotSet(i) finds i, testAndSet claims it and cardinality() is then i + 1, for every i below bits |
| BitSet.FillStep | directringcache-module/src/test/java/com/github/directringcache/FixedLengthBitSetTestCase.java:18-22 | one turn of that loop on a set holding exactly the first i bits: nextNotSet(i) is i, and afterwards the set holds the first i + 1 bits and cardinality() is i + 1 |
| BitSet.RanOutOfBitsScenario | directringcache-module/src/test/java/com/github/directringcache/FixedLengthBitSetTestCase.java:13-26 | after claiming all 100 bits, nextNotSet(0) returns the padding position 100, not the -1 the test expects |
| BitSet.NextNotSetScenario | directringcache-module/src/test/java/com/github/directringcache/FixedLengthBitSetTestCase.java:29-44 | ten bits claimed and bit 6 cleared: nextNotSet(9) and nextNotSet(0) both return 6, as the test expects |
| BitSet.WrapScenario | directringcache-module/src/test/java/com/github/directringcache/FixedLengthBitSetTestCase.java:47-62 | 129 bits claimed and bit 6 cleared: nextNotSet(128) returns the padding position 129, where the test expects 6; nextNotSet(0) returns 6 |
| BitSet.RanOutOfBitsWithin | directringcache-module/src/test/java/com/github/directringcache/FixedLengthBitSetTestCase.java:13-26 | with the bounded scan, nextNotSet(0) after claiming all 100 bits is the -1 the test expects |
| BitSet.WrapScenarioWrapping | directringcache-module/src/test/java/com/github/directringcache/FixedLengthBitSetTestCase.java:47-62 | with the wrapping scan, 129 bits claimed and bit 6 cleared, nextNotSet(128) and nextNotSet(0) both give the 6 the test expects |
| BitSet.PopCount | directringcache-module/src/main/java/com/github/directringcache/impl/FixedLengthBitSet.java:65 | Long.bitCount of a word never exceeds the word's 64 bits |
| BitSet.BitsOf | directringcache-module/src/main/java/com/github/directringcache/impl/FixedLengthBitSet.java:11-14 | the bit view of a word array has 64 positions per word |
| BitSet.PopCountFull | directringcache-module/src/main/java/com/github/directringcache/impl/FixedLengthBitSet.java:77 | Long.bitCount(word) == 64 holds exactly when every bit of the word is set |
| BitSet.PopCountUpdate | directringcache-module/src/main/java/com/github/directringcache/impl/FixedLengthBitSet.java:28-46 | setting or clearing one bit moves the population count by one exactly when the bit changes |
| BitSet.CombineWords | directringcache-module/src/main/java/com/github/directringcache/impl/FixedLengthBitSet.java:110-148 | a bulk operation keeps the receiver's word count |
| Slices.ReplayKeepsBalance | directringcache-module/src/main/java/com/github/directringcache/impl/AbstractPartitionSlice.java:12-47 | from any balanced state (acquired == freed while unlocked, acquired == freed + 1 while locked), every sequence of lock() and unlock() calls, failing ones included, stays balanced |
| Slices.LockOnBalanced | directringcache-module/src/main/java/com/github/directringcache/impl/AbstractPartitionSlice.java:25-37 | on a balanced slice lock() fails exactly when the slice is locked and then changes nothing; otherwise it locks and counts one acquire, freed unchanged |
| Slices.LockUnlockRoundTrip | directringcache-module/src/main/java/com/github/directringcache/impl/AbstractPartitionSlice.java:25-47 | lock() then unlock() on an unlocked balanced slice both succeed and leave it unlocked with acquired == freed, one more than before |
| Slices.AbstractPartitionSlice.constructor | directringcache-module/src/main/java/com/github/directringcache/impl/AbstractPartitionSlice.java:20-23 | a new slice keeps its index, is unlocked and has both counters at 0 |
| Slices.AbstractPartitionSlice.Lock | directringcache-module/src/main/java/com/github/directringcache/impl/AbstractPartitionSlice.java:25-37 | lock() fails with IllegalState on a locked slice; otherwise it sets the flag first and then fails with IllegalState when acquired != freed (leaving the flag set), else counts one acquire |
| Slices.AbstractPartitionSlice.Unlock | directringcache-module/src/main/java/com/github/directringcache/impl/AbstractPartitionSlice.java:39-47 | unlock() fails with IllegalState on an unlocked slice, counters unchanged; otherwise clears the flag and counts one free |
| Slices.InBoundsRun | directringcache-module/src/main/java/com/github/directringcache/impl/ByteBufferPartitionSlice.java:51-57 | the number of leading steps of a byte-at-a-time copy that stay in bounds on both sides: never more than the length, every counted step is in bounds, and the step after the run is out of bounds |
| Slices.Overwrite | directringcache-module/src/main/java/com/github/directringcache/impl/UnsafePartitionSlice.java:78-79 | a block copy writes the source bytes from position `at` on and keeps every other position |
| Slices.ByteBufferSlice.constructor | directringcache-module/src/main/java/com/github/directringcache/impl/ByteBufferPartitionSlice.java:21-28 | a slice over a fresh zero buffer of the given capacity, cursors at 0, unlocked, index and owner as given (also the inner slice of ByteBufferPooledPartition.java:69-74) |
| Slices.ByteBufferSlice.Clear | directringcache-module/src/main/java/com/github/directringcache/impl/ByteBufferPartitionSlice.java:30-36 | clear() resets both cursors to 0 and keeps the stored bytes |
| Slices.ByteBufferSlice.PutAt | directringcache-module/src/main/java/com/github/directringcache/impl/ByteBufferPartitionSlice.java:44-48 | put(position, v) stores v at that position only, so read(position) returns v and every other position reads as before; an out-of-range position fails with IndexOutOfBounds and changes nothing; the cursors do not move |
| Slices.ByteBufferSlice.Put | directringcache-module/src/main/java/com/github/directringcache/impl/ByteBufferPartitionSlice.java:38-42 | put(v) stores at the old writerIndex and advances it by one, even when the store fails |
| Slices.ByteBufferSlice.Read | directringcache-module/src/main/java/com/github/directringcache/impl/ByteBufferPartitionSlice.java:59-63 | read() returns the byte at the old readerIndex (or IndexOutOfBounds) and advances readerIndex by one |
| Slices.ByteBufferSlice.PutArray | directringcache-module/src/main/java/com/github/directringcache/impl/ByteBufferPartitionSlice.java:50-57 | bulk put stores array[offset..] at consecutive positions from the old writerIndex for as many steps as stay in bounds, advances writerIndex by the steps taken (the failing step included), and fails exactly when a step goes out of bounds |
| Slices.ByteBufferSlice.ReadArray | directringcache-module/src/main/java/com/github/directringcache/impl/ByteBufferPartitionSlice.java:71-78 | bulk read copies consecutive bytes from the old readerIndex into array[offset..] for as many steps as stay in bounds and advances readerIndex by the steps taken; the writer cursor is untouched |
| Slices.ByteBufferSlice.SetWriterIndex | directringcache-module/src/main/java/com/github/directringcache/impl/ByteBufferPartitionSlice.java:110-115 | writerIndex(v) is rangeCheck(v, 0, sliceByteSize); on success only the writer cursor becomes v, on failure nothing changes |
| Slices.ByteBufferSlice.SetReaderIndex | directringcache-module/src/main/java/com/github/directringcache/impl/ByteBufferPartitionSlice.java:117-122 | readerIndex(v) is rangeCheck(v, 0, sliceByteSize); on success only the reader cursor becomes v |
| Slices.ByteBufferSlice.Free | directringcache-module/src/main/java/com/github/directringcache/impl/ByteBufferPartitionSlice.java:130-134 | free() releases the buffer of the top-level slice class and does nothing for the inner pooled slice (ByteBufferPooledPartition.java:176-180); the cursors stay |
| Slices.UnsafeSlice.constructor | directringcache-module/src/main/java/com/github/directringcache/impl/UnsafePartitionSlice.java:29-38 | a new raw slice owns a region of sliceByteSize bytes, ends with clear(): all bytes zero and both cursors 0 |
| Slices.UnsafeSlice.Clear | directringcache-module/src/main/java/com/github/directringcache/impl/UnsafePartitionSlice.java:40-46 | clear() zeroes all sliceByteSize bytes and resets both cursors |
| Slices.UnsafeSlice.PutAt | directringcache-module/src/main/java/com/github/directringcache/impl/UnsafePartitionSlice.java:54-62 | put(position, v) stores v at that position only, so read(position) returns v; the cursors do not move |
| Slices.UnsafeSlice.Put | directringcache-module/src/main/java/com/github/directringcache/impl/UnsafePartitionSlice.java:48-52 | put(v) stores at writerIndex and advances it by one |
| Slices.UnsafeSlice.Read | directringcache-module/src/main/java/com/github/directringcache/impl/UnsafePartitionSlice.java:83-87 | read() returns the byte at readerIndex and advances it by one |
| Slices.UnsafeSlice.PutArray | directringcache-module/src/main/java/com/github/directringcache/impl/UnsafePartitionSlice.java:64-81 | bulk put fails with IndexOutOfBounds and changes nothing when writerIndex + length > sliceByteSize; a negative length passes that check and fails with IllegalArgument, changing nothing; otherwise it copies the bytes to the region starting at readerIndex (not writerIndex) and advances writerIndex by length |
| Slices.UnsafeSlice.ReadArray | directringcache-module/src/main/java/com/github/directringcache/impl/UnsafePartitionSlice.java:95-112 | bulk read fails with IndexOutOfBounds and changes nothing when readerIndex + length > sliceByteSize; a negative length passes that check and fails with IllegalArgument, changing nothing; otherwise it copies the bytes from readerIndex on into array[offset..] and advances readerIndex by length |
| Slices.UnsafeSlice.SetWriterIndex | directringcache-module/src/main/java/com/github/directringcache/impl/UnsafePartitionSlice.java:144-149 | writerIndex(v) is rangeCheck(v, 0, sliceByteSize); on success only the writer cursor becomes v |
| Slices.UnsafeSlice.SetReaderIndex | directringcache-module/src/main/java/com/github/directringcache/impl/UnsafePartitionSlice.java:151-156 | readerIndex(v) is rangeCheck(v, 0, sliceByteSize); on success only the reader cursor becomes v |
| Slices.UnsafeSlice.Free | directringcache-module/src/main/java/com/github/directringcache/impl/UnsafePartitionSlice.java:174-179 | free() zeroes the region and then releases it |
| Partitions.ClearSlice | directringcache-module/src/main/java/com/github/directringcache/impl/AbstractPartition.java:99 | slice.clear() through the slice's own class: cursors back to 0 and a raw region zeroed, the released state untouched |
| Partitions.FreeSlice | directringcache-module/src/main/java/com/github/directringcache/impl/AbstractPartition.java:119 | slice.free() through the slice's own class: a raw slice is zeroed and released, a pooled ByteBuffer slice does nothing |
| Partitions.States | directringcache-module/src/main/java/com/github/directringcache/impl/AbstractPartitionSlice.java:12-16 | the lock flag and counters of every slice of a partition, in index order |
| Partitions.ClaimKeepsConsistent | directringcache-module/src/main/java/com/github/directringcache/impl/AbstractPartition.java:73-78 | setting a clear bit and locking its slice keeps "bit set exactly when slice locked" and the lock protocol's balance, and the claimed slice had acquired == freed |
| Partitions.ReleaseKeepsConsistent | directringcache-module/src/main/java/com/github/directringcache/impl/AbstractPartition.java:97-102 | unlocking a locked slice and clearing its bit keeps bits and locks consistent |
| Partitions.FreshConsistent | directringcache-module/src/main/java/com/github/directringcache/impl/AbstractPartition.java:25-33 | a partition with all bits clear and every slice never locked is consistent |
| Partitions.NewPooledSlice | directringcache-module/src/main/java/com/github/directringcache/impl/ByteBufferPooledPartition.java:44-50 | one slice of a new pooled partition: index and owner as given, unlocked and never locked, cleared, with a direct buffer of sliceByteSize * slices bytes, a heap buffer of sliceByteSize bytes, or (UnsafePooledPartition.java:117-124) a zeroed raw region of sliceByteSize bytes |
| Partitions.BuildSlices | directringcache-module/src/main/java/com/github/directringcache/impl/ByteBufferPooledPartition.java:42-50 | the slice array of a new pooled partition: exactly `slices` fresh slices, slice i with index i and this owner, each pristine, a direct slice's buffer of the int-wrapped capacity BufferCapacity gives (also UnsafePooledPartition.java:78-96) |
| Partitions.BufferCapacity | directringcache-module/src/main/java/com/github/directringcache/impl/ByteBufferPooledPartition.java:46-48 | a heap slice holds sliceByteSize bytes; a direct slice holds sliceByteSize × slices taken in int arithmetic: an int congruent to the product modulo 2^32, and the product itself whenever it fits an int |
| Partitions.CapacityWrapsToEmpty | directringcache-module/src/main/java/com/github/directringcache/impl/ByteBufferPooledPartition.java:47 | 65536 direct slices of 65536 bytes each are built over buffers of 0 bytes, because the int product wraps to 0 |
| Partitions.CapacityWrapsNegative | directringcache-module/src/main/java/com/github/directringcache/impl/ByteBufferPooledPartition.java:47 | 32768 direct slices of 65536 bytes each cannot be built: the int product wraps to a negative capacity, which allocateDirect rejects |
| Partitions.AvailableOf | directringcache-module/src/main/java/com/github/directringcache/impl/AbstractPartition.java:35-39 | available() is size() minus cardinality() |
| Partitions.NextSlice | directringcache-module/src/main/java/com/github/directringcache/impl/AbstractPartition.java:136-144 | nextSlice() is -1 when every bit is set (isEmpty()), and otherwise the lowest clear bit, which is then a real slice index |
| Partitions.ClaimStep | directringcache-module/src/main/java/com/github/directringcache/impl/AbstractPartition.java:59-83 | one get(): no slice exactly when every bit is set, in which case nothing changes; otherwise the lowest clear bit becomes set and that slice is locked |
| Partitions.TryClaim | directringcache-module/src/main/java/com/github/directringcache/impl/AbstractPartition.java:71-80 | one attempt at slice k: claims exactly when the bit was clear; a claim sets that bit only, raises used() by one and locks the slice; a miss changes nothing; the occupancy invariant is kept |
| Partitions.ClaimFirst | directringcache-module/src/main/java/com/github/directringcache/impl/AbstractPartition.java:59-83 | get() with its 5 attempts ends as ClaimStep says: no slice exactly when full; otherwise the first clear slice, its bit set and the slice locked, used() one higher |
| Partitions.ReleaseSlice | directringcache-module/src/main/java/com/github/directringcache/impl/AbstractPartition.java:97-102 | the second half of free(): unlock() fails on an unlocked slice and nothing else happens; otherwise the selector is told with available() from before the bit goes, and the bit is cleared, so used() drops by one |
| Partitions.ClearBit | directringcache-module/src/main/java/com/github/directringcache/impl/AbstractPartition.java:100-101 | the notice for the selector carries available() from before the bit goes; then exactly the slice's bit is cleared and used() drops by one, the locks untouched |
| Partitions.FreeSliceOf | directringcache-module/src/main/java/com/github/directringcache/impl/AbstractPartition.java:85-103 | free(slice) of another partition's slice fails with IllegalArgument and changes nothing; otherwise the slice is cleared and then released as ReleaseStep says |
| Partitions.CloseSlices | directringcache-module/src/main/java/com/github/directringcache/impl/AbstractPartition.java:113-121 | the close loop tells the selector once per slice, each notice with the same available(), and frees every slice, leaving bits and locks as they were |
| Partitions.FreeEach | directringcache-module/src/main/java/com/github/directringcache/impl/AbstractPartition.java:115-120 | the close loop in index order: one notice per slice, every raw slice zeroed and released, every ByteBuffer slice freed through its own class |
| Partitions.AtomicFlag.CompareAndSet | directringcache-module/src/main/java/com/github/directringcache/impl/AbstractPartition.java:108 | compareAndSet(expected, update) succeeds exactly when the flag held `expected`, and then holds `update`; otherwise it is unchanged |
| Partitions.AbstractPartition.constructor | directringcache-module/src/main/java/com/github/directringcache/impl/AbstractPartition.java:25-33 | a pooled partition (ByteBufferPooledPartition.java:37-51, UnsafePooledPartition.java:73-97): `slices` pristine slices, a bitset of as many clear bits, not closed, used() == 0 |
| Partitions.AbstractPartition.GetSliceCount | directringcache-module/src/main/java/com/github/directringcache/impl/AbstractPartition.java:47-51 | getSliceCount() is the number of slices |
| Partitions.AbstractPartition.Available | directringcache-module/src/main/java/com/github/directringcache/impl/AbstractPartition.java:35-39 | available() is the slice count minus the set bits |
| Partitions.AbstractPartition.UsedSlices | directringcache-module/src/main/java/com/github/directringcache/impl/AbstractPartition.java:41-45 | used() is the number of set bits |
| Partitions.AbstractPartition.Get | directringcache-module/src/main/java/com/github/directringcache/impl/AbstractPartition.java:59-83 | get() claims as ClaimStep says; it returns a slice exactly when available() > 0, and then available() drops by one |
| Partitions.AbstractPartition.Free | directringcache-module/src/main/java/com/github/directringcache/impl/AbstractPartition.java:85-103 | free(slice) rejects another partition's slice with IllegalArgument and changes no bit; otherwise it clears the slice and releases it as ReleaseStep says, so available() rises by one |
| Partitions.AbstractPartition.Close | directringcache-module/src/main/java/com/github/directringcache/impl/AbstractPartition.java:105-122 | close() is one-shot: the first call sets the flag, tells the selector about every slice with the same available() and frees every raw slice; later calls tell nobody |
| Partitions.AbstractPooledPartition.constructor | directringcache-module/src/main/java/com/github/directringcache/impl/AbstractPooledPartition.java:12-18 | the own bitset and the hidden inherited one both start with `slices` clear bits, as two different arrays |
| Partitions.AbstractPooledPartition.Available | directringcache-module/src/main/java/com/github/directringcache/impl/AbstractPooledPartition.java:20-24 | available() is computed from the class's own bitset |
| Partitions.AbstractPooledPartition.Get | directringcache-module/src/main/java/com/github/directringcache/impl/AbstractPooledPartition.java:38-62 | get() claims through the own bitset as ClaimStep says and leaves the inherited bitset untouched |
| Partitions.AbstractPooledPartition.Free | directringcache-module/src/main/java/com/github/directringcache/impl/AbstractPooledPartition.java:64-82 | free(slice) as in the parent, through the own bitset: rejects foreign slices, otherwise clears, unlocks, tells the selector, clears the bit |
| Partitions.AbstractPooledPartition.Close | directringcache-module/src/main/java/com/github/directringcache/impl/AbstractPooledPartition.java:84-101 | close() is one-shot: the first call tells the selector about every slice and frees each |
| Partitions.ByteBufferUnpooledPartition.constructor | directringcache-module/src/main/java/com/github/directringcache/impl/ByteBufferUnpooledPartition.java:38-44 | a new unbounded partition: id counter 0, empty registry, not closed |
| Partitions.ByteBufferUnpooledPartition.Available | directringcache-module/src/main/java/com/github/directringcache/impl/AbstractUnpooledPartition.java:26-30 | available() is Integer.MAX_VALUE |
| Partitions.ByteBufferUnpooledPartition.Used | directringcache-module/src/main/java/com/github/directringcache/impl/AbstractUnpooledPartition.java:32-42 | used() and getSliceCount() are the registry size |
| Partitions.ByteBufferUnpooledPartition.NextSlice | directringcache-module/src/main/java/com/github/directringcache/impl/AbstractUnpooledPartition.java:84-87 | nextSlice() returns the counter's next value, one above the last |
| Partitions.ByteBufferUnpooledPartition.CreatePartitionSlice | directringcache-module/src/main/java/com/github/directringcache/impl/ByteBufferUnpooledPartition.java:46-52 | createPartitionSlice ignores its index and draws a fresh id; the new slice has a zeroed buffer of exactly sliceByteSize bytes, this owner, cursors at 0, unlocked |
| Partitions.ByteBufferUnpooledPartition.Get | directringcache-module/src/main/java/com/github/directringcache/impl/AbstractUnpooledPartition.java:44-50 | get() always returns a fresh slice; two ids are drawn, the slice's id is above every registered id, and the registry gains exactly that entry |
| Partitions.ByteBufferUnpooledPartition.Free | directringcache-module/src/main/java/com/github/directringcache/impl/AbstractUnpooledPartition.java:52-66 | free(slice) rejects another partition's slice with IllegalArgument; otherwise it releases the slice's buffer and the registry keeps its entry (remove is passed the slice, not its Integer key) |
| Partitions.ByteBufferUnpooledPartition.FreeById | directringcache-module/src/main/java/com/github/directringcache/impl/AbstractUnpooledPartition.java:52-66 | free(slice) as evidently intended: the same rejection of another partition's slice, the same release, and the registry loses exactly the slice's id |
| Partitions.ByteBufferUnpooledPartition.Close | directringcache-module/src/main/java/com/github/directringcache/impl/AbstractUnpooledPartition.java:68-82 | close() is one-shot: the first call frees every registered slice and empties the registry; later calls change nothing |
| Partitions.UnpooledFreeScenario | directringcache-module/src/main/java/com/github/directringcache/impl/AbstractUnpooledPartition.java:64 | one get() and one free() on a new partition: as written used() stays 1, so the freed slice is still registered; removing by id leaves 0 |
| Selectors.Avails | directringcache-module/src/main/java/com/github/directringcache/selector/RoundRobinPartitionSliceSelector.java:32 | the available() count of every partition, in index order |
| Selectors.AvailableAt | directringcache-module/src/main/java/com/github/directringcache/selector/RoundRobinPartitionSliceSelector.java:32 | partitions[i].available() is that partition's count of clear bits |
| Selectors.GetAt | directringcache-module/src/main/java/com/github/directringcache/selector/RoundRobinPartitionSliceSelector.java:34 | partitions[i].get() returns a slice of partition i exactly when it has one available, and only partition i's count changes, by one |
| Selectors.FirstAvailable | directringcache-module/src/main/java/com/github/directringcache/selector/ThreadLocalPartitionSliceSelector.java:54-65 | the first index from k on with a positive count: every index it passes has none, and there is none exactly when no index from k on has one |
| Selectors.FirstAvailableIsScanStop | directringcache-module/src/main/java/com/github/directringcache/selector/ThreadLocalPartitionSliceSelector.java:54-65 | conversely, a positive index with nothing positive before it is the one a left-to-right scan stops at |
| Selectors.Rotate | directringcache-module/src/main/java/com/github/directringcache/selector/RoundRobinPartitionSliceSelector.java:24-37 | the counts in the order a cyclic probe from `start` visits them: entry j is the count of partition (start + j) mod n |
| Selectors.RoundRobinStep | directringcache-module/src/main/java/com/github/directringcache/selector/RoundRobinPartitionSliceSelector.java:18-45 | one selectPartitionSlice(): a cursor inside the array stays inside it, and a pick is a partition with a slice available |
| Selectors.RoundRobinExhaustedIffFull | directringcache-module/src/main/java/com/github/directringcache/selector/RoundRobinPartitionSliceSelector.java:24-44 | the round-robin selector throws "could not retrieve" exactly when no partition has available() > 0 |
| Selectors.RoundRobinPicksFirstInCycle | directringcache-module/src/main/java/com/github/directringcache/selector/RoundRobinPartitionSliceSelector.java:24-37 | a pick is the first partition with a slice available in cyclic order from the cursor: every partition probed before it has none, and the cursor ends one past it, wrapped to 0 at the end of the array |
| Selectors.RoundRobinSelector.constructor | directringcache-module/src/main/java/com/github/directringcache/selector/RoundRobinPartitionSliceSelector.java:16 | the cursor starts at 0 |
| Selectors.RoundRobinSelector.Select | directringcache-module/src/main/java/com/github/directringcache/selector/RoundRobinPartitionSliceSelector.java:18-45 | selectPartitionSlice moves the cursor as RoundRobinStep says and serves the pick: the picked partition hands out exactly the slice returned, and a failure changes no partition |
| Selectors.RoundRobinSelector.Choose | directringcache-module/src/main/java/com/github/directringcache/selector/RoundRobinPartitionSliceSelector.java:24-37 | the probe loop computes exactly RoundRobinStep's pick and new cursor |
| Selectors.RoundRobinSelector.Free | directringcache-module/src/main/java/com/github/directringcache/selector/RoundRobinPartitionSliceSelector.java:47-50 | freePartitionSlice changes nothing |
| Selectors.Snapshot | directringcache-module/src/main/java/com/github/directringcache/selector/ThreadLocalPartitionSliceSelector.java:41 | the available() counts read once in index order equal every partition's count |
| Selectors.Serve | directringcache-module/src/main/java/com/github/directringcache/selector/ThreadLocalPartitionSliceSelector.java:44 | the get() that ends a selection: the picked partition hands out exactly the slice returned; a failed pick returns its error and changes no partition |
| Selectors.ScanAvailable | directringcache-module/src/main/java/com/github/directringcache/selector/ThreadLocalPartitionSliceSelector.java:54-65 | the fallback loop returns the first index with a positive count, or -1 |
| Selectors.Unclaimed | directringcache-module/src/main/java/com/github/directringcache/selector/ThreadLocalPartitionSliceSelector.java:37-41 | the counts with every claimed partition counted as having nothing, as the claim loop sees them |
| Selectors.ClaimedBelow | directringcache-module/src/main/java/com/github/directringcache/selector/ThreadLocalPartitionSliceSelector.java:35-39 | the claim table after the loop has claimed every entry below the stop point and kept every earlier claim |
| Selectors.ClaimUntilAvailable | directringcache-module/src/main/java/com/github/directringcache/selector/ThreadLocalPartitionSliceSelector.java:35-52 | the claim loop marks every unclaimed entry it reaches as claimed and stops at the first whose partition has a slice available (or at the end, -1) |
| Selectors.NewClaimTable | directringcache-module/src/main/java/com/github/directringcache/selector/ThreadLocalPartitionSliceSelector.java:30-33 | new boolean[n]: n entries, all false |
| Selectors.ThreadLocalStep | directringcache-module/src/main/java/com/github/directringcache/selector/ThreadLocalPartitionSliceSelector.java:18-69 | one selectPartitionSlice() by a thread: the state keeps referring to the same n partitions, and a pick has a slice available |
| Selectors.ThreadLocalStepSpec | directringcache-module/src/main/java/com/github/directringcache/selector/ThreadLocalPartitionSliceSelector.java:18-69 | every call counts one access; the call fails, exhausted, exactly when no partition has a slice available; a thread whose partition has one is served from it with nothing else changed; only the caller's assignment can change, and only to a partition with a slice available |
| Selectors.ThreadLocalClaimsSkipOnlyEmpty | directringcache-module/src/main/java/com/github/directringcache/selector/ThreadLocalPartitionSliceSelector.java:35-52 | the claim scan drops no claim, and every entry it newly claims is the partition it picks or one with nothing available |
| Selectors.ThreadLocalRelease | directringcache-module/src/main/java/com/github/directringcache/selector/ThreadLocalPartitionSliceSelector.java:71-79 | freePartitionSlice unclaims exactly the notice's partition when its available() was 0, leaving assignments and counters; it fails (NullPointer, IndexOutOfBounds) exactly when the count is 0 and the table does not exist or the index is outside it |
| Selectors.ThreadLocalSelector.constructor | directringcache-module/src/main/java/com/github/directringcache/selector/ThreadLocalPartitionSliceSelector.java:11-15 | no thread has a partition, no claim table exists, every counter is 0 |
| Selectors.ThreadLocalSelector.Select | directringcache-module/src/main/java/com/github/directringcache/selector/ThreadLocalPartitionSliceSelector.java:18-69 | selectPartitionSlice changes the selector's state as ThreadLocalStep says and serves its pick from the partitions |
| Selectors.ThreadLocalSelector.Choose | directringcache-module/src/main/java/com/github/directringcache/selector/ThreadLocalPartitionSliceSelector.java:20-66 | the decision loops compute exactly ThreadLocalStep's new state and pick |
| Selectors.ThreadLocalSelector.Free | directringcache-module/src/main/java/com/github/directringcache/selector/ThreadLocalPartitionSliceSelector.java:71-79 | freePartitionSlice changes the state as ThreadLocalRelease says |
| Selectors.Taken | directringcache-module/src/main/java/com/github/directringcache/selector/ProcessorLocalPartitionSliceSelector.java:43 | an entry of the assignment table is taken exactly when it is not -1 |
| Selectors.AssignedBelow | directringcache-module/src/main/java/com/github/directringcache/selector/ProcessorLocalPartitionSliceSelector.java:41-47 | after the loop every unassigned entry below the stop point holds the processor id, every other entry as before |
| Selectors.LastUnassigned | directringcache-module/src/main/java/com/github/directringcache/selector/ProcessorLocalPartitionSliceSelector.java:41-47 | the highest unassigned index below the stop point, which is the local partition the loop leaves behind; none exactly when no entry below it was unassigned |
| Selectors.ProcessorLocalStep | directringcache-module/src/main/java/com/github/directringcache/selector/ProcessorLocalPartitionSliceSelector.java:24-73 | one selectPartitionSlice() on a processor: the state keeps referring to the same n partitions, and a pick has a slice available |
| Selectors.ProcessorLocalStepSpec | directringcache-module/src/main/java/com/github/directringcache/selector/ProcessorLocalPartitionSliceSelector.java:24-73 | an unknown processor id fails with IndexOutOfBounds before anything changes; otherwise the call fails, exhausted, exactly when no partition has a slice available; a processor whose local partition has one is served from it with nothing changed; only the caller's local partition can change |
| Selectors.ProcessorLocalClaimsSkipOnlyEmpty | directringcache-module/src/main/java/com/github/directringcache/selector/ProcessorLocalPartitionSliceSelector.java:41-57 | the claim loop drops and moves no assignment, and every entry it newly assigns goes to the calling processor and is the pick or a partition with nothing available |
| Selectors.ProcessorLocalRelease | directringcache-module/src/main/java/com/github/directringcache/selector/ProcessorLocalPartitionSliceSelector.java:75-82 | freePartitionSlice resets exactly the notice's entry to -1 when its available() was 0; it fails exactly when the count is 0 and the table does not exist or the index is outside it |
| Selectors.NewAssignmentTable | directringcache-module/src/main/java/com/github/directringcache/selector/ProcessorLocalPartitionSliceSelector.java:35-39 | new int[n] filled with -1: no entry assigned |
| Selectors.AssignUntilAvailable | directringcache-module/src/main/java/com/github/directringcache/selector/ProcessorLocalPartitionSliceSelector.java:41-57 | the claim loop assigns every unassigned entry it reaches to the processor, records the last one as its local partition, and stops at the first whose partition has a slice available (or at the end, -1) |
| Selectors.ProcessorLocalSelector.constructor | directringcache-module/src/main/java/com/github/directringcache/selector/ProcessorLocalPartitionSliceSelector.java:17-21 | one empty local-partition entry per processor, no assignment table yet |
| Selectors.ProcessorLocalSelector.Select | directringcache-module/src/main/java/com/github/directringcache/selector/ProcessorLocalPartitionSliceSelector.java:24-73 | selectPartitionSlice changes the state as ProcessorLocalStep says and serves its pick from the partitions |
| Selectors.ProcessorLocalSelector.Choose | directringcache-module/src/main/java/com/github/directringcache/selector/ProcessorLocalPartitionSliceSelector.java:26-70 | the decision loops compute exactly ProcessorLocalStep's new state and pick |
| Selectors.ProcessorLocalSelector.Free | directringcache-module/src/main/java/com/github/directringcache/selector/ProcessorLocalPartitionSliceSelector.java:75-82 | freePartitionSlice changes the state as ProcessorLocalRelease says |
| Pools.PartitionByteSize | directringcache-module/src/main/java/com/github/directringcache/impl/PartitionBufferPoolImpl.java:73-77 | getPartitionByteSize() is an int, and is slices × sliceByteSize whenever that product fits an int |
| Pools.SliceCount | directringcache-module/src/main/java/com/github/directringcache/impl/PartitionBufferPoolImpl.java:91-95 | getSliceCount() is an int, and is slices × partition count whenever that product fits an int |
| Pools.AllocatedMemoryAsWritten | directringcache-module/src/main/java/com/github/directringcache/impl/PartitionBufferPoolImpl.java:67-71 | getAllocatedMemory() as written: the product of two ints is formed in int and only then widened, so the result is always an int |
| Pools.AllocatedMemory | directringcache-module/src/main/java/com/github/directringcache/impl/PartitionBufferPoolImpl.java:67-71 | getAllocatedMemory() with the product taken in long: a long, equal to partitions × slices × sliceByteSize whenever the partition size fits an int |
| Pools.IntProductIsLong | directringcache-module/src/main/java/com/github/directringcache/impl/PartitionBufferPoolImpl.java:70 | the product of two ints always fits a long, so the widened product never overflows |
| Pools.AllocatedMemoryAsWrittenOverflows | directringcache-module/src/main/java/com/github/directringcache/impl/PartitionBufferPoolImpl.java:67-71 | for 4 partitions of 1024 slices of 1 MiB (4 GiB) the as-written result is 0, while the long product is 2^32 |
| Pools.SelectStep | directringcache-module/src/main/java/com/github/directringcache/impl/PartitionBufferPoolImpl.java:41-45 | the selector's decision on the copied partition array, by kind of selector: the state keeps referring to the same partitions, and a pick has a slice available |
| Pools.ExhaustedIffNoneAvailable | directringcache-module/src/main/java/com/github/directringcache/impl/PartitionBufferPoolImpl.java:41-45 | whatever the selector, requestSlice() fails as exhausted exactly when no partition has a slice available (for a cursor and a processor id inside the array) |
| Pools.ReleaseAllServes | directringcache-module/src/main/java/com/github/directringcache/impl/PartitionBufferPoolImpl.java:47-53 | telling the selector about returned slices keeps it referring to the same partitions |
| Pools.ReleaseFromAvailableIsQuiet | directringcache-module/src/main/java/com/github/directringcache/selector/ThreadLocalPartitionSliceSelector.java:74 | slices returned to partitions that still had slices available leave every kind of selector as it was |
| Pools.ReleaseAllAppend | directringcache-module/src/main/java/com/github/directringcache/impl/AbstractPartition.java:115-120 | delivering two lists of notices in turn is delivering their concatenation, stopping at the first failure |
| Pools.Useds | directringcache-module/src/main/java/com/github/directringcache/impl/PartitionBufferPoolImpl.java:107-110 | the used() count of every partition, in index order |
| Pools.SumPairs | directringcache-module/src/main/java/com/github/directringcache/impl/PartitionBufferPoolImpl.java:103-123 | counts that add up to c entry by entry add up to c times their number |
| Pools.ToIntAdd | directringcache-module/src/main/java/com/github/directringcache/impl/PartitionBufferPoolImpl.java:106-111 | an int accumulator that wraps at every step ends where one wrapping once at the end does |
| Pools.ClosingNotices | directringcache-module/src/main/java/com/github/directringcache/impl/PartitionBufferPoolImpl.java:125-132 | the notices close() sends, partition by partition; none when every partition was already closed |
| Pools.ClosingReleaseStops | directringcache-module/src/main/java/com/github/directringcache/impl/PartitionBufferPoolImpl.java:128-131 | once the selector has failed on the first m partitions' notices, no later notice is delivered |
| Pools.ClosingReleaseStep | directringcache-module/src/main/java/com/github/directringcache/impl/PartitionBufferPoolImpl.java:128-131 | closing partition i delivers its notices after those of the partitions before it |
| Pools.Remaining | directringcache-module/src/main/java/com/github/directringcache/impl/PartitionBufferPoolImpl.java:128-131 | the partitions still open once the first i have been closed |
| Pools.BuildPartitions | directringcache-module/src/main/java/com/github/directringcache/impl/PartitionBufferPoolImpl.java:34-38 | the construction loop: exactly `partitions` partitions, partition i with index i, `slices` slices of sliceByteSize bytes, the factory's kind, none used, each open with a flag of its own, all apart from each other |
| Pools.NewPartition | directringcache-module/src/main/java/com/github/directringcache/impl/PartitionBufferPoolImpl.java:37 | one turn of that loop: a fresh, empty, open partition with index i and a close flag of its own, apart from those built before it, which keep their state |
| Pools.ReturnSlice | directringcache-module/src/main/java/com/github/directringcache/impl/PartitionBufferPoolImpl.java:51 | the owning partition k takes the slice back as ReleaseStep says, its available() rising by one on success, every other partition unchanged |
| Pools.DeliverTo | directringcache-module/src/main/java/com/github/directringcache/impl/AbstractPartition.java:100 | freePartitionSlice for each notice in turn until one fails: the selector's state follows ReleaseAll |
| Pools.SumUsed | directringcache-module/src/main/java/com/github/directringcache/impl/PartitionBufferPoolImpl.java:103-112 | getUsedSliceCount() is the sum of used() over the partitions, wrapped to int |
| Pools.SumAvailable | directringcache-module/src/main/java/com/github/directringcache/impl/PartitionBufferPoolImpl.java:114-123 | getFreeSliceCount() is the sum of available() over the partitions, wrapped to int |
| Pools.AddAvailable | directringcache-module/src/main/java/com/github/directringcache/impl/PartitionBufferPoolImpl.java:119-122 | one turn of getFreeSliceCount()'s loop: adding partition i's available() to the int-wrapped sum of the first i gives the int-wrapped sum of the first i + 1 |
| Pools.OpenOf | directringcache-module/src/main/java/com/github/directringcache/impl/AbstractPartition.java:130-134 | which partitions are still open: isClosed() negated, one entry per partition |
| Pools.ClosePartition | directringcache-module/src/main/java/com/github/directringcache/impl/PartitionBufferPoolImpl.java:130 | partition i's close(): its flag is set, the others' flags are not, and the first call sends one notice per slice carrying the same available(); bookkeeping is unchanged |
| Pools.PartitionBufferPool.Open | directringcache-module/src/main/java/com/github/directringcache/impl/AbstractPartition.java:130-134 | one open/closed entry per partition |
| Pools.PartitionBufferPool.constructor | directringcache-module/src/main/java/com/github/directringcache/impl/PartitionBufferPoolImpl.java:25-39 | a pool of `partitions` empty, open partitions of the given kind and geometry, with the selector's state untouched |
| Pools.PartitionBufferPool.RequestSlice | directringcache-module/src/main/java/com/github/directringcache/impl/PartitionBufferPoolImpl.java:41-45 | requestSlice(): the selector decides on the partitions' counts as SelectStep says, and the picked partition hands out exactly the slice returned; the pool's array is unchanged |
| Pools.PartitionBufferPool.RequestRoundRobin | directringcache-module/src/main/java/com/github/directringcache/impl/PartitionBufferPoolImpl.java:41-45 | requestSlice() with the round-robin selector: its cursor moves and the partition served as SelectStep says, and the slice returned is the one that partition hands out |
| Pools.PartitionBufferPool.RequestThreadLocal | directringcache-module/src/main/java/com/github/directringcache/impl/PartitionBufferPoolImpl.java:41-45 | requestSlice() with the thread-affinity selector, called from a given thread: the thread's entry and the partition served follow SelectStep |
| Pools.PartitionBufferPool.RequestProcessorLocal | directringcache-module/src/main/java/com/github/directringcache/impl/PartitionBufferPoolImpl.java:41-45 | requestSlice() with the processor-affinity selector, called on a given processor: that processor's entry and the partition served follow SelectStep |
| Pools.PartitionBufferPool.Deliver | directringcache-module/src/main/java/com/github/directringcache/impl/AbstractPartition.java:100 | the selector is told about each notice in turn, until one fails; no partition state and no close flag changes |
| Pools.PartitionBufferPool.FreeSlice | directringcache-module/src/main/java/com/github/directringcache/impl/PartitionBufferPoolImpl.java:47-53 | freeSlice(null) changes nothing; otherwise the owning partition takes the slice back as ReleaseStep says and, on success, the selector is told with its notice |
| Pools.PartitionBufferPool.FreeHeld | directringcache-module/src/main/java/com/github/directringcache/impl/PartitionBufferPoolImpl.java:47-53 | freeSlice(slice) for a slice of partition k: the slice is cleared, the partition releases it, and the selector follows its notice only when the release passed |
| Pools.PartitionBufferPool.TakeBack | directringcache-module/src/main/java/com/github/directringcache/impl/AbstractPartition.java:97-102 | the owning partition releases the slice as ReleaseStep says; the selector is untouched, the other partitions keep their counts |
| Pools.PartitionBufferPool.GetUsedSliceCount | directringcache-module/src/main/java/com/github/directringcache/impl/PartitionBufferPoolImpl.java:103-112 | the wrapped int sum of used() over the partitions |
| Pools.PartitionBufferPool.GetFreeSliceCount | directringcache-module/src/main/java/com/github/directringcache/impl/PartitionBufferPoolImpl.java:114-123 | the wrapped int sum of available() over the partitions |
| Pools.PartitionBufferPool.UsedAndFreeAddUp | directringcache-module/src/main/java/com/github/directringcache/impl/PartitionBufferPoolImpl.java:103-123 | every slice of the pool is either used or available: the two sums add up to partitions × slices |
| Pools.PartitionBufferPool.CountsAddUpToSliceCount | directringcache-module/src/main/java/com/github/directringcache/impl/PartitionBufferPoolImpl.java:91-123 | getUsedSliceCount() + getFreeSliceCount() == getSliceCount() in int arithmetic, whatever wraps around |
| Pools.PartitionBufferPool.GetPartitionCount | directringcache-module/src/main/java/com/github/directringcache/impl/PartitionBufferPoolImpl.java:79-83 | getPartitionCount() is the length of the partition array |
| Pools.PartitionBufferPool.GetAllocatedMemory | directringcache-module/src/main/java/com/github/directringcache/impl/PartitionBufferPoolImpl.java:67-71 | getAllocatedMemory() as written, an int-sized value (see Findings) |
| Pools.PartitionBufferPool.CloseAt | directringcache-module/src/main/java/com/github/directringcache/impl/PartitionBufferPoolImpl.java:130 | partition i is closed, only its flag changes, no count changes, and the selector follows the notices it sends (none when it was already closed) |
| Pools.PartitionBufferPool.Shut | directringcache-module/src/main/java/com/github/directringcache/impl/PartitionBufferPoolImpl.java:130 | partition i's close() inside close(): only its flag changes, to closed; no count and no selector state changes; the notices are one per slice with its available() on the first call, none on a later one |
| Pools.PartitionBufferPool.CloseNext | directringcache-module/src/main/java/com/github/directringcache/impl/PartitionBufferPoolImpl.java:128-131 | one turn of close()'s loop: the selector has received the notices of the first i + 1 partitions, and on success those partitions are closed |
| Pools.PartitionBufferPool.Close | directringcache-module/src/main/java/com/github/directringcache/impl/PartitionBufferPoolImpl.java:125-132 | close() closes the partitions in index order; the selector receives, in order, the notices of every partition that was open, until one fails; on success every partition is closed |
| Pools.PartitionBufferPool.AllClosed | directringcache-module/src/main/java/com/github/directringcache/impl/PartitionBufferPoolImpl.java:128-131 | once the loop has passed every partition without a failure, none is open and the selector has received, in order, the notices of every partition that was open |
| Pools.Accumulate | directringcache-module/src/main/java/com/github/directringcache/impl/PartitionBufferPoolImpl.java:103-123 | the int accumulator of getUsedSliceCount/getFreeSliceCount holds, after each partition, the int-wrapped sum of the counts so far |
| LegacyPartitions.AddressableIsSettable | directringcache-module/src/main/java/com/github/directringcache/impl/FixedLengthBitSet.java:28-32 | the positions set(i) accepts are exactly those that pass the inclusive range check and fall inside the word array |
| LegacyPartitions.NextSliceIsClear | directringcache-module/src/main/java/com/github/directringcache/impl/Partition.java:51-58 | each of the three nextSlice() policies (Partition.java:51-58, ByteBufferPartition.java:99-106, UnsafeBufferPartition.java:200-215) reports -1 or a clear position of the word array, never a set one |
| LegacyPartitions.FallbackMissesOnlyWhenFull | directringcache-module/src/main/java/com/github/directringcache/impl/UnsafeBufferPartition.java:200-215 | with its fallback to firstNotSet(), the oldest policy (Partition.java:51-58) misses exactly when every position is set, and the wrapping policy exactly then or when isEmpty() holds |
| LegacyPartitions.RotatingMissesFreeSlot | directringcache-module/src/main/java/com/github/directringcache/impl/ByteBufferPartition.java:99-106 | the rotating policy has no fallback: 128 slots, only slot 0 free, cursor 70: nextSlice() is -1, so get() returns null although a slice is free |
| LegacyPartitions.SetAndTake | directringcache-module/src/main/java/com/github/directringcache/impl/Partition.java:35-41 | the tail of get(): the cursor always ends at the chosen slot, and a success names a real slice index below the slice count (a padding slot the inclusive range check lets through fails on the slice array after its bit was set) |
| LegacyPartitions.ClaimTakesClearSlot | directringcache-module/src/main/java/com/github/directringcache/impl/ByteBufferPartition.java:60-77 | for a slot the policies can report, a slice handed out had its bit clear and now set with no other bit changed; null comes exactly from -1, and an exception only from a padding slot |
| LegacyPartitions.OldestGetOnFullFails | directringcache-module/src/main/java/com/github/directringcache/impl/Partition.java:33-42 | on a partition whose every slice is in use, Partition.get() always throws IndexOutOfBounds: the slot it picks is -1 or padding |
| LegacyPartitions.OldestGetServesFreeSlot | directringcache-module/src/main/java/com/github/directringcache/impl/Partition.java:33-58 | with a slice count that is a multiple of 64, Partition.get() claims a slot whenever one is free: a clear position below the count, whose slice a filled array hands out |
| LegacyPartitions.NewPartitionGetScenario | directringcache-module/src/main/java/com/github/directringcache/impl/Partition.java:14-42 | get() on a new 64-slice partition returns null as written and slice 0 when the array is filled |
| LegacyPartitions.GetCanClaimPadding | directringcache-module/src/main/java/com/github/directringcache/impl/UnsafeBufferPartition.java:130-157 | 70 slots, 64..69 in use, cursor 65: all three get()s pick the padding position 70, set its bit, and then fail on the slice array |
| LegacyPartitions.BufferPut | directringcache-module/src/main/java/com/github/directringcache/impl/Partition.java:84-86 | ByteBuffer.put(index, b) writes exactly that byte when the index is inside the buffer, and otherwise fails with IndexOutOfBounds and writes nothing |
| LegacyPartitions.BufferGet | directringcache-module/src/main/java/com/github/directringcache/impl/Partition.java:92-94 | ByteBuffer.get(index) succeeds exactly for an index inside the buffer |
| LegacyPartitions.GetSeesLastPut | directringcache-module/src/main/java/com/github/directringcache/impl/Partition.java:84-94 | a byte put at a position is what a get there returns, and every other position reads as before |
| LegacyPartitions.ZeroRegion | directringcache-module/src/main/java/com/github/directringcache/impl/Partition.java:72-78 | the clear() loop writes 0 over exactly the n bytes from `from` on |
| LegacyPartitions.ZeroedPrefixGrows | directringcache-module/src/main/java/com/github/directringcache/impl/Partition.java:73-75 | zeroing n more bytes after a zeroed prefix of a bytes zeroes a prefix of a + n bytes |
| LegacyPartitions.SlotInside | directringcache-module/src/main/java/com/github/directringcache/impl/ByteBufferPartition.java:117 | slot i of sliceByteSize bytes lies inside the partition's buffer of sliceByteSize × count bytes |
| LegacyPartitions.SlotsApart | directringcache-module/src/main/java/com/github/directringcache/impl/ByteBufferPartition.java:117 | two different slices' slots never share a byte |
| LegacyPartitions.PartitionSlice.constructor | directringcache-module/src/main/java/com/github/directringcache/impl/Partition.java:67-70 | a slice starts at baseIndex = index × sliceByteSize with both cursors at 0 |
| LegacyPartitions.PartitionSlice.Clear | directringcache-module/src/main/java/com/github/directringcache/impl/Partition.java:72-78 | clear() zeroes exactly the slice's bytes of the shared buffer and resets both cursors |
| LegacyPartitions.PartitionSlice.PutAt | directringcache-module/src/main/java/com/github/directringcache/impl/Partition.java:84-86 | put(position, v) is ByteBuffer.put(baseIndex + position, v); the cursors do not move |
| LegacyPartitions.PartitionSlice.Put | directringcache-module/src/main/java/com/github/directringcache/impl/Partition.java:80-82 | put(v) puts at baseIndex + writerIndex, and the cursor moves on by one even when the put fails |
| LegacyPartitions.PartitionSlice.Read | directringcache-module/src/main/java/com/github/directringcache/impl/Partition.java:88-90 | read() returns read(readerIndex) and moves readerIndex on by one |
| LegacyPartitions.PartitionSlice.SetWriterIndex | directringcache-module/src/main/java/com/github/directringcache/impl/Partition.java:112-115 | writerIndex(v) is rangeCheck(v, 0, sliceByteSize); on success only the writer cursor becomes v |
| LegacyPartitions.PartitionSlice.SetReaderIndex | directringcache-module/src/main/java/com/github/directringcache/impl/Partition.java:117-120 | readerIndex(v) is rangeCheck(v, 0, sliceByteSize); on success only the reader cursor becomes v |
| LegacyPartitions.Partition.constructor | directringcache-module/src/main/java/com/github/directringcache/impl/Partition.java:14-19 | a bitset of `slices` clear bits, a slice array of `slices` nulls (it is never filled), cursor 0, and a direct buffer of the int product sliceByteSize × slices bytes |
| LegacyPartitions.Partition.Filling | directringcache-module/src/main/java/com/github/directringcache/impl/Partition.java:14-19 | the constructor as evidently intended: the same bitset, cursor and buffer, with slice i created over slot i of the shared buffer at every index |
| LegacyPartitions.Partition.Available | directringcache-module/src/main/java/com/github/directringcache/impl/Partition.java:21-23 | available() is size() minus cardinality() |
| LegacyPartitions.Partition.Used | directringcache-module/src/main/java/com/github/directringcache/impl/Partition.java:25-27 | used() is cardinality() |
| LegacyPartitions.Partition.NextSlice | directringcache-module/src/main/java/com/github/directringcache/impl/Partition.java:51-58 | nextSlice() is nextNotSet(cursor + 1) unless the cursor is 0, falling back to firstNotSet() on -1 |
| LegacyPartitions.Partition.Get | directringcache-module/src/main/java/com/github/directringcache/impl/Partition.java:33-42 | get() moves the cursor and sets the bit as SetAndTake says, with no guard against -1 and no check of the bit, and returns the array element: null on the slice array the constructor leaves, and on a filled array the slice over the slot just claimed |
| LegacyPartitions.Partition.Free | directringcache-module/src/main/java/com/github/directringcache/impl/Partition.java:44-49 | free(slice) has no ownership check: it clears the slice's bit (failing, with nothing changed, when the index fails the range check) and then zeroes the slice and resets its cursors; available() rises by one when the bit was set |
| LegacyPartitions.ByteBufferPartitionSlice.constructor | directringcache-module/src/main/java/com/github/directringcache/impl/ByteBufferPartition.java:115-118 | a slice starts at baseIndex = index × sliceByteSize with both cursors at 0 |
| LegacyPartitions.ByteBufferPartitionSlice.Clear | directringcache-module/src/main/java/com/github/directringcache/impl/ByteBufferPartition.java:120-127 | clear() zeroes exactly the slice's bytes and resets both cursors |
| LegacyPartitions.ByteBufferPartitionSlice.PutAt | directringcache-module/src/main/java/com/github/directringcache/impl/ByteBufferPartition.java:134-138 | put(position, v) puts at baseIndex + position and then moves writerIndex on by one (not when the put fails) |
| LegacyPartitions.ByteBufferPartitionSlice.Put | directringcache-module/src/main/java/com/github/directringcache/impl/ByteBufferPartition.java:129-132 | put(v) is put(writerIndex - baseIndex, v): a put at absolute offset writerIndex |
| LegacyPartitions.ByteBufferPartitionSlice.ReadAt | directringcache-module/src/main/java/com/github/directringcache/impl/ByteBufferPartition.java:145-149 | read(position) moves readerIndex on by one and then gets at baseIndex + position |
| LegacyPartitions.ByteBufferPartitionSlice.Read | directringcache-module/src/main/java/com/github/directringcache/impl/ByteBufferPartition.java:140-143 | read() is read(readerIndex - baseIndex): a get at absolute offset readerIndex |
| LegacyPartitions.ByteBufferPartitionSlice.SetWriterIndex | directringcache-module/src/main/java/com/github/directringcache/impl/ByteBufferPartition.java:171-175 | writerIndex(v) is rangeCheck(v, 0, sliceByteSize); on success only the writer cursor becomes v |
| LegacyPartitions.ByteBufferPartitionSlice.SetReaderIndex | directringcache-module/src/main/java/com/github/directringcache/impl/ByteBufferPartition.java:177-181 | readerIndex(v) is rangeCheck(v, 0, sliceByteSize); on success only the reader cursor becomes v |
| LegacyPartitions.ByteBufferPartition.constructor | directringcache-module/src/main/java/com/github/directringcache/impl/ByteBufferPartition.java:34-43 | for a product sliceByteSize × slices that fits an int: a zeroed buffer of that many bytes, `slices` slices carved from it with cursors at 0, a bitset of clear bits, cursor 0 |
| LegacyPartitions.CarveBuffer | directringcache-module/src/main/java/com/github/directringcache/impl/ByteBufferPartition.java:40-42 | the constructor loop: `count` slices, slice i over slot i of the buffer with its cursors at 0 |
| LegacyPartitions.ByteBufferPartition.Available | directringcache-module/src/main/java/com/github/directringcache/impl/ByteBufferPartition.java:45-48 | available() is size() minus cardinality() |
| LegacyPartitions.ByteBufferPartition.Used | directringcache-module/src/main/java/com/github/directringcache/impl/ByteBufferPartition.java:50-53 | used() is cardinality() |
| LegacyPartitions.ByteBufferPartition.NextSlice | directringcache-module/src/main/java/com/github/directringcache/impl/ByteBufferPartition.java:99-106 | nextSlice() is -1 when isEmpty(); otherwise firstNotSet() at cursor 0 and nextNotSet(cursor + 1) elsewhere, with no fallback |
| LegacyPartitions.ByteBufferPartition.Get | directringcache-module/src/main/java/com/github/directringcache/impl/ByteBufferPartition.java:60-77 | get() returns null, cursor untouched, when nextSlice() is -1; otherwise it moves the cursor there and sets that bit without checking it |
| LegacyPartitions.ByteBufferPartition.Free | directringcache-module/src/main/java/com/github/directringcache/impl/ByteBufferPartition.java:79-92 | free(slice) rejects another partition's slice with IllegalArgument and changes nothing; otherwise it clears the slice's bit, zeroes the slice's bytes and resets its cursors; available() rises by one when the bit was set |
| LegacyPartitions.ByteBufferPartition.Close | directringcache-module/src/main/java/com/github/directringcache/impl/ByteBufferPartition.java:94-97 | close() only resets the buffer's position and limit, so no state the model holds changes |
| LegacyPartitions.UnsafeBlockSlice.constructor | directringcache-module/src/main/java/com/github/directringcache/impl/UnsafeBufferPartition.java:235-242 | slice i covers bytes from i × sliceByteSize of the block, cursors at 0, unlocked, and its bytes are zeroed by the closing clear() |
| LegacyPartitions.UnsafeBlockSlice.Clear | directringcache-module/src/main/java/com/github/directringcache/impl/UnsafeBufferPartition.java:244-250 | clear() zeroes exactly the slice's bytes of the block and resets both cursors |
| LegacyPartitions.UnsafeBlockSlice.PutAt | directringcache-module/src/main/java/com/github/directringcache/impl/UnsafeBufferPartition.java:258-263 | put(position, v) stores v at baseIndex + position only; the cursors do not move |
| LegacyPartitions.UnsafeBlockSlice.Put | directringcache-module/src/main/java/com/github/directringcache/impl/UnsafeBufferPartition.java:252-256 | put(v) stores at baseIndex + writerIndex and moves writerIndex on by one |
| LegacyPartitions.UnsafeBlockSlice.Read | directringcache-module/src/main/java/com/github/directringcache/impl/UnsafeBufferPartition.java:282-286 | read() loads baseIndex + readerIndex and moves readerIndex on by one |
| LegacyPartitions.UnsafeBlockSlice.PutArray | directringcache-module/src/main/java/com/github/directringcache/impl/UnsafeBufferPartition.java:265-280 | bulk put fails with IndexOutOfBounds and changes nothing when writerIndex + length > sliceByteSize; a negative length passes that check and fails with IllegalArgument, changing nothing; otherwise it copies the bytes to the block from baseIndex + writerIndex on and moves writerIndex on by length |
| LegacyPartitions.UnsafeBlockSlice.ReadArray | directringcache-module/src/main/java/com/github/directringcache/impl/UnsafeBufferPartition.java:294-309 | bulk read fails with IndexOutOfBounds and changes nothing when readerIndex + length > sliceByteSize; a negative length passes that check and fails with IllegalArgument, changing nothing; otherwise it copies the bytes from baseIndex + readerIndex on and moves readerIndex on by length |
| LegacyPartitions.UnsafeBlockSlice.SetWriterIndex | directringcache-module/src/main/java/com/github/directringcache/impl/UnsafeBufferPartition.java:341-346 | writerIndex(v) is rangeCheck(v, 0, sliceByteSize); on success only the writer cursor becomes v |
| LegacyPartitions.UnsafeBlockSlice.SetReaderIndex | directringcache-module/src/main/java/com/github/directringcache/impl/UnsafeBufferPartition.java:348-353 | readerIndex(v) is rangeCheck(v, 0, sliceByteSize); on success only the reader cursor becomes v |
| LegacyPartitions.UnsafeBlockSlice.Lock | directringcache-module/src/main/java/com/github/directringcache/impl/UnsafeBufferPartition.java:361-368 | lock() fails with IllegalState on a locked slice and otherwise locks it; the cursors do not move |
| LegacyPartitions.UnsafeBlockSlice.Unlock | directringcache-module/src/main/java/com/github/directringcache/impl/UnsafeBufferPartition.java:370-377 | unlock() fails with IllegalState on an unlocked slice and otherwise unlocks it |
| LegacyPartitions.CarveBlock | directringcache-module/src/main/java/com/github/directringcache/impl/UnsafeBufferPartition.java:93-108 | the constructor loop: one slice per slot, slice i over slot i, each clearing its bytes, so the whole block ends zeroed |
| LegacyPartitions.UnsafeBufferPartition.constructor | directringcache-module/src/main/java/com/github/directringcache/impl/UnsafeBufferPartition.java:83-109 | for a product sliceByteSize × slices that fits an int: a zeroed block of that many bytes, `slices` unlocked slices carved from it, a bitset of clear bits, cursor 0 |
| LegacyPartitions.UnsafeBufferPartition.Available | directringcache-module/src/main/java/com/github/directringcache/impl/UnsafeBufferPartition.java:111-115 | available() is size() minus cardinality() |
| LegacyPartitions.UnsafeBufferPartition.Used | directringcache-module/src/main/java/com/github/directringcache/impl/UnsafeBufferPartition.java:117-121 | used() is cardinality() |
| LegacyPartitions.UnsafeBufferPartition.GetSliceCount | directringcache-module/src/main/java/com/github/directringcache/impl/UnsafeBufferPartition.java:179-183 | getSliceCount() is the number of slices |
| LegacyPartitions.UnsafeBufferPartition.NextSlice | directringcache-module/src/main/java/com/github/directringcache/impl/UnsafeBufferPartition.java:200-215 | nextSlice() is -1 when isEmpty(); otherwise nextNotSet(cursor + 1) unless the cursor is 0 or size - 1, falling back to firstNotSet() |
| LegacyPartitions.UnsafeBufferPartition.Get | directringcache-module/src/main/java/com/github/directringcache/impl/UnsafeBufferPartition.java:129-157 | get() ends as ClaimOrNull says: null when nextSlice() is -1, otherwise the cursor moves, the clear bit is set and that slice is locked; no cursor of a slice moves |
| LegacyPartitions.UnsafeBufferPartition.TryClaim | directringcache-module/src/main/java/com/github/directringcache/impl/UnsafeBufferPartition.java:134-153 | one pass of get()'s retry loop: null when nextSlice() is -1; otherwise the cursor moves, a clear bit is set and its slice locked, and a slice that was already locked is an illegal state; no other slice changes |
| LegacyPartitions.UnsafeBufferPartition.Free | directringcache-module/src/main/java/com/github/directringcache/impl/UnsafeBufferPartition.java:159-177 | free(slice) rejects another partition's slice and changes nothing; otherwise it clears the bit and unlocks, and only when unlock() succeeds tells the selector and clears the slice |
| LegacyPartitions.UnsafeBufferPartition.Close | directringcache-module/src/main/java/com/github/directringcache/impl/UnsafeBufferPartition.java:185-198 | close() has no one-shot guard: every call tells the selector about every slice, then zeroes the whole block and releases it |
| PartitionBuffers.SliceIndex | directringcache-module/src/main/java/com/github/directringcache/impl/PartitionBufferImpl.java:255-257 | sliceIndex(position) is an int, and it is exactly position / sliceByteSize whenever that quotient fits an int |
| PartitionBuffers.SliceIndexExact | directringcache-module/src/main/java/com/github/directringcache/impl/PartitionBufferImpl.java:255-257 | for a position whose quotient fits an int, the cast loses nothing: position p belongs to slice p / sliceByteSize |
| PartitionBuffers.Offset | directringcache-module/src/main/java/com/github/directringcache/impl/PartitionBufferImpl.java:240 | the corrected offset within a slice always lies in [0, sliceByteSize) |
| PartitionBuffers.TranslationExact | directringcache-module/src/main/java/com/github/directringcache/impl/PartitionBufferImpl.java:236-240 | corrected translation is a bijection: slice p / S and offset p % S give back p, and two different positions never share a slice and offset |
| PartitionBuffers.OffsetAsWritten | directringcache-module/src/main/java/com/github/directringcache/impl/PartitionBufferImpl.java:240 | as written the offset is position % sliceIndex: it divides by zero exactly when the slice index is 0, and is otherwise below the slice index, not the slice size |
| PartitionBuffers.OffsetAsWrittenMisplaces | directringcache-module/src/main/java/com/github/directringcache/impl/PartitionBufferImpl.java:240 | as written, every position of the first slice throws ArithmeticException, and position 5 of 4-byte slices maps to offset 0 where the intended offset is 1 |
| PartitionBuffers.Request | directringcache-module/src/main/java/com/github/directringcache/impl/Buffers.java:83-86 | the stand-in requestSlice() hands out the first slice still to come and keeps the rest, and gives null once none is left |
| PartitionBuffers.Grow | directringcache-module/src/main/java/com/github/directringcache/impl/PartitionBufferImpl.java:259-264 | the corrected resize(newSize) keeps every old entry in place, puts the requested slice in the last entry and leaves the entries between null |
| PartitionBuffers.ResizeAsWritten | directringcache-module/src/main/java/com/github/directringcache/impl/PartitionBufferImpl.java:259-264 | resize as written always throws: with no array yet (the constructor's call) it is a NullPointerException; otherwise the slice has been taken from the pool and the store at temp[temp.length] is out of bounds |
| PartitionBuffers.ConstructorAsWrittenFails | directringcache-module/src/main/java/com/github/directringcache/impl/PartitionBufferImpl.java:21-25 | as written, the constructor's resize(1) throws, so no PartitionBufferImpl can be built; corrected, the new buffer holds exactly the pool's first slice |
| PartitionBuffers.Initial | directringcache-module/src/main/java/com/github/directringcache/impl/PartitionBufferImpl.java:21-25 | the corrected constructor: one entry holding the first slice the pool hands out (null when it has none), both cursors at 0 |
| PartitionBuffers.GrowFor | directringcache-module/src/main/java/com/github/directringcache/impl/PartitionBufferImpl.java:236-239 | the corrected growth before a put: it leaves the cursors and every existing entry alone, does nothing when slice k exists, and otherwise grows so that entry k holds the pool's next slice; it fails only when k + 1 would not fit an int |
| PartitionBuffers.StoreInSlice | directringcache-module/src/main/java/com/github/directringcache/impl/PartitionBufferImpl.java:240 | a slice's put(offset, value) succeeds exactly when that slice is present and reaches the offset; it then holds value there, and every other (slice, offset) byte and the cursors are unchanged |
| PartitionBuffers.PutAt | directringcache-module/src/main/java/com/github/directringcache/impl/PartitionBufferImpl.java:235-241 | the corrected positional put never moves the buffer's cursors |
| PartitionBuffers.PutAtShaped | directringcache-module/src/main/java/com/github/directringcache/impl/PartitionBufferImpl.java:235-241 | a put keeps every slice, held or still to come, at sliceByteSize bytes |
| PartitionBuffers.PutAtStores | directringcache-module/src/main/java/com/github/directringcache/impl/PartitionBufferImpl.java:235-241 | a put succeeds exactly when the position's slice is present or the pool has one to grow into, and a successful put leaves the byte readable at that position |
| PartitionBuffers.PutAtKeeps | directringcache-module/src/main/java/com/github/directringcache/impl/PartitionBufferImpl.java:235-241 | a put changes no byte stored at any other position |
| PartitionBuffers.WriteByte | directringcache-module/src/main/java/com/github/directringcache/impl/PartitionBufferImpl.java:110-113 | writeByte advances writerIndex by exactly 1 (as a long, even when the put throws) and leaves readerIndex alone |
| PartitionBuffers.ReadAt | directringcache-module/src/main/java/com/github/directringcache/impl/PartitionBufferImpl.java:247-253 | the corrected read(position) only succeeds for a position below writerIndex |
| PartitionBuffers.ReadAtReads | directringcache-module/src/main/java/com/github/directringcache/impl/PartitionBufferImpl.java:247-253 | a readable position succeeds exactly when its slice holds the byte, and returns the byte stored there |
| PartitionBuffers.ReadByte | directringcache-module/src/main/java/com/github/directringcache/impl/PartitionBufferImpl.java:32-35 | readByte advances readerIndex by exactly 1 (even when the read throws), changes nothing else, and returns read(readerIndex) |
| PartitionBuffers.Writes | directringcache-module/src/main/java/com/github/directringcache/impl/PartitionBufferImpl.java:120-125 | writeBytes as a run of writeByte calls stopping at the first that throws: readerIndex never moves, and a single write moves writerIndex by one |
| PartitionBuffers.WritesSnoc | directringcache-module/src/main/java/com/github/directringcache/impl/PartitionBufferImpl.java:120-125 | the run of writes over values + [v] is the run over values followed by writeByte(v), while no write has thrown |
| PartitionBuffers.Reads | directringcache-module/src/main/java/com/github/directringcache/impl/PartitionBufferImpl.java:47-53 | readBytes as a run of readByte calls: only the reader cursor moves, at most n bytes come back, and exactly n when no read throws |
| PartitionBuffers.WriteByteDense | directringcache-module/src/main/java/com/github/directringcache/impl/PartitionBufferImpl.java:110-113 | on a buffer whose slices are all present, with room in them or the pool, writeByte succeeds, stores the byte at writerIndex, keeps every byte before it, and grows the array by the pool's next slice exactly when writerIndex sat at the end of the last slice |
| PartitionBuffers.WritesDenseShape | directringcache-module/src/main/java/com/github/directringcache/impl/PartitionBufferImpl.java:120-125 | with room in the slices and the pool, every write of a run succeeds and the array grows by the pool's slices, in order, only as far as the last write needs |
| PartitionBuffers.WritesDense | directringcache-module/src/main/java/com/github/directringcache/impl/PartitionBufferImpl.java:120-125 | with room, the i-th written value lands at position writerIndex + i and the bytes before writerIndex are kept |
| PartitionBuffers.ReadsDense | directringcache-module/src/main/java/com/github/directringcache/impl/PartitionBufferImpl.java:47-53 | n reads of written positions all succeed, the i-th returning the byte stored at readerIndex + i, and only readerIndex moves, by n |
| PartitionBuffers.ReadBack | directringcache-module/src/main/java/com/github/directringcache/impl/PartitionBufferImpl.java:47-53 | reads from readerIndex over positions holding the given values return exactly those values and leave readerIndex at writerIndex |
| PartitionBuffers.WriteThenRead | directringcache-module/src/main/java/com/github/directringcache/impl/PartitionBufferImpl.java:110-125 | round trip: what a run of writes puts at writerIndex, the same number of reads from there returns, when the cursors start together |
| PartitionBuffers.PresentCount | directringcache-module/src/main/java/com/github/directringcache/impl/PartitionBufferImpl.java:214-221 | slices() never exceeds the array length |
| PartitionBuffers.Present | directringcache-module/src/main/java/com/github/directringcache/impl/PartitionBufferImpl.java:214-221 | the slices the array holds, in array order, are exactly slices() many |
| PartitionBuffers.CapacityOf | directringcache-module/src/main/java/com/github/directringcache/impl/PartitionBufferImpl.java:195-202 | capacity() accumulates in a long, so its value always fits a long |
| PartitionBuffers.MaxCapacityOf | directringcache-module/src/main/java/com/github/directringcache/impl/PartitionBufferImpl.java:204-207 | maxCapacity() is an int product widened to long, so it always fits an int |
| PartitionBuffers.ReadableExactly | directringcache-module/src/main/java/com/github/directringcache/impl/PartitionBufferImpl.java:27-30 | readable() holds exactly when writerIndex > readerIndex, for non-negative cursors |
| PartitionBuffers.WriteableExactly | directringcache-module/src/main/java/com/github/directringcache/impl/PartitionBufferImpl.java:105-108 | writeable() holds exactly when maxCapacity() > writerIndex, for a non-negative maximum and writer index |
| PartitionBuffers.CapacityIsSum | directringcache-module/src/main/java/com/github/directringcache/impl/PartitionBufferImpl.java:195-202 | capacity() equals the sum of writerIndex() over the non-null slices when no partial sum leaves the long range |
| PartitionBuffers.CapacityAtStart | directringcache-module/src/main/java/com/github/directringcache/impl/PartitionBufferImpl.java:195-202 | slices whose own writer cursors never moved give capacity() 0 |
| PartitionBuffers.Nulls | directringcache-module/src/main/java/com/github/directringcache/impl/PartitionBufferImpl.java:228 | Arrays.fill(slices, null) leaves n entries, all null |
| PartitionBuffers.NullsHoldNothing | directringcache-module/src/main/java/com/github/directringcache/impl/PartitionBufferImpl.java:223-229 | after free() the array holds no slice, so slices() == 0 and maxCapacity() == 0 |
| PartitionBuffers.PutAtKeepsCursors | directringcache-module/src/main/java/com/github/directringcache/impl/PartitionBufferImpl.java:235-241 | a positional put changes slice bytes only: no slice's own cursors move |
| PartitionBuffers.WritesKeepCursors | directringcache-module/src/main/java/com/github/directringcache/impl/PartitionBufferImpl.java:120-125 | a run of writes moves no slice's own cursors either |
| PartitionBuffers.GrowthAsTested | directringcache-module/src/test/java/com/github/directringcache/PartitionBufferTestCase.java:36-62 | for the corrected buffer over fresh S-byte slices: maxCapacity() starts at S; after 2S + 1 writes all succeed, three slices are held (maxCapacity() 3S), writerIndex is 2S + 1 and reading them back returns the values, but capacity() stays 0 where the test expects 2S + 1 |
| PartitionBuffers.InitialFresh | directringcache-module/src/main/java/com/github/directringcache/impl/PartitionBufferImpl.java:21-25 | a new buffer over fresh slices holds one sized slice with unmoved cursors, so maxCapacity() is sliceByteSize |
| PartitionBuffers.ReadAtAsWritten | directringcache-module/src/main/java/com/github/directringcache/impl/PartitionBufferImpl.java:247-253 | read(position) as written refuses only positions past writerIndex, and succeeds only at or below writerIndex and in a slice other than the first |
| PartitionBuffers.PutAtAsWritten | directringcache-module/src/main/java/com/github/directringcache/impl/PartitionBufferImpl.java:235-241 | put(position, value) as written succeeds only for a slice that exists and is not the first |
| PartitionBuffers.TwoSlices | directringcache-module/src/test/java/com/github/directringcache/PartitionBufferTestCase.java:36-62 | the example state for the findings: two 4-byte slices, properly sized |
| PartitionBuffers.PutAsWrittenMisplaces | directringcache-module/src/main/java/com/github/directringcache/impl/PartitionBufferImpl.java:237-252 | as written, a put at position 5 overwrites position 4, a read of the unwritten position 6 succeeds and a put into the first slice throws; corrected, the put lands on position 5, the read is refused and the put succeeds |
| PartitionBuffers.PutAsWrittenNeverGrows | directringcache-module/src/main/java/com/github/directringcache/impl/PartitionBufferImpl.java:237-239 | as written, a put at the first position past the last slice throws instead of growing; corrected, it succeeds whenever the pool has a slice |
| LogicalBuffer.SlicePool.constructor | directringcache-module/src/main/java/com/github/directringcache/impl/Buffers.java:72-81 | the stand-in for the buffer's pool starts with the given slices still to come and none given back |
| LogicalBuffer.SlicePool.RequestSlice | directringcache-module/src/main/java/com/github/directringcache/impl/Buffers.java:83-86 | the stand-in requestSlice() hands out the first slice still to come, or null when there is none, and touches nothing given back |
| LogicalBuffer.SlicePool.FreeSlice | directringcache-module/src/main/java/com/github/directringcache/impl/Buffers.java:88-92 | freeSlice(slice) ignores null and otherwise appends the slice to those given back |
| LogicalBuffer.NullSlicesNeverStore | directringcache-module/src/main/java/com/github/directringcache/impl/Buffers.java:83-86 | over a pool whose requestSlice() always answers null, every entry stays null and every put throws |
| LogicalBuffer.WriteRange | directringcache-module/src/main/java/com/github/directringcache/impl/PartitionBufferImpl.java:120-125 | writeBytes(bytes, index, length) does nothing when index >= length, throws at once for a start index outside the array, and throws whenever length passes the array's end |
| LogicalBuffer.ReadRange | directringcache-module/src/main/java/com/github/directringcache/impl/PartitionBufferImpl.java:47-53 | readBytes(bytes, index, length) keeps the array's length, does nothing when index >= length, and throws whenever length passes the array's end |
| LogicalBuffer.BytesRoundTrip | directringcache-module/src/main/java/com/github/directringcache/impl/PartitionBufferImpl.java:47-125 | round trip: writeBytes(src, 0, n) then readBytes(dst, 0, n) both succeed and dst receives the n bytes of src, the rest of dst kept |
| LogicalBuffer.ShortWrittenReadsBack | directringcache-module/src/main/java/com/github/directringcache/impl/BufferUtils.java:15-37 | what writeShort puts, readShort gets back, in either byte order |
| LogicalBuffer.IntWrittenReadsBack | directringcache-module/src/main/java/com/github/directringcache/impl/BufferUtils.java:39-69 | what writeInt puts, readInt gets back, in either byte order |
| LogicalBuffer.LongWrittenReadsBack | directringcache-module/src/main/java/com/github/directringcache/impl/BufferUtils.java:71-117 | what writeLong puts comes back byte for byte, and getLong with long shifts rebuilds the value, in either byte order |
| LogicalBuffer.LongWrittenReadsBackAsWritten | directringcache-module/src/main/java/com/github/directringcache/impl/BufferUtils.java:94-117 | the eight bytes of 2^32 come back byte for byte, but getLong as written rebuilds them as 1 |
| LogicalBuffer.Char | directringcache-module/src/main/java/com/github/directringcache/impl/PartitionBufferImpl.java:55-58 | (char) and & 0xFFFF give a value from 0 to 65535 |
| LogicalBuffer.CharRoundTrip | directringcache-module/src/main/java/com/github/directringcache/impl/PartitionBufferImpl.java:145-148 | writeChar(c) then readChar() returns c for every char value |
| LogicalBuffer.PartitionBuffer.constructor | directringcache-module/src/main/java/com/github/directringcache/impl/PartitionBufferImpl.java:21-25 | the corrected constructor: the byte order is kept and the state is Initial: one entry holding the pool's first slice, cursors at 0 |
| LogicalBuffer.PartitionBuffer.Resize | directringcache-module/src/main/java/com/github/directringcache/impl/PartitionBufferImpl.java:259-264 | the corrected resize: a fresh array as Grow says, holding the slice the pool hands out; the cursors stay |
| LogicalBuffer.PartitionBuffer.Put | directringcache-module/src/main/java/com/github/directringcache/impl/PartitionBufferImpl.java:235-241 | put(position, value) ends in the state PutAt gives and reports its outcome; nothing goes back to the pool |
| LogicalBuffer.PartitionBuffer.WriteByte | directringcache-module/src/main/java/com/github/directringcache/impl/PartitionBufferImpl.java:110-113 | writeByte(value) stores (byte) value as the specification function WriteByte says: writerIndex moves on by one |
| LogicalBuffer.PartitionBuffer.Read | directringcache-module/src/main/java/com/github/directringcache/impl/PartitionBufferImpl.java:247-253 | the corrected read(position) answers as ReadAt: only positions below writerIndex are readable |
| LogicalBuffer.PartitionBuffer.ReadByte | directringcache-module/src/main/java/com/github/directringcache/impl/PartitionBufferImpl.java:32-35 | readByte() answers as the specification function ReadByte: the byte at readerIndex, which moves on by one |
| LogicalBuffer.PartitionBuffer.ReadUnsignedByte | directringcache-module/src/main/java/com/github/directringcache/impl/PartitionBufferImpl.java:37-40 | readUnsignedByte() reads one byte and returns it as a value from 0 to 255 that (byte) turns back into that byte; errors pass through |
| LogicalBuffer.PartitionBuffer.WriteAll | directringcache-module/src/main/java/com/github/directringcache/impl/PartitionBufferImpl.java:110-125 | a loop of writeByte over the values ends as Writes says |
| LogicalBuffer.PartitionBuffer.ReadAll | directringcache-module/src/main/java/com/github/directringcache/impl/PartitionBufferImpl.java:32-53 | a loop of n readByte calls ends as Reads says |
| LogicalBuffer.PartitionBuffer.WriteBytes | directringcache-module/src/main/java/com/github/directringcache/impl/PartitionBufferImpl.java:115-125 | writeBytes(bytes, index, length) ends as WriteRange says |
| LogicalBuffer.PartitionBuffer.ReadBytes | directringcache-module/src/main/java/com/github/directringcache/impl/PartitionBufferImpl.java:42-53 | readBytes(bytes, index, length) fills the array and ends as ReadRange says |
| LogicalBuffer.PartitionBuffer.ReadNext | directringcache-module/src/main/java/com/github/directringcache/impl/PartitionBufferImpl.java:49-51 | one turn of readBytes' loop: a failing read() or an index outside the array ends the whole call as ReadRange says; otherwise bytes[i] receives the next byte of Reads and nothing else in the array changes |
| LogicalBuffer.PartitionBuffer.WriteShort | directringcache-module/src/main/java/com/github/directringcache/impl/PartitionBufferImpl.java:165-168 | writeShort writes the two bytes of putShort in the buffer's byte order |
| LogicalBuffer.PartitionBuffer.WriteChar | directringcache-module/src/main/java/com/github/directringcache/impl/PartitionBufferImpl.java:145-148 | writeChar(value) writes the bytes of (short) value |
| LogicalBuffer.PartitionBuffer.WriteInt | directringcache-module/src/main/java/com/github/directringcache/impl/PartitionBufferImpl.java:170-173 | writeInt writes the four bytes of putInt in the buffer's byte order |
| LogicalBuffer.PartitionBuffer.WriteLong | directringcache-module/src/main/java/com/github/directringcache/impl/PartitionBufferImpl.java:160-163 | writeLong writes the eight bytes of putLong in the buffer's byte order |
| LogicalBuffer.PartitionBuffer.ReadShort | directringcache-module/src/main/java/com/github/directringcache/impl/PartitionBufferImpl.java:75-78 | readShort() reads two bytes and builds a short from them in the buffer's byte order |
| LogicalBuffer.PartitionBuffer.ReadChar | directringcache-module/src/main/java/com/github/directringcache/impl/PartitionBufferImpl.java:55-58 | readChar() is (char) readShort() |
| LogicalBuffer.PartitionBuffer.ReadUnsignedShort | directringcache-module/src/main/java/com/github/directringcache/impl/PartitionBufferImpl.java:80-83 | readUnsignedShort() is readShort() & 0xFFFF |
| LogicalBuffer.PartitionBuffer.ReadInt | directringcache-module/src/main/java/com/github/directringcache/impl/PartitionBufferImpl.java:85-88 | readInt() reads four bytes and builds an int from them in the buffer's byte order |
| LogicalBuffer.PartitionBuffer.ReadUnsignedInt | directringcache-module/src/main/java/com/github/directringcache/impl/PartitionBufferImpl.java:90-93 | readUnsignedInt() is readInt() & 0xFFFFFFFFL, a value from 0 to 2^32 - 1 |
| LogicalBuffer.PartitionBuffer.ReadLong | directringcache-module/src/main/java/com/github/directringcache/impl/PartitionBufferImpl.java:70-73 | readLong() reads eight bytes and builds the value with getLong as written, so it always fits an int |
| LogicalBuffer.PartitionBuffer.ReaderIndex | directringcache-module/src/main/java/com/github/directringcache/impl/PartitionBufferImpl.java:95-98 | readerIndex() is the reader cursor |
| LogicalBuffer.PartitionBuffer.SetReaderIndex | directringcache-module/src/main/java/com/github/directringcache/impl/PartitionBufferImpl.java:100-103 | readerIndex(v) sets the reader cursor and changes nothing else |
| LogicalBuffer.PartitionBuffer.WriterIndex | directringcache-module/src/main/java/com/github/directringcache/impl/PartitionBufferImpl.java:175-178 | writerIndex() is the writer cursor |
| LogicalBuffer.PartitionBuffer.SetWriterIndex | directringcache-module/src/main/java/com/github/directringcache/impl/PartitionBufferImpl.java:180-183 | writerIndex(v) sets the writer cursor and changes nothing else |
| LogicalBuffer.PartitionBuffer.ByteOrder | directringcache-module/src/main/java/com/github/directringcache/impl/PartitionBufferImpl.java:185-188 | byteOrder() is the buffer's byte order |
| LogicalBuffer.PartitionBuffer.SetByteOrder | directringcache-module/src/main/java/com/github/directringcache/impl/PartitionBufferImpl.java:190-193 | byteOrder(order) changes the byte order only |
| LogicalBuffer.PartitionBuffer.Readable | directringcache-module/src/main/java/com/github/directringcache/impl/PartitionBufferImpl.java:27-30 | readable() holds exactly when unread bytes remain (writerIndex > readerIndex) for non-negative long cursors |
| LogicalBuffer.PartitionBuffer.SliceByteSize | directringcache-module/src/main/java/com/github/directringcache/impl/PartitionBufferImpl.java:209-212 | sliceByteSize() is the pool's slice size |
| LogicalBuffer.PartitionBuffer.Slices | directringcache-module/src/main/java/com/github/directringcache/impl/PartitionBufferImpl.java:214-221 | the counting loop of slices() returns how many entries hold a slice |
| LogicalBuffer.PartitionBuffer.MaxCapacity | directringcache-module/src/main/java/com/github/directringcache/impl/PartitionBufferImpl.java:204-207 | maxCapacity() is slices() times sliceByteSize() in int arithmetic |
| LogicalBuffer.PartitionBuffer.Writeable | directringcache-module/src/main/java/com/github/directringcache/impl/PartitionBufferImpl.java:105-108 | writeable() holds exactly when maxCapacity() > writerIndex, for a non-negative maximum and writer index |
| LogicalBuffer.PartitionBuffer.Capacity | directringcache-module/src/main/java/com/github/directringcache/impl/PartitionBufferImpl.java:195-202 | the accumulating loop of capacity() returns the long sum of the held slices' writer indices |
| LogicalBuffer.PartitionBuffer.Free | directringcache-module/src/main/java/com/github/directringcache/impl/PartitionBufferImpl.java:223-229 | free() gives every held slice back to the pool in array order and leaves every entry null, so slices() and maxCapacity() are 0 |
| LogicalBuffer.PutShort | directringcache-module/src/main/java/com/github/directringcache/impl/BufferUtils.java:15-24 | putShort writes the two bytes of the value, high byte first when big-endian |
| LogicalBuffer.PutInt | directringcache-module/src/main/java/com/github/directringcache/impl/BufferUtils.java:39-52 | putInt writes the four bytes of the value, most significant first when big-endian |
| LogicalBuffer.PutLong | directringcache-module/src/main/java/com/github/directringcache/impl/BufferUtils.java:71-92 | putLong writes the eight bytes of the value, most significant first when big-endian |
| LogicalBuffer.GetShort | directringcache-module/src/main/java/com/github/directringcache/impl/BufferUtils.java:26-37 | getShort reads two bytes and builds a short from them in byte order; the result is always a short |
| LogicalBuffer.GetInt | directringcache-module/src/main/java/com/github/directringcache/impl/BufferUtils.java:54-69 | getInt reads four bytes and builds an int from them in byte order; the result is always an int |
| LogicalBuffer.GetLong | directringcache-module/src/main/java/com/github/directringcache/impl/BufferUtils.java:94-117 | getLong as written reads eight bytes and builds the value with int shifts, so the result is always an int widened to long |
| BufferUtils.RangeCheck | directringcache-module/src/main/java/com/github/directringcache/impl/BufferUtils.java:119-126 | rangeCheck passes exactly when lowerBound <= position <= upperBound (both bounds inclusive) and otherwise throws IndexOutOfBounds |
| BufferUtils.ToByte | directringcache-module/src/main/java/com/github/directringcache/impl/BufferUtils.java:17-22 | the (byte) cast leaves a value already in the byte range unchanged |
| BufferUtils.ToShort | directringcache-module/src/main/java/com/github/directringcache/impl/BufferUtils.java:170 | the (short) cast always yields a short |
| BufferUtils.ToInt | directringcache-module/src/main/java/com/github/directringcache/impl/BufferUtils.java:174 | the (int) cast always yields an int and leaves an int unchanged |
| BufferUtils.ToLong | directringcache-module/src/main/java/com/github/directringcache/impl/BufferUtils.java:151-163 | long arithmetic wraps into the long range and leaves a long unchanged |
| BufferUtils.Unsigned | directringcache-module/src/main/java/com/github/directringcache/impl/BufferUtils.java:170-179 | b & 0xFF lies in 0..255 |
| BufferUtils.BuildShort | directringcache-module/src/main/java/com/github/directringcache/impl/BufferUtils.java:169-171 | buildShort always yields a short |
| BufferUtils.BuildInt | directringcache-module/src/main/java/com/github/directringcache/impl/BufferUtils.java:173-175 | buildInt always yields an int |
| BufferUtils.BuildLongAsWritten | directringcache-module/src/main/java/com/github/directringcache/impl/BufferUtils.java:177-180 | buildLong as written shifts ints, so its result always fits an int |
| BufferUtils.BuildLong | directringcache-module/src/main/java/com/github/directringcache/impl/BufferUtils.java:177-180 | buildLong with long shifts, as intended, always yields a long |
| BufferUtils.ShortRoundTrip | directringcache-module/src/main/java/com/github/directringcache/impl/BufferUtils.java:15-37 | putShort writes two bytes, and getShort over them gives back the value, in either byte order |
| BufferUtils.IntRoundTrip | directringcache-module/src/main/java/com/github/directringcache/impl/BufferUtils.java:39-69 | putInt writes four bytes, and getInt over them gives back the value, in either byte order |
| BufferUtils.LongRoundTrip | directringcache-module/src/main/java/com/github/directringcache/impl/BufferUtils.java:71-117 | putLong writes eight bytes, and getLong with long shifts gives back the value, in either byte order |
| BufferUtils.LongRoundTripAsWrittenFails | directringcache-module/src/main/java/com/github/directringcache/impl/BufferUtils.java:94-117 | as written, getLong does not invert putLong: the big-endian bytes 0,0,0,1,0,0,0,0 of 2^32 come back as 1 |
| BufferUtils.BuildLongAsWrittenFolds | directringcache-module/src/main/java/com/github/directringcache/impl/BufferUtils.java:177-180 | as written, buildLong folds byte 4 onto byte 0: the bytes of 2^32 build 1 |
| BufferUtils.ByteOrderMirrors | directringcache-module/src/main/java/com/github/directringcache/impl/BufferUtils.java:15-92 | big-endian writes the bytes of short, int and long in the reverse order of little-endian, most significant first |
| BufferUtils.IsPowerOfTwoCorrect | directringcache-module/src/main/java/com/github/directringcache/PartitionBufferBuilder.java:54 | the bit test value > 0 && (value & (value - 1)) == 0 holds exactly for the powers of two |
| BufferUtils.Scale | directringcache-module/src/main/java/com/github/directringcache/impl/BufferUtils.java:144-166 | the switch on the unit letter yields a long for every long value, wrapping like long multiplication |
| BufferUtils.ParseDescriptor | directringcache-module/src/main/java/com/github/directringcache/impl/BufferUtils.java:128-167 | descriptorToByteSize's steps, with the number of trailing characters and the kilobyte constant as parameters, yield a long when they succeed |
| BufferUtils.DescriptorToByteSize | directringcache-module/src/main/java/com/github/directringcache/impl/BufferUtils.java:128-167 | the loop-and-switch method as written agrees with the parse with two trailing characters dropped and a kilobyte of 1024 * 1024 |
| BufferUtils.IntendedDescriptorSize | directringcache-module/src/main/java/com/github/directringcache/impl/BufferUtils.java:128-167 | the intended parse (everything but the unit letter is the number, a kilobyte is 1024 bytes) yields a long when it succeeds |
| BufferUtils.DescriptorSize | directringcache-module/src/main/java/com/github/directringcache/impl/BufferUtils.java:128-167 | the choice between the as-written and the intended parse yields a long when it succeeds |
| BufferUtils.AsWrittenUnit | directringcache-module/src/main/java/com/github/directringcache/impl/BufferUtils.java:7-10 | as written, every unit but the byte is 1024 times its intended size, because KILOBYTE_BYTE_SIZE is 1024 * 1024 |
| BufferUtils.ScaleAsWritten | directringcache-module/src/main/java/com/github/directringcache/impl/BufferUtils.java:144-166 | on a unit letter the as-written switch is the value times the as-written unit, wrapped to a long |
| BufferUtils.AsWrittenDescriptorMeaning | directringcache-module/src/main/java/com/github/directringcache/impl/BufferUtils.java:137-143 | as written, the digits of n followed by any character and a unit letter read as n times the as-written unit: the character before the unit is never checked and the last digit is lost |
| BufferUtils.AsWrittenRejectsOneDigit | directringcache-module/src/main/java/com/github/directringcache/impl/BufferUtils.java:143 | as written, one digit and a unit letter ("1M") leave parseLong an empty string, which throws NumberFormatException |
| BufferUtils.AsWrittenRejectsBareUnit | directringcache-module/src/main/java/com/github/directringcache/impl/BufferUtils.java:143 | as written, a unit letter alone makes substring(0, -1) throw IndexOutOfBounds |
| BufferUtils.TrailingDigitRejected | directringcache-module/src/main/java/com/github/directringcache/impl/BufferUtils.java:132-135 | both parses reject a descriptor ending in a digit with IllegalArgument |
| BufferUtils.DescriptorAsWrittenExample | directringcache-module/src/main/java/com/github/directringcache/impl/BufferUtils.java:137-151 | as written, "512K" reads as 51 × 1024 × 1024 bytes |
| BufferUtils.IntendedDescriptorRoundTrip | directringcache-module/src/main/java/com/github/directringcache/impl/BufferUtils.java:128-167 | the intended parse reads the digits of n followed by a unit letter as n times that unit |
| Buffers.PowerOfTwoTestInverted | directringcache-module/src/main/java/com/github/directringcache/impl/Buffers.java:62-64 | as written, Buffers.isPowerOfTwo accepts exactly the positive numbers that are not powers of two |
| Buffers.BySliceByteSize | directringcache-module/src/main/java/com/github/directringcache/impl/Buffers.java:55-60 | a pool is built only for a slice size that passes the power-of-two test and a non-negative partition count, and it has exactly the geometry asked for |
| Buffers.ByPartitionByteSize | directringcache-module/src/main/java/com/github/directringcache/impl/Buffers.java:33-45 | a pool built by partition size has the partition count and slices per partition asked for |
| Buffers.ByMemoryByteSize | directringcache-module/src/main/java/com/github/directringcache/impl/Buffers.java:17-26 | a pool built by memory size has the partition count and slices per partition asked for |
| Buffers.ByMemoryDescriptor | directringcache-module/src/main/java/com/github/directringcache/impl/Buffers.java:12-15 | allocating by memory descriptor succeeds only when the descriptor parses, and then is allocation by the parsed memory size |
| Buffers.ByPartitionDescriptor | directringcache-module/src/main/java/com/github/directringcache/impl/Buffers.java:28-31 | allocating by partition descriptor succeeds only when the descriptor parses, and then is allocation by the parsed partition size |
| Buffers.BySliceDescriptor | directringcache-module/src/main/java/com/github/directringcache/impl/Buffers.java:47-53 | allocating by slice descriptor succeeds only when the descriptor parses, and then builds the geometry with the parsed slice size cast to int |
| Buffers.PartitionAllocation | directringcache-module/src/main/java/com/github/directringcache/impl/Buffers.java:33-45 | with the standard test, an accepted partition size is a power of two cut exactly into slicesPerPartition slices, slice count and slice size powers of two |
| Buffers.MemoryAllocation | directringcache-module/src/main/java/com/github/directringcache/impl/Buffers.java:17-26 | with the standard test, accepted memory is a power of two split exactly into partitions × slices × slice size, each a power of two |
| Buffers.ConsistentAllocationAccepted | directringcache-module/src/main/java/com/github/directringcache/impl/Buffers.java:17-60 | conversely, with the standard test every power-of-two geometry whose memory fits a long is built, except an int partition size of exactly 2^31, which allocateDirect rejects |
| Buffers.AllocatedMemoryInLong | directringcache-module/src/main/java/com/github/directringcache/impl/Buffers.java:104-110 | the memory of a pool with every product taken in long always fits a long |
| Buffers.AcceptedPoolMemory | directringcache-module/src/main/java/com/github/directringcache/impl/Buffers.java:104-110 | with the standard test, the memory of an accepted pool in long arithmetic is exactly the memory asked for |
| Buffers.FourGigabytePartitionAccepted | directringcache-module/src/main/java/com/github/directringcache/impl/Buffers.java:33-45 | nothing bounds the partition size by Integer.MAX_VALUE: 4 GiB in one partition of four 1 GiB slices is accepted, and its int partition size is 0 |
| Buffers.FourGigabytePoolMisreported | directringcache-module/src/main/java/com/github/directringcache/impl/Buffers.java:104-106 | getAllocatedMemory() multiplies ints: a 4 GiB pool of 4 partitions of 1024 slices of 1 MiB reports 0 bytes where the long product is 2^32 |
| Buffers.AsWrittenRejectsPowersOfTwo | directringcache-module/src/main/java/com/github/directringcache/impl/Buffers.java:17-64 | as written, every genuine power of two is refused: as a slice size always, as a partition or memory size once divisible by its divisor |
| Buffers.AsWrittenAcceptsOddSizes | directringcache-module/src/main/java/com/github/directringcache/impl/Buffers.java:17-64 | as written, 27 bytes in 3 partitions of 3 slices of 3 bytes are accepted, which the standard test refuses |
| Buffers.KilobytePool | directringcache-module/src/main/java/com/github/directringcache/impl/Buffers.java:17-64 | 1 KiB in 4 partitions of 4 slices of 64 bytes is refused as written and built with the standard test |
| Buffers.PartitionBufferPoolImpl.Useds | directringcache-module/src/main/java/com/github/directringcache/impl/Buffers.java:128-134 | used() of every partition, one per partition |
| Buffers.PartitionBufferPoolImpl.Avails | directringcache-module/src/main/java/com/github/directringcache/impl/Buffers.java:136-142 | available() of every partition, one per partition |
| Buffers.PartitionBufferPoolImpl.constructor | directringcache-module/src/main/java/com/github/directringcache/impl/Buffers.java:72-81 | the constructor builds `partitions` fresh partitions of `slices` slices of sliceByteSize bytes, none in use |
| Buffers.PartitionBufferPoolImpl.RequestSlice | directringcache-module/src/main/java/com/github/directringcache/impl/Buffers.java:83-86 | requestSlice() always returns null |
| Buffers.PartitionBufferPoolImpl.FreeSlice | directringcache-module/src/main/java/com/github/directringcache/impl/Buffers.java:88-92 | freeSlice ignores null and otherwise frees the slice in its own partition: the slice's bit is cleared when it passes the range check, and IndexOutOfBounds is thrown otherwise |
| Buffers.PartitionBufferPoolImpl.GetPartitionBuffer | directringcache-module/src/main/java/com/github/directringcache/impl/Buffers.java:94-97 | getPartitionBuffer() always returns null |
| Buffers.PartitionBufferPoolImpl.FreePartitionBuffer | directringcache-module/src/main/java/com/github/directringcache/impl/Buffers.java:99-102 | freePartitionBuffer(buffer) throws NullPointer on null, and otherwise frees the buffer: its slices go back in array order and every entry becomes null |
| Buffers.PartitionBufferPoolImpl.GetPartitionByteSize | directringcache-module/src/main/java/com/github/directringcache/impl/Buffers.java:108-110 | getPartitionByteSize() is an int, the product slices × sliceByteSize when that fits |
| Buffers.PartitionBufferPoolImpl.GetSliceCount | directringcache-module/src/main/java/com/github/directringcache/impl/Buffers.java:120-122 | getSliceCount() is an int, the product slices × partitions when that fits |
| Buffers.PartitionBufferPoolImpl.GetAllocatedMemory | directringcache-module/src/main/java/com/github/directringcache/impl/Buffers.java:104-106 | getAllocatedMemory() never leaves the int range, and is the true memory when the int products fit |
| Buffers.PartitionBufferPoolImpl.GetUsedSliceCount | directringcache-module/src/main/java/com/github/directringcache/impl/Buffers.java:128-134 | the loop returns the int-wrapped sum of every partition's used() |
| Buffers.PartitionBufferPoolImpl.GetFreeSliceCount | directringcache-module/src/main/java/com/github/directringcache/impl/Buffers.java:136-142 | the loop returns the int-wrapped sum of every partition's available() |
| Buffers.PartitionBufferPoolImpl.UsedAndFreeAddUp | directringcache-module/src/main/java/com/github/directringcache/impl/Buffers.java:128-142 | used and free slices add up to every slice of every partition |
| PoolBuilder.PoolGeometry | directringcache-module/src/main/java/com/github/directringcache/PartitionBufferBuilder.java:107-132 | allocatePool(long, int, int) accepts a geometry with the partition count and slice size asked for |
| PoolBuilder.AcceptedQuotients | directringcache-module/src/main/java/com/github/directringcache/PartitionBufferBuilder.java:107-130 | an accepted geometry has non-zero divisors, an exact power-of-two partition size of at most Integer.MAX_VALUE, and slices × sliceByteSize equal to it |
| PoolBuilder.AcceptedGeometry | directringcache-module/src/main/java/com/github/directringcache/PartitionBufferBuilder.java:107-132 | an accepted geometry splits the memory into `partitions` partitions of one power-of-two size of at most Integer.MAX_VALUE bytes, each cut into `slices` slices of sliceByteSize bytes |
| PoolBuilder.ConsistentGeometryAccepted | directringcache-module/src/main/java/com/github/directringcache/PartitionBufferBuilder.java:107-132 | conversely, every consistent positive geometry with a power-of-two partition size of at most Integer.MAX_VALUE and a total that fits a long is built exactly so |
| PoolBuilder.RejectedGeometry | directringcache-module/src/main/java/com/github/directringcache/PartitionBufferBuilder.java:107-128 | a zero partition count or slice size fails as division by zero; a non-divisor, a partition size that is no power of two or too large, or a slice size that does not divide it fails as IllegalArgument |
| PoolBuilder.SliceByteSizeOf | directringcache-module/src/main/java/com/github/directringcache/PartitionBufferBuilder.java:51-64 | the resolved slice size always fits an int |
| PoolBuilder.MemoryByteSizeOf | directringcache-module/src/main/java/com/github/directringcache/PartitionBufferBuilder.java:91-100 | the resolved memory size always fits a long |
| PoolBuilder.DescriptorAllocation | directringcache-module/src/main/java/com/github/directringcache/PartitionBufferBuilder.java:51-132 | a pool allocated from descriptors, parsed either way, has a power-of-two slice size and memory size, and its partitions, slices and slice size multiply out to that memory |
| PoolBuilder.DescriptorAllocationExample | directringcache-module/src/main/java/com/github/directringcache/PartitionBufferBuilder.java:51-64 | as intended, allocatePool("1M", 4, "256K") builds four partitions of one 256 KiB slice each |
| PoolBuilder.DescriptorAllocationAsWrittenExample | directringcache-module/src/main/java/com/github/directringcache/PartitionBufferBuilder.java:51-64 | as written, allocatePool("1M", 4, "256K") throws IllegalArgument because "256K" is read as 25 MiB; "1M" alone would fail in parseLong |
| PoolBuilder.QuarterMegabyteSlice | directringcache-module/src/main/java/com/github/directringcache/PartitionBufferBuilder.java:51-64 | as intended, "256K" names a 256 KiB slice |
| PoolBuilder.OneMegabyteMemory | directringcache-module/src/main/java/com/github/directringcache/PartitionBufferBuilder.java:91-100 | as intended, "1M" names 1 MiB |
| PoolBuilder.HalfMegabyteSlice | directringcache-module/src/main/java/com/github/directringcache/PartitionBufferBuilder.java:51-64 | as intended, "512K" names a 512 KiB slice |
| PoolBuilder.HalfMegabyteSliceAsWritten | directringcache-module/src/main/java/com/github/directringcache/PartitionBufferBuilder.java:51-64 | as written, "512K" is read as 51 MiB, not a power of two, so the slice descriptor is refused |
| PoolBuilder.FiveHundredMegabytesRejected | directringcache-module/src/main/java/com/github/directringcache/PartitionBufferBuilder.java:91-100 | "500M" is refused as memory: 500 MiB is not a power of two |
| PoolBuilder.FiveHundredMegabytePoolRejected | directringcache-module/src/test/java/com/github/directringcache/PartitionBufferTestCase.java:39 | the pool the buffer tests allocate, allocatePool("500M", 50, "512K"), is refused whichever way the descriptors are read |
| PoolBuilder.PartitionBufferBuilder.constructor | directringcache-module/src/main/java/com/github/directringcache/PartitionBufferBuilder.java:19-29 | the builder keeps the partition kind and selector it is given; the default partition count is the processor count |
| PoolBuilder.PartitionBufferBuilder.WithFactory | directringcache-module/src/main/java/com/github/directringcache/PartitionBufferBuilder.java:31-39 | with only a partition kind, the builder gets a fresh thread-affinity selector with no thread claimed |
| PoolBuilder.PartitionBufferBuilder.WithSelector | directringcache-module/src/main/java/com/github/directringcache/PartitionBufferBuilder.java:41-44 | with only a selector, the builder uses direct ByteBuffer partitions |
| PoolBuilder.PartitionBufferBuilder.PartitionsOr | directringcache-module/src/main/java/com/github/directringcache/PartitionBufferBuilder.java:46-105 | the overloads without a partition count use DEFAULT_PARTITIONS_COUNT, the others the count given |
| PoolBuilder.PartitionBufferBuilder.AllocatePool | directringcache-module/src/main/java/com/github/directringcache/PartitionBufferBuilder.java:46-132 | every allocatePool overload fails with the geometry's error, or with NegativeArraySize for a negative count, and otherwise returns a pool of exactly that geometry |
| PoolBuilder.SharedClaim | directringcache-module/src/main/java/com/github/directringcache/selector/ThreadLocalPartitionSliceSelector.java:35-52 | the claim loop over a shared table: a hit is a partition of the calling pool with a slice available; an IndexOutOfBounds comes only from a table longer than the calling pool's array |
| PoolBuilder.SharedThreadLocalStep | directringcache-module/src/main/java/com/github/directringcache/selector/ThreadLocalPartitionSliceSelector.java:18-69 | one selector shared by several pools: every partition it hands out exists and has a slice available, and one of another pool than the one asking is always the thread's own earlier partition |
| PoolBuilder.SharedSelectorCrossesPools | directringcache-module/src/main/java/com/github/directringcache/PartitionBufferBuilder.java:107-132 | with one selector for pools of 2, 4 and 1 partitions, thread 7 asking the second pool is served from the first pool's partition 0, and thread 8 asking the third pool fails with IndexOutOfBounds |
| PoolBuilder.OwnSelectorStaysInPool | directringcache-module/src/main/java/com/github/directringcache/selector/ThreadLocalPartitionSliceSelector.java:18-69 | with a selector state per pool, the same two requests are served from partition 0 of the pool asked |

## Left out

Each line starts with the member whose behaviour it qualifies. Lines about a whole file or subsystem start with the module or the file.

### Concurrency

- Partitions.AbstractPartition.Get: the `synchronized (usedSlices)` claim (impl/AbstractPartition.java:71) and the `AtomicBoolean` closed flag (:23, :108) are sequential steps. Interleavings with other threads are not modelled.
- Partitions.AbstractPooledPartition.Get: the `synchronized (usedSlices)` blocks (impl/AbstractPooledPartition.java:50, :76, :92) are sequential steps.
- Partitions.ByteBufferUnpooledPartition.NextSlice: the `AtomicInteger` id counter (impl/AbstractUnpooledPartition.java:21) is a plain integer field, and it counts without bound. Java's `incrementAndGet()` (:86) wraps past Integer.MAX_VALUE to Integer.MIN_VALUE, so after 2^31 - 1 ids Java hands out negative ids where the model's ids keep growing.
- Slices.AbstractPartitionSlice.constructor: the `AtomicBoolean` lock and the `AtomicInteger` acquired/freed counters (impl/AbstractPartitionSlice.java:12-16) are plain fields, and `synchronized lock()`/`unlock()` are sequential methods. The `volatile` cursors of the slices are plain fields.
- LegacyPartitions.Partition.Get: the compare-and-set loop on the cursor (impl/Partition.java:35-37) succeeds at its first attempt. In a single thread nothing else can move the cursor.
- LegacyPartitions.ByteBufferPartition.Get: the compare-and-set loop (impl/ByteBufferPartition.java:67-72) succeeds at its first attempt. The `synchronized` blocks are sequential.
- LegacyPartitions.UnsafeBufferPartition.Get: the inner compare-and-set loop (impl/UnsafeBufferPartition.java:142-146) succeeds at its first attempt, so only the five outer attempts remain. The `synchronized` blocks and the slice's `AtomicBoolean` lock (:229, :361-377) are sequential.
- Selectors.RoundRobinSelector.Select: the `volatile` index (selector/RoundRobinPartitionSliceSelector.java:16) is a plain field.
- Selectors.ThreadLocalSelector.Select: the `ThreadLocal<Partition>` assignment (selector/ThreadLocalPartitionSliceSelector.java:11) is a map keyed by an explicit thread-id argument. The `synchronized (this)` creation of the claim table (:28) is a sequential step.
- Selectors.ProcessorLocalSelector.Select: the processor id and the processor count are parameters. The JNA adapters and the Windows `PROCESSOR_NUMBER` structure (selector/ProcessorLocalPartitionSliceSelector.java:84-191) are left out as platform calls. `synchronized (this)` (:33) is a sequential step.
- Selectors.Snapshot: each selector reads every partition's `available()` once, before it decides. Java reads them during its scan; in a single thread the two readings agree.
- LogicalBuffer.PartitionBuffer.Free: `synchronized free()` and `synchronized resize()` (impl/PartitionBufferImpl.java:224, :259) are sequential methods.

### Order of the pool's release steps

- Pools.PartitionBufferPool.FreeHeld: the partition finishes taking the slice back before `Deliver` tells the selector. The bit is cleared and the slice zeroed first. Java's `AbstractPartition.free` (impl/AbstractPartition.java:97-102) calls `freePartitionSlice` between `unlock()` and `usedSlices.clear`. The results agree whenever the selector's release succeeds. They differ when it throws: the thread- and processor-affinity releases throw NullPointer before any assignment exists, or IndexOutOfBounds. Java then leaves the bit set, while the model has already cleared it.
- LegacyPartitions.UnsafeBufferPartition.Free: the slice is cleared on every successful unlock. Java (impl/UnsafeBufferPartition.java:173-176) calls `freePartitionSlice` on the selector before `slice.clear()`, so a selector that throws leaves the slice uncleared; the model's selector notices cannot throw.
- Pools.PartitionBufferPool.CloseAt: `ClosePartition` frees every slice of the partition, and only then are its notices delivered to the selector. Java's `close` (impl/AbstractPartition.java:115-120) calls `freePartitionSlice` before each slice's `free()`. If the selector throws for one slice, Java leaves that slice and the later ones unfreed, while the model has freed them all.

### Unchecked memory access

- Slices.UnsafeSlice.PutAt: `requires 0 <= position < memory.Length` stands in for the unchecked `unsafe.putByte` at a raw address. Java does no bounds check here, and an out-of-range store corrupts foreign memory. The model does not describe what happens then.
- Slices.UnsafeSlice.Put: `requires 0 <= writerIndex < memory.Length`, for the same reason as `PutAt`.
- Slices.UnsafeSlice.Read: `requires 0 <= readerIndex < memory.Length`. An out-of-range `unsafe.getByte` is not modelled.
- LegacyPartitions.UnsafeBlockSlice.PutAt: its requires keeps the store inside the slice's region of the partition block. The raw pointer arithmetic of impl/UnsafeBufferPartition.java has no bounds check.
- LegacyPartitions.UnsafeBlockSlice.Put: as for `PutAt`, at the writer index.
- LegacyPartitions.UnsafeBlockSlice.ReadAt: its requires keeps the load inside the slice's region.
- LegacyPartitions.UnsafeBlockSlice.Read: as for `ReadAt`, at the reader index.
- Slices.UnsafeSlice.PutArray: `unsafe.copyMemory` checks neither window. For a copy that passes the end check with a length of 0 or more, the requires keeps `offset .. offset + length` inside the source array and the target bytes from readerIndex on inside the slice's region. Java performs a copy outside either window on foreign memory; the model does not describe what happens then.
- Slices.UnsafeSlice.ReadArray: as for `PutArray`: the requires keeps `offset .. offset + length` inside the target array and readerIndex at 0 or more, which Java does not check.
- LegacyPartitions.UnsafeBlockSlice.PutArray: as for `Slices.UnsafeSlice.PutArray`: the requires keeps the source window inside the array and writerIndex at 0 or more, which impl/UnsafeBufferPartition.java:266-280 does not check.
- LegacyPartitions.UnsafeBlockSlice.ReadArray: as for `Slices.UnsafeSlice.ReadArray`: the requires keeps the target window inside the array and readerIndex at 0 or more, which impl/UnsafeBufferPartition.java:295-309 does not check.
- LegacyPartitions.UnsafeBufferPartition.constructor: `sun.misc.Unsafe` acquisition (`UnsafeUtil` in impl/UnsafeBufferPartition.java:28-61 and impl/UnsafePooledPartition.java:28-61), `allocateMemory`/`freeMemory` and raw pointers are left out. Each raw region is an array of bytes.
- LegacyPartitions.UnsafeBufferPartition.constructor: `requires IsInt(sliceByteSize * slices)`. Java forms `allocatedLength` as an int product (impl/UnsafeBufferPartition.java:91). A negative wrap makes `allocateMemory` throw IllegalArgumentException. A non-negative wrap gives a block shorter than the slices carved over it, and their constructors' `clear()` then writes foreign memory. The model describes neither path.
- LegacyPartitions.ByteBufferPartition.constructor: `requires IsInt(sliceByteSize * slices)`. Java forms the buffer size as an int product (impl/ByteBufferPartition.java:38). A negative wrap makes `allocate`/`allocateDirect` throw IllegalArgumentException. A non-negative wrap (65536 slices of 65536 bytes give 0) builds a buffer shorter than the slices carved over it, whose `clear()` and accesses then throw IndexOutOfBounds. The model describes neither path.
- Partitions.AbstractPartition.constructor: `requires CapacityFits(kind, slices, sliceByteSize)`. For a direct ByteBuffer partition whose int product sliceByteSize × slices wraps negative, `allocateDirect` throws IllegalArgumentException inside the constructor (impl/ByteBufferPooledPartition.java:47). The model's constructors cannot fail, so that path is excluded; `Partitions.CapacityWrapsNegative` names an input that takes it. A non-negative wrap is modelled: the slices get the wrapped capacity.
- Partitions.AbstractPooledPartition.constructor: the same `CapacityFits` requires, for the same reason.
- Partitions.BuildSlices: the same `CapacityFits` requires, for the same reason.
- Pools.NewPartition: the same `CapacityFits` requires, passed on from the pool's constructor.
- Pools.BuildPartitions: the same `CapacityFits` requires, passed on from the pool's constructor.

### Constructor preconditions

- LegacyPartitions.Partition.constructor: `requires ToInt(sliceByteSize * slices) >= 0`. With a negative wrapped size, Java's `ByteBuffer.allocateDirect` throws IllegalArgumentException; the model does not describe that path.
- Buffers.PartitionBufferPoolImpl.constructor: requires that the `Buffers.allocate*` validation (`Buffers.Construction`) has passed and that the slice size is not negative. In Java it is reached only through that chain, which has already checked the slice size to be a power of two.
- LogicalBuffer.PartitionBuffer.constructor: `requires pool.sliceByteSize > 0`. With slice size 0, Java's `sliceIndex` divides by zero on the first put, and the model does not describe that exception.
- BitSet.FixedLengthBitSet.constructor: takes `bits: nat`. Java accepts any int. For bits in -63..-1 it builds a set of one word whose every range check fails, and below -63 `new long[...]` throws NegativeArraySizeException.

### Abstractions

- LogicalBuffer.SlicePool.RequestSlice: the pool that feeds a logical buffer is a fixed sequence of pending slices plus a list of returned ones. The `PartitionBufferPoolImpl` that impl/PartitionBufferImpl.java imports is `Buffers.PartitionBufferPoolImpl`, and its `requestSlice()` returns null (impl/Buffers.java:83-86). `LogicalBuffer.NullSlicesNeverStore` models that real behaviour. The stand-in abstracts away the selector's choice of partition.
- LogicalBuffer.SlicePool.FreeSlice: a returned slice is appended to `returned`. The partition's `free` (the bit clear and the zeroing) is not repeated here, because `Pools.PartitionBufferPool.FreeSlice` models it.
- PartitionBuffers.Slice: the logical buffer's slices are values (a byte sequence and two cursors) rather than `Partition.Slice` objects sharing a partition's `ByteBuffer`. Aliasing between a buffer's slices and the pool's copy of them is not modelled.
- LogicalBuffer.PartitionBuffer.SetByteOrder: the byte order is a boolean (big-endian or not). Java compares the `ByteOrder` reference with `BIG_ENDIAN`, so a null order reads as little-endian; the boolean `false` stands for both.
- LogicalBuffer.PartitionBuffer.ReadByte: the `readerIndex(long)` setter can make a position negative. The corrected read refuses a negative position up front with IndexOutOfBounds. Java reaches an exception of the same family later, through a negative slice-array index or a negative offset into the slice's buffer.
- Pools.NewPartition: the `PartitionFactory` choice (heap or direct ByteBuffer, raw memory) is a `SliceKind` value. The factories take 3 arguments in spi/PartitionFactory.java:6, 4 in the pooled and unpooled implementations, and 2 in impl/ByteBufferPartition.java:15,23. The model builds the partition directly, and the partition's release notices go to the pool's selector.
- Pools.PartitionBufferPool.FreeSlice: `freeSlice` calls the two-argument `free(slice, selector)` (impl/PartitionBufferPoolImpl.java:51), which spi/Partition.java:16 does not declare. The model routes the partition's release notices to the selector instead (see Findings).
- Pools.PartitionBufferPool.constructor: `requires selector.Serves({}, count)`. The selector's state holds partition indices, and this requires every index it holds and its claim table to fit this pool's partition array. Java's builder hands its one selector to every pool it allocates (PartitionBufferBuilder.java:131), and the thread-affinity and processor-affinity selectors hold `Partition` objects (selector/ThreadLocalPartitionSliceSelector.java:11, selector/ProcessorLocalPartitionSliceSelector.java:19). So Java accepts a selector whose state came from another pool, and then serves a thread from that other pool's partition; with equal partition counts the model serves the partition of the same index in this pool instead. `PoolBuilder.SharedThreadLocalStep` models the shared selector as written, and the Findings row for PartitionBufferBuilder.java:131 records its effect. The constructor also requires `CapacityFits`, as `Partitions.AbstractPartition.constructor` does.
- PoolBuilder.PartitionBufferBuilder.AllocatePool: passes the builder's selector to the pool under the same `Serves` requires, so a second allocatePool on a builder whose selector already holds another pool's partitions is covered only when those indices fit the new pool, and is then served by index rather than by partition identity, as for `Pools.PartitionBufferPool.constructor`.
- Pools.PartitionBufferPool: `getPartitionBuffer()` and `freePartitionBuffer()` (impl/PartitionBufferPoolImpl.java:55-65) are not modelled. `getPartitionBuffer()` calls `new PartitionBufferImpl(this, BIG_ENDIAN)`, whose constructor takes the nested `Buffers.PartitionBufferPoolImpl`, so the call does not type-check and has no behaviour; `freePartitionBuffer()` only forwards to the buffer's `free()`, which `LogicalBuffer.PartitionBuffer.Free` models. The Findings row for PartitionBufferPoolImpl.java:55-65 records it.
- Partitions.AbstractPartition.Free: the `instanceof AbstractPartitionSlice` check (impl/AbstractPartition.java:92) is replaced by typing. A slice of a class outside the model cannot be passed, so the IllegalArgumentException for it is not modelled. The same holds at impl/AbstractPooledPartition.java:71, impl/AbstractUnpooledPartition.java:59, impl/ByteBufferPartition.java:81 and impl/UnsafeBufferPartition.java:162.
- Partitions.ByteBufferUnpooledPartition.Close: frees every registered slice in one step and empties the registry. Java iterates the `ConcurrentHashMap`'s values (impl/AbstractUnpooledPartition.java:23-24) in its own bucket order. The result does not depend on the order, because each slice's release touches only that slice.
- Selectors.ThreadLocalSelector.Free: the statistics `System.out.println` (selector/ThreadLocalPartitionSliceSelector.java:77) is dropped. The counters it prints are kept.
- BufferUtils.IsDigit: accepts the ASCII digits '0'..'9' only. Java's `Character.isDigit` and `Long.parseLong` also accept other Unicode decimal digits, so a descriptor written with, say, Arabic-Indic digits parses in Java but is rejected with IllegalArgument here.
- BufferUtils.IsPowerOfTwo: `BufferUtils.isPowerOfTwo`, which PartitionBufferBuilder.java calls, is not part of this model, because BufferUtils.java does not define it. The standard test, v > 0 and v & (v - 1) == 0, stands in for it. `BufferUtils.IsPowerOfTwoCorrect` proves it equals "v is 2^k".

### Not modelled

- FixedLengthBitSet.firstSet/nextSet (impl/FixedLengthBitSet.java:90-108): no core operation calls them. `nextSet` compares a masked word with 1, so it can report only bit 0.
- FixedLengthBitSet.hashCode/equals (impl/FixedLengthBitSet.java:151-170): object identity, not behaviour.
- PartitionBufferImpl float and double paths (`readFloat`, `readDouble`, `writeFloat`, `writeDouble`, impl/PartitionBufferImpl.java:60-68,150-158): floating point and bit casts are out of scope. `writeDouble` also calls itself.
- PartitionBufferImpl.writeByteBuffer/writeRingBuffer (impl/PartitionBufferImpl.java:127-143): empty bodies with nothing to model.
- Getters with no logic (`isPooled`, `isClosed`, `getSliceByteSize`, `getPartitionIndex`), the `PartitionStrategy` enum, `UnsafeUnpooledPartition` and `UnsupportedOperationSystemException`: these are declarations and wiring.
- The stream adapters in io/, slf4j logging, and the commented-out `println`s of impl/UnsafeBufferPartition.java: I/O and logging.
- The tests' timing and threading harnesses (Benchmarker, CaliperBenchmarker, MultiThreadingTestCase): the tests that state behaviour are modelled as scenario lemmas.

## Findings

| source | as written | input that shows it | evidently intended | confidence | as-written member | corrected member |
|---|---|---|---|---|---|---|
| directringcache-module/src/main/java/com/github/directringcache/impl/Buffers.java:62-64 | `isPowerOfTwo` is `value > 0 && (value & (value - 1)) != 0` | sliceByteSize 4 is refused ("not a power of 2"); 3 is accepted | `== 0`, the standard test | high, not executed | Buffers.PowerOfTwoTestInverted, Buffers.AsWrittenRejectsPowersOfTwo, Buffers.AsWrittenAcceptsOddSizes | BufferUtils.IsPowerOfTwoCorrect, Buffers.ConsistentAllocationAccepted |
| directringcache-module/src/main/java/com/github/directringcache/impl/BufferUtils.java:7-10 | `KILOBYTE_BYTE_SIZE = 1024 * 1024`; each larger unit is a further 1024 times that | as written, "10K" is 1 048 576 bytes (the kept prefix "1" times 2^20) | 1024, with each unit 1024 times the one before | high, not executed | BufferUtils.AsWrittenDescriptorMeaning | BufferUtils.IntendedDescriptorRoundTrip |
| directringcache-module/src/main/java/com/github/directringcache/impl/BufferUtils.java:137-143 | the number is `descriptor.substring(0, length - 2)`, so the digit before the unit is dropped | "512K" parses as 51 units; "1M" gives `parseLong("")`, a NumberFormatException | `substring(0, length - 1)` | high, not executed | BufferUtils.DescriptorAsWrittenExample, BufferUtils.AsWrittenRejectsOneDigit, BufferUtils.AsWrittenRejectsBareUnit | BufferUtils.IntendedDescriptorRoundTrip |
| directringcache-module/src/main/java/com/github/directringcache/impl/BufferUtils.java:177-180 | `buildLong` shifts `b & 0xFF` as an int, so the shift counts 32..56 wrap to 0..24 | big-endian `putLong(0x1_0000_0000)` then `getLong()` gives 1 | shift `(long) (b & 0xFF)` | high, not executed | BufferUtils.LongRoundTripAsWrittenFails, LogicalBuffer.LongWrittenReadsBackAsWritten | BufferUtils.LongRoundTrip, LogicalBuffer.LongWrittenReadsBack |
| directringcache-module/src/main/java/com/github/directringcache/impl/PartitionBufferPoolImpl.java:67-71 | `getAllocatedMemory()` multiplies `int` factors before widening to `long` | 4 partitions of 1024 slices of 1 MiB report 0 bytes | widen before multiplying | high, not executed | Pools.AllocatedMemoryAsWrittenOverflows, Buffers.FourGigabytePoolMisreported | Pools.AllocatedMemory, Buffers.AcceptedPoolMemory |
| directringcache-module/src/main/java/com/github/directringcache/impl/PartitionBufferImpl.java:240,252 | the offset inside a slice is `position % sliceIndex` | position 1 (slice 0) throws ArithmeticException; position 5 with 4-byte slices lands on offset 0 | `position % sliceByteSize` | high, not executed | PartitionBuffers.OffsetAsWrittenMisplaces, PartitionBuffers.PutAsWrittenMisplaces | PartitionBuffers.TranslationExact, PartitionBuffers.PutAtStores |
| directringcache-module/src/main/java/com/github/directringcache/impl/PartitionBufferImpl.java:237-239 | grows only when `sliceIndex > slices.length` | a put at the first position past the last slice throws ArrayIndexOutOfBounds | `>=`, growing to `sliceIndex + 1` | high, not executed | PartitionBuffers.PutAsWrittenNeverGrows | PartitionBuffers.PutAtStores, PartitionBuffers.WriteThenRead |
| directringcache-module/src/main/java/com/github/directringcache/impl/PartitionBufferImpl.java:24,260-262 | the constructor's `resize(1)` copies from the null `slices` array, and stores at `temp[temp.length]` | `new PartitionBufferImpl(pool, order)` throws NullPointerException | start from an empty array and store at `temp[newSize - 1]` | high, not executed | PartitionBuffers.ConstructorAsWrittenFails | PartitionBuffers.Initial, PartitionBuffers.InitialFresh, LogicalBuffer.PartitionBuffer.constructor |
| directringcache-module/src/main/java/com/github/directringcache/impl/PartitionBufferImpl.java:248 | `read(position)` refuses only `position > writerIndex` | with two 4-byte slices and writer index 6 (positions 0 to 5 written), reading the unwritten position 6 returns 0 | refuse `position >= writerIndex` | medium, not executed | PartitionBuffers.ReadAtAsWritten, PartitionBuffers.PutAsWrittenMisplaces | PartitionBuffers.ReadAtReads |
| directringcache-module/src/main/java/com/github/directringcache/PartitionBufferBuilder.java:53,73,93 | the descriptor overloads parse with the as-written `descriptorToByteSize` | `allocatePool("1M", 4, "256K")` throws IllegalArgumentException, and "512K" is refused as a slice size | four partitions of one 256 KiB slice | high, not executed | PoolBuilder.DescriptorAllocationAsWrittenExample, PoolBuilder.HalfMegabyteSliceAsWritten | PoolBuilder.DescriptorAllocationExample, PoolBuilder.HalfMegabyteSlice, PoolBuilder.DescriptorAllocation |
| directringcache-module/src/test/java/com/github/directringcache/PartitionBufferTestCase.java:39 | the test allocates `allocatePool("500M", 50, "512K")` | rejected as written ("512K" is no power of two) and as intended (500 MiB is no power of two) | not modelled: no intended pool geometry for this call can be derived from the code | medium, not executed | PoolBuilder.FiveHundredMegabytePoolRejected | not modelled: the test's intended geometry is unknown |
| directringcache-module/src/test/java/com/github/directringcache/PartitionBufferTestCase.java:52 | the test expects `capacity()` to be 2S + 1 after 2S + 1 writes | `capacity()` sums the slices' `writerIndex()` (PartitionBufferImpl.java:195-202), and the positional puts behind `writeByte` never move a slice's writer index, so it stays 0 after 2S + 1 writes | not modelled: no variant of the buffer computes 2S + 1 here, so the intended definition of `capacity()` is unknown | medium, not executed | PartitionBuffers.GrowthAsTested | not modelled: the intended `capacity()` is unknown |
| directringcache-module/src/test/java/com/github/directringcache/FixedLengthBitSetTestCase.java:13-26 | the test expects `nextNotSet(0)` to be -1 once all 100 bits are set | the scan reports the padding position 100 of the second word | a scan bounded by `size()` that returns -1 once every slot is set | high, not executed | BitSet.RanOutOfBitsScenario | BitSet.RanOutOfBitsWithin (BitSet.FixedLengthBitSet.NextNotSetWithin) |
| directringcache-module/src/test/java/com/github/directringcache/FixedLengthBitSetTestCase.java:47-62 | the test expects `nextNotSet(128)` to wrap round to the cleared bit 6 | with 129 bits, `nextNotSet(128)` reports the padding position 129 | a bounded scan that wraps round to position 0 | high, not executed | BitSet.WrapScenario | BitSet.WrapScenarioWrapping (BitSet.FixedLengthBitSet.NextNotSetWrapping) |
| directringcache-module/src/main/java/com/github/directringcache/impl/ByteBufferPartition.java:99-106 | `nextSlice()` falls back to nothing when `nextNotSet(index + 1)` finds no clear bit | 128 slots, only slot 0 free, cursor 70: `get()` returns null | fall back to `firstNotSet()`, as Partition.java:54-56 and UnsafeBufferPartition.java:209-212 do | medium, not executed | LegacyPartitions.RotatingMissesFreeSlot | LegacyPartitions.FallbackMissesOnlyWhenFull (the other variants' fallback) |
| directringcache-module/src/main/java/com/github/directringcache/impl/FixedLengthBitSet.java:74-88 | `nextNotSet` scans the padding bits of the last word | 70 slots, 64..69 in use, cursor 65: every legacy `get()` claims position 70 and then throws | a scan bounded by `size()`, which never reports padding | medium, not executed | LegacyPartitions.GetCanClaimPadding | BitSet.FixedLengthBitSet.NextNotSetWithin |
| directringcache-module/src/main/java/com/github/directringcache/impl/PartitionBufferPoolImpl.java:51 | `freeSlice` calls `free(slice, selector)`, which spi/Partition.java:16 does not declare | the call does not compile, so no input reaches it | the partition releases the slice and the selector learns of it | high, not executed | not modelled: code that does not compile has no behaviour | Pools.PartitionBufferPool.FreeSlice |
| directringcache-module/src/main/java/com/github/directringcache/impl/AbstractPooledPartition.java:87 | `close()` calls `close0()`, which no class defines | the call does not compile | a one-shot close that frees every slice | high, not executed | not modelled: code that does not compile has no behaviour | Partitions.AbstractPooledPartition.Close |
| directringcache-module/src/main/java/com/github/directringcache/impl/AbstractUnpooledPartition.java:64 | `free` calls `bufferPartitionSlices.remove(partitionSlice)` on a map keyed by Integer, so nothing is removed | a freed slice stays in the registry, and a `close()` (once `close0` exists) frees it again | remove by the slice's id | medium, not executed | Partitions.UnpooledFreeScenario (Partitions.ByteBufferUnpooledPartition.Free) | Partitions.ByteBufferUnpooledPartition.FreeById |
| directringcache-module/src/main/java/com/github/directringcache/impl/Partition.java:14-19 | the constructor never fills `slices` | `get()` on a new partition returns null | one slice per index over the shared buffer | high, not executed | LegacyPartitions.NewPartitionGetScenario (LegacyPartitions.Partition.Get) | LegacyPartitions.Partition.Filling (with LegacyPartitions.OldestGetServesFreeSlot) |
| directringcache-module/src/main/java/com/github/directringcache/impl/PartitionBufferPoolImpl.java:55-65 | `getPartitionBuffer()` returns `new PartitionBufferImpl(this, BIG_ENDIAN)`, whose constructor takes a `Buffers.PartitionBufferPoolImpl` | the call does not type-check, so no input reaches it | a logical buffer fed by this pool | high, not executed | not modelled: code that does not type-check has no behaviour | LogicalBuffer.PartitionBuffer.constructor (over a slice pool) |
| directringcache-module/src/main/java/com/github/directringcache/PartitionBufferBuilder.java:131 | every pool a builder allocates gets the builder's one selector, which keeps `Partition` objects and one claim table | pools of 2, 4 and 1 partitions: thread 7 asking the second pool is served from the first pool's partition 0; thread 8 asking the third pool fails with IndexOutOfBounds although its partition is free | a selector state per pool | medium, not executed | PoolBuilder.SharedSelectorCrossesPools (PoolBuilder.SharedThreadLocalStep) | PoolBuilder.OwnSelectorStaysInPool (Pools.PartitionBufferPool keeps its selector state sized to its own partitions) |

=== FILE: bitset.dfy ===
/**
 * FixedLengthBitSet: a `long[]` of ceil(bits / 64) words used by the partitions
 * to record which slices are handed out.
 *
 * A `long` word is represented by its 64 bits, least significant first, so that
 * `words[i / 64] |= 1L << i` is an update of bit `i % 64` of word `i / 64`
 * (Java masks the shift distance of a `long` shift to its low six bits, which is
 * `i % 64` for the non-negative indices that pass the range check).
 */
module BitSet {
  import opened Errors
  import BufferUtils

  type Word = w: seq<bool> | |w| == 64 witness seq(64, _ => false)

  const ZeroWord: Word := seq(64, _ => false)

  /** Long.bitCount: the number of set bits. */
  function PopCount(s: seq<bool>): (n: nat)
    ensures n <= |s|
  {
    if s == [] then 0 else PopCount(s[..|s| - 1]) + (if s[|s| - 1] then 1 else 0)
  }

  /** The length of the word array for `bits` bits: ceil(bits / 64). */
  function WordCount(bits: nat): (n: nat)
    ensures bits <= 64 * n < bits + 64
  {
    if bits % 64 == 0 then bits / 64 else bits / 64 + 1
  }

  /** The bits of a word array: position p is bit p % 64 of word p / 64. */
  function BitsOf(ws: seq<Word>): (s: seq<bool>)
    ensures |s| == 64 * |ws|
  {
    seq(64 * |ws|, p requires 0 <= p < 64 * |ws| => ws[p / 64][p % 64])
  }

  /** The sum of Long.bitCount over a word array. */
  function TotalPopCount(ws: seq<Word>): nat
  {
    if ws == [] then 0 else TotalPopCount(ws[..|ws| - 1]) + PopCount(ws[|ws| - 1])
  }

  /** The lowest clear position at or above `from`, or -1 when there is none. */
  function FirstClear(s: seq<bool>, from: nat): int
    decreases |s| - from
  {
    if from >= |s| then -1 else if !s[from] then from else FirstClear(s, from + 1)
  }

  /** The bulk operations and, andNot, or and xor, bit by bit. */
  datatype BulkOp = AndOp | AndNotOp | OrOp | XorOp

  function Apply(op: BulkOp, a: bool, b: bool): bool
  {
    match op
    case AndOp => a && b
    case AndNotOp => a && !b
    case OrOp => a || b
    case XorOp => a != b
  }

  function ApplyWord(op: BulkOp, a: Word, b: Word): Word
  {
    seq(64, k requires 0 <= k < 64 => Apply(op, a[k], b[k]))
  }

  /** The receiver's words after a bulk operation with an operand of no more words. */
  function CombineWords(op: BulkOp, a: seq<Word>, b: seq<Word>): (r: seq<Word>)
    requires |b| <= |a|
    ensures |r| == |a|
  {
    seq(|a|, i requires 0 <= i < |a| => if i < |b| then ApplyWord(op, a[i], b[i]) else a[i])
  }

  // ----- lemmas about the bit views -----

  lemma {:induction false} PopCountAppend(a: seq<bool>, b: seq<bool>)
    ensures PopCount(a + b) == PopCount(a) + PopCount(b)
    decreases |b|
  {
    if b == [] {
      assert a + b == a;
    } else {
      assert (a + b)[..|a + b| - 1] == a + b[..|b| - 1];
      PopCountAppend(a, b[..|b| - 1]);
    }
  }

  /** A word, or any bit sequence, is full exactly when its population count is its length. */
  lemma {:induction false} PopCountFull(s: seq<bool>)
    ensures PopCount(s) == |s| <==> forall p :: 0 <= p < |s| ==> s[p]
  {
    if s != [] {
      PopCountFull(s[..|s| - 1]);
      if PopCount(s) == |s| {
        assert s[|s| - 1];
        forall p | 0 <= p < |s| ensures s[p] {
          if p < |s| - 1 { assert s[p] == s[..|s| - 1][p]; }
        }
      }
      if forall p :: 0 <= p < |s| ==> s[p] {
        var init := s[..|s| - 1];
        assert forall p :: 0 <= p < |init| ==> init[p];
      }
    }
  }

  lemma {:induction false} PopCountNone(s: seq<bool>)
    requires forall p :: 0 <= p < |s| ==> !s[p]
    ensures PopCount(s) == 0
  {
    if s != [] {
      var init := s[..|s| - 1];
      assert forall p :: 0 <= p < |init| ==> !init[p];
      PopCountNone(init);
    }
  }

  /** Changing one bit changes the population count by at most one, as the bits say. */
  lemma {:induction false} PopCountUpdate(s: seq<bool>, i: nat, v: bool)
    requires i < |s|
    ensures PopCount(s[i := v]) == PopCount(s) - (if s[i] then 1 else 0) + (if v then 1 else 0)
  {
    var t := s[i := v];
    assert s == s[..i] + [s[i]] + s[i + 1..];
    assert t == s[..i] + [v] + s[i + 1..];
    PopCountAppend(s[..i] + [s[i]], s[i + 1..]);
    PopCountAppend(s[..i], [s[i]]);
    PopCountAppend(s[..i] + [v], s[i + 1..]);
    PopCountAppend(s[..i], [v]);
    assert PopCount([s[i]]) == (if s[i] then 1 else 0) by { assert [s[i]][..0] == []; }
    assert PopCount([v]) == (if v then 1 else 0) by { assert [v][..0] == []; }
  }

  lemma BitsOfAppend(ws: seq<Word>, w: Word)
    ensures BitsOf(ws + [w]) == BitsOf(ws) + w
  {
    var l, r := BitsOf(ws + [w]), BitsOf(ws) + w;
    forall p | 0 <= p < |l| ensures l[p] == r[p] {
      if p < 64 * |ws| {
        assert p / 64 < |ws|;
      } else {
        assert p / 64 == |ws| && p % 64 == p - 64 * |ws|;
      }
    }
  }

  /** Positions 64 * i up to 64 * i + b of the bits are the first b bits of word i. */
  lemma BitsOfWord(ws: seq<Word>, i: nat, b: nat)
    requires i < |ws| && b <= 64
    ensures forall p :: 64 * i <= p < 64 * i + b ==> BitsOf(ws)[p] == ws[i][p - 64 * i]
  {
    forall p | 64 * i <= p < 64 * i + b
      ensures BitsOf(ws)[p] == ws[i][p - 64 * i]
    {
      assert p / 64 == i && p % 64 == p - 64 * i;
    }
  }

  /** cardinality() counts exactly the set positions of the word array. */
  lemma {:induction false} CardinalityCountsBits(ws: seq<Word>)
    ensures TotalPopCount(ws) == PopCount(BitsOf(ws))
  {
    if ws != [] {
      var init := ws[..|ws| - 1];
      assert ws == init + [ws[|ws| - 1]];
      CardinalityCountsBits(init);
      BitsOfAppend(init, ws[|ws| - 1]);
      PopCountAppend(BitsOf(init), ws[|ws| - 1]);
    }
  }

  /** Updating bit i % 64 of word i / 64 updates exactly position i of the bit view. */
  lemma BitsOfUpdate(ws: seq<Word>, i: nat, v: bool)
    requires i < 64 * |ws|
    ensures BitsOf(ws[i / 64 := ws[i / 64][i % 64 := v]]) == BitsOf(ws)[i := v]
  {
    var l, r := BitsOf(ws[i / 64 := ws[i / 64][i % 64 := v]]), BitsOf(ws)[i := v];
    forall p | 0 <= p < |l| ensures l[p] == r[p] {
      if p / 64 == i / 64 && p % 64 == i % 64 {
        assert p == i;
      }
    }
  }

  /** The bulk operation combines position p with the operand's position p, for the operand's words only. */
  lemma BitsOfCombine(op: BulkOp, a: seq<Word>, b: seq<Word>, p: nat)
    requires |b| <= |a| && p < 64 * |a|
    ensures BitsOf(CombineWords(op, a, b))[p]
         == if p < 64 * |b| then Apply(op, BitsOf(a)[p], BitsOf(b)[p]) else BitsOf(a)[p]
  {
    if p < 64 * |b| {
      assert p / 64 < |b|;
    } else {
      assert p / 64 >= |b|;
    }
  }

  /** FirstClear finds the lowest clear position at or above `from`. */
  lemma {:induction false} FirstClearSpec(s: seq<bool>, from: nat)
    ensures var r := FirstClear(s, from);
      (r == -1 <==> forall p :: from <= p < |s| ==> s[p]) &&
      (r != -1 ==> from <= r < |s| && !s[r] && forall p :: from <= p < r ==> s[p])
    decreases |s| - from
  {
    if from < |s| && s[from] {
      FirstClearSpec(s, from + 1);
    }
  }

  /** Conversely, a clear position q with every position in [from, q) set is FirstClear(s, from). */
  lemma FirstClearIs(s: seq<bool>, from: nat, q: int)
    requires q == -1 ==> forall p :: from <= p < |s| ==> s[p]
    requires q != -1 ==> from <= q < |s| && !s[q] && forall p :: from <= p < q ==> s[p]
    ensures FirstClear(s, from) == q
  {
    FirstClearSpec(s, from);
  }

  /**
   * With no padding position set, the population count reaches `bits` exactly when
   * every one of the first `bits` positions is set.
   */
  lemma FullIffAllSet(s: seq<bool>, bits: nat)
    requires bits <= |s|
    requires forall p :: bits <= p < |s| ==> !s[p]
    ensures PopCount(s) <= bits
    ensures PopCount(s) == bits <==> forall p :: 0 <= p < bits ==> s[p]
  {
    assert s == s[..bits] + s[bits..];
    PopCountAppend(s[..bits], s[bits..]);
    PopCountNone(s[bits..]);
    PopCountFull(s[..bits]);
    assert forall p :: 0 <= p < bits ==> s[..bits][p] == s[p];
  }

  /** Java's `int` division truncates toward zero. */
  function JavaDiv(a: int, b: int): (q: int)
    requires b > 0
    ensures a >= 0 ==> q == a / b
    ensures a < 0 ==> q == -((-a) / b)
  {
    if a >= 0 then a / b else -((-a) / b)
  }

  class FixedLengthBitSet {
    const bits: nat
    const words: array<Word>

    ghost predicate Valid()
    {
      words.Length == WordCount(bits)
    }

    /** Every position of the word array, the padding above `bits` included. */
    ghost function Bits(): (s: seq<bool>)
      reads words
      ensures |s| == 64 * words.Length
    {
      BitsOf(words[..])
    }

    /** No position at or above `bits` is set. */
    ghost predicate NoPadding()
      reads words
    {
      forall p :: bits <= p < 64 * words.Length ==> !Bits()[p]
    }

    /** The indices that the range check lets through and the word array can hold (i == bits included). */
    predicate Addressable(bitIndex: int)
    {
      0 <= bitIndex <= bits && bitIndex / 64 < words.Length
    }

    constructor (bits: nat)
      ensures Valid() && this.bits == bits && fresh(words)
      ensures Bits() == seq(64 * words.Length, _ => false)
    {
      this.bits := bits;
      words := new Word[WordCount(bits)](_ => ZeroWord);
    }

    /** size() */
    function Size(): (n: nat)
      ensures n == bits
    {
      bits
    }

    /** get(bitIndex): the bit at that position, after the range check. */
    function Get(bitIndex: int): (r: Result<bool>)
      requires Valid()
      reads words
      ensures Addressable(bitIndex) ==> r == Ok(Bits()[bitIndex])
      ensures !Addressable(bitIndex) ==> r == Err(IndexOutOfBounds)
    {
      if BufferUtils.RangeCheck(bitIndex, 0, bits).Fail? then Err(IndexOutOfBounds)
      else if bitIndex / 64 >= words.Length then Err(IndexOutOfBounds)
      else Ok(words[bitIndex / 64][bitIndex % 64])
    }

    /** Writes `value` at an addressable position; shared by set, clear and flip. */
    method Store(bitIndex: int, value: bool) returns (r: Outcome)
      requires Valid()
      modifies words
      ensures Addressable(bitIndex) ==> r == Pass && Bits() == old(Bits())[bitIndex := value]
      ensures !Addressable(bitIndex) ==> r == Fail(IndexOutOfBounds) && words[..] == old(words[..])
    {
      r := BufferUtils.RangeCheck(bitIndex, 0, bits);
      if r.Fail? {
        return;
      }
      var index := bitIndex / 64;
      if index >= words.Length {
        return Fail(IndexOutOfBounds);
      }
      BitsOfUpdate(words[..], bitIndex, value);
      words[index] := words[index][bitIndex % 64 := value];
      assert words[..] == old(words[..])[index := old(words[index])[bitIndex % 64 := value]];
    }

    /** set(bitIndex) */
    method Set(bitIndex: int) returns (r: Outcome)
      requires Valid()
      modifies words
      ensures Addressable(bitIndex) ==> r == Pass && Bits() == old(Bits())[bitIndex := true]
      ensures !Addressable(bitIndex) ==> r == Fail(IndexOutOfBounds) && words[..] == old(words[..])
    {
      r := Store(bitIndex, true);
    }

    /** clear(bitIndex) */
    method Clear(bitIndex: int) returns (r: Outcome)
      requires Valid()
      modifies words
      ensures Addressable(bitIndex) ==> r == Pass && Bits() == old(Bits())[bitIndex := false]
      ensures !Addressable(bitIndex) ==> r == Fail(IndexOutOfBounds) && words[..] == old(words[..])
    {
      r := Store(bitIndex, false);
    }

    /** flip(bitIndex) */
    method Flip(bitIndex: int) returns (r: Outcome)
      requires Valid()
      modifies words
      ensures Addressable(bitIndex) ==> r == Pass && Bits() == old(Bits())[bitIndex := !old(Bits())[bitIndex]]
      ensures !Addressable(bitIndex) ==> r == Fail(IndexOutOfBounds) && words[..] == old(words[..])
    {
      var current := Get(bitIndex);
      if current.Err? {
        return Fail(current.error);
      }
      r := Store(bitIndex, !current.value);
    }

    /** set(bitIndex, value): set when value holds, clear otherwise. */
    method SetTo(bitIndex: int, value: bool) returns (r: Outcome)
      requires Valid()
      modifies words
      ensures Addressable(bitIndex) ==> r == Pass && Bits() == old(Bits())[bitIndex := value]
      ensures !Addressable(bitIndex) ==> r == Fail(IndexOutOfBounds) && words[..] == old(words[..])
    {
      if value {
        r := Set(bitIndex);
      } else {
        r := Clear(bitIndex);
      }
    }

    /** testAndSet(bitIndex): sets a clear bit and reports whether it was clear. */
    method TestAndSet(bitIndex: int) returns (r: Result<bool>)
      requires Valid()
      modifies words
      ensures Addressable(bitIndex) ==> r == Ok(!old(Bits())[bitIndex]) && Bits() == old(Bits())[bitIndex := true]
      ensures !Addressable(bitIndex) ==> r == Err(IndexOutOfBounds) && words[..] == old(words[..])
    {
      var current := Get(bitIndex);
      if current.Err? {
        return Err(current.error);
      }
      if current.value {
        assert old(Bits())[bitIndex := true] == old(Bits());
        return Ok(false);
      }
      var stored := Set(bitIndex);
      r := Ok(true);
    }

    /** reset(): every word becomes zero. */
    method Reset()
      requires Valid()
      modifies words
      ensures Bits() == seq(64 * words.Length, _ => false)
    {
      var i := 0;
      while i < words.Length
        invariant 0 <= i <= words.Length
        invariant forall j :: 0 <= j < i ==> words[j] == ZeroWord
      {
        words[i] := ZeroWord;
        i := i + 1;
      }
    }

    /**
     * cardinality(): the number of set positions, padding included. Java sums into an
     * int, which cannot wrap while fewer than 2^31 positions are set; reaching 2^31 needs
     * bits == 2^31 - 1 with every position and the padding position `bits` set. The
     * model counts with an unbounded integer.
     */
    method Cardinality() returns (count: int)
      requires Valid()
      ensures count == PopCount(Bits())
    {
      count := 0;
      var i := 0;
      while i < words.Length
        invariant 0 <= i <= words.Length
        invariant count == TotalPopCount(words[..i])
      {
        assert words[..i + 1][..i] == words[..i];
        count := count + PopCount(words[i]);
        i := i + 1;
      }
      assert words[..i] == words[..];
      CardinalityCountsBits(words[..]);
    }

    /** isEmpty(): despite its name, true exactly when size() == cardinality(). */
    method IsEmpty() returns (full: bool)
      requires Valid()
      ensures full <==> PopCount(Bits()) == bits
    {
      var count := Cardinality();
      full := Size() - count == 0;
    }

    /**
     * nextNotSet(bitIndex): scans from bit 0 of word bitIndex / 64 (Java division),
     * skipping full words, and reports the lowest clear position found, which may be
     * padding, or -1. A word index below zero indexes the array out of bounds.
     */
    method NextNotSet(bitIndex: int) returns (r: Result<int>)
      requires Valid()
      ensures JavaDiv(bitIndex, 64) < 0 ==> r == Err(IndexOutOfBounds)
      ensures JavaDiv(bitIndex, 64) >= 0 ==> r == Ok(FirstClear(Bits(), 64 * JavaDiv(bitIndex, 64)))
    {
      var index := JavaDiv(bitIndex, 64);
      if index < 0 {
        return Err(IndexOutOfBounds);
      }
      var i := index;
      while i < words.Length
        invariant index <= i
        invariant i <= words.Length || i == index
        invariant forall p :: 64 * index <= p < 64 * i && p < |Bits()| ==> Bits()[p]
      {
        PopCountFull(words[i]);
        if PopCount(words[i]) == 64 {
          BitsOfWord(words[..], i, 64);
          i := i + 1;
          continue;
        }
        var bit := 0;
        while bit < 64 && words[i][bit]
          invariant 0 <= bit <= 64
          invariant forall b :: 0 <= b < bit ==> words[i][b]
        {
          bit := bit + 1;
        }
        assert bit < 64;
        BitsOfWord(words[..], i, bit + 1);
        FirstClearIs(Bits(), 64 * index, 64 * i + bit);
        return Ok(64 * i + bit);
      }
      FirstClearIs(Bits(), 64 * index, -1);
      return Ok(-1);
    }

    /** firstNotSet() is nextNotSet(0). */
    method FirstNotSet() returns (r: int)
      requires Valid()
      ensures r == FirstClear(Bits(), 0)
    {
      var next := NextNotSet(0);
      r := next.value;
    }

    /**
     * The scan the test suite expects of nextNotSet(bitIndex): from bit 0 of word
     * bitIndex / 64 as before, but only over the first size() positions, so that -1
     * means every slot is in use and padding is never reported.
     */
    method NextNotSetWithin(bitIndex: int) returns (r: Result<int>)
      requires Valid()
      ensures JavaDiv(bitIndex, 64) < 0 ==> r == Err(IndexOutOfBounds)
      ensures JavaDiv(bitIndex, 64) >= 0 ==> r == Ok(FirstClear(Bits()[..bits], 64 * JavaDiv(bitIndex, 64)))
      ensures r.Ok? && r.value != -1 ==> Get(r.value) == Ok(false)
    {
      var index := JavaDiv(bitIndex, 64);
      if index < 0 {
        return Err(IndexOutOfBounds);
      }
      ghost var s := Bits()[..bits];
      var p := 64 * index;
      while p < bits && words[p / 64][p % 64]
        invariant 64 * index <= p
        invariant forall q :: 64 * index <= q < p && q < bits ==> s[q]
      {
        p := p + 1;
      }
      if p < bits {
        FirstClearIs(s, 64 * index, p);
        return Ok(p);
      }
      FirstClearIs(s, 64 * index, -1);
      return Ok(-1);
    }

    /**
     * The wrapping scan the test suite expects: the bounded scan from bitIndex's word
     * and, when that finds nothing, the bounded scan from position 0.
     */
    method NextNotSetWrapping(bitIndex: int) returns (r: Result<int>)
      requires Valid()
      ensures JavaDiv(bitIndex, 64) < 0 ==> r == Err(IndexOutOfBounds)
      ensures JavaDiv(bitIndex, 64) >= 0 ==>
        var ahead := FirstClear(Bits()[..bits], 64 * JavaDiv(bitIndex, 64));
        r == Ok(if ahead != -1 then ahead else FirstClear(Bits()[..bits], 0))
      ensures r == Ok(-1) <==> JavaDiv(bitIndex, 64) >= 0 && forall p :: 0 <= p < bits ==> Bits()[p]
      ensures r.Ok? && r.value != -1 ==> Get(r.value) == Ok(false)
    {
      ghost var s := Bits()[..bits];
      assert forall p :: 0 <= p < bits ==> s[p] == Bits()[p];
      r := NextNotSetWithin(bitIndex);
      if r == Ok(-1) {
        r := NextNotSetWithin(0);
        FirstClearSpec(s, 0);
      } else if r.Ok? {
        FirstClearSpec(s, 64 * JavaDiv(bitIndex, 64));
        assert !Bits()[r.value];
      }
    }

    /**
     * and/andNot/or/xor: an operand with more words than the receiver is rejected;
     * otherwise the first operand.words.Length words are combined in place.
     */
    method Combine(op: BulkOp, bitSet: FixedLengthBitSet) returns (r: Outcome)
      requires Valid() && bitSet.Valid()
      modifies words
      ensures words.Length < bitSet.words.Length ==> r == Fail(IndexOutOfBounds) && words[..] == old(words[..])
      ensures words.Length >= bitSet.words.Length ==>
        r == Pass && words[..] == CombineWords(op, old(words[..]), old(bitSet.words[..]))
    {
      if words.Length < bitSet.words.Length {
        return Fail(IndexOutOfBounds);
      }
      var i := 0;
      while i < bitSet.words.Length
        invariant 0 <= i <= bitSet.words.Length
        invariant forall j :: 0 <= j < i ==> words[j] == ApplyWord(op, old(words[j]), old(bitSet.words[j]))
        invariant forall j :: i <= j < words.Length ==> words[j] == old(words[j])
        invariant forall j :: i <= j < bitSet.words.Length ==> bitSet.words[j] == old(bitSet.words[j])
      {
        words[i] := ApplyWord(op, words[i], bitSet.words[i]);
        i := i + 1;
      }
      return Pass;
    }

    method And(bitSet: FixedLengthBitSet) returns (r: Outcome)
      requires Valid() && bitSet.Valid()
      modifies words
      ensures words.Length < bitSet.words.Length ==> r == Fail(IndexOutOfBounds) && words[..] == old(words[..])
      ensures words.Length >= bitSet.words.Length ==>
        r == Pass && words[..] == CombineWords(AndOp, old(words[..]), old(bitSet.words[..]))
    {
      r := Combine(AndOp, bitSet);
    }

    method AndNot(bitSet: FixedLengthBitSet) returns (r: Outcome)
      requires Valid() && bitSet.Valid()
      modifies words
      ensures words.Length < bitSet.words.Length ==> r == Fail(IndexOutOfBounds) && words[..] == old(words[..])
      ensures words.Length >= bitSet.words.Length ==>
        r == Pass && words[..] == CombineWords(AndNotOp, old(words[..]), old(bitSet.words[..]))
    {
      r := Combine(AndNotOp, bitSet);
    }

    method Or(bitSet: FixedLengthBitSet) returns (r: Outcome)
      requires Valid() && bitSet.Valid()
      modifies words
      ensures words.Length < bitSet.words.Length ==> r == Fail(IndexOutOfBounds) && words[..] == old(words[..])
      ensures words.Length >= bitSet.words.Length ==>
        r == Pass && words[..] == CombineWords(OrOp, old(words[..]), old(bitSet.words[..]))
    {
      r := Combine(OrOp, bitSet);
    }

    method Xor(bitSet: FixedLengthBitSet) returns (r: Outcome)
      requires Valid() && bitSet.Valid()
      modifies words
      ensures words.Length < bitSet.words.Length ==> r == Fail(IndexOutOfBounds) && words[..] == old(words[..])
      ensures words.Length >= bitSet.words.Length ==>
        r == Pass && words[..] == CombineWords(XorOp, old(words[..]), old(bitSet.words[..]))
    {
      r := Combine(XorOp, bitSet);
    }
  }

  /** The first k of m positions set, the rest clear. */
  function Prefix(m: nat, k: nat): (s: seq<bool>)
    ensures |s| == m
  {
    seq(m, p => p < k)
  }

  lemma PrefixStep(m: nat, k: nat)
    requires k < m
    ensures Prefix(m, k)[k := true] == Prefix(m, k + 1)
  {
  }

  lemma PrefixPopCount(m: nat, k: nat)
    requires k <= m
    ensures PopCount(Prefix(m, k)) == k
  {
    FullIffAllSet(Prefix(m, k), k);
  }

  /**
   * The fill loop of the test suite over an empty bitset: for i = 0, 1, ..., bits - 1,
   * nextNotSet(i) finds i, testAndSet claims it, and cardinality() is then i + 1.
   */
  method FillInOrder(bitSet: FixedLengthBitSet) returns (indices: seq<int>, counts: seq<int>)
    requires bitSet.Valid() && bitSet.Bits() == Prefix(64 * bitSet.words.Length, 0)
    modifies bitSet.words
    ensures indices == seq(bitSet.bits, i => i)
    ensures counts == seq(bitSet.bits, i => i + 1)
    ensures bitSet.Bits() == Prefix(64 * bitSet.words.Length, bitSet.bits)
  {
    indices, counts := [], [];
    var i := 0;
    while i < bitSet.bits
      invariant 0 <= i <= bitSet.bits
      invariant bitSet.Bits() == Prefix(64 * bitSet.words.Length, i)
      invariant indices == seq(i, j => j) && counts == seq(i, j => j + 1)
    {
      var index, count := FillStep(bitSet, i);
      assert seq(i + 1, j => j) == seq(i, j => j) + [i];
      assert seq(i + 1, j => j + 1) == seq(i, j => j + 1) + [i + 1];
      indices, counts := indices + [index], counts + [count];
      i := i + 1;
    }
  }

  /** Over the first i of `bits` positions set, the scan from i's word finds i. */
  lemma FillFindsNext(wordCount: nat, bits: nat, i: nat)
    requires wordCount == WordCount(bits) && i < bits
    ensures JavaDiv(i, 64) == i / 64 && i / 64 < wordCount
    ensures FirstClear(Prefix(64 * wordCount, i), 64 * (i / 64)) == i
  {
    assert 64 * (i / 64) <= i < 64 * wordCount;
    FirstClearIs(Prefix(64 * wordCount, i), 64 * (i / 64), i);
  }

  /** One turn of the fill loop: nextNotSet(i) finds i, testAndSet claims it, and cardinality() is i + 1. */
  method FillStep(bitSet: FixedLengthBitSet, i: nat) returns (index: int, count: int)
    requires bitSet.Valid() && i < bitSet.bits && bitSet.Bits() == Prefix(64 * bitSet.words.Length, i)
    modifies bitSet.words
    ensures index == i && count == i + 1
    ensures bitSet.Bits() == Prefix(64 * bitSet.words.Length, i + 1)
  {
    ghost var m := 64 * bitSet.words.Length;
    FillFindsNext(bitSet.words.Length, bitSet.bits, i);
    var next := bitSet.NextNotSet(i);
    assert next == Ok(i);
    index := next.value;
    assert bitSet.Addressable(index);
    var claimed := bitSet.TestAndSet(index);
    PrefixStep(m, i);
    assert bitSet.Bits() == Prefix(m, i + 1);
    PrefixPopCount(m, i + 1);
    count := bitSet.Cardinality();
  }

  /**
   * testRanOutOfBits: after claiming all 100 bits, nextNotSet(0) reports the padding
   * position 100; the test expects -1.
   */
  method RanOutOfBitsScenario() returns (indices: seq<int>, counts: seq<int>, last: Result<int>)
    ensures indices == seq(100, i => i) && counts == seq(100, i => i + 1)
    ensures last == Ok(100)
  {
    var bitSet := new FixedLengthBitSet(100);
    indices, counts := FillInOrder(bitSet);
    FirstClearIs(bitSet.Bits(), 0, 100);
    last := bitSet.NextNotSet(0);
  }

  /** testNextNotSet1: ten bits claimed, bit 6 cleared; nextNotSet(9) and nextNotSet(0) both find 6. */
  method NextNotSetScenario() returns (fromNine: Result<int>, fromZero: Result<int>)
    ensures fromNine == Ok(6) && fromZero == Ok(6)
  {
    var bitSet := new FixedLengthBitSet(10);
    var indices, counts := FillInOrder(bitSet);
    var cleared := bitSet.Clear(6);
    FirstClearIs(bitSet.Bits(), 0, 6);
    fromNine := bitSet.NextNotSet(9);
    fromZero := bitSet.NextNotSet(0);
  }

  /**
   * testNextNotSet2: 129 bits claimed, bit 6 cleared. nextNotSet(128) starts at word 2
   * and reports the padding position 129 (the test expects the scan to wrap to 6);
   * nextNotSet(0) finds 6.
   */
  method WrapScenario() returns (fromLast: Result<int>, fromZero: Result<int>)
    ensures fromLast == Ok(129) && fromZero == Ok(6)
  {
    var bitSet := new FixedLengthBitSet(129);
    var indices, counts := FillInOrder(bitSet);
    var cleared := bitSet.Clear(6);
    FirstClearIs(bitSet.Bits(), 128, 129);
    FirstClearIs(bitSet.Bits(), 0, 6);
    fromLast := bitSet.NextNotSet(128);
    fromZero := bitSet.NextNotSet(0);
  }

  /** testRanOutOfBits with the bounded scan: once all 100 bits are claimed, nextNotSet(0) is -1. */
  method RanOutOfBitsWithin() returns (last: Result<int>)
    ensures last == Ok(-1)
  {
    var bitSet := new FixedLengthBitSet(100);
    var indices, counts := FillInOrder(bitSet);
    FirstClearIs(bitSet.Bits()[..100], 0, -1);
    last := bitSet.NextNotSetWithin(0);
  }

  /**
   * testNextNotSet2 with the wrapping scan: 129 bits claimed and bit 6 cleared,
   * nextNotSet(128) finds nothing in word 2 below size() and wraps round to 6;
   * nextNotSet(0) finds 6 directly.
   */
  method WrapScenarioWrapping() returns (fromLast: Result<int>, fromZero: Result<int>)
    ensures fromLast == Ok(6) && fromZero == Ok(6)
  {
    var bitSet := new FixedLengthBitSet(129);
    var indices, counts := FillInOrder(bitSet);
    var cleared := bitSet.Clear(6);
    FirstClearIs(bitSet.Bits()[..129], 128, -1);
    FirstClearIs(bitSet.Bits()[..129], 0, 6);
    fromLast := bitSet.NextNotSetWrapping(128);
    fromZero := bitSet.NextNotSetWrapping(0);
  }
}

=== FILE: buffer_utils.dfy ===
/**
 * BufferUtils: the inclusive range check, the byte-order codec for short, int and
 * long values, the power-of-two test and the parser of size descriptors such as
 * "512K".
 */
module BufferUtils {
  import opened Errors

  /**
   * rangeCheck(position, lowerBound, upperBound): both bounds are inclusive; a
   * position outside them is an IndexOutOfBoundsException.
   */
  function RangeCheck(position: int, lowerBound: int, upperBound: int): (r: Outcome)
    ensures r == Pass <==> lowerBound <= position <= upperBound
    ensures r != Pass ==> r == Fail(IndexOutOfBounds)
  {
    if position < lowerBound then Fail(IndexOutOfBounds)
    else if position > upperBound then Fail(IndexOutOfBounds)
    else Pass
  }

  // ----- Java integer types -----

  type JByte = b: int | -128 <= b < 128

  const INT_MAX: int := 0x7fff_ffff
  const LONG_MAX: int := 0x7fff_ffff_ffff_ffff

  predicate IsShort(v: int) { -0x8000 <= v < 0x8000 }
  predicate IsInt(v: int) { -0x8000_0000 <= v < 0x8000_0000 }
  predicate IsLong(v: int) { -0x8000_0000_0000_0000 <= v < 0x8000_0000_0000_0000 }

  function Pow2(n: nat): (r: nat)
    ensures r >= 1
  {
    if n == 0 then 1 else 2 * Pow2(n - 1)
  }

  /** 256 to the power k: the weight of byte k. */
  function Radix(k: nat): (r: nat)
    ensures r >= 1
  {
    if k == 0 then 1 else 256 * Radix(k - 1)
  }

  /** (byte) x: keep the low 8 bits, two's complement. */
  function ToByte(x: int): (r: JByte)
    ensures -0x80 <= x < 0x80 ==> r == x
  {
    var u := x % 0x100;
    if u < 0x80 then u else u - 0x100
  }

  /** (short) x: keep the low 16 bits, two's complement. */
  function ToShort(x: int): (r: int)
    ensures IsShort(r)
  {
    var u := x % 0x1_0000;
    if u < 0x8000 then u else u - 0x1_0000
  }

  /** (int) x: keep the low 32 bits, two's complement. */
  function ToInt(x: int): (r: int)
    ensures IsInt(r)
    ensures IsInt(x) ==> r == x
  {
    var u := x % 0x1_0000_0000;
    if u < 0x8000_0000 then u else u - 0x1_0000_0000
  }

  /** (long) x, and the wrap-around of `long` arithmetic: keep the low 64 bits. */
  function ToLong(x: int): (r: int)
    ensures IsLong(r)
    ensures IsLong(x) ==> r == x
  {
    var u := x % 0x1_0000_0000_0000_0000;
    if u < 0x8000_0000_0000_0000 then u else u - 0x1_0000_0000_0000_0000
  }

  /** b & 0xFF: the unsigned value of a byte. */
  function Unsigned(b: JByte): (u: int)
    ensures 0 <= u < 256
  {
    b % 256
  }

  /** (byte)(value >> 8k): byte k of a value, counting from the least significant. */
  function ByteAt(value: int, k: nat): JByte
  {
    ToByte(value / Radix(k))
  }

  /** Bitwise or of two non-negative values (Java's `|` on non-negative operands). */
  function BitOr(a: nat, b: nat): nat
    decreases a + b
  {
    if a == 0 then b
    else if b == 0 then a
    else 2 * BitOr(a / 2, b / 2) + (if a % 2 == 1 || b % 2 == 1 then 1 else 0)
  }

  /** Bitwise and of two non-negative values (Java's `&` on non-negative operands). */
  function BitAnd(a: nat, b: nat): nat
    decreases a
  {
    if a == 0 || b == 0 then 0
    else 2 * BitAnd(a / 2, b / 2) + (if a % 2 == 1 && b % 2 == 1 then 1 else 0)
  }

  // ----- putShort/putInt/putLong: the bytes written, in order -----

  /** The bytes that putShort writes, in the order it writes them. */
  function ShortBytes(value: int, bigEndian: bool): seq<JByte>
  {
    if bigEndian then [ByteAt(value, 1), ByteAt(value, 0)]
    else [ByteAt(value, 0), ByteAt(value, 1)]
  }

  /** The bytes that putInt writes, in the order it writes them. */
  function IntBytes(value: int, bigEndian: bool): seq<JByte>
  {
    if bigEndian then [ByteAt(value, 3), ByteAt(value, 2), ByteAt(value, 1), ByteAt(value, 0)]
    else [ByteAt(value, 0), ByteAt(value, 1), ByteAt(value, 2), ByteAt(value, 3)]
  }

  /** The bytes that putLong writes, in the order it writes them. */
  function LongBytes(value: int, bigEndian: bool): seq<JByte>
  {
    if bigEndian then
      [ByteAt(value, 7), ByteAt(value, 6), ByteAt(value, 5), ByteAt(value, 4),
       ByteAt(value, 3), ByteAt(value, 2), ByteAt(value, 1), ByteAt(value, 0)]
    else
      [ByteAt(value, 0), ByteAt(value, 1), ByteAt(value, 2), ByteAt(value, 3),
       ByteAt(value, 4), ByteAt(value, 5), ByteAt(value, 6), ByteAt(value, 7)]
  }

  // ----- buildShort/buildInt/buildLong -----

  /** buildShort(b1, b0) */
  function BuildShort(b1: JByte, b0: JByte): (r: int)
    ensures IsShort(r)
  {
    ToShort(Unsigned(b1) * Radix(1) + Unsigned(b0))
  }

  /** buildInt(b3, b2, b1, b0); the shifted terms occupy disjoint bytes, so `|` adds them. */
  function BuildInt(b3: JByte, b2: JByte, b1: JByte, b0: JByte): (r: int)
    ensures IsInt(r)
  {
    ToInt(Unsigned(b3) * Radix(3) + Unsigned(b2) * Radix(2) + Unsigned(b1) * Radix(1) + Unsigned(b0))
  }

  /**
   * buildLong as written: `(b & 0xFF) << 56` shifts an `int`, whose shift distance
   * Java masks to its low five bits, so the shifts by 56, 48, 40 and 32 are shifts by
   * 24, 16, 8 and 0. Bytes 7 and 3, 6 and 2, 5 and 1, 4 and 0 then share a byte lane
   * and are or-ed together; the `int` result is widened to `long`.
   */
  function BuildLongAsWritten(b7: JByte, b6: JByte, b5: JByte, b4: JByte,
                              b3: JByte, b2: JByte, b1: JByte, b0: JByte): (r: int)
    ensures IsInt(r)
  {
    ToInt(BitOr(Unsigned(b7), Unsigned(b3)) * Radix(3) + BitOr(Unsigned(b6), Unsigned(b2)) * Radix(2)
        + BitOr(Unsigned(b5), Unsigned(b1)) * Radix(1) + BitOr(Unsigned(b4), Unsigned(b0)))
  }

  /** buildLong with `long` shifts, as evidently intended: byte k is weighted 256^k. */
  function BuildLong(b7: JByte, b6: JByte, b5: JByte, b4: JByte,
                     b3: JByte, b2: JByte, b1: JByte, b0: JByte): (r: int)
    ensures IsLong(r)
  {
    ToLong(Unsigned(b7) * Radix(7) + Unsigned(b6) * Radix(6) + Unsigned(b5) * Radix(5) + Unsigned(b4) * Radix(4)
         + Unsigned(b3) * Radix(3) + Unsigned(b2) * Radix(2) + Unsigned(b1) * Radix(1) + Unsigned(b0))
  }

  // ----- getShort/getInt/getLong: the value rebuilt from the bytes read, in order -----

  function ShortFrom(bytes: seq<JByte>, bigEndian: bool): int
    requires |bytes| == 2
  {
    if bigEndian then BuildShort(bytes[0], bytes[1]) else BuildShort(bytes[1], bytes[0])
  }

  function IntFrom(bytes: seq<JByte>, bigEndian: bool): int
    requires |bytes| == 4
  {
    if bigEndian then BuildInt(bytes[0], bytes[1], bytes[2], bytes[3])
    else BuildInt(bytes[3], bytes[2], bytes[1], bytes[0])
  }

  function LongFromAsWritten(bytes: seq<JByte>, bigEndian: bool): int
    requires |bytes| == 8
  {
    if bigEndian then BuildLongAsWritten(bytes[0], bytes[1], bytes[2], bytes[3], bytes[4], bytes[5], bytes[6], bytes[7])
    else BuildLongAsWritten(bytes[7], bytes[6], bytes[5], bytes[4], bytes[3], bytes[2], bytes[1], bytes[0])
  }

  function LongFrom(bytes: seq<JByte>, bigEndian: bool): int
    requires |bytes| == 8
  {
    if bigEndian then BuildLong(bytes[0], bytes[1], bytes[2], bytes[3], bytes[4], bytes[5], bytes[6], bytes[7])
    else BuildLong(bytes[7], bytes[6], bytes[5], bytes[4], bytes[3], bytes[2], bytes[1], bytes[0])
  }

  // ----- arithmetic behind the round trips -----

  lemma MulSign(k: int, d: int)
    requires d > 0
    ensures k >= 1 ==> k * d >= d
    ensures k <= -1 ==> k * d <= -d
    ensures k >= 0 ==> k * d >= 0
  {
  }

  lemma DivModUnique(x: int, d: int, q: int, r: int)
    requires d > 0 && x == q * d + r && 0 <= r < d
    ensures x / d == q && x % d == r
  {
    var q', r' := x / d, x % d;
    assert x == q' * d + r' && 0 <= r' < d;
    assert (q' - q) * d == r - r';
    MulSign(q' - q, d);
  }

  /** Splitting a remainder modulo a * b into the remainder modulo a and the next digit. */
  lemma ModProduct(x: int, a: int, b: int)
    requires a > 0 && b > 0
    ensures a * b > 0
    ensures x % (a * b) == x % a + (x / a % b) * a
  {
    var q, r := x / a, x % a;
    var q2, r2 := q / b, q % b;
    var ab := a * b;
    MulSign(b, a);
    assert x == q * a + r;
    assert q == q2 * b + r2;
    assert q * a == q2 * ab + r2 * a by {
      assert q * a == (q2 * b + r2) * a;
      assert (q2 * b + r2) * a == q2 * b * a + r2 * a;
      assert q2 * b * a == q2 * ab;
    }
    MulSign(r2, a);
    MulSign(b - r2, a);
    assert (b - r2) * a == ab - r2 * a;
    DivModUnique(x, ab, q2, r2 * a + r);
  }

  /** The unsigned weight of the low n bytes of a value. */
  function LowBytes(value: int, n: nat): int
  {
    if n == 0 then 0 else LowBytes(value, n - 1) + Unsigned(ByteAt(value, n - 1)) * Radix(n - 1)
  }

  lemma {:induction false} LowBytesIsRemainder(value: int, n: nat)
    ensures LowBytes(value, n) == value % Radix(n)
  {
    if n > 0 {
      LowBytesIsRemainder(value, n - 1);
      ModProduct(value, Radix(n - 1), 256);
      assert Radix(n) == Radix(n - 1) * 256;
      assert Unsigned(ByteAt(value, n - 1)) == value / Radix(n - 1) % 256;
    }
  }

  // ----- round trips -----

  /** getShort reads back what putShort wrote, in either byte order. */
  lemma ShortRoundTrip(value: int, bigEndian: bool)
    requires IsShort(value)
    ensures |ShortBytes(value, bigEndian)| == 2
    ensures ShortFrom(ShortBytes(value, bigEndian), bigEndian) == value
  {
    var b1, b0 := ByteAt(value, 1), ByteAt(value, 0);
    assert ShortFrom(ShortBytes(value, bigEndian), bigEndian) == BuildShort(b1, b0);
    assert LowBytes(value, 2) == Unsigned(b1) * Radix(1) + Unsigned(b0) by {
      assert LowBytes(value, 1) == Unsigned(b0) * Radix(0);
    }
    LowBytesIsRemainder(value, 2);
    assert Radix(2) == 0x1_0000;
    ToShortRemainder(value);
  }

  lemma ToShortRemainder(value: int)
    requires IsShort(value)
    ensures ToShort(value % 0x1_0000) == value
  {
  }

  lemma IntFromLow(value: int)
    ensures BuildInt(ByteAt(value, 3), ByteAt(value, 2), ByteAt(value, 1), ByteAt(value, 0)) == ToInt(LowBytes(value, 4))
  {
    assert LowBytes(value, 4) == LowBytes(value, 3) + Unsigned(ByteAt(value, 3)) * Radix(3);
    assert LowBytes(value, 3) == LowBytes(value, 2) + Unsigned(ByteAt(value, 2)) * Radix(2);
    assert LowBytes(value, 2) == LowBytes(value, 1) + Unsigned(ByteAt(value, 1)) * Radix(1);
    assert LowBytes(value, 1) == Unsigned(ByteAt(value, 0)) * Radix(0);
  }

  /** getInt reads back what putInt wrote, in either byte order. */
  lemma IntRoundTrip(value: int, bigEndian: bool)
    requires IsInt(value)
    ensures |IntBytes(value, bigEndian)| == 4
    ensures IntFrom(IntBytes(value, bigEndian), bigEndian) == value
  {
    var b3, b2, b1, b0 := ByteAt(value, 3), ByteAt(value, 2), ByteAt(value, 1), ByteAt(value, 0);
    assert IntFrom(IntBytes(value, bigEndian), bigEndian) == BuildInt(b3, b2, b1, b0);
    IntFromLow(value);
    LowBytesIsRemainder(value, 4);
    assert Radix(4) == 0x1_0000_0000;
    ToIntRemainder(value);
  }

  lemma ToIntRemainder(value: int)
    requires IsInt(value)
    ensures ToInt(value % 0x1_0000_0000) == value
  {
  }

  lemma ToLongRemainder(value: int)
    requires IsLong(value)
    ensures ToLong(value % 0x1_0000_0000_0000_0000) == value
  {
  }

  lemma LongFromLow(value: int)
    ensures BuildLong(ByteAt(value, 7), ByteAt(value, 6), ByteAt(value, 5), ByteAt(value, 4),
                      ByteAt(value, 3), ByteAt(value, 2), ByteAt(value, 1), ByteAt(value, 0)) == ToLong(LowBytes(value, 8))
  {
    assert LowBytes(value, 8) == LowBytes(value, 7) + Unsigned(ByteAt(value, 7)) * Radix(7);
    assert LowBytes(value, 7) == LowBytes(value, 6) + Unsigned(ByteAt(value, 6)) * Radix(6);
    assert LowBytes(value, 6) == LowBytes(value, 5) + Unsigned(ByteAt(value, 5)) * Radix(5);
    assert LowBytes(value, 5) == LowBytes(value, 4) + Unsigned(ByteAt(value, 4)) * Radix(4);
    assert LowBytes(value, 4) == LowBytes(value, 3) + Unsigned(ByteAt(value, 3)) * Radix(3);
    assert LowBytes(value, 3) == LowBytes(value, 2) + Unsigned(ByteAt(value, 2)) * Radix(2);
    assert LowBytes(value, 2) == LowBytes(value, 1) + Unsigned(ByteAt(value, 1)) * Radix(1);
    assert LowBytes(value, 1) == Unsigned(ByteAt(value, 0)) * Radix(0);
  }

  /** With `long` shifts, getLong reads back what putLong wrote, in either byte order. */
  lemma LongRoundTrip(value: int, bigEndian: bool)
    requires IsLong(value)
    ensures |LongBytes(value, bigEndian)| == 8
    ensures LongFrom(LongBytes(value, bigEndian), bigEndian) == value
  {
    var b7, b6, b5, b4 := ByteAt(value, 7), ByteAt(value, 6), ByteAt(value, 5), ByteAt(value, 4);
    var b3, b2, b1, b0 := ByteAt(value, 3), ByteAt(value, 2), ByteAt(value, 1), ByteAt(value, 0);
    assert LongFrom(LongBytes(value, bigEndian), bigEndian) == BuildLong(b7, b6, b5, b4, b3, b2, b1, b0);
    LongFromLow(value);
    LowBytesIsRemainder(value, 8);
    assert Radix(8) == 0x1_0000_0000_0000_0000;
    ToLongRemainder(value);
  }

  /** As written, getLong does not invert putLong: 2^32 comes back as 1. */
  lemma LongRoundTripAsWrittenFails()
    ensures LongBytes(0x1_0000_0000, true) == [0, 0, 0, 1, 0, 0, 0, 0]
    ensures LongFromAsWritten(LongBytes(0x1_0000_0000, true), true) == 1
  {
    LongBytesOfTwoTo32();
    var bytes := LongBytes(0x1_0000_0000, true);
    assert LongFromAsWritten(bytes, true) == BuildLongAsWritten(0, 0, 0, 1, 0, 0, 0, 0);
    BuildLongAsWrittenFolds();
  }

  /** putLong(2^32) in big-endian order: only byte 3 is set. */
  lemma LongBytesOfTwoTo32()
    ensures LongBytes(0x1_0000_0000, true) == [0, 0, 0, 1, 0, 0, 0, 0]
  {
    var v := 0x1_0000_0000;
    assert Radix(4) == v;
    assert ByteAt(v, 7) == ByteAt(v, 6) == ByteAt(v, 5) == 0 by {
      assert Radix(5) > v;
    }
    assert ByteAt(v, 4) == ToByte(1) == 1;
    assert ByteAt(v, 3) == ToByte(0x100) == 0;
    assert ByteAt(v, 2) == ToByte(0x1_0000) == 0;
    assert ByteAt(v, 1) == ToByte(0x100_0000) == 0;
    assert ByteAt(v, 0) == ToByte(v) == 0;
  }

  /** The high word's low byte lands on the low word: 2^32 is built as 1. */
  lemma BuildLongAsWrittenFolds()
    ensures BuildLongAsWritten(0, 0, 0, 1, 0, 0, 0, 0) == 1
  {
    assert Unsigned(0) == 0 && Unsigned(1) == 1;
    assert BitOr(0, 0) == 0 && BitOr(1, 0) == 1;
    assert BitOr(0, 0) * Radix(3) + BitOr(0, 0) * Radix(2) + BitOr(0, 0) * Radix(1) + BitOr(1, 0) == 1;
  }

  /** Big-endian writes the most significant byte first, little-endian the least significant first. */
  lemma ByteOrderMirrors(value: int)
    ensures ShortBytes(value, true) == [ShortBytes(value, false)[1], ShortBytes(value, false)[0]]
    ensures forall k :: 0 <= k < 4 ==> IntBytes(value, true)[k] == IntBytes(value, false)[3 - k]
    ensures forall k :: 0 <= k < 8 ==> LongBytes(value, true)[k] == LongBytes(value, false)[7 - k]
    ensures IntBytes(value, true)[0] == ByteAt(value, 3) && LongBytes(value, true)[0] == ByteAt(value, 7)
  {
  }

  // ----- isPowerOfTwo -----

  /**
   * isPowerOfTwo(value): value > 0 && (value & (value - 1)) == 0. BufferUtils.isPowerOfTwo
   * is called by PartitionBufferBuilder but is not part of this model's source; this is the
   * standard test.
   */
  predicate IsPowerOfTwo(value: int)
  {
    value > 0 && BitAnd(value, value - 1) == 0
  }

  /** The reference meaning: value is 2^k for some k. */
  ghost predicate PowerOfTwo(value: int)
  {
    exists k: nat :: value == Pow2(k)
  }

  lemma {:induction false} BitAndSelf(w: nat)
    ensures BitAnd(w, w) == w
  {
    if w > 0 {
      BitAndSelf(w / 2);
    }
  }

  lemma {:induction false} Pow2Halves(value: int)
    requires value >= 2
    ensures PowerOfTwo(value) <==> value % 2 == 0 && PowerOfTwo(value / 2)
  {
    if PowerOfTwo(value) {
      var k: nat :| value == Pow2(k);
      assert k >= 1;
      assert value / 2 == Pow2(k - 1);
    }
    if value % 2 == 0 && PowerOfTwo(value / 2) {
      var k: nat :| value / 2 == Pow2(k);
      assert value == Pow2(k + 1);
    }
  }

  /** The bit trick recognises exactly the powers of two. */
  lemma {:induction false} IsPowerOfTwoCorrect(value: int)
    ensures IsPowerOfTwo(value) <==> PowerOfTwo(value)
    decreases if value < 0 then 0 else value
  {
    if value <= 0 {
    } else if value == 1 {
      assert Pow2(0) == 1;
    } else {
      var w := value / 2;
      Pow2Halves(value);
      if value % 2 == 0 {
        assert BitAnd(value, value - 1) == 2 * BitAnd(w, w - 1);
        IsPowerOfTwoCorrect(w);
      } else {
        BitAndSelf(w);
        assert BitAnd(value, value - 1) == 2 * w;
      }
    }
  }

  // ----- descriptorToByteSize -----

  const KILOBYTE_BYTE_SIZE: int := 1024 * 1024
  const MEGABYTE_BYTE_SIZE: int := KILOBYTE_BYTE_SIZE * 1024
  const GIGABYTE_BYTE_SIZE: int := MEGABYTE_BYTE_SIZE * 1024
  const TERABYTE_BYTE_SIZE: int := GIGABYTE_BYTE_SIZE * 1024

  /** Character.isDigit, for the ASCII digits. */
  predicate IsDigit(c: char)
  {
    '0' <= c <= '9'
  }

  predicate AllDigits(s: string)
  {
    forall i :: 0 <= i < |s| ==> IsDigit(s[i])
  }

  /** String.trim(): drop leading and trailing characters up to and including ' '. */
  function TrimStart(s: string): string
  {
    if s != [] && s[0] <= ' ' then TrimStart(s[1..]) else s
  }

  function TrimEnd(s: string): string
  {
    if s != [] && s[|s| - 1] <= ' ' then TrimEnd(s[..|s| - 1]) else s
  }

  function Trim(s: string): string
  {
    TrimEnd(TrimStart(s))
  }

  function DecimalValue(s: string): nat
    requires AllDigits(s)
  {
    if s == [] then 0 else DecimalValue(s[..|s| - 1]) * 10 + (s[|s| - 1] as int - '0' as int)
  }

  /** Long.parseLong on a string of digits. */
  function ParseLong(s: string): Result<int>
    requires AllDigits(s)
  {
    if s == [] then Err(NumberFormat)
    else if DecimalValue(s) > LONG_MAX then Err(NumberFormat)
    else Ok(DecimalValue(s))
  }

  /** The switch on the descriptor character; `long` multiplication wraps around. */
  function Scale(value: int, unit: char, kilobyte: int): (r: Result<int>)
    ensures IsLong(value) && r.Ok? ==> IsLong(r.value)
  {
    match unit
    case 'b' => Ok(value)
    case 'B' => Ok(value)
    case 'k' => Ok(ToLong(value * kilobyte))
    case 'K' => Ok(ToLong(value * kilobyte))
    case 'm' => Ok(ToLong(value * (kilobyte * 1024)))
    case 'M' => Ok(ToLong(value * (kilobyte * 1024)))
    case 'g' => Ok(ToLong(value * (kilobyte * 1024 * 1024)))
    case 'G' => Ok(ToLong(value * (kilobyte * 1024 * 1024)))
    case 't' => Ok(ToLong(value * (kilobyte * 1024 * 1024 * 1024)))
    case 'T' => Ok(ToLong(value * (kilobyte * 1024 * 1024 * 1024)))
    case _ => Err(IllegalArgument)
  }

  /**
   * The descriptor parse, with the number of trailing characters left out of the
   * number (`dropped`) and the kilobyte constant as parameters.
   */
  function ParseDescriptor(descriptor: string, dropped: nat, kilobyte: int): (r: Result<int>)
    ensures r.Ok? ==> IsLong(r.value)
  {
    var d := Trim(descriptor);
    if |d| == 0 then Err(IndexOutOfBounds)
    else if IsDigit(d[|d| - 1]) then Err(IllegalArgument)
    else if exists i :: 0 <= i < |d| - dropped && !IsDigit(d[i]) then Err(IllegalArgument)
    else if |d| < dropped then Err(IndexOutOfBounds)
    else match ParseLong(d[..|d| - dropped])
      case Err(e) => Err(e)
      case Ok(value) => Scale(value, d[|d| - 1], kilobyte)
  }

  /**
   * descriptorToByteSize as written: the number is the prefix of length len - 2 and
   * the kilobyte constant is 1024 * 1024.
   */
  method DescriptorToByteSize(descriptor: string) returns (r: Result<int>)
    ensures r == ParseDescriptor(descriptor, 2, KILOBYTE_BYTE_SIZE)
  {
    var d := Trim(descriptor);
    if |d| == 0 {
      return Err(IndexOutOfBounds);
    }
    var descriptorChar := d[|d| - 1];
    if IsDigit(descriptorChar) {
      return Err(IllegalArgument);
    }
    var i := 0;
    while i < |d| - 2
      invariant 0 <= i
      invariant forall j :: 0 <= j < i && j < |d| - 2 ==> IsDigit(d[j])
    {
      if !IsDigit(d[i]) {
        return Err(IllegalArgument);
      }
      i := i + 1;
    }
    if |d| < 2 {
      return Err(IndexOutOfBounds);
    }
    var digits := d[..|d| - 2];
    assert AllDigits(digits);
    var value := ParseLong(digits);
    if value.Err? {
      return Err(value.error);
    }
    r := Scale(value.value, descriptorChar, KILOBYTE_BYTE_SIZE);
  }

  /** The evidently intended parse: the number is everything but the unit letter, and a kilobyte is 1024 bytes. */
  function IntendedDescriptorSize(descriptor: string): (r: Result<int>)
    ensures r.Ok? ==> IsLong(r.value)
  {
    ParseDescriptor(descriptor, 1, 1024)
  }

  /**
   * Which helpers a caller runs with: the source's own (descriptorToByteSize as written,
   * and Buffers.isPowerOfTwo as written), or the evidently intended ones (the descriptor
   * parse that reads "512K" as 512 KiB, and the standard power-of-two test).
   */
  datatype Reading = AsWritten | Intended

  /** descriptorToByteSize as written, or the intended parse. */
  function DescriptorSize(reading: Reading, descriptor: string): (r: Result<int>)
    ensures r.Ok? ==> IsLong(r.value)
  {
    if reading.AsWritten? then ParseDescriptor(descriptor, 2, KILOBYTE_BYTE_SIZE)
    else IntendedDescriptorSize(descriptor)
  }

  /** The multiplier of a unit letter in the intended parse. */
  function UnitSize(unit: char): int
  {
    match unit
    case 'b' => 1
    case 'B' => 1
    case 'k' => 1024
    case 'K' => 1024
    case 'm' => 1024 * 1024
    case 'M' => 1024 * 1024
    case 'g' => 1024 * 1024 * 1024
    case 'G' => 1024 * 1024 * 1024
    case 't' => 1024 * 1024 * 1024 * 1024
    case 'T' => 1024 * 1024 * 1024 * 1024
    case _ => 0
  }

  /** The decimal digits of n. */
  function Decimal(n: nat): (s: string)
    ensures |s| >= 1 && AllDigits(s)
  {
    if n < 10 then ['0' + n as char] else Decimal(n / 10) + ['0' + (n % 10) as char]
  }

  lemma {:induction false} DecimalValueOfDecimal(n: nat)
    ensures DecimalValue(Decimal(n)) == n
  {
    if n >= 10 {
      DecimalValueOfDecimal(n / 10);
      assert Decimal(n)[..|Decimal(n)| - 1] == Decimal(n / 10);
    }
  }

  /**
   * The multiplier of a unit letter as written: the kilobyte constant is 1024 * 1024, so
   * each unit but the byte is 1024 times its intended size.
   */
  function AsWrittenUnit(unit: char): (m: int)
    ensures unit in "kKmMgGtT" ==> m == 1024 * UnitSize(unit)
    ensures unit in "bB" ==> m == UnitSize(unit)
  {
    match unit
    case 'b' => 1
    case 'B' => 1
    case 'k' => KILOBYTE_BYTE_SIZE
    case 'K' => KILOBYTE_BYTE_SIZE
    case 'm' => MEGABYTE_BYTE_SIZE
    case 'M' => MEGABYTE_BYTE_SIZE
    case 'g' => GIGABYTE_BYTE_SIZE
    case 'G' => GIGABYTE_BYTE_SIZE
    case 't' => TERABYTE_BYTE_SIZE
    case 'T' => TERABYTE_BYTE_SIZE
    case _ => 0
  }

  /** The switch as written, on a unit letter: the value times the as-written unit, in `long` arithmetic. */
  lemma ScaleAsWritten(value: nat, unit: char)
    requires unit in "bBkKmMgGtT" && value <= LONG_MAX
    ensures Scale(value, unit, KILOBYTE_BYTE_SIZE) == Ok(ToLong(value * AsWrittenUnit(unit)))
  {
    if unit in "bB" {
      ToLongInRange(value);
    }
  }

  /**
   * As written, the digits of n followed by any character and a unit letter are read as
   * n times the as-written unit: the character before the unit is never looked at, so a
   * descriptor's last digit is lost.
   */
  lemma AsWrittenDescriptorMeaning(n: nat, dropped: char, unit: char)
    requires unit in "bBkKmMgGtT" && n <= LONG_MAX
    ensures ParseDescriptor(Decimal(n) + [dropped, unit], 2, KILOBYTE_BYTE_SIZE) == Ok(ToLong(n * AsWrittenUnit(unit)))
  {
    var digits := Decimal(n);
    var d := digits + [dropped, unit];
    TrimWordUnchanged(d);
    assert d[..|d| - 2] == digits;
    assert d[|d| - 1] == unit && !IsDigit(unit);
    assert forall i :: 0 <= i < |d| - 2 ==> d[i] == digits[i];
    assert !exists i :: 0 <= i < |d| - 2 && !IsDigit(d[i]);
    DecimalValueOfDecimal(n);
    assert ParseLong(digits) == Ok(n);
    assert ParseDescriptor(d, 2, KILOBYTE_BYTE_SIZE) == Scale(n, unit, KILOBYTE_BYTE_SIZE);
    ScaleAsWritten(n, unit);
  }

  /** As written, a single digit and a unit letter ("1M") leave no digits: parseLong("") fails. */
  lemma AsWrittenRejectsOneDigit(n: nat, unit: char)
    requires n < 10 && unit in "bBkKmMgGtT"
    ensures ParseDescriptor(Decimal(n) + [unit], 2, KILOBYTE_BYTE_SIZE) == Err(NumberFormat)
  {
    var d := Decimal(n) + [unit];
    assert d == ['0' + n as char, unit];
    TrimWordUnchanged(d);
    assert d[..|d| - 2] == [];
  }

  /** As written, a unit letter alone is out of bounds: there is no prefix of length -1. */
  lemma AsWrittenRejectsBareUnit(descriptor: string)
    requires |Trim(descriptor)| == 1 && !IsDigit(Trim(descriptor)[0])
    ensures ParseDescriptor(descriptor, 2, KILOBYTE_BYTE_SIZE) == Err(IndexOutOfBounds)
  {
  }

  /** Both parses reject a descriptor whose last character is a digit: the unit is missing. */
  lemma TrailingDigitRejected(descriptor: string, dropped: nat, kilobyte: int)
    requires |Trim(descriptor)| >= 1 && IsDigit(Trim(descriptor)[|Trim(descriptor)| - 1])
    ensures ParseDescriptor(descriptor, dropped, kilobyte) == Err(IllegalArgument)
  {
  }

  /** As written, "512K" is read as 51 times 1024 * 1024. */
  lemma DescriptorAsWrittenExample()
    ensures ParseDescriptor("512K", 2, KILOBYTE_BYTE_SIZE) == Ok(51 * 1024 * 1024)
  {
    var d := "512K";
    assert Trim(d) == d;
    assert d[..2] == "51";
    assert DecimalValue("51") == 51 by { assert "51"[..1] == "5"; }
  }

  lemma ToLongInRange(x: int)
    requires 0 <= x <= LONG_MAX
    ensures ToLong(x) == x
  {
  }

  lemma ScaleIntended(value: nat, unit: char)
    requires unit in "bBkKmMgGtT"
    requires value * UnitSize(unit) <= LONG_MAX
    ensures Scale(value, unit, 1024) == Ok(value * UnitSize(unit))
  {
    MulSign(value, UnitSize(unit));
    ToLongInRange(value * UnitSize(unit));
  }

  lemma TrimWordUnchanged(d: string)
    requires |d| >= 1 && d[0] > ' ' && d[|d| - 1] > ' '
    ensures Trim(d) == d
  {
  }

  /** The intended parse reads the digits of n followed by a unit letter as n times that unit. */
  lemma IntendedDescriptorRoundTrip(n: nat, unit: char)
    requires unit in "bBkKmMgGtT"
    requires n * UnitSize(unit) <= LONG_MAX
    ensures IntendedDescriptorSize(Decimal(n) + [unit]) == Ok(n * UnitSize(unit))
  {
    var digits := Decimal(n);
    var d := digits + [unit];
    TrimWordUnchanged(d);
    assert d[..|d| - 1] == digits;
    assert d[|d| - 1] == unit && !IsDigit(unit);
    assert forall i :: 0 <= i < |d| - 1 ==> d[i] == digits[i];
    assert !exists i :: 0 <= i < |d| - 1 && !IsDigit(d[i]);
    DecimalValueOfDecimal(n);
    assert ParseLong(digits) == Ok(n);
    assert ParseDescriptor(d, 1, 1024) == Scale(n, unit, 1024);
    ScaleIntended(n, unit);
  }
}

=== FILE: buffers.dfy ===
/**
 * Buffers: the static allocate* entry points, which validate a memory, partition or slice
 * size (in bytes or as a size descriptor) against a partition count and a slice count per
 * partition, and the nested PartitionBufferPoolImpl they build: an array of the oldest
 * Partition kind with int accounting over it.
 */
module Buffers {
  import opened Errors
  import opened BufferUtils
  import opened BitSet
  import LegacyPartitions
  import Pools
  import PoolBuilder
  import LogicalBuffer
  import PartitionBuffers

  // ----- isPowerOfTwo -----

  /** Buffers.isPowerOfTwo as written: the comparison with zero is the wrong way round. */
  predicate IsPowerOfTwoAsWritten(value: int)
  {
    value > 0 && BitAnd(value, value - 1) != 0
  }

  /** As written, the test accepts exactly the positive numbers that are NOT powers of two. */
  lemma PowerOfTwoTestInverted(value: int)
    ensures IsPowerOfTwoAsWritten(value) <==> value > 0 && !PowerOfTwo(value)
  {
    IsPowerOfTwoCorrect(value);
  }

  /**
   * The power-of-two test the allocate chain runs with: the source's own isPowerOfTwo, or
   * the standard test.
   */
  predicate PowerTest(reading: Reading, value: int)
  {
    if reading.AsWritten? then IsPowerOfTwoAsWritten(value) else IsPowerOfTwo(value)
  }

  // ----- the allocate chain -----

  /**
   * What building the pool throws: `new Partition[partitions]` rejects a negative count,
   * each `new Partition(slices, sliceByteSize)` rejects a negative slice count (its slice
   * array) and a negative int buffer size sliceByteSize * slices (allocateDirect). With no
   * partitions no Partition is built.
   */
  function Construction(partitions: int, sliceByteSize: int, slices: int): Outcome
  {
    if partitions < 0 then Fail(NegativeArraySize)
    else if partitions == 0 then Pass
    else if slices < 0 then Fail(NegativeArraySize)
    else if ToInt(sliceByteSize * slices) < 0 then Fail(IllegalArgument)
    else Pass
  }

  /** allocateBySliceByteSize: the slice size must pass the power-of-two test, then the pool is built. */
  function BySliceByteSize(reading: Reading, sliceByteSize: int, partitions: int, slicesPerPartition: int)
    : (r: Result<PoolBuilder.Geometry>)
    requires IsInt(sliceByteSize) && IsInt(partitions) && IsInt(slicesPerPartition)
    ensures r.Ok? ==> r.value == PoolBuilder.Geometry(partitions, sliceByteSize, slicesPerPartition)
    ensures r.Ok? ==> PowerTest(reading, sliceByteSize) && partitions >= 0
  {
    if !PowerTest(reading, sliceByteSize) then Err(IllegalArgument)
    else match Construction(partitions, sliceByteSize, slicesPerPartition)
      case Fail(e) => Err(e)
      case Pass => Ok(PoolBuilder.Geometry(partitions, sliceByteSize, slicesPerPartition))
  }

  /**
   * allocateByPartitionByteSize: slicesPerPartition must divide the partition size (a zero
   * divisor throws ArithmeticException), the partition size must pass the power-of-two test,
   * and the quotient must fit an int before it is cast. Java's `%` truncates where Dafny's
   * is Euclidean; the two agree on whether the remainder is zero.
   */
  function ByPartitionByteSize(reading: Reading, partitionByteSize: int, partitions: int, slicesPerPartition: int)
    : (r: Result<PoolBuilder.Geometry>)
    requires IsLong(partitionByteSize) && IsInt(partitions) && IsInt(slicesPerPartition)
    ensures r.Ok? ==> r.value.partitions == partitions && r.value.slices == slicesPerPartition
  {
    if slicesPerPartition == 0 then Err(Arithmetic)
    else if partitionByteSize % slicesPerPartition != 0 then Err(IllegalArgument)
    else if !PowerTest(reading, partitionByteSize) then Err(IllegalArgument)
    else
      var sliceByteSize := ToLong(partitionByteSize / slicesPerPartition);
      if sliceByteSize > INT_MAX then Err(IllegalArgument)
      else BySliceByteSize(reading, ToInt(sliceByteSize), partitions, slicesPerPartition)
  }

  /**
   * allocateByAllocatedMemoryByteSize: the partition count must divide the memory (zero
   * throws ArithmeticException) and the memory must pass the power-of-two test; the long
   * quotient is the partition size.
   */
  function ByMemoryByteSize(reading: Reading, memoryByteSize: int, partitions: int, slicesPerPartition: int)
    : (r: Result<PoolBuilder.Geometry>)
    requires IsLong(memoryByteSize) && IsInt(partitions) && IsInt(slicesPerPartition)
    ensures r.Ok? ==> r.value.partitions == partitions && r.value.slices == slicesPerPartition
  {
    if partitions == 0 then Err(Arithmetic)
    else if memoryByteSize % partitions != 0 then Err(IllegalArgument)
    else if !PowerTest(reading, memoryByteSize) then Err(IllegalArgument)
    else ByPartitionByteSize(reading, ToLong(memoryByteSize / partitions), partitions, slicesPerPartition)
  }

  /** allocateByAllocatedMemorySizeDescriptor: parse, then allocate by memory byte size. */
  function ByMemoryDescriptor(reading: Reading, descriptor: string, partitions: int, slicesPerPartition: int)
    : (r: Result<PoolBuilder.Geometry>)
    requires IsInt(partitions) && IsInt(slicesPerPartition)
    ensures r.Ok? ==> (DescriptorSize(reading, descriptor).Ok?
      && r == ByMemoryByteSize(reading, DescriptorSize(reading, descriptor).value, partitions, slicesPerPartition))
  {
    match DescriptorSize(reading, descriptor)
    case Err(e) => Err(e)
    case Ok(size) => ByMemoryByteSize(reading, size, partitions, slicesPerPartition)
  }

  /** allocateByPartitioSizenDescriptor: parse, then allocate by partition byte size. */
  function ByPartitionDescriptor(reading: Reading, descriptor: string, partitions: int, slicesPerPartition: int)
    : (r: Result<PoolBuilder.Geometry>)
    requires IsInt(partitions) && IsInt(slicesPerPartition)
    ensures r.Ok? ==> (DescriptorSize(reading, descriptor).Ok?
      && r == ByPartitionByteSize(reading, DescriptorSize(reading, descriptor).value, partitions, slicesPerPartition))
  {
    match DescriptorSize(reading, descriptor)
    case Err(e) => Err(e)
    case Ok(size) => ByPartitionByteSize(reading, size, partitions, slicesPerPartition)
  }

  /** allocateBySliceSizeDescriptor: parse, reject a size beyond Integer.MAX_VALUE, cast, allocate. */
  function BySliceDescriptor(reading: Reading, descriptor: string, partitions: int, slicesPerPartition: int)
    : (r: Result<PoolBuilder.Geometry>)
    requires IsInt(partitions) && IsInt(slicesPerPartition)
    ensures r.Ok? ==> (DescriptorSize(reading, descriptor).Ok?
      && r.value == PoolBuilder.Geometry(partitions, ToInt(DescriptorSize(reading, descriptor).value), slicesPerPartition))
  {
    match DescriptorSize(reading, descriptor)
    case Err(e) => Err(e)
    case Ok(size) =>
      if size > INT_MAX then Err(IllegalArgument)
      else BySliceByteSize(reading, ToInt(size), partitions, slicesPerPartition)
  }

  // ----- powers of two past the int range -----

  lemma {:induction false} Pow2Add(a: nat, b: nat)
    ensures Pow2(a + b) == Pow2(a) * Pow2(b)
    decreases b
  {
    if b > 0 {
      Pow2Add(a, b - 1);
      assert Pow2(a + b) == 2 * Pow2(a + b - 1);
    }
  }

  lemma Pow2Table()
    ensures Pow2(10) == 0x400 && Pow2(20) == 0x10_0000
    ensures Pow2(30) == 0x4000_0000 && Pow2(31) == 0x8000_0000 && Pow2(32) == 0x1_0000_0000
  {
    assert Pow2(4) == 16;
    assert Pow2(8) == 256;
    assert Pow2(12) == 4096;
    assert Pow2(16) == 65536;
    assert Pow2(20) == 0x10_0000;
    assert Pow2(24) == 0x100_0000;
    assert Pow2(28) == 0x1000_0000;
  }

  /** A power of two beyond 2^31 is a multiple of 2^32: cast to int, it and its negation are 0. */
  lemma PowerOfTwoWraps(d: int)
    requires PowerOfTwo(d) && d > 0x8000_0000
    ensures ToInt(d) == 0 && ToInt(-d) == 0
  {
    var a: nat :| d == Pow2(a);
    Pow2Table();
    if a <= 31 {
      PoolBuilder.Pow2Monotone(a, 31);
    }
    assert a >= 32;
    var c: int := Pow2(a - 32);
    Pow2Add(a - 32, 32);
    assert d == c * 0x1_0000_0000;
    DivModUnique(d, 0x1_0000_0000, c, 0);
    DivModUnique(-d, 0x1_0000_0000, -c, 0);
  }

  /** A product of powers of two is a power of two. */
  lemma PowerOfTwoProduct(a: int, b: int)
    requires PowerOfTwo(a) && PowerOfTwo(b)
    ensures PowerOfTwo(a * b) && a >= 1 && b >= 1
  {
    var i: nat :| a == Pow2(i);
    var j: nat :| b == Pow2(j);
    Pow2Add(i, j);
  }

  // ----- what the intended chain guarantees -----

  /**
   * The slice size the partition check hands on is positive: a negative quotient either
   * stays negative under the int cast or is a multiple of 2^32, which casts to 0.
   */
  lemma SliceQuotientPositive(pbs: int, k: int, q: int)
    requires PowerOfTwo(pbs) && pbs == k * q && q <= INT_MAX
    requires IsPowerOfTwo(ToInt(q))
    ensures q > 0 && ToInt(q) == q
  {
    IsPowerOfTwoCorrect(pbs);
    PoolBuilder.ProductSign(k, q);
    WideQuotientCastsToZero(pbs, k, q);
  }

  /** A quotient of a power of two below the int range is a negated multiple of 2^32. */
  lemma WideQuotientCastsToZero(pbs: int, k: int, q: int)
    requires PowerOfTwo(pbs) && pbs == k * q
    ensures q < -0x8000_0000 ==> ToInt(q) == 0
  {
    if q < -0x8000_0000 {
      assert pbs == (-k) * (-q);
      IsPowerOfTwoCorrect(pbs);
      PoolBuilder.ProductSign(-k, -q);
      PoolBuilder.DivisorOfPowerOfTwo(pbs, -q, -k);
      PowerOfTwoWraps(-q);
    }
  }

  /**
   * A partition size accepted by the intended chain is a power of two cut into
   * slicesPerPartition slices of a power-of-two slice size, both positive.
   */
  lemma PartitionAllocation(pbs: int, p: int, k: int)
    requires IsLong(pbs) && IsInt(p) && IsInt(k)
    requires ByPartitionByteSize(Intended, pbs, p, k).Ok?
    ensures var g := ByPartitionByteSize(Intended, pbs, p, k).value;
      && g.partitions == p && g.slices == k && p >= 0
      && k * g.sliceByteSize == pbs
      && PowerOfTwo(pbs) && PowerOfTwo(k) && PowerOfTwo(g.sliceByteSize)
  {
    IsPowerOfTwoCorrect(pbs);
    var q := pbs / k;
    PoolBuilder.ExactQuotient(pbs, k);
    PoolBuilder.QuotientBound(pbs, k, q);
    assert ToLong(q) == q;
    SliceQuotientPositive(pbs, k, q);
    IsPowerOfTwoCorrect(q);
    PoolBuilder.ProductSign(k, q);
    PoolBuilder.DivisorOfPowerOfTwo(pbs, k, q);
  }

  /**
   * Memory accepted by the intended chain is a power of two split into `partitions`
   * partitions of `slicesPerPartition` slices of sliceByteSize bytes, all powers of two.
   */
  lemma MemoryAllocation(m: int, p: int, k: int)
    requires IsLong(m) && IsInt(p) && IsInt(k)
    requires ByMemoryByteSize(Intended, m, p, k).Ok?
    ensures var g := ByMemoryByteSize(Intended, m, p, k).value;
      && g.partitions == p && g.slices == k
      && p * (k * g.sliceByteSize) == m
      && PowerOfTwo(m) && PowerOfTwo(p) && PowerOfTwo(k) && PowerOfTwo(g.sliceByteSize)
  {
    IsPowerOfTwoCorrect(m);
    var pbs := m / p;
    PoolBuilder.ExactQuotient(m, p);
    PoolBuilder.QuotientBound(m, p, pbs);
    assert ToLong(pbs) == pbs;
    PartitionAllocation(pbs, p, k);
    PoolBuilder.ProductSign(p, pbs);
    PoolBuilder.DivisorOfPowerOfTwo(m, p, pbs);
  }

  /**
   * Conversely, the intended chain builds every power-of-two geometry whose memory fits a
   * long, except the one whose int partition size sliceByteSize * slices is 2^31: that
   * product is negative as an int and allocateDirect rejects it.
   */
  lemma ConsistentAllocationAccepted(p: int, k: int, s: int)
    requires PowerOfTwo(p) && PowerOfTwo(k) && PowerOfTwo(s)
    requires IsInt(p) && IsInt(k) && IsInt(s)
    requires p * (k * s) <= LONG_MAX && k * s != 0x8000_0000
    ensures IsLong(p * (k * s)) && ByMemoryByteSize(Intended, p * (k * s), p, k) == Ok(PoolBuilder.Geometry(p, s, k))
  {
    var pbs := k * s;
    PowerOfTwoProduct(k, s);
    PowerOfTwoProduct(p, pbs);
    MulSign(p, pbs);
    ConsistentPartitionAccepted(p, k, s);
    ConsistentMemoryStep(p * pbs, p, pbs, k);
  }

  /** The memory step of the converse, over the partition size as a whole. */
  lemma ConsistentMemoryStep(m: int, p: int, pbs: int, k: int)
    requires m == p * pbs && PowerOfTwo(m) && p >= 1 && pbs >= 1
    requires IsInt(p) && IsInt(k) && pbs <= m <= LONG_MAX
    ensures ByMemoryByteSize(Intended, m, p, k) == ByPartitionByteSize(Intended, pbs, p, k)
  {
    DivModUnique(m, p, pbs, 0);
    IsPowerOfTwoCorrect(m);
    assert ToLong(m / p) == pbs;
  }

  /** The partition step of the converse: k slices of s bytes make an accepted partition size. */
  lemma ConsistentPartitionAccepted(p: int, k: int, s: int)
    requires PowerOfTwo(p) && PowerOfTwo(k) && PowerOfTwo(s)
    requires IsInt(p) && IsInt(k) && IsInt(s)
    requires k * s <= LONG_MAX && k * s != 0x8000_0000
    ensures IsLong(k * s) && ByPartitionByteSize(Intended, k * s, p, k) == Ok(PoolBuilder.Geometry(p, s, k))
  {
    var pbs := k * s;
    PowerOfTwoProduct(k, s);
    DivModUnique(pbs, k, s, 0);
    IsPowerOfTwoCorrect(pbs);
    ConsistentSliceAccepted(p, k, s);
  }

  /** The slice step of the converse: the int buffer size s * k is not negative. */
  lemma ConsistentSliceAccepted(p: int, k: int, s: int)
    requires PowerOfTwo(p) && PowerOfTwo(k) && PowerOfTwo(s)
    requires IsInt(p) && IsInt(k) && IsInt(s)
    requires k * s != 0x8000_0000
    ensures BySliceByteSize(Intended, s, p, k) == Ok(PoolBuilder.Geometry(p, s, k))
  {
    PowerOfTwoProduct(k, s);
    PowerOfTwoProduct(p, k);
    IsPowerOfTwoCorrect(s);
    assert s * k == k * s;
    if k * s > 0x8000_0000 {
      PowerOfTwoWraps(k * s);
    }
  }

  /**
   * The memory of an accepted pool, with every product taken in long: exactly the memory
   * asked for. (getAllocatedMemory() as written takes it in int; see below.)
   */
  function AllocatedMemoryInLong(partitions: int, slices: int, sliceByteSize: int): (n: int)
    ensures IsLong(n)
  {
    ToLong(partitions * ToLong(slices * sliceByteSize))
  }

  lemma AcceptedPoolMemory(m: int, p: int, k: int)
    requires IsLong(m) && IsInt(p) && IsInt(k)
    requires ByMemoryByteSize(Intended, m, p, k).Ok?
    ensures AllocatedMemoryInLong(p, k, ByMemoryByteSize(Intended, m, p, k).value.sliceByteSize) == m
  {
    MemoryAllocation(m, p, k);
    var s := ByMemoryByteSize(Intended, m, p, k).value.sliceByteSize;
    PowerOfTwoProduct(k, s);
    PoolBuilder.ProductSign(p, k * s);
    MulSign(p, k * s);
    assert IsLong(k * s);
  }

  /**
   * Nothing bounds the partition size by Integer.MAX_VALUE: 4 GiB in one partition of four
   * 1 GiB slices is accepted, the int partition size is 0 and so is every partition's buffer.
   */
  lemma FourGigabytePartitionAccepted()
    ensures ByMemoryByteSize(Intended, 0x1_0000_0000, 1, 4) == Ok(PoolBuilder.Geometry(1, 0x4000_0000, 4))
    ensures Pools.PartitionByteSize(4, 0x4000_0000) == 0 && ToInt(0x4000_0000 * 4) == 0
  {
    Pow2Table();
    assert Pow2(0) == 1 && Pow2(2) == 4;
    ConsistentAllocationAccepted(1, 4, 0x4000_0000);
    assert 0x4000_0000 * 4 == 0x1_0000_0000;
    DivModUnique(0x1_0000_0000, 0x1_0000_0000, 1, 0);
  }

  /**
   * getAllocatedMemory() multiplies two ints: a pool of 4 partitions of 1024 slices of
   * 1 MiB, 4 GiB that the intended chain accepts, reports no memory at all.
   */
  lemma FourGigabytePoolMisreported()
    ensures ByMemoryByteSize(Intended, 0x1_0000_0000, 4, 1024) == Ok(PoolBuilder.Geometry(4, 0x10_0000, 1024))
    ensures Pools.AllocatedMemoryAsWritten(4, 1024, 0x10_0000) == 0
    ensures AllocatedMemoryInLong(4, 1024, 0x10_0000) == 0x1_0000_0000
  {
    Pow2Table();
    assert Pow2(2) == 4;
    ConsistentAllocationAccepted(4, 1024, 0x10_0000);
    Pools.AllocatedMemoryAsWrittenOverflows();
  }

  // ----- the chain as written -----

  /**
   * As written every genuine power of two is refused: a power-of-two slice size always,
   * and a power-of-two partition or memory size once it is divisible by its divisor.
   */
  lemma AsWrittenRejectsPowersOfTwo(size: int, p: int, k: int)
    requires IsLong(size) && IsInt(p) && IsInt(k) && PowerOfTwo(size)
    ensures IsInt(size) ==> BySliceByteSize(AsWritten, size, p, k) == Err(IllegalArgument)
    ensures k != 0 && size % k == 0 ==> ByPartitionByteSize(AsWritten, size, p, k) == Err(IllegalArgument)
    ensures p != 0 && size % p == 0 ==> ByMemoryByteSize(AsWritten, size, p, k) == Err(IllegalArgument)
  {
    PowerOfTwoTestInverted(size);
  }

  /** ...while a geometry made of odd sizes passes: 27 bytes, 3 partitions of 3 slices of 3 bytes. */
  lemma AsWrittenAcceptsOddSizes()
    ensures ByMemoryByteSize(AsWritten, 27, 3, 3) == Ok(PoolBuilder.Geometry(3, 3, 3))
    ensures ByMemoryByteSize(Intended, 27, 3, 3) == Err(IllegalArgument)
  {
    OddSizesPassAsWritten();
    assert ToLong(27 / 3) == 9 && ToLong(9 / 3) == 3 && ToInt(3) == 3;
  }

  lemma OddSizesPassAsWritten()
    ensures IsPowerOfTwoAsWritten(27) && IsPowerOfTwoAsWritten(9) && IsPowerOfTwoAsWritten(3)
    ensures !IsPowerOfTwo(27)
  {
    assert BitAnd(1, 1) == 1;
    assert BitAnd(3, 2) == 2;
    assert BitAnd(3, 3) == 3;
    assert BitAnd(6, 6) == 6;
    assert BitAnd(9, 8) == 8;
    assert BitAnd(13, 13) == 13;
    assert BitAnd(27, 26) == 26;
  }

  /** 1 KiB in 4 partitions of 4 slices of 64 bytes: refused as written, built as intended. */
  lemma KilobytePool()
    ensures ByMemoryByteSize(AsWritten, 1024, 4, 4) == Err(IllegalArgument)
    ensures ByMemoryByteSize(Intended, 1024, 4, 4) == Ok(PoolBuilder.Geometry(4, 64, 4))
  {
    assert Pow2(2) == 4 && Pow2(6) == 64 && Pow2(10) == 1024;
    AsWrittenRejectsPowersOfTwo(1024, 4, 4);
    ConsistentAllocationAccepted(4, 4, 64);
  }

  // ----- the nested PartitionBufferPoolImpl -----

  class PartitionBufferPoolImpl {
    const partitions: seq<LegacyPartitions.Partition>
    const sliceByteSize: int
    const slices: int

    /** Every partition has `slices` slices of sliceByteSize bytes. */
    ghost predicate Valid()
      reads partitions
    {
      forall i :: 0 <= i < |partitions| ==>
        && partitions[i].Valid()
        && |partitions[i].slices| == slices && partitions[i].sliceByteSize == sliceByteSize
    }

    /** The bitset words of every partition. */
    ghost function Words(): set<object>
    {
      set p | p in partitions :: p.usedSlices.words
    }

    /** used() of every partition, in index order. */
    ghost function Useds(): (used: seq<int>)
      reads Words()
      ensures |used| == |partitions|
    {
      seq(|partitions|, i requires 0 <= i < |partitions| reads Words() => PopCount(partitions[i].usedSlices.Bits()))
    }

    /** available() of every partition, in index order. */
    ghost function Avails(): (avail: seq<int>)
      reads Words()
      ensures |avail| == |partitions|
    {
      seq(|partitions|, i requires 0 <= i < |partitions| reads Words() => partitions[i].Avail())
    }

    /**
     * The constructor fills the partition array with new Partition(slices, sliceByteSize);
     * what it throws is Construction's, which the allocate chain checks first. Its only
     * caller has checked the slice size to be a power of two.
     */
    constructor (partitions: int, sliceByteSize: int, slices: int)
      requires Construction(partitions, sliceByteSize, slices) == Pass && sliceByteSize >= 0
      ensures Valid()
      ensures |this.partitions| == partitions && this.sliceByteSize == sliceByteSize && this.slices == slices
      ensures forall i :: 0 <= i < partitions ==> fresh(this.partitions[i]) && PopCount(this.partitions[i].usedSlices.Bits()) == 0
    {
      var built: seq<LegacyPartitions.Partition> := [];
      var i := 0;
      while i < partitions
        invariant 0 <= i <= partitions && |built| == i
        invariant forall j :: 0 <= j < i ==>
          && built[j].Valid() && |built[j].slices| == slices && built[j].sliceByteSize == sliceByteSize
          && fresh(built[j]) && PopCount(built[j].usedSlices.Bits()) == 0
      {
        var partition := new LegacyPartitions.Partition(slices, sliceByteSize);
        PopCountNone(partition.usedSlices.Bits());
        built := built + [partition];
        i := i + 1;
      }
      this.partitions := built;
      this.sliceByteSize := sliceByteSize;
      this.slices := slices;
    }

    /** requestSlice(): the slice-choosing algorithm is not written; it returns null. */
    method RequestSlice() returns (slice: LegacyPartitions.PartitionSlice?)
      ensures slice == null
    {
      slice := null;
    }

    /** freeSlice(slice): a null slice is ignored, any other is freed by its own partition. */
    method FreeSlice(slice: LegacyPartitions.PartitionSlice?) returns (r: Outcome)
      requires Valid()
      requires slice != null ==> slice.partition.Valid() && slice.Placed()
      modifies if slice == null then {} else {slice.partition.usedSlices.words}
      modifies if slice == null then {} else {slice, slice.byteBuffer}
      ensures Valid()
      ensures slice == null ==> r == Pass
      ensures slice != null ==> r == (if LegacyPartitions.Settable(old(slice.partition.usedSlices.Bits()),
        |slice.partition.slices|, slice.index) then Pass else Fail(IndexOutOfBounds))
      ensures slice != null && r == Pass ==>
        slice.partition.usedSlices.Bits() == old(slice.partition.usedSlices.Bits())[slice.index := false]
    {
      if slice == null {
        return Pass;
      }
      r := slice.partition.Free(slice);
    }

    /** getPartitionBuffer(): not written either; it returns null. */
    method GetPartitionBuffer() returns (buffer: LogicalBuffer.PartitionBuffer?)
      ensures buffer == null
    {
      buffer := null;
    }

    /** freePartitionBuffer(buffer): buffer.free(), which throws on null. */
    method FreePartitionBuffer(buffer: LogicalBuffer.PartitionBuffer?) returns (r: Outcome)
      modifies if buffer == null then {} else {buffer.slices}
      modifies if buffer == null then {} else {buffer.pool}
      ensures buffer == null ==> r == Fail(NullPointer)
      ensures buffer != null ==> (r == Pass
        && buffer.pool.returned == old(buffer.pool.returned) + PartitionBuffers.Present(old(buffer.slices[..]))
        && buffer.slices[..] == PartitionBuffers.Nulls(buffer.slices.Length))
    {
      if buffer == null {
        return Fail(NullPointer);
      }
      buffer.Free();
      r := Pass;
    }

    /** getPartitionByteSize(): slices times slice size as an int product. */
    function GetPartitionByteSize(): (n: int)
      ensures IsInt(n)
      ensures IsInt(slices * sliceByteSize) ==> n == slices * sliceByteSize
    {
      Pools.PartitionByteSize(slices, sliceByteSize)
    }

    /** getSliceCount(): slices per partition times the partition count, as an int product. */
    function GetSliceCount(): (n: int)
      ensures IsInt(n)
      ensures IsInt(slices * |partitions|) ==> n == slices * |partitions|
    {
      Pools.SliceCount(slices, |partitions|)
    }

    /** getAllocatedMemory(): an int product, widened to long only afterwards, so it never exceeds the int range. */
    function GetAllocatedMemory(): (n: int)
      ensures IsInt(n)
      ensures IsInt(slices * sliceByteSize) && IsInt(|partitions| * (slices * sliceByteSize)) ==>
        n == |partitions| * (slices * sliceByteSize)
    {
      Pools.AllocatedMemoryAsWritten(|partitions|, slices, sliceByteSize)
    }

    /** getUsedSliceCount(): used() summed in an int accumulator. */
    method GetUsedSliceCount() returns (n: int)
      requires Valid()
      ensures n == ToInt(Pools.Sum(Useds()))
    {
      ghost var used := Useds();
      n := 0;
      for i := 0 to |partitions|
        invariant n == ToInt(Pools.Sum(used[..i]))
      {
        var count := partitions[i].Used();
        assert count == used[i];
        Pools.Accumulate(used, i, n);
        n := ToInt(n + count);
      }
      assert used[..|partitions|] == used;
      assert n == ToInt(Pools.Sum(used));
      assert Useds() == used;
    }

    /** getFreeSliceCount(): available() summed in an int accumulator. */
    method GetFreeSliceCount() returns (n: int)
      requires Valid()
      ensures n == ToInt(Pools.Sum(Avails()))
    {
      ghost var avail := Avails();
      n := 0;
      for i := 0 to |partitions|
        invariant n == ToInt(Pools.Sum(avail[..i]))
      {
        var count := partitions[i].Available();
        assert count == avail[i];
        Pools.Accumulate(avail, i, n);
        n := ToInt(n + count);
      }
      assert avail[..|partitions|] == avail;
      assert n == ToInt(Pools.Sum(avail));
      assert Avails() == avail;
    }

    /** Used and free slices add up to every slice of every partition. */
    lemma UsedAndFreeAddUp()
      requires Valid()
      ensures Pools.Sum(Useds()) + Pools.Sum(Avails()) == |partitions| * slices
    {
      Pools.SumPairs(Useds(), Avails(), slices);
    }
  }
}

=== FILE: builder.dfy ===
/**
 * PartitionBufferBuilder: turns a memory size, a partition count and a slice size (each
 * given in bytes or as a size descriptor such as "512K") into the geometry of a pool,
 * rejecting any geometry whose parts do not divide evenly or are not powers of two, and
 * builds the PartitionBufferPoolImpl with the builder's partition factory and selector.
 */
module PoolBuilder {
  import opened Errors
  import opened BufferUtils
  import opened Partitions
  import opened Selectors
  import opened Pools

  /** The geometry a pool is built with: partition count, slice size, slices per partition. */
  datatype Geometry = Geometry(partitions: int, sliceByteSize: int, slices: int)

  /**
   * allocatePool(long memoryByteSize, int partitions, int sliceByteSize): the checks in the
   * order the builder makes them. Java's `%` and `/` truncate where Dafny's are Euclidean,
   * but the two agree on whether a remainder is zero and on every exact quotient, which is
   * all that is used here; the quotient is a `long`, so Long.MIN_VALUE / -1 wraps around.
   */
  function PoolGeometry(memoryByteSize: int, partitions: int, sliceByteSize: int): (r: Result<Geometry>)
    requires IsLong(memoryByteSize) && IsInt(partitions) && IsInt(sliceByteSize)
    ensures r.Ok? ==> r.value.partitions == partitions && r.value.sliceByteSize == sliceByteSize
  {
    if partitions == 0 then Err(Arithmetic)
    else if memoryByteSize % partitions != 0 then Err(IllegalArgument)
    else
      var partitionByteSize := ToLong(memoryByteSize / partitions);
      if !IsPowerOfTwo(partitionByteSize) then Err(IllegalArgument)
      else if partitionByteSize > INT_MAX then Err(IllegalArgument)
      else if sliceByteSize == 0 then Err(Arithmetic)
      else if partitionByteSize % sliceByteSize != 0 then Err(IllegalArgument)
      else Ok(Geometry(partitions, sliceByteSize, ToInt(partitionByteSize / sliceByteSize)))
  }

  // ----- arithmetic behind the geometry -----

  /** An exact quotient is no larger in magnitude than the dividend. */
  lemma QuotientBound(m: int, p: int, q: int)
    requires p != 0 && m == p * q
    ensures -m <= q <= m || m <= q <= -m
  {
    if q != 0 {
      var x, y := if p < 0 then -p else p, if q < 0 then -q else q;
      MulSign(x, y);
      assert m == x * y || m == -(x * y) by {
        if p < 0 && q < 0 {
          assert p * q == x * y;
        } else if p < 0 {
          assert p * q == -(x * y);
        } else if q < 0 {
          assert p * q == -(x * y);
        }
      }
    }
  }

  /** A zero Euclidean remainder means the division is exact, whatever the signs. */
  lemma ExactQuotient(m: int, p: int)
    requires p != 0 && m % p == 0
    ensures m == p * (m / p)
  {
  }

  /** The product of two odd numbers is odd. */
  lemma OddProduct(a: int, b: int)
    requires a % 2 == 1 && b % 2 == 1
    ensures (a * b) % 2 == 1
  {
    var x, y := a / 2, b / 2;
    assert a == 2 * x + 1 && b == 2 * y + 1;
    OddTimesOdd(x, y);
  }

  lemma OddTimesOdd(x: int, y: int)
    ensures ((2 * x + 1) * (2 * y + 1)) % 2 == 1
  {
    var k := 2 * x * y + x + y;
    assert (2 * x + 1) * (2 * y + 1) == 2 * k + 1;
  }

  /** Doubling either factor doubles the product. */
  lemma DoubleFactor(a: int, b: int)
    ensures (2 * a) * b == 2 * (a * b) && a * (2 * b) == 2 * (a * b)
  {
  }

  /** Every positive divisor of a power of two is a power of two. */
  lemma {:induction false} DivisorOfPowerOfTwo(x: int, d: int, q: int)
    requires PowerOfTwo(x) && d > 0 && x == d * q
    ensures PowerOfTwo(d)
    decreases x
  {
    var k: nat :| x == Pow2(k);
    if k == 0 {
      MulSign(q, d);
      assert d == Pow2(0);
    } else {
      var half := Pow2(k - 1);
      assert x == 2 * half;
      assert PowerOfTwo(half);
      if d % 2 == 0 {
        var e := d / 2;
        DoubleFactor(e, q);
        assert half == e * q;
        DivisorOfPowerOfTwo(half, e, q);
        var j: nat :| e == Pow2(j);
        assert d == Pow2(j + 1);
      } else {
        if q % 2 == 1 {
          OddProduct(d, q);
          assert false;
        }
        var h := q / 2;
        DoubleFactor(d, h);
        assert half == d * h;
        DivisorOfPowerOfTwo(half, d, h);
      }
    }
  }

  /**
   * The quotient memoryByteSize / partitions is taken as a long; once it is a power of two
   * it is the exact quotient (the one wrap-around, Long.MIN_VALUE / -1, is negative).
   */
  lemma PartitionSizeExact(m: int, p: int)
    requires IsLong(m) && p != 0 && m % p == 0
    ensures IsPowerOfTwo(ToLong(m / p)) ==> ToLong(m / p) == m / p
  {
    ExactQuotient(m, p);
    QuotientBound(m, p, m / p);
  }

  // ----- what the geometry checks guarantee -----

  /** A positive product has factors of the same sign. */
  lemma ProductSign(a: int, b: int)
    ensures a * b > 0 ==> (a > 0 <==> b > 0)
  {
    if a > 0 && b <= 0 {
      MulSign(-b, a);
    } else if a <= 0 && b > 0 {
      MulSign(-a, b);
    }
  }

  /** The partition size and slice count of an accepted geometry, as exact quotients. */
  lemma AcceptedQuotients(m: int, p: int, s: int)
    requires IsLong(m) && IsInt(p) && IsInt(s)
    requires PoolGeometry(m, p, s).Ok?
    ensures p != 0 && s != 0 && m == p * (m / p)
    ensures IsPowerOfTwo(m / p) && m / p <= INT_MAX
    ensures PoolGeometry(m, p, s).value.slices * s == m / p
  {
    var pbs := m / p;
    assert p != 0 && m % p == 0 && IsPowerOfTwo(ToLong(pbs)) && ToLong(pbs) <= INT_MAX by {
      assert PoolGeometry(m, p, s).Ok?;
    }
    ExactQuotient(m, p);
    PartitionSizeExact(m, p);
    assert s != 0 && pbs % s == 0 && PoolGeometry(m, p, s).value.slices == ToInt(pbs / s) by {
      assert PoolGeometry(m, p, s).Ok? && ToLong(pbs) == pbs;
    }
    ExactQuotient(pbs, s);
    QuotientBound(pbs, s, pbs / s);
    assert IsInt(pbs / s);
  }

  /**
   * An accepted geometry divides the memory into `partitions` partitions of one power-of-two
   * partition size of at most Integer.MAX_VALUE bytes, each cut into `slices` slices of
   * sliceByteSize bytes; slice size and slice count are powers of two when the slice size
   * is positive, and the corrected getAllocatedMemory() reports exactly the memory asked for.
   */
  lemma AcceptedGeometry(m: int, p: int, s: int)
    requires IsLong(m) && IsInt(p) && IsInt(s)
    requires PoolGeometry(m, p, s).Ok?
    ensures var g := PoolGeometry(m, p, s).value;
      && g.partitions == p && g.sliceByteSize == s
      && 0 < g.slices * s <= INT_MAX && PowerOfTwo(g.slices * s)
      && p * (g.slices * s) == m
      && (p > 0 <==> m > 0) && (g.slices > 0 <==> s > 0)
      && (s > 0 ==> PowerOfTwo(s) && PowerOfTwo(g.slices))
      && AllocatedMemory(p, g.slices, s) == m
  {
    var k := PoolGeometry(m, p, s).value.slices;
    AcceptedQuotients(m, p, s);
    var pbs := m / p;
    IsPowerOfTwoCorrect(pbs);
    ProductSign(p, pbs);
    ProductSign(k, s);
    if s > 0 {
      DivisorOfPowerOfTwo(pbs, s, k);
      DivisorOfPowerOfTwo(pbs, k, s);
    }
    assert IsInt(k * s);
  }

  /**
   * Conversely, every consistent geometry is accepted: `partitions` partitions of `slices`
   * slices of sliceByteSize bytes, with a power-of-two partition size of at most
   * Integer.MAX_VALUE bytes and a total that fits a long, is built exactly so.
   */
  lemma ConsistentGeometryAccepted(p: int, s: int, k: int)
    requires 0 < p <= INT_MAX && 0 < s <= INT_MAX && 0 < k
    requires PowerOfTwo(k * s) && k * s <= INT_MAX && p * (k * s) <= LONG_MAX
    ensures PoolGeometry(p * (k * s), p, s) == Ok(Geometry(p, s, k))
  {
    var pbs := k * s;
    MulSign(k, s);
    MulSign(p, pbs);
    DivModUnique(p * pbs, p, pbs, 0);
    ToLongInRange(pbs);
    IsPowerOfTwoCorrect(pbs);
    DivModUnique(pbs, s, k, 0);
    assert IsInt(k) by { MulSign(s, k); }
  }

  /**
   * Rejections: a zero partition count or slice size fails as the division by zero it is,
   * and a partition count that does not divide the memory, or a partition size that is not
   * a power of two or exceeds Integer.MAX_VALUE, fails as an illegal argument.
   */
  lemma RejectedGeometry(m: int, p: int, s: int)
    requires IsLong(m) && IsInt(p) && IsInt(s)
    ensures PoolGeometry(m, p, s) == Err(Arithmetic) ==> p == 0 || s == 0
    ensures p == 0 ==> PoolGeometry(m, p, s) == Err(Arithmetic)
    ensures p != 0 && (m % p != 0 || !PowerOfTwo(m / p) || m / p > INT_MAX) ==>
      PoolGeometry(m, p, s) == Err(IllegalArgument)
    ensures p != 0 && m % p == 0 && PowerOfTwo(m / p) && m / p <= INT_MAX && s != 0 && (m / p) % s != 0 ==>
      PoolGeometry(m, p, s) == Err(IllegalArgument)
  {
    if p != 0 && m % p == 0 {
      PartitionSizeExact(m, p);
      IsPowerOfTwoCorrect(m / p);
      if ToLong(m / p) != m / p {
        IsPowerOfTwoCorrect(ToLong(m / p));
      }
    }
  }

  // ----- the overload chain -----

  /** A size argument: a byte count, or a size descriptor such as "256K". */
  datatype Size = Bytes(n: int) | Descriptor(text: string)

  /**
   * The slice size of an overload: an int as given, or a descriptor that must name a power
   * of two of at most Integer.MAX_VALUE bytes, then cast to int. The descriptor is parsed
   * as written or as intended.
   */
  function SliceByteSizeOf(reading: Reading, slice: Size): (r: Result<int>)
    requires slice.Bytes? ==> IsInt(slice.n)
    ensures r.Ok? ==> IsInt(r.value)
  {
    match slice
    case Bytes(n) => Ok(n)
    case Descriptor(text) =>
      match DescriptorSize(reading, text)
      case Err(e) => Err(e)
      case Ok(size) =>
        if !IsPowerOfTwo(size) then Err(IllegalArgument)
        else if size > INT_MAX then Err(IllegalArgument)
        else Ok(ToInt(size))
  }

  /** The memory size of an overload: a long as given, or a descriptor that must name a power of two. */
  function MemoryByteSizeOf(reading: Reading, memory: Size): (r: Result<int>)
    requires memory.Bytes? ==> IsLong(memory.n)
    ensures r.Ok? ==> IsLong(r.value)
  {
    match memory
    case Bytes(n) => Ok(n)
    case Descriptor(text) =>
      match DescriptorSize(reading, text)
      case Err(e) => Err(e)
      case Ok(size) => if !IsPowerOfTwo(size) then Err(IllegalArgument) else Ok(size)
  }

  /**
   * The four allocatePool(memory, partitions, slice) overloads: the slice size is resolved
   * first, then the memory size, then the geometry is checked.
   */
  function AllocationGeometry(reading: Reading, memory: Size, partitions: int, slice: Size): (r: Result<Geometry>)
    requires memory.Bytes? ==> IsLong(memory.n)
    requires slice.Bytes? ==> IsInt(slice.n)
    requires IsInt(partitions)
  {
    match SliceByteSizeOf(reading, slice)
    case Err(e) => Err(e)
    case Ok(s) =>
      match MemoryByteSizeOf(reading, memory)
      case Err(e) => Err(e)
      case Ok(m) => PoolGeometry(m, partitions, s)
  }

  /**
   * A pool allocated through descriptors, whichever way they are parsed, has a power-of-two
   * slice size and a power-of-two memory size, and its partitions, slices and slice size
   * multiply out to that memory.
   */
  lemma DescriptorAllocation(reading: Reading, memory: string, p: int, slice: string)
    requires IsInt(p)
    requires AllocationGeometry(reading, Descriptor(memory), p, Descriptor(slice)).Ok?
    ensures var g := AllocationGeometry(reading, Descriptor(memory), p, Descriptor(slice)).value;
      && DescriptorSize(reading, slice) == Ok(g.sliceByteSize) && PowerOfTwo(g.sliceByteSize)
      && DescriptorSize(reading, memory).Ok? && PowerOfTwo(DescriptorSize(reading, memory).value)
      && g.partitions == p && p * (g.slices * g.sliceByteSize) == DescriptorSize(reading, memory).value
      && p > 0 && g.slices > 0
  {
    var size := DescriptorSize(reading, slice).value;
    var m := DescriptorSize(reading, memory).value;
    IsPowerOfTwoCorrect(size);
    IsPowerOfTwoCorrect(m);
    AcceptedGeometry(m, p, size);
  }

  /**
   * allocatePool("1M", 4, "256K") as intended builds four partitions of one 256 KiB slice
   * each: the slice descriptor is read as 256 * 1024 bytes and the memory descriptor as
   * 1024 * 1024.
   */
  lemma DescriptorAllocationExample()
    ensures AllocationGeometry(Intended, Descriptor("1M"), 4, Descriptor("256K")) == Ok(Geometry(4, 256 * 1024, 1))
  {
    assert SliceByteSizeOf(Intended, Descriptor("256K")) == Ok(256 * 1024) by {
      QuarterMegabyteSlice();
    }
    assert MemoryByteSizeOf(Intended, Descriptor("1M")) == Ok(1024 * 1024) by {
      OneMegabyteMemory();
    }
    assert PoolGeometry(1024 * 1024, 4, 256 * 1024) == Ok(Geometry(4, 256 * 1024, 1)) by {
      Pow2Values();
      assert PowerOfTwo(1 * (256 * 1024));
      ConsistentGeometryAccepted(4, 256 * 1024, 1);
      assert 4 * (1 * (256 * 1024)) == 1024 * 1024;
    }
  }

  /**
   * As written, allocatePool("1M", 4, "256K") throws IllegalArgumentException: "256K" is
   * read as 25 * 1024 * 1024 bytes, which is not a power of two. The memory descriptor
   * "1M" would fail on its own too, as parseLong("").
   */
  lemma DescriptorAllocationAsWrittenExample()
    ensures AllocationGeometry(AsWritten, Descriptor("1M"), 4, Descriptor("256K")) == Err(IllegalArgument)
    ensures MemoryByteSizeOf(AsWritten, Descriptor("1M")) == Err(NumberFormat)
  {
    assert DescriptorSize(AsWritten, "256K") == Ok(25 * KILOBYTE_BYTE_SIZE) by {
      assert Decimal(25) == "25" by {
        assert Decimal(2) == "2";
      }
      AsWrittenDescriptorMeaning(25, '6', 'K');
      assert "25" + ['6', 'K'] == "256K";
      ToLongInRange(25 * KILOBYTE_BYTE_SIZE);
    }
    assert !IsPowerOfTwo(25 * KILOBYTE_BYTE_SIZE) by {
      IsPowerOfTwoCorrect(25 * KILOBYTE_BYTE_SIZE);
      Pow2Values();
      NotPowerOfTwoBetween(25 * KILOBYTE_BYTE_SIZE, 24);
    }
    assert DescriptorSize(AsWritten, "1M") == Err(NumberFormat) by {
      assert Decimal(1) == "1";
      AsWrittenRejectsOneDigit(1, 'M');
      assert "1" + ['M'] == "1M";
    }
  }

  /** "256K" names a 256 KiB slice, a power of two that fits an int. */
  lemma QuarterMegabyteSlice()
    ensures SliceByteSizeOf(Intended, Descriptor("256K")) == Ok(256 * 1024)
  {
    assert IntendedDescriptorSize("256K") == Ok(256 * 1024) by {
      assert Decimal(256) == "256" by {
        assert Decimal(2) == "2";
        assert Decimal(25) == "25";
      }
      IntendedDescriptorRoundTrip(256, 'K');
      assert "256" + ['K'] == "256K";
    }
    assert IsPowerOfTwo(256 * 1024) by {
      Pow2Values();
      IsPowerOfTwoCorrect(256 * 1024);
    }
  }

  /** "1M" names 1 MiB, a power of two. */
  lemma OneMegabyteMemory()
    ensures MemoryByteSizeOf(Intended, Descriptor("1M")) == Ok(1024 * 1024)
  {
    assert IntendedDescriptorSize("1M") == Ok(1024 * 1024) by {
      assert Decimal(1) == "1";
      IntendedDescriptorRoundTrip(1, 'M');
      assert "1" + ['M'] == "1M";
    }
    assert IsPowerOfTwo(1024 * 1024) by {
      Pow2Values();
      IsPowerOfTwoCorrect(1024 * 1024);
    }
  }

  /** The powers of two the descriptor examples meet. */
  lemma Pow2Values()
    ensures Pow2(18) == 256 * 1024 && Pow2(19) == 512 * 1024 && Pow2(20) == 1024 * 1024
    ensures Pow2(24) == 16 * 1024 * 1024 && Pow2(25) == 32 * 1024 * 1024 && Pow2(26) == 64 * 1024 * 1024
    ensures Pow2(28) == 256 * 1024 * 1024 && Pow2(29) == 512 * 1024 * 1024
  {
    assert Pow2(4) == 16;
    assert Pow2(8) == 256;
    assert Pow2(12) == 4096;
    assert Pow2(16) == 65536;
    assert Pow2(20) == 1024 * 1024;
    assert Pow2(24) == 16 * 1024 * 1024;
  }

  lemma {:induction false} Pow2Monotone(i: nat, j: nat)
    requires i <= j
    ensures Pow2(i) <= Pow2(j)
    decreases j - i
  {
    if i < j {
      Pow2Monotone(i, j - 1);
    }
  }

  /** A number strictly between two neighbouring powers of two is not a power of two. */
  lemma NotPowerOfTwoBetween(x: int, k: nat)
    requires Pow2(k) < x < Pow2(k + 1)
    ensures !PowerOfTwo(x)
  {
    if PowerOfTwo(x) {
      var j: nat :| x == Pow2(j);
      if j <= k {
        Pow2Monotone(j, k);
      } else {
        Pow2Monotone(k + 1, j);
      }
    }
  }

  /** 500 MiB lies strictly between 2^28 and 2^29 bytes. */
  lemma FiveHundredMegabytesNotPowerOfTwo()
    ensures !PowerOfTwo(500 * 1024 * 1024)
  {
    Pow2Values();
    NotPowerOfTwoBetween(500 * 1024 * 1024, 28);
  }

  /** "512K" names a 512 KiB slice, a power of two that fits an int. */
  lemma HalfMegabyteSlice()
    ensures SliceByteSizeOf(Intended, Descriptor("512K")) == Ok(512 * 1024)
  {
    assert IntendedDescriptorSize("512K") == Ok(512 * 1024) by {
      assert Decimal(512) == "512" by {
        assert Decimal(5) == "5";
        assert Decimal(51) == "51";
      }
      IntendedDescriptorRoundTrip(512, 'K');
      assert "512" + ['K'] == "512K";
    }
    assert IsPowerOfTwo(512 * 1024) by {
      Pow2Values();
      IsPowerOfTwoCorrect(512 * 1024);
    }
  }

  /** As written, "512K" is read as 51 * 1024 * 1024 bytes, which is not a power of two. */
  lemma HalfMegabyteSliceAsWritten()
    ensures SliceByteSizeOf(AsWritten, Descriptor("512K")) == Err(IllegalArgument)
  {
    assert DescriptorSize(AsWritten, "512K") == Ok(51 * KILOBYTE_BYTE_SIZE) by {
      assert Decimal(51) == "51" by {
        assert Decimal(5) == "5";
      }
      AsWrittenDescriptorMeaning(51, '2', 'K');
      assert "51" + ['2', 'K'] == "512K";
      ToLongInRange(51 * KILOBYTE_BYTE_SIZE);
    }
    assert !IsPowerOfTwo(51 * KILOBYTE_BYTE_SIZE) by {
      IsPowerOfTwoCorrect(51 * KILOBYTE_BYTE_SIZE);
      Pow2Values();
      NotPowerOfTwoBetween(51 * KILOBYTE_BYTE_SIZE, 25);
    }
  }

  /** "500M" names 500 MiB, which is not a power of two. */
  lemma FiveHundredMegabytesRejected()
    ensures MemoryByteSizeOf(Intended, Descriptor("500M")) == Err(IllegalArgument)
  {
    assert IntendedDescriptorSize("500M") == Ok(500 * 1024 * 1024) by {
      assert Decimal(500) == "500" by {
        assert Decimal(5) == "5";
        assert Decimal(50) == "50";
      }
      IntendedDescriptorRoundTrip(500, 'M');
      assert "500" + ['M'] == "500M";
    }
    assert !IsPowerOfTwo(500 * 1024 * 1024) by {
      IsPowerOfTwoCorrect(500 * 1024 * 1024);
      FiveHundredMegabytesNotPowerOfTwo();
    }
  }

  /**
   * The pool the buffer tests allocate, allocatePool("500M", 50, "512K"), is rejected either
   * way: as written the slice size "512K" is already no power of two; as intended the slice
   * size passes, but 500 MiB is not a power of two.
   */
  lemma FiveHundredMegabytePoolRejected(reading: Reading)
    ensures AllocationGeometry(reading, Descriptor("500M"), 50, Descriptor("512K")) == Err(IllegalArgument)
  {
    if reading.AsWritten? {
      HalfMegabyteSliceAsWritten();
    } else {
      HalfMegabyteSlice();
      FiveHundredMegabytesRejected();
    }
  }

  // ----- the builder -----

  /**
   * PartitionBufferBuilder: the partition factory (the kind of slice storage its partitions
   * use), the slice selector every pool it builds is given, and DEFAULT_PARTITIONS_COUNT,
   * Runtime.availableProcessors() as seen when the class is loaded.
   */
  class PartitionBufferBuilder {
    const kind: SliceKind
    const selector: Selector
    const defaultPartitions: int

    /** PartitionBufferBuilder(partitionFactory, partitionSliceSelector) */
    constructor (kind: SliceKind, selector: Selector, processors: int)
      ensures this.kind == kind && this.selector == selector && defaultPartitions == processors
    {
      this.kind := kind;
      this.selector := selector;
      defaultPartitions := processors;
    }

    /** PartitionBufferBuilder(partitionFactory): a new thread-affinity selector. */
    constructor WithFactory(kind: SliceKind, processors: int)
      ensures this.kind == kind && defaultPartitions == processors
      ensures selector.ThreadLocal? && fresh(selector.tl)
      ensures selector.State() == Affinity(AffinityState(map[], None, 0, 0, 0))
    {
      this.kind := kind;
      var tl := new ThreadLocalSelector();
      selector := ThreadLocal(tl);
      defaultPartitions := processors;
    }

    /** PartitionBufferBuilder(partitionSliceSelector): direct ByteBuffer partitions. */
    constructor WithSelector(selector: Selector, processors: int)
      ensures kind == DirectByteBuffer && this.selector == selector && defaultPartitions == processors
    {
      kind := DirectByteBuffer;
      this.selector := selector;
      defaultPartitions := processors;
    }

    /** The partition count of an overload; those without one use DEFAULT_PARTITIONS_COUNT. */
    function PartitionsOr(partitions: Option<int>): (n: int)
      reads this
      ensures partitions.None? ==> n == defaultPartitions
      ensures partitions.Some? ==> n == partitions.value
    {
      if partitions.Some? then partitions.value else defaultPartitions
    }

    /**
     * allocatePool(memory, [partitions,] slice), with descriptors parsed as written or as
     * intended: the geometry of AllocationGeometry, then
     * `new PartitionBufferPoolImpl(...)`, whose partition array and slice arrays reject a
     * negative length.
     */
    method AllocatePool(reading: Reading, memory: Size, partitions: Option<int>, slice: Size) returns (r: Result<PartitionBufferPool>)
      requires memory.Bytes? ==> IsLong(memory.n)
      requires slice.Bytes? ==> IsInt(slice.n)
      requires IsInt(PartitionsOr(partitions))
      requires var g := AllocationGeometry(reading, memory, PartitionsOr(partitions), slice);
        g.Ok? && g.value.partitions >= 0 ==> selector.Serves({}, g.value.partitions)
      ensures var g := AllocationGeometry(reading, memory, PartitionsOr(partitions), slice);
        if g.Err? then r == Err(g.error)
        else if g.value.partitions < 0 || g.value.slices < 0 then r == Err(NegativeArraySize)
        else
          && r.Ok? && fresh(r.value) && r.value.Valid()
          && |r.value.partitions| == g.value.partitions
          && r.value.sliceByteSize == g.value.sliceByteSize && r.value.slices == g.value.slices
          && r.value.selector == selector && selector.State() == old(selector.State())
          && forall i :: 0 <= i < g.value.partitions ==>
            r.value.partitions[i].kind == kind && r.value.partitions[i].Used() == 0
    {
      var count := PartitionsOr(partitions);
      var g := AllocationGeometry(reading, memory, count, slice);
      if g.Err? {
        return Err(g.error);
      }
      var geometry := g.value;
      if geometry.partitions < 0 || geometry.slices < 0 {
        return Err(NegativeArraySize);
      }
      assert g == PoolGeometry(MemoryByteSizeOf(reading, memory).value, count, SliceByteSizeOf(reading, slice).value);
      AcceptedGeometry(MemoryByteSizeOf(reading, memory).value, count, SliceByteSizeOf(reading, slice).value);
      if geometry.sliceByteSize < 0 {
        assert false;
      }
      assert geometry.sliceByteSize * geometry.slices == geometry.slices * geometry.sliceByteSize;
      var pool := new PartitionBufferPool(geometry.partitions, geometry.sliceByteSize, geometry.slices, kind, selector);
      r := Ok(pool);
    }
  }

  // ----- One selector shared by the pools of a builder -----

  /** A partition as the Java selectors hold it, by identity: its pool and its index there. */
  datatype PartitionRef = PartitionRef(pool: nat, index: nat)

  /** The partition exists: its pool and its index are in range. */
  predicate Held(ref: PartitionRef, counts: seq<seq<int>>)
  {
    ref.pool < |counts| && ref.index < |counts[ref.pool]|
  }

  /** The partition exists and has a slice available. */
  predicate Serving(ref: PartitionRef, counts: seq<seq<int>>)
  {
    Held(ref, counts) && counts[ref.pool][ref.index] > 0
  }

  /**
   * The thread-affinity selector as written, shared by the pools a builder allocates: a
   * thread's partition is an object of whichever pool served it, and the claim table keeps
   * the length of the first partition array that created it. The access statistics are
   * left out.
   */
  datatype SharedAffinity = SharedAffinity(assignment: map<int, PartitionRef>, claimed: Option<seq<bool>>)

  /**
   * The claim loop as written: it runs over the whole table and, at each unclaimed entry,
   * claims it and indexes the calling pool's array, which may be shorter.
   */
  function SharedClaim(claimed: seq<bool>, avail: seq<int>, pool: nat, index: nat): (r: (seq<bool>, Option<Result<PartitionRef>>))
    requires index <= |claimed|
    decreases |claimed| - index
    ensures |r.0| == |claimed|
    ensures r.1.Some? && r.1.value.Err? ==> r.1.value.error == IndexOutOfBounds && |avail| < |claimed|
    ensures r.1.Some? && r.1.value.Ok? ==>
      var ref := r.1.value.value; ref.pool == pool && ref.index < |avail| && avail[ref.index] > 0
  {
    if index == |claimed| then (claimed, None)
    else if claimed[index] then SharedClaim(claimed, avail, pool, index + 1)
    else if index >= |avail| then (claimed[index := true], Some(Err(IndexOutOfBounds)))
    else if avail[index] > 0 then (claimed[index := true], Some(Ok(PartitionRef(pool, index))))
    else SharedClaim(claimed[index := true], avail, pool, index + 1)
  }

  /**
   * selectPartitionSlice(partitions) of pool `pool`, called by `thread`, on the shared
   * selector as written; counts[p] are the available() counts of pool p's partitions. The
   * thread's own partition serves whatever pool it belongs to.
   */
  function SharedThreadLocalStep(st: SharedAffinity, counts: seq<seq<int>>, pool: nat, thread: int): (step: (SharedAffinity, Result<PartitionRef>))
    requires pool < |counts|
    requires forall t :: t in st.assignment ==> Held(st.assignment[t], counts)
    ensures forall t :: t in step.0.assignment ==> Held(step.0.assignment[t], counts)
    ensures step.1.Ok? ==> Serving(step.1.value, counts)
    ensures step.1.Ok? && step.1.value.pool != pool ==> thread in st.assignment && step.1.value == st.assignment[thread]
  {
    var avail := counts[pool];
    if thread in st.assignment && Serving(st.assignment[thread], counts) then
      (st, Ok(st.assignment[thread]))
    else
      var table := if st.claimed.Some? then st.claimed.value else seq(|avail|, _ => false);
      var (claimed, hit) := SharedClaim(table, avail, pool, 0);
      var next := SharedAffinity(st.assignment, Some(claimed));
      match hit
      case Some(Ok(ref)) => (next.(assignment := st.assignment[thread := ref]), Ok(ref))
      case Some(Err(e)) => (next, Err(e))
      case None =>
        match FirstAvailable(avail, 0)
        case Some(k) => (next, Ok(PartitionRef(pool, k)))
        case None => (next, Err(Exhausted))
  }

  /**
   * As written, with one selector for two pools of two and four partitions: thread 7 is
   * served from partition 0 of the first pool, and its next request to the second pool is
   * served from that same partition of the first pool. A later pool of one partition walks
   * the first pool's claim table past its own array and fails with IndexOutOfBounds
   * although its partition has slices available.
   */
  lemma SharedSelectorCrossesPools()
    ensures var first := SharedThreadLocalStep(SharedAffinity(map[], None), [[2, 2], [2, 2, 2, 2], [2]], 0, 7);
      && first.1 == Ok(PartitionRef(0, 0))
      && SharedThreadLocalStep(first.0, [[1, 2], [2, 2, 2, 2], [2]], 1, 7).1 == Ok(PartitionRef(0, 0))
      && SharedThreadLocalStep(first.0, [[1, 2], [2, 2, 2, 2], [2]], 2, 8).1 == Err(IndexOutOfBounds)
  {
    var first := SharedThreadLocalStep(SharedAffinity(map[], None), [[2, 2], [2, 2, 2, 2], [2]], 0, 7);
    assert seq(2, _ => false) == [false, false];
    assert [false, false][0 := true] == [true, false];
    assert SharedClaim([false, false], [2, 2], 0, 0) == ([true, false], Some(Ok(PartitionRef(0, 0))));
    assert first.0 == SharedAffinity(map[7 := PartitionRef(0, 0)], Some([true, false]));
    assert SharedClaim([true, false], [2], 2, 0) == SharedClaim([true, false], [2], 2, 1);
  }

  /**
   * With a selector state of its own for each pool, as the model's pools keep it, the same
   * requests stay inside the pool asked: thread 7 gets partition 0 of the four-partition
   * pool, and thread 8 partition 0 of the one-partition pool.
   */
  lemma OwnSelectorStaysInPool()
    ensures var none := AffinityState(map[], None, 0, 0, 0);
      && ThreadLocalStep(none, [2, 2, 2, 2], 7).1 == Picked(0)
      && ThreadLocalStep(none, [2], 8).1 == Picked(0)
  {
    var none := AffinityState(map[], None, 0, 0, 0);
    assert Unclaimed([2, 2, 2, 2], seq(4, _ => false))[0] == 2;
    assert Unclaimed([2], seq(1, _ => false))[0] == 2;
  }
}

=== FILE: errors.dfy ===
/**
 * The Java exceptions that the buffer pool raises, as values. A Java method that
 * returns normally becomes `Ok`/`Pass`; one that throws becomes `Err`/`Fail`
 * carrying the exception class.
 */
module Errors {

  datatype Error =
    | IndexOutOfBounds   // IndexOutOfBoundsException (and the array / string variants)
    | IllegalArgument    // IllegalArgumentException
    | IllegalState       // IllegalStateException
    | NumberFormat       // NumberFormatException from Long.parseLong
    | Arithmetic         // ArithmeticException (integer division by zero)
    | NullPointer        // NullPointerException
    | NegativeArraySize  // NegativeArraySizeException
    | Exhausted          // RuntimeException "Could not retrieve a new partition slice"

  /** The outcome of a Java method returning a value of type T. */
  datatype Result<T> = Ok(value: T) | Err(error: Error)

  /** The outcome of a Java `void` method. */
  datatype Outcome = Pass | Fail(error: Error)

  /** A Java reference that may be null. */
  datatype Option<T> = None | Some(value: T)
}

=== FILE: legacy.dfy ===
/**
 * The three bounded partitions that predate AbstractPartition: Partition,
 * ByteBufferPartition and UnsafeBufferPartition. Each carves one shared block of
 * sliceByteSize * slices bytes into slices, keeps a FixedLengthBitSet of the slices
 * handed out, and keeps a cursor (the AtomicInteger `index`) that get() moves to the
 * slot it picks. The three differ in how nextSlice() uses that cursor, in what get()
 * does with the slot, and in how the inner slice addresses the block.
 */
module LegacyPartitions {
  import opened Errors
  import opened BufferUtils
  import opened BitSet
  import opened Slices
  import Partitions

  // ----- the bitset scans, on the bit view -----

  /** nextNotSet(from) for from >= 0: the scan starts at bit 0 of word from / 64. */
  function NextClear(bits: seq<bool>, from: nat): int
  {
    FirstClear(bits, 64 * (from / 64))
  }

  /** The positions get(i) and set(i) accept: the inclusive range check, then the word array. */
  predicate Settable(bits: seq<bool>, count: nat, i: int)
  {
    0 <= i <= count && i < |bits|
  }

  lemma AddressableIsSettable(usedSlices: FixedLengthBitSet, i: int)
    requires usedSlices.Valid()
    ensures usedSlices.Addressable(i) <==> Settable(usedSlices.Bits(), usedSlices.bits, i)
  {
    if 0 <= i {
      assert i / 64 < usedSlices.words.Length <==> i < 64 * usedSlices.words.Length;
    }
  }

  // ----- the three nextSlice() policies -----

  /**
   * Partition.nextSlice(): nextNotSet(cursor + 1) unless the cursor is 0; a -1 from
   * there (or the cursor 0) falls back to firstNotSet().
   */
  function OldestNextSlice(bits: seq<bool>, cursor: int): int
    requires cursor >= -1
  {
    var pos := if cursor == 0 then -1 else NextClear(bits, cursor + 1);
    if pos == -1 then FirstClear(bits, 0) else pos
  }

  /**
   * ByteBufferPartition.nextSlice(): -1 when isEmpty() (the population count has
   * reached the size); otherwise firstNotSet() at cursor 0 and nextNotSet(cursor + 1)
   * at any other cursor, with no fallback.
   */
  function RotatingNextSlice(bits: seq<bool>, count: nat, cursor: int): int
    requires cursor >= -1
  {
    if PopCount(bits) == count then -1
    else if cursor == 0 then FirstClear(bits, 0)
    else NextClear(bits, cursor + 1)
  }

  /**
   * UnsafeBufferPartition.nextSlice(): -1 when isEmpty(); otherwise nextNotSet(cursor + 1)
   * unless the cursor is 0 or size - 1, falling back to firstNotSet().
   */
  function WrappingNextSlice(bits: seq<bool>, count: nat, cursor: int): int
    requires cursor >= -1
  {
    if PopCount(bits) == count then -1
    else
      var pos := if cursor == 0 || cursor == count - 1 then -1 else NextClear(bits, cursor + 1);
      if pos == -1 then FirstClear(bits, 0) else pos
  }

  /** Every policy reports -1 or a clear position of the word array, never a set one. */
  lemma NextSliceIsClear(bits: seq<bool>, count: nat, cursor: int)
    requires cursor >= -1
    ensures var r := OldestNextSlice(bits, cursor); r == -1 || (0 <= r < |bits| && !bits[r])
    ensures var r := RotatingNextSlice(bits, count, cursor); r == -1 || (0 <= r < |bits| && !bits[r])
    ensures var r := WrappingNextSlice(bits, count, cursor); r == -1 || (0 <= r < |bits| && !bits[r])
  {
    FirstClearSpec(bits, 0);
    FirstClearSpec(bits, 64 * ((cursor + 1) / 64));
  }

  /**
   * The fallback to firstNotSet() makes the oldest policy miss only when every position
   * is set, and the wrapping policy miss only then or when isEmpty() holds.
   */
  lemma FallbackMissesOnlyWhenFull(bits: seq<bool>, count: nat, cursor: int)
    requires cursor >= -1
    ensures OldestNextSlice(bits, cursor) == -1 <==> forall p :: 0 <= p < |bits| ==> bits[p]
    ensures WrappingNextSlice(bits, count, cursor) == -1 <==>
      PopCount(bits) == count || forall p :: 0 <= p < |bits| ==> bits[p]
  {
    FirstClearSpec(bits, 0);
    FirstClearSpec(bits, 64 * ((cursor + 1) / 64));
  }

  /**
   * The rotating policy has no fallback: with 128 slots, only slot 0 free and the cursor
   * at 70, nextNotSet(71) scans word 1 only, so get() answers null although a slice is free.
   */
  lemma RotatingMissesFreeSlot()
    ensures var bits := seq(128, p => p != 0);
      && !bits[0] && PopCount(bits) != 128
      && RotatingNextSlice(bits, 128, 70) == -1
  {
    var bits := seq(128, p => p != 0);
    PopCountFull(bits);
    FirstClearIs(bits, 64, -1);
  }

  // ----- what get() does with the slot -----

  /** What a get() leaves behind: the slot handed out (None for null) or the exception, the cursor and the bits. */
  datatype Claim = Claim(slot: Result<Option<nat>>, cursor: int, bits: seq<bool>)

  /**
   * The cursor moves to m and bit m is set; set(m) rejects a position outside the range
   * check or the word array, and slices[m] rejects the position m == count that the
   * inclusive range check lets through, after its bit has been set.
   */
  function SetAndTake(bits: seq<bool>, count: nat, m: int): (c: Claim)
    ensures c.cursor == m
    ensures c.slot.Ok? ==> c.slot.value.Some? && c.slot.value.value < count
  {
    if !Settable(bits, count, m) then Claim(Err(IndexOutOfBounds), m, bits)
    else if m == count then Claim(Err(IndexOutOfBounds), m, bits[m := true])
    else Claim(Ok(Some(m)), m, bits[m := true])
  }

  /** Partition.get(): no guard against -1 and no check of the bit. */
  function OldestGet(bits: seq<bool>, count: nat, cursor: int): Claim
    requires cursor >= -1
  {
    SetAndTake(bits, count, OldestNextSlice(bits, cursor))
  }

  /** ByteBufferPartition.get() and UnsafeBufferPartition.get(): null, cursor untouched, when nextSlice() is -1. */
  function ClaimOrNull(bits: seq<bool>, count: nat, cursor: int, m: int): Claim
  {
    if m == -1 then Claim(Ok(None), cursor, bits) else SetAndTake(bits, count, m)
  }

  /**
   * Given a slot m that the policies can report, a slice handed out had its bit clear
   * and now set, with no other bit changed and one more bit counted; a null comes only
   * from -1, and an exception only from a padding position m >= count.
   */
  lemma ClaimTakesClearSlot(bits: seq<bool>, count: nat, cursor: int, m: int)
    requires count <= |bits|
    requires m == -1 || (0 <= m < |bits| && !bits[m])
    ensures var c := ClaimOrNull(bits, count, cursor, m);
      && (c.slot == Ok(None) <==> m == -1)
      && (c.slot.Err? ==> m >= count)
      && (c.slot.Ok? && c.slot.value.Some? ==>
            var k := c.slot.value.value;
            k == m && !bits[k] && c.bits == bits[k := true] && PopCount(c.bits) == PopCount(bits) + 1)
  {
    if 0 <= m < |bits| {
      PopCountUpdate(bits, m, true);
    }
  }

  /**
   * On a partition whose every slice is in use, Partition.get() always throws
   * IndexOutOfBoundsException: the slot it picks is -1 or a padding position.
   */
  lemma OldestGetOnFullFails(bits: seq<bool>, count: nat, cursor: int)
    requires cursor >= -1 && count <= |bits|
    requires forall p :: 0 <= p < count ==> bits[p]
    ensures OldestGet(bits, count, cursor).slot == Err(IndexOutOfBounds)
  {
    NextSliceIsClear(bits, count, cursor);
  }

  /**
   * All three get()s can claim the padding position: 70 slots with only 64..69 in use
   * and the cursor at 65 make nextNotSet(66) report 70, whose bit set(70) accepts,
   * before slices[70] throws.
   */
  lemma GetCanClaimPadding()
    ensures var bits := seq(128, p => 64 <= p < 70);
      && PopCount(bits) != 70
      && OldestGet(bits, 70, 65) == Claim(Err(IndexOutOfBounds), 70, bits[70 := true])
      && ClaimOrNull(bits, 70, 65, RotatingNextSlice(bits, 70, 65)) == Claim(Err(IndexOutOfBounds), 70, bits[70 := true])
      && ClaimOrNull(bits, 70, 65, WrappingNextSlice(bits, 70, 65)) == Claim(Err(IndexOutOfBounds), 70, bits[70 := true])
  {
    var bits := seq(128, p => 64 <= p < 70);
    FullIffAllSet(bits, 70);
    assert !bits[0];
    FirstClearIs(bits, 64, 70);
  }

  /**
   * With no padding (a slice count that is a multiple of 64), Partition.get() claims a
   * free slot whenever there is one: the slot it picks is a clear position below the
   * count, so a filled partition hands out that slot's slice.
   */
  lemma OldestGetServesFreeSlot(bits: seq<bool>, count: nat, cursor: int, free: nat)
    requires cursor >= -1 && |bits| == count
    requires free < count && !bits[free]
    ensures var c := OldestGet(bits, count, cursor);
      c.slot.Ok? && c.slot.value.Some? && c.slot.value.value < count && !bits[c.slot.value.value]
  {
    NextSliceIsClear(bits, count, cursor);
    FallbackMissesOnlyWhenFull(bits, count, cursor);
  }

  // ----- ByteBuffer access and the shared clear() loop -----

  /** ByteBuffer.put(index, b): an index outside the buffer is rejected and nothing is written. */
  function BufferPut(s: seq<JByte>, at: int, value: JByte): (r: (Outcome, seq<JByte>))
    ensures r.0 == Pass <==> 0 <= at < |s|
    ensures r.0 == Pass ==> r.1 == s[at := value]
    ensures r.0 != Pass ==> r.0 == Fail(IndexOutOfBounds) && r.1 == s
  {
    if 0 <= at < |s| then (Pass, s[at := value]) else (Fail(IndexOutOfBounds), s)
  }

  /** ByteBuffer.get(index). */
  function BufferGet(s: seq<JByte>, at: int): (r: Result<JByte>)
    ensures r.Ok? <==> 0 <= at < |s|
    ensures r.Err? ==> r.error == IndexOutOfBounds
  {
    if 0 <= at < |s| then Ok(s[at]) else Err(IndexOutOfBounds)
  }

  /** A byte put at an absolute position is what a get there returns until that position is overwritten. */
  lemma GetSeesLastPut(s: seq<JByte>, at: int, value: JByte, q: int)
    requires BufferPut(s, at, value).0 == Pass
    ensures BufferGet(BufferPut(s, at, value).1, q) == (if q == at then Ok(value) else BufferGet(s, q))
  {
  }

  /** `n` zero bytes. */
  function Zeros(n: nat): seq<JByte>
  {
    seq(n, _ => 0)
  }

  /** The clear() loop: one absolute put of 0 for each of the `n` bytes from `from` on. */
  method ZeroRegion(buffer: array<JByte>, from: int, n: int)
    requires 0 <= from && 0 <= n && from + n <= buffer.Length
    modifies buffer
    ensures buffer[..] == Overwrite(old(buffer[..]), from, Zeros(n))
  {
    for i := 0 to n
      invariant forall q :: 0 <= q < buffer.Length ==> buffer[q] == (if from <= q < from + i then 0 else old(buffer[q]))
    {
      buffer[from + i] := 0;
    }
  }

  /** Clearing the `n` bytes after a zeroed prefix of `a` bytes zeroes a prefix of `a + n` bytes. */
  lemma ZeroedPrefixGrows(s: seq<JByte>, a: nat, n: nat)
    requires a + n <= |s|
    ensures Overwrite(Overwrite(s, 0, Zeros(a)), a, Zeros(n)) == Overwrite(s, 0, Zeros(a + n))
    ensures a + n == |s| ==> Overwrite(s, 0, Zeros(a + n)) == Zeros(|s|)
  {
    var l, r := Overwrite(Overwrite(s, 0, Zeros(a)), a, Zeros(n)), Overwrite(s, 0, Zeros(a + n));
    assert forall q :: 0 <= q < |s| ==> l[q] == r[q];
  }

  /** Slot i of sliceByteSize bytes lies inside a block of sliceByteSize * count bytes. */
  lemma SlotInside(i: nat, count: nat, sliceByteSize: nat)
    requires i < count
    ensures 0 <= i * sliceByteSize && i * sliceByteSize + sliceByteSize <= sliceByteSize * count
    ensures (i + 1) * sliceByteSize == i * sliceByteSize + sliceByteSize
  {
    calc {
      i * sliceByteSize + sliceByteSize;
      (i + 1) * sliceByteSize;
    <= { assert i + 1 <= count; }
      count * sliceByteSize;
    }
  }

  /** The slots of two different slices never share a byte. */
  lemma SlotsApart(i: nat, j: nat, sliceByteSize: nat, q: int)
    requires i < j
    ensures !(i * sliceByteSize <= q < i * sliceByteSize + sliceByteSize && j * sliceByteSize <= q < j * sliceByteSize + sliceByteSize)
  {
    calc {
      i * sliceByteSize + sliceByteSize;
      (i + 1) * sliceByteSize;
    <= { assert i + 1 <= j; }
      j * sliceByteSize;
    }
  }

  // ----- Partition -----

  /**
   * Partition.Slice: cursors over bytes [index * sliceByteSize, (index + 1) * sliceByteSize)
   * of the partition's buffer. put(position, v) and read(position) are absolute
   * ByteBuffer accesses at baseIndex + position. As an inner class it shares the
   * partition's slice size and buffer, and getPartition() is `partition`.
   */
  class PartitionSlice {
    const index: int
    const baseIndex: int
    const partition: Partition
    const sliceByteSize: int
    const byteBuffer: array<JByte>
    var writerIndex: int
    var readerIndex: int

    /** The slice's bytes lie inside the buffer. */
    predicate Placed()
    {
      0 <= sliceByteSize && 0 <= baseIndex && baseIndex + sliceByteSize <= byteBuffer.Length
    }

    constructor (index: int, partition: Partition)
      ensures this.index == index && baseIndex == index * partition.sliceByteSize && this.partition == partition
      ensures sliceByteSize == partition.sliceByteSize && byteBuffer == partition.byteBuffer
      ensures writerIndex == 0 && readerIndex == 0
    {
      this.index := index;
      baseIndex := index * partition.sliceByteSize;
      this.partition := partition;
      sliceByteSize := partition.sliceByteSize;
      byteBuffer := partition.byteBuffer;
      writerIndex := 0;
      readerIndex := 0;
    }

    /** clear(): zeroes the slice's bytes and resets both cursors. */
    method Clear()
      requires Placed()
      modifies this, byteBuffer
      ensures byteBuffer[..] == Overwrite(old(byteBuffer[..]), baseIndex, Zeros(sliceByteSize))
      ensures writerIndex == 0 && readerIndex == 0
    {
      ZeroRegion(byteBuffer, baseIndex, sliceByteSize);
      writerIndex := 0;
      readerIndex := 0;
    }

    /** put(position, value): the cursors do not move. */
    method PutAt(position: int, value: JByte) returns (r: Outcome)
      modifies byteBuffer
      ensures (r, byteBuffer[..]) == BufferPut(old(byteBuffer[..]), baseIndex + position, value)
    {
      var at := baseIndex + position;
      if !(0 <= at < byteBuffer.Length) {
        return Fail(IndexOutOfBounds);
      }
      byteBuffer[at] := value;
      r := Pass;
    }

    /** put(value): put(writerIndex++, value), so the cursor has moved on even when the put fails. */
    method Put(value: JByte) returns (r: Outcome)
      modifies this, byteBuffer
      ensures writerIndex == old(writerIndex) + 1 && readerIndex == old(readerIndex)
      ensures (r, byteBuffer[..]) == BufferPut(old(byteBuffer[..]), baseIndex + old(writerIndex), value)
    {
      var position := writerIndex;
      writerIndex := writerIndex + 1;
      r := PutAt(position, value);
    }

    /** read(position): the cursors do not move. */
    function ReadAt(position: int): Result<JByte>
      reads byteBuffer
    {
      BufferGet(byteBuffer[..], baseIndex + position)
    }

    /** read(): read(readerIndex++). */
    method Read() returns (r: Result<JByte>)
      modifies this
      ensures readerIndex == old(readerIndex) + 1 && writerIndex == old(writerIndex)
      ensures r == ReadAt(old(readerIndex))
    {
      var position := readerIndex;
      readerIndex := readerIndex + 1;
      r := ReadAt(position);
    }

    function ReadableBytes(): int
      reads this
    {
      writerIndex - readerIndex
    }

    function WriteableBytes(): int
      reads this
    {
      sliceByteSize - writerIndex
    }

    /** writerIndex(v): range-checked against [0, sliceByteSize]. */
    method SetWriterIndex(v: int) returns (r: Outcome)
      modifies this
      ensures r == RangeCheck(v, 0, sliceByteSize)
      ensures writerIndex == (if r == Pass then v else old(writerIndex)) && readerIndex == old(readerIndex)
    {
      r := RangeCheck(v, 0, sliceByteSize);
      if r == Pass {
        writerIndex := v;
      }
    }

    /** readerIndex(v): range-checked against [0, sliceByteSize]. */
    method SetReaderIndex(v: int) returns (r: Outcome)
      modifies this
      ensures r == RangeCheck(v, 0, sliceByteSize)
      ensures readerIndex == (if r == Pass then v else old(readerIndex)) && writerIndex == old(writerIndex)
    {
      r := RangeCheck(v, 0, sliceByteSize);
      if r == Pass {
        readerIndex := v;
      }
    }
  }

  /**
   * Partition: the constructor allocates the slice array but never fills it, so every
   * element is null.
   */
  class Partition {
    const sliceByteSize: int
    const usedSlices: FixedLengthBitSet
    const byteBuffer: array<JByte>
    var slices: seq<PartitionSlice?>
    var index: int

    /** Slice i of this partition: index i, over slot i of the shared buffer. */
    predicate Over(slice: PartitionSlice, i: int)
    {
      && slice.index == i && slice.partition == this && slice.baseIndex == i * sliceByteSize
      && slice.sliceByteSize == sliceByteSize && slice.byteBuffer == byteBuffer
    }

    /** Every element of the slice array is null or the slice over its own slot. */
    ghost predicate Valid()
      reads this
    {
      && usedSlices.Valid() && usedSlices.bits == |slices| && index >= -1
      && forall i :: 0 <= i < |slices| ==> slices[i] == null || Over(slices[i], i)
    }

    /** The slice array as the constructor leaves it: nothing but nulls. */
    predicate Unfilled()
      reads this
    {
      forall i :: 0 <= i < |slices| ==> slices[i] == null
    }

    /** The slice array as intended: a slice at every index. */
    predicate Filled()
      reads this
    {
      forall i :: 0 <= i < |slices| ==> slices[i] != null
    }

    ghost function Avail(): int
      reads usedSlices.words
    {
      usedSlices.bits - PopCount(usedSlices.Bits())
    }

    /**
     * The buffer is allocateDirect(sliceByteSize * slices) with an int product, which
     * wraps around; a negative capacity is rejected by allocateDirect.
     */
    constructor (slices: nat, sliceByteSize: nat)
      requires ToInt(sliceByteSize * slices) >= 0
      ensures Valid() && index == 0 && this.sliceByteSize == sliceByteSize
      ensures |this.slices| == slices && Unfilled()
      ensures byteBuffer.Length == ToInt(sliceByteSize * slices)
      ensures usedSlices.Bits() == seq(64 * usedSlices.words.Length, _ => false)
      ensures fresh(usedSlices) && fresh(usedSlices.words) && fresh(byteBuffer)
    {
      this.sliceByteSize := sliceByteSize;
      usedSlices := new FixedLengthBitSet(slices);
      this.slices := seq(slices, _ => null);
      byteBuffer := new JByte[ToInt(sliceByteSize * slices)](_ => 0);
      index := 0;
    }

    /**
     * The constructor as evidently intended: the same fields, and slice i created over
     * slot i of the shared buffer for every index.
     */
    constructor Filling(slices: nat, sliceByteSize: nat)
      requires ToInt(sliceByteSize * slices) >= 0
      ensures Valid() && index == 0 && this.sliceByteSize == sliceByteSize
      ensures |this.slices| == slices && Filled()
      ensures byteBuffer.Length == ToInt(sliceByteSize * slices)
      ensures usedSlices.Bits() == seq(64 * usedSlices.words.Length, _ => false)
      ensures fresh(usedSlices) && fresh(usedSlices.words) && fresh(byteBuffer)
    {
      this.sliceByteSize := sliceByteSize;
      usedSlices := new FixedLengthBitSet(slices);
      this.slices := [];
      byteBuffer := new JByte[ToInt(sliceByteSize * slices)](_ => 0);
      index := 0;
      new;
      var filled: seq<PartitionSlice?> := [];
      for i := 0 to slices
        invariant |filled| == i && this.slices == [] && index == 0
        invariant usedSlices.Bits() == seq(64 * usedSlices.words.Length, _ => false)
        invariant forall k :: 0 <= k < i ==> filled[k] != null && Over(filled[k], k)
      {
        var slice := new PartitionSlice(i, this);
        filled := filled + [slice];
      }
      this.slices := filled;
    }

    /** available(): size() - cardinality(). */
    method Available() returns (n: int)
      requires Valid()
      ensures n == Avail()
    {
      n := Partitions.AvailableOf(usedSlices);
    }

    /** used(): cardinality(). */
    method Used() returns (n: int)
      requires Valid()
      ensures n == PopCount(usedSlices.Bits())
    {
      n := usedSlices.Cardinality();
    }

    method NextSlice() returns (pos: int)
      requires Valid()
      ensures pos == OldestNextSlice(usedSlices.Bits(), index)
    {
      var cursor := index;
      pos := -1;
      if cursor != 0 {
        var next := usedSlices.NextNotSet(cursor + 1);
        pos := next.value;
      }
      if pos == -1 {
        pos := usedSlices.FirstNotSet();
      }
    }

    /**
     * get(): the compare-and-set moves the cursor to nextSlice(), set() marks it and the
     * array element, always null, is returned.
     */
    method Get() returns (r: Result<PartitionSlice?>)
      requires Valid()
      modifies this, usedSlices.words
      ensures Valid() && slices == old(slices)
      ensures var c := OldestGet(old(usedSlices.Bits()), |slices|, old(index));
        && index == c.cursor && usedSlices.Bits() == c.bits
        && r == (if c.slot.Err? then Err(c.slot.error) else Ok(slices[c.slot.value.value]))
      ensures Unfilled() && r.Ok? ==> r.value == null
      ensures Filled() && r.Ok? ==> r.value != null && r.value.index == index && Over(r.value, index)
    {
      NextSliceIsClear(usedSlices.Bits(), |slices|, index);
      var possibleMatch := NextSlice();
      index := possibleMatch;
      AddressableIsSettable(usedSlices, possibleMatch);
      var stored := usedSlices.Set(possibleMatch);
      if stored.Fail? {
        return Err(stored.error);
      }
      if possibleMatch >= |slices| {
        return Err(IndexOutOfBounds);
      }
      r := Ok(slices[possibleMatch]);
    }

    /**
     * free(slice): no ownership check; clears the slice's bit in this partition's bitset,
     * then clears the slice.
     */
    method Free(slice: PartitionSlice) returns (r: Outcome)
      requires Valid() && slice.Placed()
      modifies usedSlices.words, slice, slice.byteBuffer
      ensures Valid() && index == old(index)
      ensures r == (if Settable(old(usedSlices.Bits()), |slices|, slice.index) then Pass else Fail(IndexOutOfBounds))
      ensures r == Pass ==>
        && usedSlices.Bits() == old(usedSlices.Bits())[slice.index := false]
        && slice.byteBuffer[..] == Overwrite(old(slice.byteBuffer[..]), slice.baseIndex, Zeros(slice.sliceByteSize))
        && slice.writerIndex == 0 && slice.readerIndex == 0
      ensures r == Pass && 0 <= slice.index < |slices| && old(usedSlices.Bits())[slice.index] ==> Avail() == old(Avail()) + 1
      ensures r != Pass ==> usedSlices.Bits() == old(usedSlices.Bits()) && unchanged(slice, slice.byteBuffer)
    {
      AddressableIsSettable(usedSlices, slice.index);
      r := usedSlices.Clear(slice.index);
      if r.Fail? {
        return;
      }
      PopCountUpdate(old(usedSlices.Bits()), slice.index, false);
      slice.Clear();
    }
  }

  // ----- ByteBufferPartition -----

  /**
   * ByteBufferPartition.ByteBufferPartitionSlice. Positional put and read move their
   * cursor, and put(value) and read() pass `cursor - baseIndex` as the position, so
   * they address the absolute offset `cursor` of the shared buffer.
   */
  class ByteBufferPartitionSlice {
    const index: int
    const baseIndex: int
    const sliceByteSize: int
    const byteBuffer: array<JByte>
    const owner: object
    var writerIndex: int
    var readerIndex: int

    predicate Placed()
    {
      0 <= sliceByteSize && 0 <= baseIndex && baseIndex + sliceByteSize <= byteBuffer.Length
    }

    constructor (index: int, sliceByteSize: int, byteBuffer: array<JByte>, owner: object)
      ensures this.index == index && baseIndex == index * sliceByteSize
      ensures this.sliceByteSize == sliceByteSize && this.byteBuffer == byteBuffer && this.owner == owner
      ensures writerIndex == 0 && readerIndex == 0
    {
      this.index := index;
      baseIndex := index * sliceByteSize;
      this.sliceByteSize := sliceByteSize;
      this.byteBuffer := byteBuffer;
      this.owner := owner;
      writerIndex := 0;
      readerIndex := 0;
    }

    /** clear(): zeroes the slice's bytes and resets both cursors. */
    method Clear()
      requires Placed()
      modifies this, byteBuffer
      ensures byteBuffer[..] == Overwrite(old(byteBuffer[..]), baseIndex, Zeros(sliceByteSize))
      ensures writerIndex == 0 && readerIndex == 0
    {
      ZeroRegion(byteBuffer, baseIndex, sliceByteSize);
      writerIndex := 0;
      readerIndex := 0;
    }

    /** put(position, value): puts at baseIndex + position, then writerIndex moves on by one. */
    method PutAt(position: int, value: JByte) returns (r: Outcome)
      modifies this, byteBuffer
      ensures (r, byteBuffer[..]) == BufferPut(old(byteBuffer[..]), baseIndex + position, value)
      ensures writerIndex == (if r == Pass then old(writerIndex) + 1 else old(writerIndex))
      ensures readerIndex == old(readerIndex)
    {
      var at := baseIndex + position;
      if !(0 <= at < byteBuffer.Length) {
        return Fail(IndexOutOfBounds);
      }
      byteBuffer[at] := value;
      writerIndex := writerIndex + 1;
      r := Pass;
    }

    /** put(value): put(writerIndex - baseIndex, value), a put at absolute offset writerIndex. */
    method Put(value: JByte) returns (r: Outcome)
      modifies this, byteBuffer
      ensures (r, byteBuffer[..]) == BufferPut(old(byteBuffer[..]), old(writerIndex), value)
      ensures writerIndex == (if r == Pass then old(writerIndex) + 1 else old(writerIndex))
      ensures readerIndex == old(readerIndex)
    {
      r := PutAt(writerIndex - baseIndex, value);
    }

    /** read(position): readerIndex moves on by one first, then the get at baseIndex + position. */
    method ReadAt(position: int) returns (r: Result<JByte>)
      modifies this
      ensures r == BufferGet(byteBuffer[..], baseIndex + position)
      ensures readerIndex == old(readerIndex) + 1 && writerIndex == old(writerIndex)
    {
      readerIndex := readerIndex + 1;
      var at := baseIndex + position;
      if !(0 <= at < byteBuffer.Length) {
        return Err(IndexOutOfBounds);
      }
      r := Ok(byteBuffer[at]);
    }

    /** read(): read(readerIndex - baseIndex), a get at absolute offset readerIndex. */
    method Read() returns (r: Result<JByte>)
      modifies this
      ensures r == BufferGet(byteBuffer[..], old(readerIndex))
      ensures readerIndex == old(readerIndex) + 1 && writerIndex == old(writerIndex)
    {
      r := ReadAt(readerIndex - baseIndex);
    }

    function ReadableBytes(): int
      reads this
    {
      writerIndex - readerIndex
    }

    function WriteableBytes(): int
      reads this
    {
      sliceByteSize - writerIndex
    }

    /** writerIndex(v): range-checked against [0, sliceByteSize]. */
    method SetWriterIndex(v: int) returns (r: Outcome)
      modifies this
      ensures r == RangeCheck(v, 0, sliceByteSize)
      ensures writerIndex == (if r == Pass then v else old(writerIndex)) && readerIndex == old(readerIndex)
    {
      r := RangeCheck(v, 0, sliceByteSize);
      if r == Pass {
        writerIndex := v;
      }
    }

    /** readerIndex(v): range-checked against [0, sliceByteSize]. */
    method SetReaderIndex(v: int) returns (r: Outcome)
      modifies this
      ensures r == RangeCheck(v, 0, sliceByteSize)
      ensures readerIndex == (if r == Pass then v else old(readerIndex)) && writerIndex == old(writerIndex)
    {
      r := RangeCheck(v, 0, sliceByteSize);
      if r == Pass {
        readerIndex := v;
      }
    }
  }

  /** Slice i of a buffer: index i, the given owner, over slot i of the buffer. */
  predicate CarvedOver(slice: ByteBufferPartitionSlice, i: int, owner: object, buffer: array<JByte>, sliceByteSize: int)
  {
    && slice.index == i && slice.owner == owner && slice.byteBuffer == buffer
    && slice.sliceByteSize == sliceByteSize && slice.baseIndex == i * sliceByteSize && slice.Placed()
  }

  /** The constructor loop of ByteBufferPartition: one slice per slot of the buffer. */
  method CarveBuffer(owner: object, buffer: array<JByte>, count: nat, sliceByteSize: nat)
    returns (slices: seq<ByteBufferPartitionSlice>)
    requires buffer.Length == sliceByteSize * count
    ensures |slices| == count
    ensures forall i :: 0 <= i < count ==> CarvedOver(slices[i], i, owner, buffer, sliceByteSize)
    ensures forall i :: 0 <= i < count ==> slices[i].writerIndex == 0 && slices[i].readerIndex == 0
  {
    slices := [];
    for i := 0 to count
      invariant |slices| == i
      invariant forall k :: 0 <= k < i ==> CarvedOver(slices[k], k, owner, buffer, sliceByteSize)
      invariant forall k :: 0 <= k < i ==> slices[k].writerIndex == 0 && slices[k].readerIndex == 0
    {
      SlotInside(i, count, sliceByteSize);
      var slice := new ByteBufferPartitionSlice(i, sliceByteSize, buffer, owner);
      slices := slices + [slice];
    }
  }

  /**
   * ByteBufferPartition: one direct or heap ByteBuffer of sliceByteSize * slices bytes,
   * slice i owning bytes [i * sliceByteSize, (i + 1) * sliceByteSize).
   */
  class ByteBufferPartition {
    const sliceByteSize: int
    const usedSlices: FixedLengthBitSet
    const byteBuffer: array<JByte>
    const directMemory: bool
    var slices: seq<ByteBufferPartitionSlice>
    var index: int

    /** Slice i of this partition: index i, owned by it, over slot i of its buffer. */
    predicate Carved(slice: ByteBufferPartitionSlice, i: int)
    {
      CarvedOver(slice, i, this, byteBuffer, sliceByteSize)
    }

    ghost predicate Valid()
      reads this
    {
      && usedSlices.Valid() && usedSlices.bits == |slices| && index >= -1
      && byteBuffer.Length == sliceByteSize * |slices|
      && forall i :: 0 <= i < |slices| ==> Carved(slices[i], i)
    }

    ghost function Avail(): int
      reads usedSlices.words
    {
      usedSlices.bits - PopCount(usedSlices.Bits())
    }

    /**
     * The buffer is allocate(sliceByteSize * slices) or allocateDirect of it, an int
     * product; the model builds it where that product does not wrap.
     */
    constructor (slices: nat, sliceByteSize: nat, directMemory: bool)
      requires IsInt(sliceByteSize * slices)
      ensures Valid() && index == 0 && this.sliceByteSize == sliceByteSize && this.directMemory == directMemory
      ensures |this.slices| == slices && byteBuffer[..] == Zeros(sliceByteSize * slices)
      ensures usedSlices.Bits() == seq(64 * usedSlices.words.Length, _ => false)
      ensures forall i :: 0 <= i < slices ==> this.slices[i].writerIndex == 0 && this.slices[i].readerIndex == 0
      ensures fresh(usedSlices) && fresh(usedSlices.words) && fresh(byteBuffer)
    {
      this.sliceByteSize := sliceByteSize;
      usedSlices := new FixedLengthBitSet(slices);
      byteBuffer := new JByte[sliceByteSize * slices](_ => 0);
      this.directMemory := directMemory;
      this.slices := [];
      index := 0;
      new;
      this.slices := CarveBuffer(this, byteBuffer, slices, sliceByteSize);
    }

    /** available(): size() - cardinality(). */
    method Available() returns (n: int)
      requires Valid()
      ensures n == Avail()
    {
      n := Partitions.AvailableOf(usedSlices);
    }

    /** used(): cardinality(). */
    method Used() returns (n: int)
      requires Valid()
      ensures n == PopCount(usedSlices.Bits())
    {
      n := usedSlices.Cardinality();
    }

    method NextSlice() returns (pos: int)
      requires Valid()
      ensures pos == RotatingNextSlice(usedSlices.Bits(), |slices|, index)
    {
      var full := usedSlices.IsEmpty();
      if full {
        return -1;
      }
      var cursor := index;
      if cursor == 0 {
        pos := usedSlices.FirstNotSet();
      } else {
        var next := usedSlices.NextNotSet(cursor + 1);
        pos := next.value;
      }
    }

    /** get(): null when nextSlice() is -1; otherwise the slot is set without looking at its bit. */
    method Get() returns (r: Result<ByteBufferPartitionSlice?>)
      requires Valid()
      modifies this, usedSlices.words
      ensures Valid() && slices == old(slices)
      ensures var c := ClaimOrNull(old(usedSlices.Bits()), |slices|, old(index),
                                   RotatingNextSlice(old(usedSlices.Bits()), |slices|, old(index)));
        && index == c.cursor && usedSlices.Bits() == c.bits
        && r == (match c.slot
                 case Err(e) => Err(e)
                 case Ok(None) => Ok(null)
                 case Ok(Some(k)) => Result<ByteBufferPartitionSlice?>.Ok(slices[k]))
    {
      NextSliceIsClear(usedSlices.Bits(), |slices|, index);
      var possibleMatch := NextSlice();
      if possibleMatch == -1 {
        return Ok(null);
      }
      index := possibleMatch;
      AddressableIsSettable(usedSlices, possibleMatch);
      var stored := usedSlices.Set(possibleMatch);
      if stored.Fail? {
        return Err(stored.error);
      }
      if possibleMatch >= |slices| {
        return Err(IndexOutOfBounds);
      }
      r := Ok(slices[possibleMatch]);
    }

    /** free(slice): a slice of another partition is rejected; otherwise its bit is cleared and the slice cleared. */
    method Free(slice: ByteBufferPartitionSlice) returns (r: Outcome)
      requires Valid() && (slice.owner == this ==> slice in slices)
      modifies usedSlices.words, slice, byteBuffer
      ensures Valid() && slices == old(slices) && index == old(index)
      ensures slice.owner != this ==> r == Fail(IllegalArgument) && unchanged(usedSlices.words, slice, byteBuffer)
      ensures slice.owner == this ==>
        && r == Pass
        && usedSlices.Bits() == old(usedSlices.Bits())[slice.index := false]
        && byteBuffer[..] == Overwrite(old(byteBuffer[..]), slice.baseIndex, Zeros(sliceByteSize))
        && slice.writerIndex == 0 && slice.readerIndex == 0
      ensures slice.owner == this && old(usedSlices.Bits())[slice.index] ==> Avail() == old(Avail()) + 1
    {
      if slice.owner != this {
        return Fail(IllegalArgument);
      }
      AddressableIsSettable(usedSlices, slice.index);
      r := usedSlices.Clear(slice.index);
      PopCountUpdate(old(usedSlices.Bits()), slice.index, false);
      slice.Clear();
    }

    /** close(): ByteBuffer.clear() resets position and limit only, which absolute accesses never use. */
    method Close()
      requires Valid()
      ensures unchanged(this, usedSlices.words, byteBuffer)
    {
    }
  }

  // ----- UnsafeBufferPartition -----

  /**
   * UnsafeBufferPartition.UnsafePartitionSlice: raw accesses at baseIndex + position of
   * the partition's block. The raw put and get have no bounds check, so the model
   * requires them to stay inside the block; the bulk copies check the cursor they
   * use against the slice end.
   */
  class UnsafeBlockSlice {
    const index: int
    const baseIndex: int
    const sliceByteSize: int
    const block: array<JByte>
    const owner: object
    var writerIndex: int
    var readerIndex: int
    var locked: bool

    predicate Placed()
    {
      0 <= sliceByteSize && 0 <= baseIndex && baseIndex + sliceByteSize <= block.Length
    }

    /** The constructor ends with clear(). */
    constructor (index: int, sliceByteSize: int, block: array<JByte>, owner: object)
      requires 0 <= sliceByteSize && 0 <= index * sliceByteSize && index * sliceByteSize + sliceByteSize <= block.Length
      modifies block
      ensures this.index == index && baseIndex == index * sliceByteSize
      ensures this.sliceByteSize == sliceByteSize && this.block == block && this.owner == owner
      ensures block[..] == Overwrite(old(block[..]), baseIndex, Zeros(sliceByteSize))
      ensures writerIndex == 0 && readerIndex == 0 && !locked
    {
      this.index := index;
      baseIndex := index * sliceByteSize;
      this.sliceByteSize := sliceByteSize;
      this.block := block;
      this.owner := owner;
      locked := false;
      new;
      Clear();
    }

    /** clear(): setMemory over the slice's bytes, then both cursors back to 0. */
    method Clear()
      requires Placed()
      modifies this, block
      ensures block[..] == Overwrite(old(block[..]), baseIndex, Zeros(sliceByteSize))
      ensures writerIndex == 0 && readerIndex == 0 && locked == old(locked)
    {
      forall q | baseIndex <= q < baseIndex + sliceByteSize {
        block[q] := 0;
      }
      writerIndex := 0;
      readerIndex := 0;
    }

    /** put(position, value): a raw store; the cursors do not move. */
    method PutAt(position: int, value: JByte)
      requires 0 <= baseIndex + position < block.Length
      modifies block
      ensures block[..] == old(block[..])[baseIndex + position := value]
    {
      block[baseIndex + position] := value;
    }

    /** put(value): put(writerIndex++, value). */
    method Put(value: JByte)
      requires 0 <= baseIndex + writerIndex < block.Length
      modifies this, block
      ensures block[..] == old(block[..])[baseIndex + old(writerIndex) := value]
      ensures writerIndex == old(writerIndex) + 1 && readerIndex == old(readerIndex) && locked == old(locked)
    {
      var position := writerIndex;
      writerIndex := writerIndex + 1;
      PutAt(position, value);
    }

    /** read(position): a raw load; the cursors do not move. */
    function ReadAt(position: int): JByte
      requires 0 <= baseIndex + position < block.Length
      reads block
    {
      block[baseIndex + position]
    }

    /** read(): read(readerIndex++). */
    method Read() returns (value: JByte)
      requires 0 <= baseIndex + readerIndex < block.Length
      modifies this
      ensures value == ReadAt(old(readerIndex))
      ensures readerIndex == old(readerIndex) + 1 && writerIndex == old(writerIndex) && locked == old(locked)
    {
      var position := readerIndex;
      readerIndex := readerIndex + 1;
      value := ReadAt(position);
    }

    /**
     * put(array, offset, length): rejected when writerIndex + length passes the slice end;
     * a negative length passes that check and copyMemory rejects it; otherwise the bytes
     * are copied to the block from baseIndex + writerIndex on and writerIndex moves on by
     * length.
     */
    method PutArray(src: seq<JByte>, offset: int, length: int) returns (r: Outcome)
      requires Placed()
      requires writerIndex + length <= sliceByteSize && 0 <= length ==>
        0 <= offset && offset + length <= |src| && 0 <= writerIndex
      modifies this, block
      ensures old(writerIndex) + length > sliceByteSize ==>
        r == Fail(IndexOutOfBounds) && block[..] == old(block[..]) && writerIndex == old(writerIndex)
      ensures old(writerIndex) + length <= sliceByteSize && length < 0 ==>
        r == Fail(IllegalArgument) && block[..] == old(block[..]) && writerIndex == old(writerIndex)
      ensures old(writerIndex) + length <= sliceByteSize && 0 <= length ==>
        && r == Pass
        && block[..] == Overwrite(old(block[..]), baseIndex + old(writerIndex), src[offset..offset + length])
        && writerIndex == old(writerIndex) + length
      ensures readerIndex == old(readerIndex) && locked == old(locked)
    {
      if writerIndex + length > sliceByteSize {
        return Fail(IndexOutOfBounds);
      }
      if length < 0 {
        return Fail(IllegalArgument);
      }
      var at := baseIndex + writerIndex;
      forall q | at <= q < at + length {
        block[q] := src[offset + q - at];
      }
      writerIndex := writerIndex + length;
      r := Pass;
    }

    /**
     * read(array, offset, length): rejected when readerIndex + length passes the slice end;
     * a negative length passes that check and copyMemory rejects it; otherwise the bytes
     * from baseIndex + readerIndex on are copied out and readerIndex moves on by length.
     */
    method ReadArray(dst: array<JByte>, offset: int, length: int) returns (r: Outcome)
      requires Placed() && dst != block
      requires readerIndex + length <= sliceByteSize && 0 <= length ==>
        0 <= offset && offset + length <= dst.Length && 0 <= readerIndex
      modifies this, dst
      ensures old(readerIndex) + length > sliceByteSize ==>
        r == Fail(IndexOutOfBounds) && dst[..] == old(dst[..]) && readerIndex == old(readerIndex)
      ensures old(readerIndex) + length <= sliceByteSize && length < 0 ==>
        r == Fail(IllegalArgument) && dst[..] == old(dst[..]) && readerIndex == old(readerIndex)
      ensures old(readerIndex) + length <= sliceByteSize && 0 <= length ==>
        && r == Pass
        && dst[..] == Overwrite(old(dst[..]), offset, block[baseIndex + old(readerIndex)..baseIndex + old(readerIndex) + length])
        && readerIndex == old(readerIndex) + length
      ensures writerIndex == old(writerIndex) && locked == old(locked)
    {
      if readerIndex + length > sliceByteSize {
        return Fail(IndexOutOfBounds);
      }
      if length < 0 {
        return Fail(IllegalArgument);
      }
      var from := baseIndex + readerIndex;
      forall q | offset <= q < offset + length {
        dst[q] := block[from + q - offset];
      }
      readerIndex := readerIndex + length;
      r := Pass;
    }

    function ReadableBytes(): int
      reads this
    {
      writerIndex - readerIndex
    }

    function WriteableBytes(): int
      reads this
    {
      sliceByteSize - writerIndex
    }

    /** writerIndex(v): range-checked against [0, sliceByteSize]. */
    method SetWriterIndex(v: int) returns (r: Outcome)
      modifies this
      ensures r == RangeCheck(v, 0, sliceByteSize)
      ensures writerIndex == (if r == Pass then v else old(writerIndex))
      ensures readerIndex == old(readerIndex) && locked == old(locked)
    {
      r := RangeCheck(v, 0, sliceByteSize);
      if r == Pass {
        writerIndex := v;
      }
    }

    /** readerIndex(v): range-checked against [0, sliceByteSize]. */
    method SetReaderIndex(v: int) returns (r: Outcome)
      modifies this
      ensures r == RangeCheck(v, 0, sliceByteSize)
      ensures readerIndex == (if r == Pass then v else old(readerIndex))
      ensures writerIndex == old(writerIndex) && locked == old(locked)
    {
      r := RangeCheck(v, 0, sliceByteSize);
      if r == Pass {
        readerIndex := v;
      }
    }

    /** lock(): the compare-and-set from unlocked to locked fails on a locked slice. */
    method Lock() returns (r: Outcome)
      modifies this
      ensures r == (if old(locked) then Fail(IllegalState) else Pass) && locked
      ensures writerIndex == old(writerIndex) && readerIndex == old(readerIndex)
    {
      if locked {
        return Fail(IllegalState);
      }
      locked := true;
      r := Pass;
    }

    /** unlock(): the compare-and-set from locked to unlocked fails on an unlocked slice. */
    method Unlock() returns (r: Outcome)
      modifies this
      ensures r == (if old(locked) then Pass else Fail(IllegalState)) && !locked
      ensures writerIndex == old(writerIndex) && readerIndex == old(readerIndex)
    {
      if !locked {
        return Fail(IllegalState);
      }
      locked := false;
      r := Pass;
    }
  }

  /** Slice i of a block: index i, the given owner, over slot i of the block. */
  predicate CarvedFrom(slice: UnsafeBlockSlice, i: int, owner: object, block: array<JByte>, sliceByteSize: int)
  {
    && slice.index == i && slice.owner == owner && slice.block == block
    && slice.sliceByteSize == sliceByteSize && slice.baseIndex == i * sliceByteSize && slice.Placed()
  }

  /** The constructor loop of UnsafeBufferPartition: one slice per slot, each clearing its bytes. */
  method CarveBlock(owner: object, block: array<JByte>, count: nat, sliceByteSize: nat) returns (slices: seq<UnsafeBlockSlice>)
    requires block.Length == sliceByteSize * count
    modifies block
    ensures |slices| == count && block[..] == Zeros(block.Length)
    ensures forall i :: 0 <= i < count ==> CarvedFrom(slices[i], i, owner, block, sliceByteSize)
    ensures forall i :: 0 <= i < count ==>
      slices[i].writerIndex == 0 && slices[i].readerIndex == 0 && !slices[i].locked && fresh(slices[i])
  {
    ghost var garbage := block[..];
    ghost var cleared := 0;
    slices := [];
    for i := 0 to count
      invariant |slices| == i && cleared == i * sliceByteSize
      invariant block[..] == Overwrite(garbage, 0, Zeros(cleared))
      invariant forall k :: 0 <= k < i ==> CarvedFrom(slices[k], k, owner, block, sliceByteSize)
      invariant forall k :: 0 <= k < i ==>
        slices[k].writerIndex == 0 && slices[k].readerIndex == 0 && !slices[k].locked && fresh(slices[k])
    {
      SlotInside(i, count, sliceByteSize);
      var slice := new UnsafeBlockSlice(i, sliceByteSize, block, owner);
      ZeroedPrefixGrows(garbage, cleared, sliceByteSize);
      slices := slices + [slice];
      cleared := cleared + sliceByteSize;
    }
    ZeroedPrefixGrows(garbage, cleared, 0);
  }

  /**
   * UnsafeBufferPartition: one raw block of sliceByteSize * slices bytes, slice i over
   * bytes [i * sliceByteSize, (i + 1) * sliceByteSize), and a selector that free() and
   * close() notify.
   */
  class UnsafeBufferPartition {
    const partitionIndex: int
    const sliceByteSize: int
    const usedSlices: FixedLengthBitSet
    const block: array<JByte>
    var slices: seq<UnsafeBlockSlice>
    var index: int
    var released: bool

    predicate Carved(slice: UnsafeBlockSlice, i: int)
    {
      CarvedFrom(slice, i, this, block, sliceByteSize)
    }

    ghost predicate Valid()
      reads this
    {
      && usedSlices.Valid() && usedSlices.bits == |slices| && index >= -1
      && block.Length == sliceByteSize * |slices|
      && forall i :: 0 <= i < |slices| ==> Carved(slices[i], i)
    }

    ghost function Avail(): int
      reads usedSlices.words
    {
      usedSlices.bits - PopCount(usedSlices.Bits())
    }

    /**
     * allocateMemory gives the block of allocatedLength = sliceByteSize * slices bytes, an
     * int product, here where it does not wrap; each slice's constructor clears its bytes.
     */
    constructor (partitionIndex: int, slices: nat, sliceByteSize: nat)
      requires IsInt(sliceByteSize * slices)
      ensures Valid() && index == 0 && !released
      ensures this.partitionIndex == partitionIndex && this.sliceByteSize == sliceByteSize
      ensures |this.slices| == slices && block[..] == Zeros(sliceByteSize * slices)
      ensures usedSlices.Bits() == seq(64 * usedSlices.words.Length, _ => false)
      ensures forall i :: 0 <= i < slices ==>
        this.slices[i].writerIndex == 0 && this.slices[i].readerIndex == 0 && !this.slices[i].locked
      ensures fresh(usedSlices) && fresh(usedSlices.words) && fresh(block)
    {
      this.partitionIndex := partitionIndex;
      this.sliceByteSize := sliceByteSize;
      usedSlices := new FixedLengthBitSet(slices);
      block := new JByte[sliceByteSize * slices];
      this.slices := [];
      index := 0;
      released := false;
      new;
      this.slices := CarveBlock(this, block, slices, sliceByteSize);
    }

    /** available(): size() - cardinality(). */
    method Available() returns (n: int)
      requires Valid()
      ensures n == Avail()
    {
      n := Partitions.AvailableOf(usedSlices);
    }

    /** used(): cardinality(). */
    method Used() returns (n: int)
      requires Valid()
      ensures n == PopCount(usedSlices.Bits())
    {
      n := usedSlices.Cardinality();
    }

    /** getSliceCount(): size() of the bitset. */
    function GetSliceCount(): (n: nat)
      reads this
      requires Valid()
      ensures n == |slices|
    {
      usedSlices.Size()
    }

    method NextSlice() returns (pos: int)
      requires Valid()
      ensures pos == WrappingNextSlice(usedSlices.Bits(), |slices|, index)
    {
      var full := usedSlices.IsEmpty();
      if full {
        return -1;
      }
      var cursor := index;
      pos := -1;
      if !(cursor == 0 || cursor == usedSlices.Size() - 1) {
        var next := usedSlices.NextNotSet(cursor + 1);
        pos := next.value;
      }
      if pos == -1 {
        pos := usedSlices.FirstNotSet();
      }
    }

    /**
     * get(): up to 5 attempts; an attempt returns null when nextSlice() is -1, moves the
     * cursor, and claims the slot only when get(slot) reports its bit clear, setting the
     * bit and locking the slice. The slot nextSlice() reports is always clear, so the
     * first attempt always decides.
     */
    method Get() returns (r: Result<UnsafeBlockSlice?>)
      requires Valid()
      modifies this, usedSlices.words, slices
      ensures Valid() && slices == old(slices) && released == old(released)
      ensures var c := ClaimOrNull(old(usedSlices.Bits()), |slices|, old(index),
                                   WrappingNextSlice(old(usedSlices.Bits()), |slices|, old(index)));
        && index == c.cursor && usedSlices.Bits() == c.bits
        && (c.slot.Err? ==> r == Err(c.slot.error))
        && (c.slot == Ok(None) ==> r == Ok(null))
        && (c.slot.Ok? && c.slot.value.Some? ==>
              var k := c.slot.value.value;
              && slices[k].locked
              && r == (if old(slices[k].locked) then Err(IllegalState) else Result<UnsafeBlockSlice?>.Ok(slices[k])))
        && forall i :: 0 <= i < |slices| && c.slot != Ok(Some(i)) ==> slices[i].locked == old(slices[i].locked)
      ensures forall i :: 0 <= i < |slices| ==>
        slices[i].writerIndex == old(slices[i].writerIndex) && slices[i].readerIndex == old(slices[i].readerIndex)
    {
      ghost var bits := usedSlices.Bits();
      r := Ok(null);
      var retry := 0;
      var done := false;
      while !done && retry < 5
        invariant 0 <= retry <= 5 && Valid() && slices == old(slices) && released == old(released)
        invariant !done ==> retry == 0 && index == old(index) && usedSlices.Bits() == bits
        invariant !done ==> forall i :: 0 <= i < |slices| ==> unchanged(slices[i])
        invariant done ==>
          var c := ClaimOrNull(bits, |slices|, old(index), WrappingNextSlice(bits, |slices|, old(index)));
          && index == c.cursor && usedSlices.Bits() == c.bits
          && (c.slot.Err? ==> r == Err(c.slot.error))
          && (c.slot == Ok(None) ==> r == Ok(null))
          && (c.slot.Ok? && c.slot.value.Some? ==>
                var k := c.slot.value.value;
                && slices[k].locked
                && r == (if old(slices[k].locked) then Err(IllegalState) else Result<UnsafeBlockSlice?>.Ok(slices[k])))
          && (forall i :: 0 <= i < |slices| && c.slot != Ok(Some(i)) ==> slices[i].locked == old(slices[i].locked))
        invariant forall i :: 0 <= i < |slices| ==>
          slices[i].writerIndex == old(slices[i].writerIndex) && slices[i].readerIndex == old(slices[i].readerIndex)
        decreases 5 - retry
      {
        retry := retry + 1;
        r, done := TryClaim();
      }
    }

    /**
     * One pass of get()'s retry loop: nextSlice(), the compare-and-set to it, and the claim
     * of the slot when its bit is clear. The slot nextSlice() reports is always clear, so
     * the pass always decides.
     */
    method TryClaim() returns (r: Result<UnsafeBlockSlice?>, done: bool)
      requires Valid()
      modifies this, usedSlices.words, slices
      ensures Valid() && slices == old(slices) && released == old(released) && done
      ensures var c := ClaimOrNull(old(usedSlices.Bits()), |slices|, old(index),
                                   WrappingNextSlice(old(usedSlices.Bits()), |slices|, old(index)));
        && index == c.cursor && usedSlices.Bits() == c.bits
        && (c.slot.Err? ==> r == Err(c.slot.error))
        && (c.slot == Ok(None) ==> r == Ok(null))
        && (c.slot.Ok? && c.slot.value.Some? ==>
              var k := c.slot.value.value;
              && slices[k].locked
              && r == (if old(slices[k].locked) then Err(IllegalState) else Result<UnsafeBlockSlice?>.Ok(slices[k])))
        && forall i :: 0 <= i < |slices| && c.slot != Ok(Some(i)) ==> slices[i].locked == old(slices[i].locked)
      ensures forall i :: 0 <= i < |slices| ==>
        slices[i].writerIndex == old(slices[i].writerIndex) && slices[i].readerIndex == old(slices[i].readerIndex)
    {
      NextSliceIsClear(usedSlices.Bits(), |slices|, index);
      r := Ok(null);
      done := false;
      var possibleMatch := NextSlice();
      if possibleMatch == -1 {
        r := Ok(null);
        done := true;
      } else {
        index := possibleMatch;
        AddressableIsSettable(usedSlices, possibleMatch);
        var current := usedSlices.Get(possibleMatch);
        if current.Err? {
          r := Err(current.error);
          done := true;
        } else if !current.value {
          var stored := usedSlices.Set(possibleMatch);
          if possibleMatch >= |slices| {
            r := Err(IndexOutOfBounds);
          } else {
            var locking := slices[possibleMatch].Lock();
            r := if locking.Fail? then Err(locking.error) else Result<UnsafeBlockSlice?>.Ok(slices[possibleMatch]);
          }
          done := true;
        }
      }
    }

    /**
     * free(slice): a slice of another partition is rejected. Otherwise the bit is
     * cleared, then unlock() runs, and only when it succeeds is the selector told (with
     * the count the cleared bit gives) and the slice cleared.
     */
    method Free(slice: UnsafeBlockSlice) returns (r: Outcome, notices: seq<Partitions.Notice>)
      requires Valid() && (slice.owner == this ==> slice in slices)
      modifies usedSlices.words, slice, block
      ensures Valid() && slices == old(slices) && index == old(index)
      ensures slice.owner != this ==>
        r == Fail(IllegalArgument) && notices == [] && unchanged(usedSlices.words, slice, block)
      ensures slice.owner == this ==>
        && usedSlices.Bits() == old(usedSlices.Bits())[slice.index := false]
        && !slice.locked
        && (old(slice.locked) ==>
              && r == Pass && notices == [Partitions.Notice(partitionIndex, Avail())]
              && block[..] == Overwrite(old(block[..]), slice.baseIndex, Zeros(sliceByteSize))
              && slice.writerIndex == 0 && slice.readerIndex == 0)
        && (!old(slice.locked) ==>
              && r == Fail(IllegalState) && notices == [] && block[..] == old(block[..])
              && slice.writerIndex == old(slice.writerIndex) && slice.readerIndex == old(slice.readerIndex))
      ensures slice.owner == this && old(usedSlices.Bits())[slice.index] ==> Avail() == old(Avail()) + 1
    {
      if slice.owner != this {
        return Fail(IllegalArgument), [];
      }
      AddressableIsSettable(usedSlices, slice.index);
      r := usedSlices.Clear(slice.index);
      PopCountUpdate(old(usedSlices.Bits()), slice.index, false);
      r := slice.Unlock();
      if r.Fail? {
        return r, [];
      }
      var available := Available();
      notices := [Partitions.Notice(partitionIndex, available)];
      slice.Clear();
    }

    /**
     * close(): no one-shot guard. Every call tells the selector about each slice in index
     * order, then zeroes the whole block and releases it.
     */
    method Close() returns (notices: seq<Partitions.Notice>)
      requires Valid()
      modifies this, block
      ensures Valid() && slices == old(slices) && index == old(index) && released
      ensures Partitions.NotifiedAll(notices, |slices|, partitionIndex, old(Avail()))
      ensures block[..] == Zeros(block.Length)
    {
      notices := [];
      for i := 0 to |slices|
        invariant unchanged(this, usedSlices.words)
        invariant Partitions.NotifiedAll(notices, i, partitionIndex, Avail())
      {
        var available := Available();
        notices := notices + [Partitions.Notice(partitionIndex, available)];
      }
      forall q | 0 <= q < block.Length {
        block[q] := 0;
      }
      released := true;
    }
  }

  /**
   * get() on a new partition of 64 slices: as written it returns the array's null; over
   * the filled slice array it returns slice 0.
   */
  method NewPartitionGetScenario() returns (asWritten: Result<PartitionSlice?>, filled: Result<PartitionSlice?>)
    ensures asWritten == Ok(null)
    ensures filled.Ok? && filled.value != null && filled.value.index == 0
  {
    var bare := new Partition(64, 8);
    FirstClearIs(bare.usedSlices.Bits(), 0, 0);
    asWritten := bare.Get();
    var carved := new Partition.Filling(64, 8);
    FirstClearIs(carved.usedSlices.Bits(), 0, 0);
    filled := carved.Get();
  }
}

=== FILE: logical_buffer.dfy ===
/**
 * PartitionBufferImpl: a growable byte buffer over pool slices, addressed by a long writer
 * index and a long reader index. The class keeps the slice array as an `array` and its
 * cursors as fields; every method's new state and result is the one the functions of
 * module PartitionBuffers give for the old state, so what is proved about those functions
 * holds for the class.
 */
module LogicalBuffer {
  import opened Errors
  import opened BufferUtils
  import opened PartitionBuffers

  function Min(a: int, b: int): int
  {
    if a < b then a else b
  }

  // ----- the slice source -----

  /**
   * The buffer pool as a buffer sees it: requestSlice hands out the slices still to come,
   * in order, and null once there are none; freeSlice takes slices back.
   */
  class SlicePool {
    const sliceByteSize: int
    var pending: seq<Slice>
    var returned: seq<Slice>

    constructor (sliceByteSize: int, slices: seq<Slice>)
      ensures this.sliceByteSize == sliceByteSize && pending == slices && returned == []
    {
      this.sliceByteSize := sliceByteSize;
      pending := slices;
      returned := [];
    }

    /** requestSlice(): the first slice still to come, or null when there is none. */
    method RequestSlice() returns (s: Option<Slice>)
      modifies this
      ensures (s, pending) == Request(old(pending)) && returned == old(returned)
    {
      if pending == [] {
        s := None;
      } else {
        s := Some(pending[0]);
        pending := pending[1..];
      }
    }

    /** freeSlice(slice): a null slice is ignored, any other goes back to the pool. */
    method FreeSlice(s: Option<Slice>)
      modifies this
      ensures returned == old(returned) + (if s.Some? then [s.value] else [])
      ensures pending == old(pending)
    {
      if s.Some? {
        returned := returned + [s.value];
      }
    }
  }

  /** A pool that never hands out a slice leaves every entry null, and then every put throws. */
  lemma NullSlicesNeverStore(st: BufferState, S: int, p: int, value: JByte)
    requires S > 0 && st.pending == [] && forall i :: 0 <= i < |st.slices| ==> st.slices[i].None?
    ensures PutAt(st, S, p, value).1.Fail?
    ensures var r := PutAt(st, S, p, value).0;
      r.pending == [] && forall i :: 0 <= i < |r.slices| ==> r.slices[i].None?
  {
    if p >= 0 {
      var k := SliceIndex(p, S);
      if GrowFor(st, k).Ok? && k >= |st.slices| {
        var g := GrowFor(st, k).value;
        forall i | 0 <= i < |g.slices|
          ensures g.slices[i].None?
        {
          if i < |st.slices| {
            assert g.slices[i] == st.slices[i];
          }
        }
      }
    }
  }

  // ----- runs of reads and writes, one step at a time -----

  /** A run of i writes that has not thrown, followed by the write of values[i]. */
  lemma WritesStep(st0: BufferState, S: int, values: seq<JByte>, i: nat, before: BufferState, after: BufferState, o: Outcome)
    requires S > 0 && i < |values| && Writes(st0, S, values[..i]) == (before, Pass)
    requires (after, o) == PartitionBuffers.WriteByte(before, S, ToByte(values[i]))
    ensures Writes(st0, S, values[..i + 1]) == (after, o)
  {
    assert values[..i + 1][..i] == values[..i];
    WritesSnoc(st0, S, values[..i + 1]);
  }

  /** A run of writes stops at the first write that throws. */
  lemma {:induction false} WritesStopAtFail(st: BufferState, S: int, values: seq<JByte>, j: nat)
    requires S > 0 && 1 <= j <= |values| && Writes(st, S, values[..j]).1.Fail?
    ensures Writes(st, S, values) == Writes(st, S, values[..j])
    decreases |values|
  {
    if j < |values| {
      var init := values[..|values| - 1];
      assert init[..j] == values[..j];
      WritesStopAtFail(st, S, init, j);
    } else {
      assert values[..j] == values;
    }
  }

  /** One more read after a run of reads that has not thrown. */
  function ReadOn(prev: (BufferState, seq<JByte>, Outcome), S: int): (r: (BufferState, seq<JByte>, Outcome))
    requires S > 0
    ensures r.2 == Pass ==> PartitionBuffers.ReadByte(prev.0, S).1.Ok?
    ensures r.2 == Pass ==> r.1 == prev.1 + [PartitionBuffers.ReadByte(prev.0, S).1.value]
    ensures r.2.Fail? ==> r.1 == prev.1
  {
    var (next, b) := PartitionBuffers.ReadByte(prev.0, S);
    if b.Err? then (next, prev.1, Fail(b.error)) else (next, prev.1 + [b.value], Pass)
  }

  /** One more read, which does not throw, after n reads that did not throw. */
  lemma ReadsStep(st0: BufferState, S: int, n: nat, before: BufferState, got: seq<JByte>, after: BufferState, v: JByte)
    requires S > 0 && Reads(st0, S, n) == (before, got, Pass)
    requires PartitionBuffers.ReadByte(before, S) == (after, Ok(v))
    ensures Reads(st0, S, n + 1) == (after, got + [v], Pass)
  {
    ReadsSnoc(st0, S, n + 1);
  }

  /** A run of n reads that has not thrown after n - 1 reads is those reads and one more. */
  lemma ReadsSnoc(st: BufferState, S: int, n: nat)
    requires S > 0 && n >= 1 && Reads(st, S, n - 1).2 == Pass
    ensures Reads(st, S, n) == ReadOn(Reads(st, S, n - 1), S)
  {
    var (mid, got, _) := Reads(st, S, n - 1);
    var (next, b) := PartitionBuffers.ReadByte(mid, S);
    assert Reads(mid, S, 1) == (if b.Err? then (next, [], Fail(b.error)) else (next, [b.value], Pass));
    if n == 1 {
      assert Reads(st, S, 0) == (st, [], Pass);
      assert b.Ok? ==> [] + [b.value] == [b.value];
    } else {
      assert got + [] == got;
    }
  }

  /** A run of reads stops at the first read that throws. */
  lemma {:induction false} ReadsStopAtFail(st: BufferState, S: int, n: nat, j: nat)
    requires S > 0 && 1 <= j <= n && Reads(st, S, j).2.Fail?
    ensures Reads(st, S, n) == Reads(st, S, j)
    decreases n
  {
    if j < n {
      ReadsStopAtFail(st, S, n - 1, j);
    }
  }

  // ----- bulk reads and writes -----

  /**
   * writeBytes(bytes, index, length): for i from index while i < length, writeByte(bytes[i]).
   * The loop stops at the first write that throws, and at the first i outside the array.
   */
  function WriteRange(st: BufferState, S: int, bytes: seq<JByte>, index: int, length: int): (r: (BufferState, Outcome))
    requires S > 0
    ensures index >= length ==> r == (st, Pass)
    ensures index < length && (index < 0 || index >= |bytes|) ==> r == (st, Fail(IndexOutOfBounds))
    ensures index < length && length > |bytes| ==> r.1.Fail?
  {
    if index >= length then (st, Pass)
    else if index < 0 || index >= |bytes| then (st, Fail(IndexOutOfBounds))
    else
      var (mid, o) := Writes(st, S, bytes[index..Min(length, |bytes|)]);
      if o.Fail? || length <= |bytes| then (mid, o) else (mid, Fail(IndexOutOfBounds))
  }

  /**
   * readBytes(bytes, index, length): for i from index while i < length, bytes[i] = read().
   * The loop stops at the first read that throws; at an i outside the array the read has
   * already happened when the store throws.
   */
  function ReadRange(st: BufferState, S: int, bytes: seq<JByte>, index: int, length: int): (r: (BufferState, seq<JByte>, Outcome))
    requires S > 0
    ensures |r.1| == |bytes|
    ensures index >= length ==> r == (st, bytes, Pass)
    ensures index < length && length > |bytes| ==> r.2.Fail?
  {
    if index >= length then (st, bytes, Pass)
    else
      var end := if 0 <= index < |bytes| then Min(length, |bytes|) else index;
      var (mid, got, o) := Reads(st, S, end - index);
      var stored := if index < end then bytes[..index] + got + bytes[index + |got|..] else bytes;
      if o.Fail? || end == length then (mid, stored, o)
      else
        var (next, b) := PartitionBuffers.ReadByte(mid, S);
        (next, stored, Fail(if b.Err? then b.error else IndexOutOfBounds))
  }

  /** The bytes of src written from the writer index are read back into dst, which keeps the rest. */
  predicate BytesReadBack(st: BufferState, S: int, src: seq<JByte>, dst: seq<JByte>, n: nat)
    requires S > 0 && n <= |dst|
  {
    var (r, o) := WriteRange(st, S, src, 0, n);
    var (_, d, o') := ReadRange(r, S, dst, 0, n);
    o == Pass && o' == Pass && d[..n] == src[..n] && d[n..] == dst[n..]
  }

  /**
   * writeBytes(src, 0, n) followed by readBytes(dst, 0, n) on a buffer whose unread bytes
   * have all been read: both succeed and dst receives the n bytes of src.
   */
  lemma BytesRoundTrip(st: BufferState, S: int, src: seq<JByte>, dst: seq<JByte>, n: nat)
    requires Shaped(st, S) && Dense(st, S) && st.readerIndex == st.writerIndex
    requires n <= |src| && n <= |dst|
    requires st.writerIndex + n <= LONG_MAX && |st.slices| + |st.pending| <= INT_MAX
    requires st.writerIndex + n <= Span(|st.slices| + |st.pending|, S)
    ensures BytesReadBack(st, S, src, dst, n)
  {
    if n > 0 {
      WriteThenRead(st, S, src[0..n]);
      var r := WriteRange(st, S, src, 0, n).0;
      assert r == Writes(st, S, src[0..n]).0;
      var got := Reads(r, S, n).1;
      assert got == src[..n];
      assert dst[..0] + got + dst[0 + |got|..] == src[..n] + dst[n..];
    }
  }

  // ----- multi-byte values -----

  /** What putShort writes, getShort reads back: the value, in either byte order. */
  lemma ShortWrittenReadsBack(st: BufferState, S: int, value: int, bigEndian: bool)
    requires Shaped(st, S) && Dense(st, S) && st.readerIndex == st.writerIndex && IsShort(value)
    requires st.writerIndex + 2 <= LONG_MAX && |st.slices| + |st.pending| <= INT_MAX
    requires st.writerIndex + 2 <= Span(|st.slices| + |st.pending|, S)
    ensures WrittenThenRead(st, S, ShortBytes(value, bigEndian))
    ensures ShortFrom(ShortBytes(value, bigEndian), bigEndian) == value
  {
    ShortRoundTrip(value, bigEndian);
    WriteThenRead(st, S, ShortBytes(value, bigEndian));
  }

  /** What putInt writes, getInt reads back: the value, in either byte order. */
  lemma IntWrittenReadsBack(st: BufferState, S: int, value: int, bigEndian: bool)
    requires Shaped(st, S) && Dense(st, S) && st.readerIndex == st.writerIndex && IsInt(value)
    requires st.writerIndex + 4 <= LONG_MAX && |st.slices| + |st.pending| <= INT_MAX
    requires st.writerIndex + 4 <= Span(|st.slices| + |st.pending|, S)
    ensures WrittenThenRead(st, S, IntBytes(value, bigEndian))
    ensures IntFrom(IntBytes(value, bigEndian), bigEndian) == value
  {
    IntRoundTrip(value, bigEndian);
    WriteThenRead(st, S, IntBytes(value, bigEndian));
  }

  /** What putLong writes, getLong (with long shifts) reads back: the value, in either byte order. */
  lemma LongWrittenReadsBack(st: BufferState, S: int, value: int, bigEndian: bool)
    requires Shaped(st, S) && Dense(st, S) && st.readerIndex == st.writerIndex && IsLong(value)
    requires st.writerIndex + 8 <= LONG_MAX && |st.slices| + |st.pending| <= INT_MAX
    requires st.writerIndex + 8 <= Span(|st.slices| + |st.pending|, S)
    ensures WrittenThenRead(st, S, LongBytes(value, bigEndian))
    ensures LongFrom(LongBytes(value, bigEndian), bigEndian) == value
  {
    LongRoundTrip(value, bigEndian);
    WriteThenRead(st, S, LongBytes(value, bigEndian));
  }

  /**
   * What putLong writes comes back whole, but getLong as written rebuilds it wrongly:
   * 2^32 written big-endian is read back as 1.
   */
  lemma LongWrittenReadsBackAsWritten(st: BufferState, S: int)
    requires Shaped(st, S) && Dense(st, S) && st.readerIndex == st.writerIndex
    requires st.writerIndex + 8 <= LONG_MAX && |st.slices| + |st.pending| <= INT_MAX
    requires st.writerIndex + 8 <= Span(|st.slices| + |st.pending|, S)
    ensures WrittenThenRead(st, S, LongBytes(0x1_0000_0000, true))
    ensures LongFromAsWritten(LongBytes(0x1_0000_0000, true), true) == 1
  {
    LongRoundTripAsWrittenFails();
    WriteThenRead(st, S, LongBytes(0x1_0000_0000, true));
  }

  /** (char) and `& 0xFFFF`: the low 16 bits, unsigned. */
  function Char(x: int): (c: int)
    ensures 0 <= c < 0x1_0000
  {
    x % 0x1_0000
  }

  /** writeChar stores (short) c; readChar turns the short read back into c. */
  lemma CharRoundTrip(c: int, bigEndian: bool)
    requires 0 <= c < 0x1_0000
    ensures Char(ShortFrom(ShortBytes(ToShort(c), bigEndian), bigEndian)) == c
  {
    ShortRoundTrip(ToShort(c), bigEndian);
    var u := c % 0x1_0000;
    assert u == c;
    if u >= 0x8000 {
      DivModUnique(u - 0x1_0000, 0x1_0000, -1, u);
    }
  }

  /** The result of getShort/getInt/getLong: the value built from the bytes read, or the error. */
  function Built(o: Outcome, value: int): Result<int>
  {
    if o.Fail? then Err(o.error) else Ok(value)
  }

  // ----- the buffer -----

  class PartitionBuffer {
    const pool: SlicePool
    var bigEndian: bool
    var slices: array<Option<Slice>>
    var writerIndex: int
    var readerIndex: int

    /** The buffer as the specification functions see it. */
    ghost function State(): BufferState
      reads this, slices, pool
    {
      BufferState(slices[..], writerIndex, readerIndex, pool.pending)
    }

    /** Positions are divided by the slice size, so it must be positive. */
    predicate Valid()
    {
      pool.sliceByteSize > 0
    }

    /** The corrected constructor: the byte order, and a one-entry array holding the first slice. */
    constructor (pool: SlicePool, bigEndian: bool)
      requires pool.sliceByteSize > 0
      modifies pool
      ensures this.pool == pool && this.bigEndian == bigEndian && Valid() && fresh(slices)
      ensures State() == Initial(old(pool.pending)) && pool.returned == old(pool.returned)
    {
      this.pool := pool;
      this.bigEndian := bigEndian;
      writerIndex := 0;
      readerIndex := 0;
      var requested := pool.RequestSlice();
      slices := new Option<Slice>[1](_ => requested);
      new;
      assert slices[..] == Grow([], 1, requested);
    }

    /** resize(newSize), corrected: the old entries, nulls, and the requested slice in the last entry. */
    method Resize(newSize: int)
      requires newSize > slices.Length
      modifies this, pool
      ensures fresh(slices) && slices[..] == Grow(old(slices[..]), newSize, Request(old(pool.pending)).0)
      ensures pool.pending == Request(old(pool.pending)).1 && pool.returned == old(pool.returned)
      ensures writerIndex == old(writerIndex) && readerIndex == old(readerIndex) && bigEndian == old(bigEndian)
    {
      var temp := new Option<Slice>[newSize](_ => None);
      forall i | 0 <= i < slices.Length {
        temp[i] := slices[i];
      }
      var requested := pool.RequestSlice();
      temp[newSize - 1] := requested;
      slices := temp;
      assert slices[..] == Grow(old(slices[..]), newSize, requested);
    }

    /** put(position, value): grow as far as the position's slice, then store in that slice. */
    method Put(position: int, value: JByte) returns (o: Outcome)
      requires Valid()
      modifies this, slices, pool
      ensures (State(), o) == PutAt(old(State()), pool.sliceByteSize, position, value)
      ensures pool.returned == old(pool.returned) && bigEndian == old(bigEndian)
      ensures slices == old(slices) || fresh(slices)
    {
      var S := pool.sliceByteSize;
      if position < 0 {
        return Fail(IndexOutOfBounds);
      }
      var k := SliceIndex(position, S);
      if k >= slices.Length {
        var newSize := ToInt(k + 1);
        if newSize < 0 {
          return Fail(NegativeArraySize);
        }
        Resize(newSize);
      }
      assert GrowFor(old(State()), k) == Ok(State());
      if k < 0 {
        return Fail(IndexOutOfBounds);
      }
      match slices[k]
      case None =>
        o := Fail(NullPointer);
      case Some(s) =>
        var offset := Offset(position, S);
        if offset < |s.bytes| {
          slices[k] := Some(s.(bytes := s.bytes[offset := value]));
          o := Pass;
        } else {
          o := Fail(IndexOutOfBounds);
        }
    }

    /** writeByte(value) through put(value): (byte) value goes to the writer index, which moves on first. */
    method WriteByte(value: int) returns (o: Outcome)
      requires Valid()
      modifies this, slices, pool
      ensures (State(), o) == PartitionBuffers.WriteByte(old(State()), pool.sliceByteSize, ToByte(value))
      ensures pool.returned == old(pool.returned) && bigEndian == old(bigEndian)
      ensures slices == old(slices) || fresh(slices)
    {
      var position := writerIndex;
      writerIndex := ToLong(position + 1);
      o := Put(position, ToByte(value));
    }

    /** read(position), corrected: only positions below the writer index are readable. */
    method Read(position: int) returns (r: Result<JByte>)
      requires Valid()
      ensures r == ReadAt(State(), pool.sliceByteSize, position)
    {
      var S := pool.sliceByteSize;
      if position >= writerIndex || position < 0 {
        return Err(IndexOutOfBounds);
      }
      var k := SliceIndex(position, S);
      if k < 0 || k >= slices.Length {
        return Err(IndexOutOfBounds);
      }
      match slices[k]
      case None =>
        r := Err(NullPointer);
      case Some(s) =>
        var offset := Offset(position, S);
        r := if offset < |s.bytes| then Ok(s.bytes[offset]) else Err(IndexOutOfBounds);
    }

    /** readByte() through read(): the byte at the reader index, which moves on first. */
    method ReadByte() returns (r: Result<JByte>)
      requires Valid()
      modifies this
      ensures (State(), r) == PartitionBuffers.ReadByte(old(State()), pool.sliceByteSize)
      ensures slices == old(slices) && bigEndian == old(bigEndian)
    {
      var position := readerIndex;
      readerIndex := ToLong(position + 1);
      r := Read(position);
    }

    /** readUnsignedByte(): the byte read, as a value from 0 to 255 that (byte) turns back into it. */
    method ReadUnsignedByte() returns (r: Result<int>)
      requires Valid()
      modifies this
      ensures State() == PartitionBuffers.ReadByte(old(State()), pool.sliceByteSize).0
      ensures slices == old(slices) && bigEndian == old(bigEndian)
      ensures var b := PartitionBuffers.ReadByte(old(State()), pool.sliceByteSize).1;
        && (r.Ok? <==> b.Ok?) && (r.Err? ==> r.error == b.error)
        && (r.Ok? ==> 0 <= r.value < 256 && ToByte(r.value) == b.value)
    {
      var b := ReadByte();
      r := if b.Err? then Err(b.error) else Ok(Unsigned(b.value));
    }

    /** A run of writeByte calls over the values, stopping at the first that throws. */
    method WriteAll(values: seq<JByte>) returns (o: Outcome)
      requires Valid()
      modifies this, slices, pool
      ensures (State(), o) == Writes(old(State()), pool.sliceByteSize, values)
      ensures pool.returned == old(pool.returned) && bigEndian == old(bigEndian)
      ensures slices == old(slices) || fresh(slices)
    {
      ghost var st0 := State();
      var S := pool.sliceByteSize;
      o := Pass;
      var i := 0;
      while i < |values|
        invariant 0 <= i <= |values| && o == Pass
        invariant (State(), Pass) == Writes(st0, S, values[..i])
        invariant pool.returned == old(pool.returned) && bigEndian == old(bigEndian)
        invariant slices == old(slices) || fresh(slices)
      {
        ghost var before := State();
        o := WriteByte(values[i]);
        WritesStep(st0, S, values, i, before, State(), o);
        if o.Fail? {
          WritesStopAtFail(st0, S, values, i + 1);
          return;
        }
        i := i + 1;
      }
      assert values[..i] == values;
    }

    /** A run of n readByte calls, stopping at the first that throws; the bytes read before it. */
    method ReadAll(n: nat) returns (got: seq<JByte>, o: Outcome)
      requires Valid()
      modifies this
      ensures (State(), got, o) == Reads(old(State()), pool.sliceByteSize, n)
      ensures slices == old(slices) && bigEndian == old(bigEndian)
    {
      ghost var st0 := State();
      var S := pool.sliceByteSize;
      got, o := [], Pass;
      var i := 0;
      while i < n
        invariant 0 <= i <= n && o == Pass
        invariant (State(), got, Pass) == Reads(st0, S, i)
        invariant slices == old(slices) && bigEndian == old(bigEndian)
      {
        ReadsSnoc(st0, S, i + 1);
        var b := ReadByte();
        if b.Err? {
          o := Fail(b.error);
          ReadsStopAtFail(st0, S, n, i + 1);
          return;
        }
        got := got + [b.value];
        i := i + 1;
      }
    }

    /** writeBytes(bytes, index, length), as WriteRange says. */
    method WriteBytes(bytes: array<JByte>, index: int, length: int) returns (o: Outcome)
      requires Valid()
      modifies this, slices, pool
      ensures (State(), o) == WriteRange(old(State()), pool.sliceByteSize, bytes[..], index, length)
      ensures pool.returned == old(pool.returned) && bigEndian == old(bigEndian)
      ensures slices == old(slices) || fresh(slices)
    {
      ghost var st0 := State();
      var S := pool.sliceByteSize;
      o := Pass;
      var i := index;
      while i < length
        invariant index <= i && o == Pass
        invariant i == index ==> State() == st0
        invariant i > index ==> 0 <= index < i <= bytes.Length && i <= length
        invariant i > index ==> (State(), Pass) == Writes(st0, S, bytes[index..i])
        invariant pool.returned == old(pool.returned) && bigEndian == old(bigEndian)
        invariant slices == old(slices) || fresh(slices)
      {
        if i < 0 || i >= bytes.Length {
          WriteRangeStops(st0, S, bytes[..], index, length, i);
          return Fail(IndexOutOfBounds);
        }
        ghost var done := bytes[index..i + 1];
        assert done[..|done| - 1] == bytes[index..i];
        WritesSnoc(st0, S, done);
        o := WriteByte(bytes[i]);
        if o.Fail? {
          WriteRangeFails(st0, S, bytes[..], index, length, i);
          return;
        }
        i := i + 1;
      }
      WriteRangeStops(st0, S, bytes[..], index, length, i);
    }

    /** readBytes(bytes, index, length), as ReadRange says; the bytes land in the array itself. */
    method ReadBytes(bytes: array<JByte>, index: int, length: int) returns (o: Outcome)
      requires Valid()
      modifies this, bytes
      ensures (State(), bytes[..], o) == ReadRange(old(State()), pool.sliceByteSize, old(bytes[..]), index, length)
      ensures slices == old(slices) && bigEndian == old(bigEndian)
    {
      ghost var st0, b0 := State(), bytes[..];
      var S := pool.sliceByteSize;
      ghost var got: seq<JByte> := [];
      ghost var n: nat := 0;
      o := Pass;
      var i := index;
      while i < length
        invariant index <= i && o == Pass && n == i - index
        invariant i > index ==> 0 <= index < i <= bytes.Length && i <= length
        invariant (State(), got, Pass) == Reads(st0, S, n)
        invariant bytes[..] == if i > index then b0[..index] + got + b0[i..] else b0
        invariant slices == old(slices) && bigEndian == old(bigEndian)
      {
        var v;
        o, v := ReadNext(bytes, i, st0, b0, index, length, got, n);
        if o.Fail? {
          return;
        }
        got := got + [v];
        i, n := i + 1, n + 1;
      }
      ReadRangeAll(st0, S, b0, index, length, i);
    }

    /**
     * One turn of readBytes' loop at index i: readByte(), then either the store into the
     * array or the exception that ends the loop, where the outcome is that of ReadRange.
     */
    method ReadNext(bytes: array<JByte>, i: int, ghost st0: BufferState, ghost b0: seq<JByte>,
                    ghost index: int, ghost length: int, ghost got: seq<JByte>, ghost n: nat) returns (o: Outcome, v: JByte)
      requires Valid() && index <= i < length && |b0| == bytes.Length && n == i - index
      requires i > index ==> 0 <= index < i <= bytes.Length
      requires (State(), got, Pass) == Reads(st0, pool.sliceByteSize, n)
      requires bytes[..] == if i > index then b0[..index] + got + b0[i..] else b0
      modifies this, bytes
      ensures slices == old(slices) && bigEndian == old(bigEndian)
      ensures o.Fail? ==> (State(), bytes[..], o) == ReadRange(st0, pool.sliceByteSize, b0, index, length)
      ensures o == Pass ==>
        && 0 <= index <= i < bytes.Length
        && (State(), got + [v], Pass) == Reads(st0, pool.sliceByteSize, n + 1)
        && bytes[..] == b0[..index] + (got + [v]) + b0[i + 1..]
    {
      var S := pool.sliceByteSize;
      ghost var before := State();
      var b := ReadByte();
      if b.Err? {
        o, v := Fail(b.error), 0;
        if i < 0 || i >= bytes.Length {
          ReadFailsPast(st0, S, b0, index, length, i, before, got, State(), b);
        } else {
          ReadFailsInside(st0, S, b0, index, length, i, before, got, State(), b.error);
        }
        return;
      }
      if i < 0 || i >= bytes.Length {
        ReadFailsPast(st0, S, b0, index, length, i, before, got, State(), b);
        return Fail(IndexOutOfBounds), 0;
      }
      StoreRead(bytes, i, b.value, st0, b0, index, got, before, n);
      o, v := Pass, b.value;
    }

    /** The byte just read lands at index i of the array; the run of reads so far grows by it. */
    method StoreRead(bytes: array<JByte>, i: int, v: JByte, ghost st0: BufferState, ghost b0: seq<JByte>,
                     ghost index: int, ghost got: seq<JByte>, ghost before: BufferState, ghost n: nat)
      requires Valid() && 0 <= index <= i < bytes.Length == |b0| && n == i - index
      requires Reads(st0, pool.sliceByteSize, n) == (before, got, Pass)
      requires PartitionBuffers.ReadByte(before, pool.sliceByteSize) == (State(), Ok(v))
      requires bytes[..] == if i > index then b0[..index] + got + b0[i..] else b0
      modifies bytes
      ensures Reads(st0, pool.sliceByteSize, n + 1) == (State(), got + [v], Pass)
      ensures bytes[..] == b0[..index] + (got + [v]) + b0[i + 1..]
    {
      ReadsStep(st0, pool.sliceByteSize, n, before, got, State(), v);
      StoreNext(b0, index, got, i, v);
      bytes[i] := v;
    }

    // ----- multi-byte writes and reads, in the buffer's byte order -----

    /** writeShort(value): putShort in this buffer's byte order. */
    method WriteShort(value: int) returns (o: Outcome)
      requires Valid() && IsShort(value)
      modifies this, slices, pool
      ensures (State(), o) == Writes(old(State()), pool.sliceByteSize, ShortBytes(value, old(bigEndian)))
      ensures pool.returned == old(pool.returned) && bigEndian == old(bigEndian)
      ensures slices == old(slices) || fresh(slices)
    {
      o := PutShort(value, this, bigEndian);
    }

    /** writeChar(value): writeShort((short) value). */
    method WriteChar(value: int) returns (o: Outcome)
      requires Valid()
      modifies this, slices, pool
      ensures (State(), o) == Writes(old(State()), pool.sliceByteSize, ShortBytes(ToShort(value), old(bigEndian)))
      ensures pool.returned == old(pool.returned) && bigEndian == old(bigEndian)
      ensures slices == old(slices) || fresh(slices)
    {
      o := WriteShort(ToShort(value));
    }

    /** writeInt(value): putInt in this buffer's byte order. */
    method WriteInt(value: int) returns (o: Outcome)
      requires Valid() && IsInt(value)
      modifies this, slices, pool
      ensures (State(), o) == Writes(old(State()), pool.sliceByteSize, IntBytes(value, old(bigEndian)))
      ensures pool.returned == old(pool.returned) && bigEndian == old(bigEndian)
      ensures slices == old(slices) || fresh(slices)
    {
      o := PutInt(value, this, bigEndian);
    }

    /** writeLong(value): putLong in this buffer's byte order. */
    method WriteLong(value: int) returns (o: Outcome)
      requires Valid() && IsLong(value)
      modifies this, slices, pool
      ensures (State(), o) == Writes(old(State()), pool.sliceByteSize, LongBytes(value, old(bigEndian)))
      ensures pool.returned == old(pool.returned) && bigEndian == old(bigEndian)
      ensures slices == old(slices) || fresh(slices)
    {
      o := PutLong(value, this, bigEndian);
    }

    /** readShort(): getShort in this buffer's byte order. */
    method ReadShort() returns (r: Result<int>)
      requires Valid()
      modifies this
      ensures var (st, got, o) := Reads(old(State()), pool.sliceByteSize, 2);
        State() == st && r == Built(o, if o.Fail? then 0 else ShortFrom(got, bigEndian))
      ensures r.Ok? ==> IsShort(r.value)
      ensures slices == old(slices) && bigEndian == old(bigEndian)
    {
      r := GetShort(this, bigEndian);
    }

    /** readChar(): (char) readShort(), a value from 0 to 65535. */
    method ReadChar() returns (r: Result<int>)
      requires Valid()
      modifies this
      ensures var (st, got, o) := Reads(old(State()), pool.sliceByteSize, 2);
        State() == st && r == Built(o, if o.Fail? then 0 else Char(ShortFrom(got, bigEndian)))
      ensures slices == old(slices) && bigEndian == old(bigEndian)
    {
      var s := ReadShort();
      r := if s.Err? then s else Ok(Char(s.value));
    }

    /** readUnsignedShort(): readShort() & 0xFFFF, a value from 0 to 65535. */
    method ReadUnsignedShort() returns (r: Result<int>)
      requires Valid()
      modifies this
      ensures var (st, got, o) := Reads(old(State()), pool.sliceByteSize, 2);
        State() == st && r == Built(o, if o.Fail? then 0 else Char(ShortFrom(got, bigEndian)))
      ensures slices == old(slices) && bigEndian == old(bigEndian)
    {
      var s := ReadShort();
      r := if s.Err? then s else Ok(s.value % 0x1_0000);
    }

    /** readInt(): getInt in this buffer's byte order. */
    method ReadInt() returns (r: Result<int>)
      requires Valid()
      modifies this
      ensures var (st, got, o) := Reads(old(State()), pool.sliceByteSize, 4);
        State() == st && r == Built(o, if o.Fail? then 0 else IntFrom(got, bigEndian))
      ensures r.Ok? ==> IsInt(r.value)
      ensures slices == old(slices) && bigEndian == old(bigEndian)
    {
      r := GetInt(this, bigEndian);
    }

    /** readUnsignedInt(): readInt() & 0xFFFFFFFFL, a value from 0 to 2^32 - 1. */
    method ReadUnsignedInt() returns (r: Result<int>)
      requires Valid()
      modifies this
      ensures var (st, got, o) := Reads(old(State()), pool.sliceByteSize, 4);
        State() == st && r == Built(o, if o.Fail? then 0 else IntFrom(got, bigEndian) % 0x1_0000_0000)
      ensures r.Ok? ==> 0 <= r.value < 0x1_0000_0000
      ensures slices == old(slices) && bigEndian == old(bigEndian)
    {
      var v := ReadInt();
      r := if v.Err? then v else Ok(v.value % 0x1_0000_0000);
    }

    /** readLong(): getLong (as written) in this buffer's byte order. */
    method ReadLong() returns (r: Result<int>)
      requires Valid()
      modifies this
      ensures var (st, got, o) := Reads(old(State()), pool.sliceByteSize, 8);
        State() == st && r == Built(o, if o.Fail? then 0 else LongFromAsWritten(got, bigEndian))
      ensures r.Ok? ==> IsInt(r.value)
      ensures slices == old(slices) && bigEndian == old(bigEndian)
    {
      r := GetLong(this, bigEndian);
    }

    // ----- cursors and byte order -----

    /** readerIndex() */
    method ReaderIndex() returns (r: int)
      ensures r == readerIndex
    {
      r := readerIndex;
    }

    /** readerIndex(readerIndex): only the reader index changes. */
    method SetReaderIndex(index: int)
      requires IsLong(index)
      modifies this
      ensures State() == old(State()).(readerIndex := index)
      ensures slices == old(slices) && bigEndian == old(bigEndian)
    {
      readerIndex := index;
    }

    /** writerIndex() */
    method WriterIndex() returns (w: int)
      ensures w == writerIndex
    {
      w := writerIndex;
    }

    /** writerIndex(writerIndex): only the writer index changes. */
    method SetWriterIndex(index: int)
      requires IsLong(index)
      modifies this
      ensures State() == old(State()).(writerIndex := index)
      ensures slices == old(slices) && bigEndian == old(bigEndian)
    {
      writerIndex := index;
    }

    /** byteOrder(): whether the byte order is big-endian. */
    method ByteOrder() returns (big: bool)
      ensures big == bigEndian
    {
      big := bigEndian;
    }

    /** byteOrder(byteOrder): only the byte order changes. */
    method SetByteOrder(big: bool)
      modifies this
      ensures bigEndian == big && State() == old(State()) && slices == old(slices)
    {
      bigEndian := big;
    }

    // ----- accounting -----

    /** readable(): unread bytes remain, when the cursors are non-negative longs. */
    method Readable() returns (b: bool)
      ensures b == PartitionBuffers.Readable(State())
      ensures 0 <= readerIndex <= LONG_MAX && 0 <= writerIndex <= LONG_MAX ==> (b <==> writerIndex > readerIndex)
    {
      b := ToLong(writerIndex - readerIndex) > 0;
      if 0 <= readerIndex <= LONG_MAX && 0 <= writerIndex <= LONG_MAX {
        ReadableExactly(State());
      }
    }

    /** sliceByteSize(): the pool's slice size. */
    method SliceByteSize() returns (s: int)
      ensures s == pool.sliceByteSize
    {
      s := pool.sliceByteSize;
    }

    /** slices(): how many entries of the array hold a slice. */
    method Slices() returns (n: int)
      ensures n == PresentCount(slices[..])
    {
      n := 0;
      for i := 0 to slices.Length
        invariant n == PresentCount(slices[..i])
      {
        assert slices[..i + 1][..i] == slices[..i];
        n := n + if slices[i].Some? then 1 else 0;
      }
      assert slices[..slices.Length] == slices[..];
    }

    /** maxCapacity(): slices() * sliceByteSize() in int arithmetic. */
    method MaxCapacity() returns (m: int)
      ensures m == MaxCapacityOf(slices[..], pool.sliceByteSize)
    {
      var n := Slices();
      var s := SliceByteSize();
      m := ToInt(n * s);
    }

    /** writeable(): maxCapacity() - writerIndex is positive. */
    method Writeable() returns (b: bool)
      ensures b == PartitionBuffers.Writeable(State(), pool.sliceByteSize)
      ensures 0 <= writerIndex <= LONG_MAX && MaxCapacityOf(slices[..], pool.sliceByteSize) >= 0 ==>
        (b <==> MaxCapacityOf(slices[..], pool.sliceByteSize) > writerIndex)
    {
      var m := MaxCapacity();
      b := ToLong(m - writerIndex) > 0;
      if 0 <= writerIndex <= LONG_MAX && m >= 0 {
        WriteableExactly(State(), pool.sliceByteSize);
      }
    }

    /** capacity(): the writer indices of the slices held, accumulated in a long. */
    method Capacity() returns (c: int)
      ensures c == CapacityOf(slices[..])
    {
      c := 0;
      for i := 0 to slices.Length
        invariant c == CapacityOf(slices[..i])
      {
        assert slices[..i + 1][..i] == slices[..i];
        c := ToLong(c + if slices[i].Some? then slices[i].value.writerIndex else 0);
      }
      assert slices[..slices.Length] == slices[..];
    }

    /** free(): every slice held goes back to the pool, in array order, and every entry becomes null. */
    method Free()
      modifies slices, pool
      ensures pool.returned == old(pool.returned) + Present(old(slices[..])) && pool.pending == old(pool.pending)
      ensures slices[..] == Nulls(slices.Length) && PresentCount(slices[..]) == 0
      ensures MaxCapacityOf(slices[..], pool.sliceByteSize) == 0
    {
      for i := 0 to slices.Length
        invariant slices[..] == old(slices[..])
        invariant pool.returned == old(pool.returned) + Present(slices[..i]) && pool.pending == old(pool.pending)
      {
        assert slices[..i + 1][..i] == slices[..i];
        pool.FreeSlice(slices[i]);
      }
      assert slices[..slices.Length] == slices[..];
      forall i | 0 <= i < slices.Length {
        slices[i] := None;
      }
      assert slices[..] == Nulls(slices.Length);
      NullsHoldNothing(slices.Length, pool.sliceByteSize);
    }
  }

  /** readBytes when the read at an index inside the array throws: the bytes read before it are stored. */
  lemma ReadFailsInside(st0: BufferState, S: int, b0: seq<JByte>, index: int, length: int, i: int,
                         before: BufferState, got: seq<JByte>, after: BufferState, e: Error)
    requires S > 0 && 0 <= index <= i < length && i < |b0|
    requires Reads(st0, S, i - index) == (before, got, Pass) && PartitionBuffers.ReadByte(before, S) == (after, Err(e))
    ensures ReadRange(st0, S, b0, index, length) ==
      (after, if i > index then b0[..index] + got + b0[i..] else b0, Fail(e))
  {
    var prev := Reads(st0, S, i - index);
    var r := ReadOn(prev, S);
    assert r == (after, got, Fail(e));
    FailInside(st0, S, b0, index, length, i);
    ReadRangeStopped(st0, S, b0, index, length, r);
    if i == index {
      assert b0[..index] + r.1 + b0[index + |r.1|..] == b0[..index] + [] + b0[index..] == b0;
    }
  }

  /** The run of reads inside the array stops at index i, with the bytes read before it. */
  lemma FailInside(st0: BufferState, S: int, b0: seq<JByte>, index: int, length: int, i: int)
    requires S > 0 && 0 <= index <= i < length && i < |b0|
    requires Reads(st0, S, i - index).2 == Pass && ReadOn(Reads(st0, S, i - index), S).2.Fail?
    ensures var prev := Reads(st0, S, i - index);
      && Reads(st0, S, Min(length, |b0|) - index) == ReadOn(prev, S)
      && ReadOn(prev, S).1 == prev.1 && index + |prev.1| == i
  {
    ReadsFailAt(st0, S, i - index, Min(length, |b0|) - index);
  }

  /** A run of m + 1 reads whose last read throws is where every longer run stops. */
  lemma ReadsFailAt(st0: BufferState, S: int, m: nat, n: nat)
    requires S > 0 && m < n
    requires Reads(st0, S, m).2 == Pass && ReadOn(Reads(st0, S, m), S).2.Fail?
    ensures Reads(st0, S, n) == ReadOn(Reads(st0, S, m), S)
  {
    ReadsSnoc(st0, S, m + 1);
    ReadsStopAtFail(st0, S, n, m + 1);
  }

  /** readBytes whose run of reads inside the array throws: what was read so far is stored. */
  lemma ReadRangeStopped(st0: BufferState, S: int, b0: seq<JByte>, index: int, length: int, r: (BufferState, seq<JByte>, Outcome))
    requires S > 0 && 0 <= index < length && index < |b0|
    requires Reads(st0, S, Min(length, |b0|) - index) == r && r.2.Fail?
    ensures index + |r.1| <= |b0|
    ensures ReadRange(st0, S, b0, index, length) == (r.0, b0[..index] + r.1 + b0[index + |r.1|..], r.2)
  {
  }

  /**
   * readBytes when the loop reaches an index outside the array (the first index, or the one
   * just past the array): that index's read happens, then the read or the store throws.
   */
  lemma ReadFailsPast(st0: BufferState, S: int, b0: seq<JByte>, index: int, length: int, i: int,
                       before: BufferState, got: seq<JByte>, after: BufferState, b: Result<JByte>)
    requires S > 0 && index <= i < length
    requires i == index ==> index < 0 || index >= |b0|
    requires i > index ==> 0 <= index && i == |b0|
    requires Reads(st0, S, i - index) == (before, got, Pass) && PartitionBuffers.ReadByte(before, S) == (after, b)
    ensures ReadRange(st0, S, b0, index, length) ==
      (after, if i > index then b0[..index] + got + b0[i..] else b0, Fail(if b.Err? then b.error else IndexOutOfBounds))
  {
  }

  /** Storing the next byte read extends the run of bytes read into the array by one. */
  lemma StoreNext(b0: seq<JByte>, index: int, got: seq<JByte>, i: int, v: JByte)
    requires 0 <= index <= i < |b0| && |got| == i - index
    ensures (if i > index then b0[..index] + got + b0[i..] else b0)[i := v] == b0[..index] + (got + [v]) + b0[i + 1..]
  {
    if i == index {
      assert got == [];
    }
  }

  /** readBytes when the loop reaches length with every read and store done. */
  lemma ReadRangeAll(st0: BufferState, S: int, b0: seq<JByte>, index: int, length: int, i: int)
    requires S > 0 && index <= i && i >= length
    requires i > index ==> 0 <= index < i <= |b0| && i <= length && Reads(st0, S, i - index).2 == Pass
    ensures ReadRange(st0, S, b0, index, length) ==
      if i == index then (st0, b0, Pass)
      else var (r, got, _) := Reads(st0, S, i - index); (r, b0[..index] + got + b0[i..], Pass)
  {
    if i > index {
      assert Min(length, |b0|) == i;
    }
  }

  /** writeBytes when the loop stops at i without a write throwing: at length, or at an index outside the array. */
  lemma WriteRangeStops(st0: BufferState, S: int, bytes: seq<JByte>, index: int, length: int, i: int)
    requires S > 0 && index <= i && (i >= length || i < 0 || i >= |bytes|)
    requires i > index ==> 0 <= index < i <= |bytes| && i <= length && Writes(st0, S, bytes[index..i]).1 == Pass
    ensures WriteRange(st0, S, bytes, index, length) ==
      (if i == index then st0 else Writes(st0, S, bytes[index..i]).0, if i >= length then Pass else Fail(IndexOutOfBounds))
  {
    if i > index {
      assert Min(length, |bytes|) == i;
    }
  }

  /** writeBytes when the write of bytes[i] throws. */
  lemma WriteRangeFails(st0: BufferState, S: int, bytes: seq<JByte>, index: int, length: int, i: int)
    requires S > 0 && 0 <= index <= i < length && i < |bytes|
    requires Writes(st0, S, bytes[index..i + 1]).1.Fail?
    ensures WriteRange(st0, S, bytes, index, length) == Writes(st0, S, bytes[index..i + 1])
  {
    var all := bytes[index..Min(length, |bytes|)];
    assert all[..i + 1 - index] == bytes[index..i + 1];
    WritesStopAtFail(st0, S, all, i + 1 - index);
  }

  // ----- BufferUtils.putX / getX on a buffer -----

  /** putShort(value, buffer, bigEndian): two writeByte calls, high byte first when big-endian. */
  method PutShort(value: int, buffer: PartitionBuffer, bigEndian: bool) returns (o: Outcome)
    requires buffer.Valid()
    modifies buffer, buffer.slices, buffer.pool
    ensures (buffer.State(), o) == Writes(old(buffer.State()), buffer.pool.sliceByteSize, ShortBytes(value, bigEndian))
    ensures buffer.pool.returned == old(buffer.pool.returned) && buffer.bigEndian == old(buffer.bigEndian)
    ensures buffer.slices == old(buffer.slices) || fresh(buffer.slices)
  {
    o := buffer.WriteAll(ShortBytes(value, bigEndian));
  }

  /** putInt(value, buffer, bigEndian): four writeByte calls, most significant first when big-endian. */
  method PutInt(value: int, buffer: PartitionBuffer, bigEndian: bool) returns (o: Outcome)
    requires buffer.Valid()
    modifies buffer, buffer.slices, buffer.pool
    ensures (buffer.State(), o) == Writes(old(buffer.State()), buffer.pool.sliceByteSize, IntBytes(value, bigEndian))
    ensures buffer.pool.returned == old(buffer.pool.returned) && buffer.bigEndian == old(buffer.bigEndian)
    ensures buffer.slices == old(buffer.slices) || fresh(buffer.slices)
  {
    o := buffer.WriteAll(IntBytes(value, bigEndian));
  }

  /** putLong(value, buffer, bigEndian): eight writeByte calls, most significant first when big-endian. */
  method PutLong(value: int, buffer: PartitionBuffer, bigEndian: bool) returns (o: Outcome)
    requires buffer.Valid()
    modifies buffer, buffer.slices, buffer.pool
    ensures (buffer.State(), o) == Writes(old(buffer.State()), buffer.pool.sliceByteSize, LongBytes(value, bigEndian))
    ensures buffer.pool.returned == old(buffer.pool.returned) && buffer.bigEndian == old(buffer.bigEndian)
    ensures buffer.slices == old(buffer.slices) || fresh(buffer.slices)
  {
    o := buffer.WriteAll(LongBytes(value, bigEndian));
  }

  /** getShort(buffer, bigEndian): two readByte calls, then buildShort over them in byte order. */
  method GetShort(buffer: PartitionBuffer, bigEndian: bool) returns (r: Result<int>)
    requires buffer.Valid()
    modifies buffer
    ensures var (st, got, o) := Reads(old(buffer.State()), buffer.pool.sliceByteSize, 2);
      buffer.State() == st && r == Built(o, if o.Fail? then 0 else ShortFrom(got, bigEndian))
    ensures r.Ok? ==> IsShort(r.value)
    ensures buffer.slices == old(buffer.slices) && buffer.bigEndian == old(buffer.bigEndian)
  {
    var got, o := buffer.ReadAll(2);
    r := Built(o, if o.Fail? then 0 else ShortFrom(got, bigEndian));
  }

  /** getInt(buffer, bigEndian): four readByte calls, then buildInt over them in byte order. */
  method GetInt(buffer: PartitionBuffer, bigEndian: bool) returns (r: Result<int>)
    requires buffer.Valid()
    modifies buffer
    ensures var (st, got, o) := Reads(old(buffer.State()), buffer.pool.sliceByteSize, 4);
      buffer.State() == st && r == Built(o, if o.Fail? then 0 else IntFrom(got, bigEndian))
    ensures r.Ok? ==> IsInt(r.value)
    ensures buffer.slices == old(buffer.slices) && buffer.bigEndian == old(buffer.bigEndian)
  {
    var got, o := buffer.ReadAll(4);
    r := Built(o, if o.Fail? then 0 else IntFrom(got, bigEndian));
  }

  /**
   * getLong(buffer, bigEndian): eight readByte calls, then buildLong over them in byte order,
   * as written: its shifts are `int` shifts, so the result is an `int` widened to `long`.
   */
  method GetLong(buffer: PartitionBuffer, bigEndian: bool) returns (r: Result<int>)
    requires buffer.Valid()
    modifies buffer
    ensures var (st, got, o) := Reads(old(buffer.State()), buffer.pool.sliceByteSize, 8);
      buffer.State() == st && r == Built(o, if o.Fail? then 0 else LongFromAsWritten(got, bigEndian))
    ensures r.Ok? ==> IsInt(r.value)
    ensures buffer.slices == old(buffer.slices) && buffer.bigEndian == old(buffer.bigEndian)
  {
    var got, o := buffer.ReadAll(8);
    r := Built(o, if o.Fail? then 0 else LongFromAsWritten(got, bigEndian));
  }
}

=== FILE: partition_buffer.dfy ===
/**
 * The growable logical buffer (PartitionBufferImpl): a `long` writer and reader cursor
 * over an array of fixed-size slices that the pool hands out, grown on demand when a
 * write moves past the last slice. A position is translated into a slice index and an
 * offset within that slice, and every multi-byte value goes through one byte at a time.
 *
 * The specification functions below work on a `BufferState` value; the `PartitionBuffer`
 * class (module LogicalBuffer) is proved against them.
 */
module PartitionBuffers {
  import opened Errors
  import opened BufferUtils

  /** A slice as the buffer sees it: the bytes of its region and its own two cursors. */
  datatype Slice = Slice(bytes: seq<JByte>, writerIndex: int, readerIndex: int)

  /**
   * The buffer's slice array (a null entry is `None`), its two cursors, and the slices
   * the pool will hand out next, in the order it hands them out.
   */
  datatype BufferState = BufferState(slices: seq<Option<Slice>>, writerIndex: int, readerIndex: int, pending: seq<Slice>)

  /** Every slice held or still to come spans sliceByteSize bytes; the array length is an int. */
  predicate Shaped(st: BufferState, S: int)
  {
    && 0 < S <= INT_MAX && |st.slices| <= INT_MAX
    && (forall i :: 0 <= i < |st.slices| && st.slices[i].Some? ==> |st.slices[i].value.bytes| == S)
    && (forall i :: 0 <= i < |st.pending| ==> |st.pending[i].bytes| == S)
  }

  /** No slice held or still to come has moved its own cursors. */
  predicate CursorsAtStart(st: BufferState)
  {
    && (forall i :: 0 <= i < |st.slices| && st.slices[i].Some? ==> st.slices[i].value.writerIndex == 0 && st.slices[i].value.readerIndex == 0)
    && (forall i :: 0 <= i < |st.pending| ==> st.pending[i].writerIndex == 0 && st.pending[i].readerIndex == 0)
  }

  // ----- address translation -----

  /** sliceIndex(position): the quotient by the slice size, cast to int. */
  function SliceIndex(p: int, S: int): (k: int)
    requires p >= 0 && S > 0
    ensures IsInt(k) && (p / S <= INT_MAX ==> k == p / S)
  {
    ToInt(p / S)
  }

  lemma SliceIndexExact(p: int, S: int)
    requires p >= 0 && S > 0 && p / S <= INT_MAX
    ensures 0 <= p / S && SliceIndex(p, S) == p / S
  {
  }

  /** The offset within the slice: the remainder by the slice size. */
  function Offset(p: int, S: int): (o: int)
    requires p >= 0 && S > 0
    ensures 0 <= o < S
  {
    p % S
  }

  /** Translation is exact: slice k, offset o stands for position k * S + o, and nothing else does. */
  lemma TranslationExact(p: int, q: int, S: int)
    requires p >= 0 && q >= 0 && S > 0
    ensures S * (p / S) + Offset(p, S) == p
    ensures p != q ==> p / S != q / S || Offset(p, S) != Offset(q, S)
  {
  }

  /**
   * The offset as written: the remainder by the slice index rather than by the slice
   * size. Throughout the first slice the index is 0 and the remainder divides by zero.
   */
  function OffsetAsWritten(p: int, S: int): (r: Result<int>)
    requires p >= 0 && S > 0
    ensures r.Err? <==> SliceIndex(p, S) == 0
    ensures r.Ok? ==> 0 <= r.value < if SliceIndex(p, S) < 0 then -SliceIndex(p, S) else SliceIndex(p, S)
  {
    var k := SliceIndex(p, S);
    // Java's % takes the sign of the dividend, which is never negative here.
    if k == 0 then Err(Arithmetic) else Ok(p % k)
  }

  /** As written, no position of the first slice has an offset, and position 5 of 4-byte slices lands on offset 0. */
  lemma OffsetAsWrittenMisplaces(S: int)
    requires 0 < S <= INT_MAX
    ensures forall p :: 0 <= p < S ==> OffsetAsWritten(p, S) == Err(Arithmetic)
    ensures OffsetAsWritten(5, 4) == Ok(0) && Offset(5, 4) == 1
  {
    forall p | 0 <= p < S
      ensures OffsetAsWritten(p, S) == Err(Arithmetic)
    {
      DivModUnique(p, S, 0, p);
    }
    DivModUnique(5, 4, 1, 1);
  }

  // ----- growth -----

  /** requestSlice(): the first slice still to come, and the rest; null once the pool has none. */
  function Request(pending: seq<Slice>): (r: (Option<Slice>, seq<Slice>))
    ensures pending == [] ==> r == (None, [])
    ensures pending != [] ==> r == (Some(pending[0]), pending[1..])
  {
    if pending == [] then (None, []) else (Some(pending[0]), pending[1..])
  }

  /** resize(newSize) as intended: the old slices, nulls, and the requested slice in the last entry. */
  function Grow(slices: seq<Option<Slice>>, newSize: int, requested: Option<Slice>): (r: seq<Option<Slice>>)
    requires newSize > |slices|
    ensures |r| == newSize && r[..|slices|] == slices && r[newSize - 1] == requested
    ensures forall i :: |slices| <= i < newSize - 1 ==> r[i] == None
  {
    slices + seq(newSize - |slices| - 1, _ => None) + [requested]
  }

  /**
   * resize(newSize) as written: it copies from a slice array that the constructor has not
   * yet created, and it stores the requested slice at temp[temp.length], one past the end.
   * The requested slice is taken from the pool before the store fails.
   */
  function ResizeAsWritten(slices: Option<seq<Option<Slice>>>, newSize: int, pending: seq<Slice>): (r: (seq<Slice>, Result<seq<Option<Slice>>>))
    ensures r.1.Err?
    ensures slices.None? && newSize >= 0 ==> r == (pending, Err(NullPointer))
    ensures slices.Some? && newSize >= |slices.value| ==> r == (Request(pending).1, Err(IndexOutOfBounds))
  {
    if newSize < 0 then (pending, Err(NegativeArraySize))
    else if slices.None? then (pending, Err(NullPointer))
    else if newSize < |slices.value| then (pending, Err(IndexOutOfBounds))
    else (Request(pending).1, Err(IndexOutOfBounds))
  }

  /** As written, the constructor's resize(1) throws, so no buffer can be created. */
  lemma ConstructorAsWrittenFails(pending: seq<Slice>)
    ensures ResizeAsWritten(None, 1, pending).1 == Err(NullPointer)
    ensures Initial(pending).slices == [Request(pending).0]
  {
  }

  /** The corrected constructor: a one-entry slice array holding the first slice requested. */
  function Initial(pending: seq<Slice>): (st: BufferState)
    ensures |st.slices| == 1 && st.writerIndex == 0 && st.readerIndex == 0
    ensures st.slices[0].Some? <==> pending != []
    ensures pending != [] ==> st.slices[0] == Some(pending[0]) && st.pending == pending[1..]
  {
    var (requested, rest) := Request(pending);
    BufferState(Grow([], 1, requested), 0, 0, rest)
  }

  // ----- put and read -----

  /** The slot that position p needs either holds a slice or will be filled by the next growth. */
  predicate Room(st: BufferState, k: int)
  {
    if k < |st.slices| then 0 <= k && st.slices[k].Some? else st.pending != []
  }

  /** The byte at offset o of slice k, when that slice is present and reaches that far. */
  function SlotByte(st: BufferState, k: int, o: int): Option<JByte>
  {
    if 0 <= k < |st.slices| && st.slices[k].Some? && 0 <= o < |st.slices[k].value.bytes|
    then Some(st.slices[k].value.bytes[o]) else None
  }

  /** The byte the buffer holds at position p, when the slice that holds it is present. */
  function Stored(st: BufferState, S: int, p: int): Option<JByte>
    requires S > 0 && p >= 0
  {
    SlotByte(st, p / S, Offset(p, S))
  }

  /** The state after put(position) has grown the slice array as far as slice index k needs. */
  function GrowFor(st: BufferState, k: int): (r: Result<BufferState>)
    requires IsInt(k)
    ensures r.Ok? ==> r.value.writerIndex == st.writerIndex && r.value.readerIndex == st.readerIndex
    ensures r.Ok? ==> |st.slices| <= |r.value.slices| && k < |r.value.slices| && r.value.slices[..|st.slices|] == st.slices
    ensures r.Ok? && k < |st.slices| ==> r.value == st
    ensures r.Err? <==> k >= |st.slices| && k == INT_MAX
    ensures r.Ok? && k >= |st.slices| ==> r.value.slices[k] == Request(st.pending).0 && r.value.pending == Request(st.pending).1
  {
    if k < |st.slices| then Ok(st)
    else
      var newSize := ToInt(k + 1);
      if newSize < 0 then Err(NegativeArraySize)
      else
        var (requested, rest) := Request(st.pending);
        Ok(st.(slices := Grow(st.slices, newSize, requested), pending := rest))
  }

  /**
   * Slice k takes the byte at offset o: a null slice throws, and an offset past the slice's
   * region is refused by the partition's ByteBuffer.
   */
  function StoreInSlice(g: BufferState, k: int, o: int, value: JByte): (r: (BufferState, Outcome))
    requires 0 <= k < |g.slices| && 0 <= o
    ensures r.0.writerIndex == g.writerIndex && r.0.readerIndex == g.readerIndex && r.0.pending == g.pending
    ensures r.1 == Pass <==> SlotByte(g, k, o).Some?
    ensures r.1 == Pass ==> SlotByte(r.0, k, o) == Some(value)
    ensures forall k', o' :: (k', o') != (k, o) ==> SlotByte(r.0, k', o') == SlotByte(g, k', o')
  {
    match g.slices[k]
    case None => (g, Fail(NullPointer))
    case Some(s) =>
      if o < |s.bytes| then (g.(slices := g.slices[k := Some(s.(bytes := s.bytes[o := value]))]), Pass)
      else (g, Fail(IndexOutOfBounds))
  }

  /**
   * put(position, value), corrected: grow while the slice index is at or past the end
   * (to sliceIndex + 1 entries, the new slot holding the requested slice), then store the
   * byte at the position's offset within its slice. Neither cursor moves.
   */
  function PutAt(st: BufferState, S: int, p: int, value: JByte): (r: (BufferState, Outcome))
    requires S > 0
    ensures r.0.writerIndex == st.writerIndex && r.0.readerIndex == st.readerIndex
  {
    if p < 0 then (st, Fail(IndexOutOfBounds))
    else
      var k := SliceIndex(p, S);
      match GrowFor(st, k)
      case Err(e) => (st, Fail(e))
      case Ok(g) =>
        if k < 0 then (g, Fail(IndexOutOfBounds)) else StoreInSlice(g, k, Offset(p, S), value)
  }

  /** A put keeps every slice, held or still to come, at sliceByteSize bytes. */
  lemma PutAtShaped(st: BufferState, S: int, p: int, value: JByte)
    requires Shaped(st, S)
    ensures Shaped(PutAt(st, S, p, value).0, S)
  {
    if p >= 0 {
      var k := SliceIndex(p, S);
      if GrowFor(st, k).Ok? {
        var g := GrowFor(st, k).value;
        assert Shaped(g, S) by {
          if k >= |st.slices| {
            forall i | 0 <= i < |g.slices| && g.slices[i].Some?
              ensures |g.slices[i].value.bytes| == S
            {
              if i < |st.slices| {
                assert g.slices[i] == st.slices[i];
              }
            }
          }
        }
      }
    }
  }

  /**
   * Below the last addressable slice, a put succeeds exactly when its slot holds a slice or
   * the pool has one to grow into, and it then stores the byte at p.
   */
  lemma PutAtStores(st: BufferState, S: int, p: int, value: JByte)
    requires Shaped(st, S) && p >= 0 && p / S < INT_MAX
    ensures PutAt(st, S, p, value).1 == Pass <==> Room(st, p / S)
    ensures PutAt(st, S, p, value).1 == Pass ==> Stored(PutAt(st, S, p, value).0, S, p) == Some(value)
  {
    var k := p / S;
    SliceIndexExact(p, S);
    var g := GrowFor(st, k).value;
    assert SlotByte(g, k, Offset(p, S)).Some? <==> Room(st, k);
    assert PutAt(st, S, p, value) == StoreInSlice(g, k, Offset(p, S), value);
  }

  /** A put keeps every byte stored at another position. */
  lemma PutAtKeeps(st: BufferState, S: int, p: int, value: JByte, q: int)
    requires S > 0 && p >= 0 && p / S < INT_MAX && q >= 0 && q != p && Stored(st, S, q).Some?
    ensures Stored(PutAt(st, S, p, value).0, S, q) == Stored(st, S, q)
  {
    var k := p / S;
    SliceIndexExact(p, S);
    TranslationExact(p, q, S);
    var g := GrowFor(st, k).value;
    assert SlotByte(g, q / S, Offset(q, S)) == SlotByte(st, q / S, Offset(q, S));
    assert PutAt(st, S, p, value) == StoreInSlice(g, k, Offset(p, S), value);
  }

  /** put(value): put at the writer index, which moves on by one even when the put throws. */
  function WriteByte(st: BufferState, S: int, value: JByte): (r: (BufferState, Outcome))
    requires S > 0
    ensures r.0.writerIndex == ToLong(st.writerIndex + 1) && r.0.readerIndex == st.readerIndex
  {
    Writes(st, S, [value])
  }

  /**
   * read(position), corrected: a position at or past the writer index is not readable;
   * otherwise the byte at the position's offset within its slice.
   */
  function ReadAt(st: BufferState, S: int, p: int): (r: Result<JByte>)
    requires S > 0
    ensures r.Ok? ==> 0 <= p < st.writerIndex
  {
    if p >= st.writerIndex || p < 0 then Err(IndexOutOfBounds)
    else
      var k := SliceIndex(p, S);
      if k < 0 || k >= |st.slices| then Err(IndexOutOfBounds)
      else
        match st.slices[k]
        case None => Err(NullPointer)
        case Some(s) => if Offset(p, S) < |s.bytes| then Ok(s.bytes[Offset(p, S)]) else Err(IndexOutOfBounds)
  }

  /** Below the last addressable slice, a readable position reads back exactly the byte stored there. */
  lemma ReadAtReads(st: BufferState, S: int, p: int)
    requires S > 0 && 0 <= p < st.writerIndex && p / S <= INT_MAX
    ensures ReadAt(st, S, p).Ok? <==> Stored(st, S, p).Some?
    ensures ReadAt(st, S, p).Ok? ==> Stored(st, S, p) == Some(ReadAt(st, S, p).value)
  {
    assert SliceIndex(p, S) == p / S;
  }

  /** read(): read at the reader index, which moves on by one even when the read throws. */
  function ReadByte(st: BufferState, S: int): (r: (BufferState, Result<JByte>))
    requires S > 0
    ensures r.0 == st.(readerIndex := ToLong(st.readerIndex + 1))
    ensures r.1 == ReadAt(st, S, st.readerIndex)
  {
    (st.(readerIndex := ToLong(st.readerIndex + 1)), ReadAt(st, S, st.readerIndex))
  }

  /**
   * writeByte repeated over a sequence, stopping at the first put that throws; a single
   * write is a put at the writer index, which moves on by one even when the put throws.
   */
  function Writes(st: BufferState, S: int, values: seq<JByte>): (r: (BufferState, Outcome))
    requires S > 0
    ensures r.0.readerIndex == st.readerIndex
    ensures |values| == 1 ==> r.0.writerIndex == ToLong(st.writerIndex + 1)
    decreases |values|
  {
    if values == [] then (st, Pass)
    else if |values| == 1 then PutAt(st.(writerIndex := ToLong(st.writerIndex + 1)), S, st.writerIndex, values[0])
    else
      var (mid, o) := Writes(st, S, values[..|values| - 1]);
      if o.Fail? then (mid, o) else Writes(mid, S, values[|values| - 1..])
  }

  /** A run of writes that has not thrown is followed by the write of the next value. */
  lemma WritesSnoc(st: BufferState, S: int, values: seq<JByte>)
    requires S > 0 && values != [] && Writes(st, S, values[..|values| - 1]).1 == Pass
    ensures Writes(st, S, values) == WriteByte(Writes(st, S, values[..|values| - 1]).0, S, values[|values| - 1])
  {
    if |values| == 1 {
      assert values[..0] == [];
    }
  }

  /** readByte repeated n times, stopping at the first read that throws; the bytes read before it. */
  function Reads(st: BufferState, S: int, n: nat): (r: (BufferState, seq<JByte>, Outcome))
    requires S > 0
    ensures r.0.slices == st.slices && r.0.writerIndex == st.writerIndex && r.0.pending == st.pending
    ensures r.2 == Pass ==> |r.1| == n
    ensures |r.1| <= n
    decreases n
  {
    if n == 0 then (st, [], Pass)
    else if n == 1 then
      var (next, b) := ReadByte(st, S);
      if b.Err? then (next, [], Fail(b.error)) else (next, [b.value], Pass)
    else
      var (mid, got, o) := Reads(st, S, n - 1);
      if o.Fail? then (mid, got, o)
      else
        var (next, more, o') := Reads(mid, S, 1);
        (next, got + more, o')
  }

  // ----- sequential writes and reads -----

  /** The bytes that n slices of S bytes span, counted one slice at a time. */
  function Span(n: nat, S: int): int
  {
    if n == 0 then 0 else Span(n - 1, S) + S
  }

  lemma {:induction false} SpanIsProduct(n: nat, S: int)
    ensures Span(n, S) == n * S
  {
    if n > 0 {
      SpanIsProduct(n - 1, S);
    }
  }

  /** Every slot holds a slice and the writer index lies within them. */
  predicate Dense(st: BufferState, S: int)
  {
    && (forall i :: 0 <= i < |st.slices| ==> st.slices[i].Some?)
    && 0 <= st.writerIndex <= Span(|st.slices|, S)
  }

  /** More slices span at least one slice's bytes more. */
  lemma {:induction false} SpanGrows(a: nat, b: nat, S: int)
    requires a < b
    ensures Span(a, S) + S <= Span(b, S) || S < 0
  {
    if b > a + 1 {
      SpanGrows(a, b - 1, S);
    }
  }

  /** A position is the span of the slices before its slice plus its offset. */
  lemma SpanOfSliceIndex(w: int, S: int)
    requires S > 0 && w >= 0
    ensures w / S >= 0 && w == Span(w / S, S) + w % S
  {
    SpanIsProduct(w / S, S);
  }

  /** Where position w falls among n slices of S bytes when it lies within them. */
  lemma DenseStep(w: int, n: nat, S: int)
    requires S > 0 && 0 <= w <= Span(n, S)
    ensures 0 <= w / S <= n
    ensures w / S == n ==> w == Span(n, S)
    ensures w / S < n ==> w + 1 <= Span(n, S)
  {
    SpanOfSliceIndex(w, S);
    var k := w / S;
    if k > n {
      SpanGrows(n, k, S);
    } else if k < n {
      SpanGrows(k, n, S);
    }
  }

  /** A position below the span of n slices lies in one of them. */
  lemma BelowSlices(q: int, n: nat, S: int)
    requires S > 0 && 0 <= q < Span(n, S)
    ensures 0 <= q / S < n
  {
    SpanOfSliceIndex(q, S);
    var k := q / S;
    if k >= n {
      if k > n {
        SpanGrows(n, k, S);
      }
    }
  }

  /** With every slice present, a put keeps each byte before its position. */
  lemma DensePutKeeps(st: BufferState, S: int, p: int, value: JByte)
    requires Shaped(st, S) && (forall i :: 0 <= i < |st.slices| ==> st.slices[i].Some?)
    requires 0 <= p && p / S < INT_MAX
    ensures forall q :: 0 <= q < p && q < Span(|st.slices|, S) ==> Stored(PutAt(st, S, p, value).0, S, q) == Stored(st, S, q)
  {
    forall q | 0 <= q < p && q < Span(|st.slices|, S)
      ensures Stored(PutAt(st, S, p, value).0, S, q) == Stored(st, S, q)
    {
      BelowSlices(q, |st.slices|, S);
      assert st.slices[q / S].Some?;
      PutAtKeeps(st, S, p, value, q);
    }
  }

  /**
   * One write moved the writer index on by one, kept the slices sized and present, and grew
   * the array by the pool's next slice exactly when the writer index sat at its end.
   */
  predicate Stepped(st: BufferState, r: BufferState, S: int)
  {
    && r.writerIndex == st.writerIndex + 1 && Shaped(r, S) && Dense(r, S)
    && (|| (|r.slices| == |st.slices| && r.pending == st.pending)
        || (|r.slices| == |st.slices| + 1 && st.pending != [] && r.pending == st.pending[1..] && st.writerIndex == Span(|st.slices|, S)))
  }

  /**
   * writeByte on a buffer whose slices are all present: the byte lands at the writer index,
   * which moves on by one, every byte before it is kept, and the array grows by one slice
   * (the pool's next) exactly when the writer index sat at the end of the last slice.
   */
  lemma WriteByteDense(st: BufferState, S: int, value: JByte)
    requires Shaped(st, S) && Dense(st, S) && st.writerIndex < LONG_MAX
    requires st.writerIndex < Span(|st.slices|, S) || (st.pending != [] && |st.slices| < INT_MAX)
    ensures WriteByte(st, S, value).1 == Pass && Stepped(st, WriteByte(st, S, value).0, S)
    ensures Stored(WriteByte(st, S, value).0, S, st.writerIndex) == Some(value)
    ensures forall q :: 0 <= q < st.writerIndex ==> Stored(WriteByte(st, S, value).0, S, q) == Stored(st, S, q)
  {
    var w, n := st.writerIndex, |st.slices|;
    DenseStep(w, n, S);
    var k := w / S;
    assert k < INT_MAX;
    var moved := st.(writerIndex := w + 1);
    assert WriteByte(st, S, value) == PutAt(moved, S, w, value);
    PutAtStores(moved, S, w, value);
    SliceIndexExact(w, S);
    var g := GrowFor(moved, k).value;
    assert Room(moved, k);
    var r := PutAt(moved, S, w, value).0;
    assert PutAt(moved, S, w, value) == StoreInSlice(g, k, Offset(w, S), value);
    PutAtShaped(moved, S, w, value);
    DensePutKeeps(moved, S, w, value);
    forall i | 0 <= i < |r.slices|
      ensures r.slices[i].Some?
    {
      if i < n {
        assert g.slices[i] == st.slices[i];
      } else {
        assert i == k;
      }
    }
  }

  /** n slices are no more than the initial n0, or than the positions below end need. */
  predicate Tight(n0: int, n: int, end: int, S: int)
  {
    n == n0 || (n >= 1 && Span(n - 1, S) < end)
  }

  lemma TightMove(n0: int, n: int, w: int, S: int)
    requires Tight(n0, n, w, S)
    ensures Tight(n0, n, w + 1, S)
  {
  }

  lemma TightGrow(n0: int, n: nat, w: int, S: int)
    requires w == Span(n, S)
    ensures Tight(n0, n + 1, w + 1, S)
  {
  }

  /**
   * Sequential writes into a buffer whose slices are all present, with room for them in
   * its slices and the pool's: every write succeeds, the i-th value lands at position
   * w + i, the bytes before w are kept, and the array grows by the pool's slices, in
   * order, only as far as the last write needs.
   */
  lemma {:induction false} WritesDenseShape(st: BufferState, S: int, values: seq<JByte>)
    requires Shaped(st, S) && Dense(st, S)
    requires st.writerIndex + |values| <= LONG_MAX
    requires |st.slices| + |st.pending| <= INT_MAX
    requires st.writerIndex + |values| <= Span(|st.slices| + |st.pending|, S)
    ensures WritesGrow(st, S, values)
    decreases |values|
  {
    if values != [] {
      var init, last := values[..|values| - 1], values[|values| - 1];
      WritesDenseShape(st, S, init);
      var mid := Writes(st, S, init).0;
      RoomForNext(mid, S, st.writerIndex + |values|, |st.slices| + |st.pending|);
      WriteByteDense(mid, S, last);
      WritesSnoc(st, S, values);
      GrowthStep(st, mid, WriteByte(mid, S, last).0, S);
    }
  }

  /** The writes of the values all succeed and grow the buffer as Grown says. */
  predicate WritesGrow(st: BufferState, S: int, values: seq<JByte>)
    requires S > 0
  {
    Writes(st, S, values).1 == Pass && Grown(st, Writes(st, S, values).0, S, st.writerIndex + |values|)
  }

  /**
   * After a run of writes from st: slices sized and present, the writer index at end, the
   * array grown by the pool's slices in order, and no further than the positions below end need.
   */
  predicate Grown(st: BufferState, r: BufferState, S: int, end: int)
  {
    && Shaped(r, S) && Dense(r, S) && r.writerIndex == end
    && |st.slices| <= |r.slices| && |r.slices| + |r.pending| == |st.slices| + |st.pending|
    && r.pending == st.pending[|r.slices| - |st.slices|..]
    && Tight(|st.slices|, |r.slices|, end, S)
  }

  /** A buffer filled up to its last slice still has a pending slice when one more byte is to fit. */
  lemma RoomForNext(mid: BufferState, S: int, end: int, total: int)
    requires Dense(mid, S) && |mid.slices| + |mid.pending| == total <= INT_MAX
    requires mid.writerIndex + 1 <= end <= Span(total, S)
    ensures mid.writerIndex < Span(|mid.slices|, S) || (mid.pending != [] && |mid.slices| < INT_MAX)
  {
    if mid.pending == [] {
      assert total == |mid.slices|;
    }
  }

  /** How one write carries the growth bookkeeping of a run of writes over to the next. */
  lemma GrowthStep(st: BufferState, mid: BufferState, r: BufferState, S: int)
    requires Grown(st, mid, S, mid.writerIndex) && Stepped(mid, r, S)
    ensures Grown(st, r, S, mid.writerIndex + 1)
  {
    if |r.slices| == |mid.slices| + 1 {
      TightGrow(|st.slices|, |mid.slices|, mid.writerIndex, S);
    } else {
      TightMove(|st.slices|, |mid.slices|, mid.writerIndex, S);
    }
  }

  /** r holds the values at the positions from st's writer index on, and st's bytes before it. */
  predicate Wrote(st: BufferState, r: BufferState, S: int, values: seq<JByte>)
  {
    && S > 0 && 0 <= st.writerIndex
    && (forall i :: 0 <= i < |values| ==> Stored(r, S, st.writerIndex + i) == Some(values[i]))
    && (forall q :: 0 <= q < st.writerIndex ==> Stored(r, S, q) == Stored(st, S, q))
  }

  /** The writes of the values land as Wrote says. */
  predicate WritesLand(st: BufferState, S: int, values: seq<JByte>)
    requires S > 0
  {
    Wrote(st, Writes(st, S, values).0, S, values)
  }

  /**
   * ... and every write lands: the i-th value at position w + i, with the bytes before w kept.
   */
  lemma {:induction false} WritesDense(st: BufferState, S: int, values: seq<JByte>)
    requires Shaped(st, S) && Dense(st, S)
    requires st.writerIndex + |values| <= LONG_MAX
    requires |st.slices| + |st.pending| <= INT_MAX
    requires st.writerIndex + |values| <= Span(|st.slices| + |st.pending|, S)
    ensures WritesLand(st, S, values)
    decreases |values|
  {
    if values != [] {
      var init, last := values[..|values| - 1], values[|values| - 1];
      WritesDense(st, S, init);
      WritesDenseShape(st, S, init);
      var mid := Writes(st, S, init).0;
      StoresStep(st, mid, S, init, last);
      WritesSnoc(st, S, values);
      assert init + [last] == values;
    }
  }

  /** The write after a run of writes that has grown the buffer as far as it needed. */
  lemma StoresStep(st: BufferState, mid: BufferState, S: int, init: seq<JByte>, last: JByte)
    requires Shaped(st, S) && Dense(st, S)
    requires st.writerIndex + |init| + 1 <= LONG_MAX
    requires |st.slices| + |st.pending| <= INT_MAX
    requires st.writerIndex + |init| + 1 <= Span(|st.slices| + |st.pending|, S)
    requires Grown(st, mid, S, st.writerIndex + |init|) && Wrote(st, mid, S, init)
    ensures Wrote(st, WriteByte(mid, S, last).0, S, init + [last])
  {
    RoomForNext(mid, S, st.writerIndex + |init| + 1, |st.slices| + |st.pending|);
    WriteByteDense(mid, S, last);
    LastWriteStores(st, mid, WriteByte(mid, S, last).0, S, init, last);
  }

  /** One more write after a run of writes extends the run: every earlier byte stays put. */
  lemma LastWriteStores(st: BufferState, mid: BufferState, r: BufferState, S: int, init: seq<JByte>, last: JByte)
    requires Wrote(st, mid, S, init) && mid.writerIndex == st.writerIndex + |init|
    requires Stored(r, S, mid.writerIndex) == Some(last)
    requires forall q :: 0 <= q < mid.writerIndex ==> Stored(r, S, q) == Stored(mid, S, q)
    ensures Wrote(st, r, S, init + [last])
  {
    forall i | 0 <= i < |init| + 1
      ensures Stored(r, S, st.writerIndex + i) == Some((init + [last])[i])
    {
      if i < |init| {
        assert Stored(r, S, st.writerIndex + i) == Stored(mid, S, st.writerIndex + i);
      }
    }
  }

  /**
   * Sequential reads of written positions of a buffer whose slices are all present: every
   * read succeeds, the i-th returns the byte stored at r + i, and only the reader index moves.
   */
  lemma {:induction false} ReadsDense(st: BufferState, S: int, n: nat)
    requires Shaped(st, S) && Dense(st, S)
    requires 0 <= st.readerIndex && st.readerIndex + n <= st.writerIndex && IsLong(st.writerIndex)
    ensures Reads(st, S, n).2 == Pass && Reads(st, S, n).0 == st.(readerIndex := st.readerIndex + n)
    ensures |Reads(st, S, n).1| == n
    ensures forall i :: 0 <= i < n ==> Stored(st, S, st.readerIndex + i) == Some(Reads(st, S, n).1[i])
  {
    if n > 0 {
      ReadsDense(st, S, n - 1);
      var mid := st.(readerIndex := st.readerIndex + n - 1);
      var p := mid.readerIndex;
      BelowSlices(p, |st.slices|, S);
      assert mid.slices[p / S].Some?;
      ReadAtReads(mid, S, p);
      assert Stored(mid, S, p) == Stored(st, S, p);
      if n > 1 {
        assert Reads(st, S, n - 1).0 == mid;
      }
    }
  }

  /** Reads from w over positions that hold the given values return exactly those values. */
  lemma ReadBack(st: BufferState, S: int, w: int, values: seq<JByte>)
    requires Shaped(st, S) && Dense(st, S) && 0 <= w == st.readerIndex && IsLong(st.writerIndex)
    requires st.writerIndex == w + |values|
    requires forall i :: 0 <= i < |values| ==> Stored(st, S, w + i) == Some(values[i])
    ensures Reads(st, S, |values|) == (st.(readerIndex := st.writerIndex), values, Pass)
  {
    ReadsDense(st, S, |values|);
    var got := Reads(st, S, |values|).1;
    forall i | 0 <= i < |values|
      ensures got[i] == values[i]
    {
      assert Stored(st, S, st.readerIndex + i) == Some(got[i]);
    }
    assert got == values;
  }

  /**
   * The writes of the values all succeed, moving the writer index on by their number, and
   * the same number of reads from the old writer index returns them.
   */
  predicate WrittenThenRead(st: BufferState, S: int, values: seq<JByte>)
    requires S > 0
  {
    var (r, o) := Writes(st, S, values);
    && o == Pass && r.writerIndex == st.writerIndex + |values|
    && Reads(r, S, |values|) == (r.(readerIndex := r.writerIndex), values, Pass)
  }

  /** What a run of writes puts at the writer index, the same number of reads from there returns. */
  lemma WriteThenRead(st: BufferState, S: int, values: seq<JByte>)
    requires Shaped(st, S) && Dense(st, S) && st.readerIndex == st.writerIndex
    requires st.writerIndex + |values| <= LONG_MAX
    requires |st.slices| + |st.pending| <= INT_MAX
    requires st.writerIndex + |values| <= Span(|st.slices| + |st.pending|, S)
    ensures WrittenThenRead(st, S, values)
  {
    WritesDenseShape(st, S, values);
    WritesDense(st, S, values);
    ReadBack(Writes(st, S, values).0, S, st.writerIndex, values);
  }

  // ----- accounting -----

  /** slices(): how many entries of the array hold a slice. */
  function PresentCount(slices: seq<Option<Slice>>): (n: nat)
    ensures n <= |slices|
  {
    if slices == [] then 0
    else PresentCount(slices[..|slices| - 1]) + if slices[|slices| - 1].Some? then 1 else 0
  }

  /** The slices the array holds, in array order. */
  function Present(slices: seq<Option<Slice>>): (r: seq<Slice>)
    ensures |r| == PresentCount(slices)
  {
    if slices == [] then []
    else Present(slices[..|slices| - 1]) + if slices[|slices| - 1].Some? then [slices[|slices| - 1].value] else []
  }

  /** The writer indices of the slices the array holds, added up without bound. */
  function WrittenSum(slices: seq<Option<Slice>>): int
  {
    if slices == [] then 0
    else WrittenSum(slices[..|slices| - 1]) + if slices[|slices| - 1].Some? then slices[|slices| - 1].value.writerIndex else 0
  }

  /** capacity(): the writer indices of the slices the array holds, accumulated in a long. */
  function CapacityOf(slices: seq<Option<Slice>>): (c: int)
    ensures IsLong(c)
  {
    if slices == [] then 0
    else ToLong(CapacityOf(slices[..|slices| - 1]) + if slices[|slices| - 1].Some? then slices[|slices| - 1].value.writerIndex else 0)
  }

  /** maxCapacity(): slices() times sliceByteSize() in int arithmetic, widened to long. */
  function MaxCapacityOf(slices: seq<Option<Slice>>, S: int): (m: int)
    ensures IsInt(m)
  {
    ToInt(PresentCount(slices) * S)
  }

  /** readable(): the long difference writerIndex - readerIndex is positive. */
  predicate Readable(st: BufferState)
  {
    ToLong(st.writerIndex - st.readerIndex) > 0
  }

  /** writeable(): the long difference maxCapacity() - writerIndex is positive. */
  predicate Writeable(st: BufferState, S: int)
  {
    ToLong(MaxCapacityOf(st.slices, S) - st.writerIndex) > 0
  }

  /** With both cursors non-negative longs, the difference cannot wrap: readable means unread bytes remain. */
  lemma ReadableExactly(st: BufferState)
    requires 0 <= st.writerIndex <= LONG_MAX && 0 <= st.readerIndex <= LONG_MAX
    ensures Readable(st) <==> st.writerIndex > st.readerIndex
  {
  }

  /** With a non-negative maximum and writer index, writeable means the writer index is below the maximum. */
  lemma WriteableExactly(st: BufferState, S: int)
    requires 0 <= st.writerIndex <= LONG_MAX && MaxCapacityOf(st.slices, S) >= 0
    ensures Writeable(st, S) <==> MaxCapacityOf(st.slices, S) > st.writerIndex
  {
  }

  /** When no slice's writer index is negative and the total fits a long, no partial sum wraps. */
  lemma {:induction false} CapacityIsSum(slices: seq<Option<Slice>>)
    requires forall i :: 0 <= i < |slices| && slices[i].Some? ==> slices[i].value.writerIndex >= 0
    requires WrittenSum(slices) <= LONG_MAX
    ensures CapacityOf(slices) == WrittenSum(slices) >= 0
  {
    if slices != [] {
      CapacityIsSum(slices[..|slices| - 1]);
    }
  }

  /** Slices that have not moved their own cursors add nothing to the capacity. */
  lemma {:induction false} CapacityAtStart(slices: seq<Option<Slice>>)
    requires forall i :: 0 <= i < |slices| && slices[i].Some? ==> slices[i].value.writerIndex == 0
    ensures CapacityOf(slices) == 0
  {
    if slices != [] {
      CapacityAtStart(slices[..|slices| - 1]);
    }
  }

  /** An array with every slot filled holds as many slices as it has slots. */
  lemma {:induction false} PresentCountFull(slices: seq<Option<Slice>>)
    requires forall i :: 0 <= i < |slices| ==> slices[i].Some?
    ensures PresentCount(slices) == |slices|
  {
    if slices != [] {
      PresentCountFull(slices[..|slices| - 1]);
    }
  }

  /** An array of n nulls, as Arrays.fill(slices, null) leaves it. */
  function Nulls(n: nat): (r: seq<Option<Slice>>)
    ensures |r| == n && forall i :: 0 <= i < n ==> r[i] == None
  {
    seq(n, _ => None)
  }

  /** An array of nulls holds no slice, so its maximum capacity is 0. */
  lemma {:induction false} NullsHoldNothing(n: nat, S: int)
    ensures PresentCount(Nulls(n)) == 0 && Present(Nulls(n)) == []
    ensures MaxCapacityOf(Nulls(n), S) == 0
  {
    if n > 0 {
      NullsHoldNothing(n - 1, S);
      assert Nulls(n)[..n - 1] == Nulls(n - 1);
    }
  }

  /** A put changes slice bytes only: every slice held or still to come keeps its own cursors. */
  lemma PutAtKeepsCursors(st: BufferState, S: int, p: int, value: JByte)
    requires S > 0 && CursorsAtStart(st)
    ensures CursorsAtStart(PutAt(st, S, p, value).0)
  {
    if p >= 0 {
      var k := SliceIndex(p, S);
      if GrowFor(st, k).Ok? {
        var g := GrowFor(st, k).value;
        assert CursorsAtStart(g) by {
          if k >= |st.slices| {
            forall i | 0 <= i < |g.slices| && g.slices[i].Some?
              ensures g.slices[i].value.writerIndex == 0 && g.slices[i].value.readerIndex == 0
            {
              if i < |st.slices| {
                assert g.slices[i] == st.slices[i];
              }
            }
          }
        }
      }
    }
  }

  /** ... and so does a run of writes. */
  lemma {:induction false} WritesKeepCursors(st: BufferState, S: int, values: seq<JByte>)
    requires S > 0 && CursorsAtStart(st)
    ensures CursorsAtStart(Writes(st, S, values).0)
    decreases |values|
  {
    if |values| == 1 {
      PutAtKeepsCursors(st.(writerIndex := ToLong(st.writerIndex + 1)), S, st.writerIndex, values[0]);
    } else if |values| > 1 {
      var init := values[..|values| - 1];
      WritesKeepCursors(st, S, init);
      WritesKeepCursors(Writes(st, S, init).0, S, values[|values| - 1..]);
    }
  }

  /**
   * The growth the tests describe, for the corrected buffer: a new buffer over a pool of
   * fresh S-byte slices has maximum capacity S; after 2S + 1 writes every write has
   * succeeded, the array holds exactly three slices (maximum capacity 3S), the writer index
   * is 2S + 1, and reading 2S + 1 bytes returns what was written. The capacity stays 0,
   * because a positional put does not move a slice's own writer index.
   */
  lemma GrowthAsTested(pending: seq<Slice>, S: int, values: seq<JByte>)
    requires 0 < S && 3 * S <= INT_MAX && 3 <= |pending| <= INT_MAX && |values| == 2 * S + 1
    requires CursorsAtStart(BufferState([], 0, 0, pending)) && Shaped(BufferState([], 0, 0, pending), S)
    ensures MaxCapacityOf(Initial(pending).slices, S) == S
    ensures var (r, o) := Writes(Initial(pending), S, values);
      && o == Pass && |r.slices| == 3 && MaxCapacityOf(r.slices, S) == 3 * S
      && r.writerIndex == 2 * S + 1 && CapacityOf(r.slices) == 0
      && Reads(r, S, |values|).1 == values
  {
    var st := Initial(pending);
    InitialFresh(pending, S);
    SpanIsProduct(|pending|, S);
    MulLe(3, |pending|, S);
    WriteThenRead(st, S, values);
    WritesDenseShape(st, S, values);
    var r := Writes(st, S, values).0;
    ThreeSlices(|r.slices|, S);
    PresentCountFull(r.slices);
    WritesKeepCursors(st, S, values);
    CapacityAtStart(r.slices);
  }

  /** A new buffer over fresh slices is sized, filled, unmoved, and one slice long. */
  lemma InitialFresh(pending: seq<Slice>, S: int)
    requires 0 < S <= INT_MAX && pending != []
    requires CursorsAtStart(BufferState([], 0, 0, pending)) && Shaped(BufferState([], 0, 0, pending), S)
    ensures Shaped(Initial(pending), S) && Dense(Initial(pending), S) && CursorsAtStart(Initial(pending))
    ensures MaxCapacityOf(Initial(pending).slices, S) == S
  {
    PresentCountFull(Initial(pending).slices);
  }

  /** 2S + 1 positions need three slices, and a tight array has no more. */
  lemma ThreeSlices(n: nat, S: int)
    requires S > 0 && 2 * S + 1 <= Span(n, S) && Tight(1, n, 2 * S + 1, S)
    ensures n == 3
  {
    SpanIsProduct(n, S);
    if n <= 2 {
      MulLe(n, 2, S);
    } else if n >= 4 {
      SpanIsProduct(n - 1, S);
      MulLe(3, n - 1, S);
    }
  }

  lemma MulLe(x: int, y: int, z: int)
    requires 0 <= x <= y && 0 <= z
    ensures x * z <= y * z
  {
    assert (y - x) * z >= 0;
  }

  // ----- the read guard and translation as written -----

  /**
   * read(position) as written: only a position past the writer index is refused, so the
   * unwritten byte at the writer index itself passes, and the offset is OffsetAsWritten.
   */
  function ReadAtAsWritten(st: BufferState, S: int, p: int): (r: Result<JByte>)
    requires S > 0 && p >= 0
    ensures r.Ok? ==> p <= st.writerIndex && 0 < SliceIndex(p, S) < |st.slices|
  {
    if p > st.writerIndex then Err(IndexOutOfBounds)
    else
      var k := SliceIndex(p, S);
      if k < 0 || k >= |st.slices| then Err(IndexOutOfBounds)
      else
        match OffsetAsWritten(p, S)
        case Err(e) => Err(e)
        case Ok(o) =>
          match st.slices[k]
          case None => Err(NullPointer)
          case Some(s) => if o < |s.bytes| then Ok(s.bytes[o]) else Err(IndexOutOfBounds)
  }

  /**
   * put(position, value) as written: grow only when the slice index is past the end (and
   * then resize throws), index the array before computing the offset, and store at the
   * offset by the slice index. An offset past the slice's own region is reported here as
   * out of bounds. Java's slices are windows of one shared partition buffer, so there such
   * a store lands in the neighbouring slot's bytes, or throws only past the partition's
   * end; the value-typed slices of this model cannot express that aliasing.
   */
  function PutAtAsWritten(st: BufferState, S: int, p: int, value: JByte): (r: (BufferState, Outcome))
    requires S > 0 && p >= 0
    ensures r.1 == Pass ==> 0 < SliceIndex(p, S) < |st.slices|
  {
    var k := SliceIndex(p, S);
    if k > |st.slices| then
      var (rest, _) := ResizeAsWritten(Some(st.slices), k, st.pending);
      (st.(pending := rest), Fail(IndexOutOfBounds))
    else if k < 0 || k == |st.slices| then (st, Fail(IndexOutOfBounds))
    else
      match OffsetAsWritten(p, S)
      case Err(e) => (st, Fail(e))
      case Ok(o) =>
        match st.slices[k]
        case None => (st, Fail(NullPointer))
        case Some(s) =>
          if o < |s.bytes| then (st.(slices := st.slices[k := Some(s.(bytes := s.bytes[o := value]))]), Pass)
          else (st, Fail(IndexOutOfBounds))
  }

  /** A two-slice buffer of 4-byte slices with positions 0 to 5 written (all zero). */
  function TwoSlices(): (st: BufferState)
    ensures Shaped(st, 4)
  {
    BufferState([Some(Slice([0, 0, 0, 0], 0, 0)), Some(Slice([0, 0, 0, 0], 0, 0))], 6, 0, [])
  }

  /**
   * As written, a put at position 5 overwrites offset 0 of slice 1 (position 4), a read of
   * the unwritten position 6 succeeds, and a put to the first slice throws; corrected, the
   * put lands on position 5 and the read is refused.
   */
  lemma PutAsWrittenMisplaces()
    ensures PutAtAsWritten(TwoSlices(), 4, 5, 7).0.slices[1] == Some(Slice([7, 0, 0, 0], 0, 0))
    ensures PutAt(TwoSlices(), 4, 5, 7).0.slices[1] == Some(Slice([0, 7, 0, 0], 0, 0))
    ensures ReadAtAsWritten(TwoSlices(), 4, 6) == Ok(0) && ReadAt(TwoSlices(), 4, 6) == Err(IndexOutOfBounds)
    ensures PutAtAsWritten(TwoSlices(), 4, 1, 7).1 == Fail(Arithmetic) && PutAt(TwoSlices(), 4, 1, 7).1 == Pass
  {
    assert SliceIndex(5, 4) == 1 && SliceIndex(6, 4) == 1 && SliceIndex(1, 4) == 0;
    assert OffsetAsWritten(5, 4) == Ok(0);
    assert [0, 0, 0, 0][0 := 7] == [7, 0, 0, 0];
    assert [0, 0, 0, 0][1 := 7] == [0, 7, 0, 0];
  }

  /** As written, a put at the first position past the last slice throws instead of growing. */
  lemma PutAsWrittenNeverGrows(st: BufferState, S: int, p: int, value: JByte)
    requires Shaped(st, S) && p >= 0 && p / S < INT_MAX && p / S >= |st.slices|
    ensures PutAtAsWritten(st, S, p, value).1 == Fail(IndexOutOfBounds)
    ensures Room(st, p / S) ==> PutAt(st, S, p, value).1 == Pass
  {
  }
}

=== FILE: partitions.dfy ===
/**
 * Partitions that hand out slices: the bounded, pooled partitions
 * (AbstractPartition with the slice arrays of ByteBufferPooledPartition and
 * UnsafePooledPartition, and AbstractPooledPartition with its own bitset) and the
 * unbounded ByteBufferUnpooledPartition (over AbstractUnpooledPartition).
 *
 * A partition tells its selector about every slice it frees or closes. Here that
 * call is returned as a Notice carrying the partition index and the available()
 * count the selector would read at that moment; the pool delivers it.
 */
module Partitions {
  import opened Errors
  import opened BufferUtils
  import opened BitSet
  import opened Slices

  /** freePartitionSlice(partition, partitionIndex, slice) as seen by a selector. */
  datatype Notice = Notice(partitionIndex: int, available: int)

  /** Which storage a pooled partition's factory gives its slices. */
  datatype SliceKind = DirectByteBuffer | HeapByteBuffer | RawMemory

  /** A slice of a pooled partition: the inner ByteBufferPartitionSlice or UnsafePartitionSlice. */
  datatype PooledSlice = ByteBufferPooled(bytes: ByteBufferSlice) | UnsafePooled(raw: UnsafeSlice)
  {
    function Header(): AbstractPartitionSlice
    {
      match this
      case ByteBufferPooled(b) => b.header
      case UnsafePooled(u) => u.header
    }

    /** getPartition() */
    function Owner(): object
    {
      match this
      case ByteBufferPooled(b) => b.owner
      case UnsafePooled(u) => u.owner
    }

    /** The slice object itself. */
    function Object(): object
    {
      match this
      case ByteBufferPooled(b) => b
      case UnsafePooled(u) => u
    }

    /** The objects that clear() and free() write. */
    function Body(): set<object>
    {
      match this
      case ByteBufferPooled(b) => {b}
      case UnsafePooled(u) => {u, u.memory}
    }

    /** The state clear() leaves: cursors at 0, and a raw region zeroed. */
    ghost predicate Cleared()
      reads Body()
    {
      match this
      case ByteBufferPooled(b) => b.writerIndex == 0 && b.readerIndex == 0
      case UnsafePooled(u) => u.Zeroed() && u.writerIndex == 0 && u.readerIndex == 0
    }
  }

  method ClearSlice(slice: PooledSlice)
    modifies slice.Body()
    ensures slice.Cleared()
    ensures slice.ByteBufferPooled? ==> slice.bytes.released == old(slice.bytes.released)
    ensures slice.UnsafePooled? ==> slice.raw.released == old(slice.raw.released)
  {
    match slice
    case ByteBufferPooled(b) => b.Clear();
    case UnsafePooled(u) => u.Clear();
  }

  method FreeSlice(slice: PooledSlice)
    modifies slice.Body()
    ensures slice.UnsafePooled? ==> slice.raw.released && slice.raw.Zeroed()
    ensures slice.ByteBufferPooled? ==> slice.bytes.released == (old(slice.bytes.released) || slice.bytes.cleansOnFree)
  {
    match slice
    case ByteBufferPooled(b) => b.Free();
    case UnsafePooled(u) => u.Free();
  }

  ghost function HeadersOf(slices: seq<PooledSlice>): set<AbstractPartitionSlice>
  {
    set i | 0 <= i < |slices| :: slices[i].Header()
  }

  /** The slice objects and the raw regions: everything clear() and free() of some slice may write. */
  ghost function BodiesOf(slices: seq<PooledSlice>): set<object>
  {
    (set i | 0 <= i < |slices| :: slices[i].Object())
    + (set i | 0 <= i < |slices| && slices[i].UnsafePooled? :: slices[i].raw.memory)
  }

  /** The lock state of every slice, in index order. */
  ghost function States(slices: seq<PooledSlice>): (states: seq<LockState>)
    reads HeadersOf(slices)
    ensures |states| == |slices|
    ensures forall i :: 0 <= i < |slices| ==> states[i] == slices[i].Header().State()
  {
    seq(|slices|, i requires 0 <= i < |slices| reads HeadersOf(slices) => slices[i].Header().State())
  }

  /** A bit is set exactly when its slice is locked, and every slice keeps the lock protocol balanced. */
  predicate Consistent(bits: seq<bool>, states: seq<LockState>)
  {
    && |states| <= |bits|
    && forall i :: 0 <= i < |states| ==> bits[i] == states[i].locked && Balanced(states[i])
  }

  /**
   * Slice i has index i and the given owner, and a raw slice has a region of its own
   * of the full size. (Two entries holding the same slice object would share an index.)
   */
  predicate Layout(slices: seq<PooledSlice>, owner: object)
  {
    && (forall i :: 0 <= i < |slices| ==> slices[i].Header().index == i && slices[i].Owner() == owner)
    && (forall i :: 0 <= i < |slices| && slices[i].UnsafePooled? ==> slices[i].raw.Valid())
    && (forall i, j :: 0 <= i < j < |slices| && slices[i].UnsafePooled? && slices[j].UnsafePooled? ==>
          slices[i].raw.memory != slices[j].raw.memory)
  }

  /**
   * The occupancy invariant of a bounded partition: one bit per slice, no padding bit
   * set, and bits consistent with the slices' locks.
   */
  ghost predicate Occupancy(usedSlices: FixedLengthBitSet, slices: seq<PooledSlice>)
    reads usedSlices.words, HeadersOf(slices)
  {
    && usedSlices.Valid() && usedSlices.NoPadding() && usedSlices.bits == |slices|
    && Consistent(usedSlices.Bits(), States(slices))
  }

  /** Claiming a clear bit and locking its slice keeps bits and locks consistent. */
  lemma ClaimKeepsConsistent(bits: seq<bool>, states: seq<LockState>, k: nat)
    requires Consistent(bits, states) && k < |states| && !bits[k]
    ensures states[k].acquired == states[k].freed
    ensures Consistent(bits[k := true], states[k := LockState(true, states[k].acquired + 1, states[k].freed)])
  {
  }

  /** Unlocking a locked slice and clearing its bit keeps bits and locks consistent. */
  lemma ReleaseKeepsConsistent(bits: seq<bool>, states: seq<LockState>, k: nat)
    requires Consistent(bits, states) && k < |states| && bits[k]
    ensures Consistent(bits[k := false], states[k := LockState(false, states[k].acquired, states[k].freed + 1)])
  {
  }

  /** All bits clear and all slices unlocked and never locked: a fresh partition. */
  lemma FreshConsistent(bits: seq<bool>, states: seq<LockState>)
    requires |states| <= |bits|
    requires forall p :: 0 <= p < |bits| ==> !bits[p]
    requires forall i :: 0 <= i < |states| ==> states[i] == LockState(false, 0, 0)
    ensures Consistent(bits, states)
  {
  }

  /** How a pooled factory leaves a new slice: unlocked, never locked, cleared, and of the factory's storage. */
  ghost predicate Pristine(slice: PooledSlice, kind: SliceKind, capacity: nat)
    reads slice.Header(), slice.Body()
  {
    && slice.Header().State() == LockState(false, 0, 0) && slice.Cleared()
    && (slice.UnsafePooled? <==> kind == RawMemory)
    && (slice.ByteBufferPooled? ==> !slice.bytes.cleansOnFree && slice.bytes.buffer.Length == capacity)
  }

  /**
   * A direct pooled slice's buffer is allocateDirect(sliceByteSize * slices), an int
   * product that wraps around; a negative capacity makes allocateDirect throw
   * IllegalArgumentException, so the factory only succeeds when this holds.
   */
  predicate CapacityFits(kind: SliceKind, count: nat, sliceByteSize: nat)
  {
    kind == DirectByteBuffer ==> ToInt(sliceByteSize * count) >= 0
  }

  /**
   * The bytes a ByteBuffer slice of a pooled partition holds: a heap buffer holds one
   * slice; a direct buffer is sized, in int arithmetic, for all slices.
   */
  function BufferCapacity(kind: SliceKind, count: nat, sliceByteSize: nat): (c: nat)
    requires CapacityFits(kind, count, sliceByteSize)
    ensures kind != DirectByteBuffer ==> c == sliceByteSize
    ensures kind == DirectByteBuffer ==> IsInt(c) && (c - sliceByteSize * count) % 0x1_0000_0000 == 0
    ensures kind == DirectByteBuffer && IsInt(sliceByteSize * count) ==> c == sliceByteSize * count
  {
    if kind == DirectByteBuffer then ToInt(sliceByteSize * count) else sliceByteSize
  }

  /** 65536 direct slices of 65536 bytes each get a buffer of 0 bytes: the product wraps to 0. */
  lemma CapacityWrapsToEmpty()
    ensures CapacityFits(DirectByteBuffer, 65536, 65536) && BufferCapacity(DirectByteBuffer, 65536, 65536) == 0
  {
    assert 65536 * 65536 == 0x1_0000_0000;
  }

  /** 32768 direct slices of 65536 bytes each cannot be built: the product wraps negative. */
  lemma CapacityWrapsNegative()
    ensures !CapacityFits(DirectByteBuffer, 32768, 65536)
  {
    assert 65536 * 32768 == 0x8000_0000;
  }

  /** One slice of a fresh pooled partition, with index `index` and owner `owner`. */
  method NewPooledSlice(owner: object, index: nat, sliceByteSize: nat, capacity: nat, kind: SliceKind) returns (slice: PooledSlice)
    ensures slice.Header().index == index && slice.Owner() == owner
    ensures slice.UnsafePooled? ==> slice.raw.Valid() && slice.raw.sliceByteSize == sliceByteSize
    ensures Pristine(slice, kind, capacity)
    ensures fresh(slice.Header()) && fresh(slice.Body())
  {
    if kind == RawMemory {
      var u := new UnsafeSlice(index, owner, sliceByteSize);
      slice := UnsafePooled(u);
    } else {
      var b := new ByteBufferSlice(index, owner, sliceByteSize, capacity, false);
      slice := ByteBufferPooled(b);
    }
  }

  /** The slices of a fresh pooled partition: slice i has index i, is unlocked and is cleared. */
  method BuildSlices(owner: object, count: nat, sliceByteSize: nat, kind: SliceKind) returns (slices: seq<PooledSlice>)
    requires CapacityFits(kind, count, sliceByteSize)
    ensures |slices| == count && Layout(slices, owner)
    ensures forall i :: 0 <= i < count ==> Pristine(slices[i], kind, BufferCapacity(kind, count, sliceByteSize))
    ensures forall i :: 0 <= i < count ==> fresh(slices[i].Header()) && fresh(slices[i].Body())
  {
    var capacity := BufferCapacity(kind, count, sliceByteSize);
    slices := [];
    var i := 0;
    while i < count
      invariant 0 <= i <= count && |slices| == i && Layout(slices, owner)
      invariant forall k :: 0 <= k < i ==> Pristine(slices[k], kind, capacity)
      invariant forall k :: 0 <= k < i ==> fresh(slices[k].Header()) && fresh(slices[k].Body())
    {
      var slice := NewPooledSlice(owner, i, sliceByteSize, capacity, kind);
      slices := slices + [slice];
      i := i + 1;
    }
  }

  /** The number of set bits, cardinality(). */
  ghost function UsedCount(usedSlices: FixedLengthBitSet): nat
    reads usedSlices.words
  {
    PopCount(usedSlices.Bits())
  }

  /** available(): size() - cardinality(). */
  method AvailableOf(usedSlices: FixedLengthBitSet) returns (n: int)
    requires usedSlices.Valid()
    ensures n == usedSlices.bits - UsedCount(usedSlices)
  {
    var used := usedSlices.Cardinality();
    n := usedSlices.Size() - used;
  }

  /** nextSlice(): -1 when isEmpty() (every bit set), else firstNotSet(). */
  method NextSlice(usedSlices: FixedLengthBitSet) returns (r: int)
    requires usedSlices.Valid() && usedSlices.NoPadding()
    ensures UsedCount(usedSlices) == usedSlices.bits ==> r == -1
    ensures UsedCount(usedSlices) != usedSlices.bits ==>
      r == FirstClear(usedSlices.Bits(), 0) && 0 <= r < usedSlices.bits && !usedSlices.Bits()[r]
  {
    var full := usedSlices.IsEmpty();
    if full {
      return -1;
    }
    r := usedSlices.FirstNotSet();
    FullIffAllSet(usedSlices.Bits(), usedSlices.bits);
    FirstClearSpec(usedSlices.Bits(), 0);
  }

  /**
   * What one call of a bounded partition's get() does to the bits and lock states:
   * when every bit is set nothing changes and no slice is claimed (-1); otherwise the
   * lowest clear bit is set and its slice is locked with one more acquire.
   */
  function ClaimStep(bits: seq<bool>, states: seq<LockState>): (step: (int, seq<bool>, seq<LockState>))
    requires |states| <= |bits| && forall p :: |states| <= p < |bits| ==> !bits[p]
    ensures -1 <= step.0 < |states|
    ensures step.0 == -1 <==> PopCount(bits) == |states|
  {
    FullIffAllSet(bits, |states|);
    FirstClearSpec(bits, 0);
    if PopCount(bits) == |states| then (-1, bits, states)
    else
      var k := FirstClear(bits, 0);
      (k, bits[k := true], states[k := LockState(true, states[k].acquired + 1, states[k].freed)])
  }

  /**
   * What free() does to the bits and lock states once slice k is known to be this
   * partition's: unlock() fails on an unlocked slice and nothing more happens;
   * otherwise the slice is unlocked, the selector is told with available() as it is
   * before the bit goes, and the bit is cleared.
   */
  function ReleaseStep(bits: seq<bool>, states: seq<LockState>, k: nat, partitionIndex: int)
    : (Outcome, seq<Notice>, seq<bool>, seq<LockState>)
    requires k < |states| <= |bits|
  {
    if !states[k].locked then (Fail(IllegalState), [], bits, states)
    else
      (Pass, [Notice(partitionIndex, |states| - PopCount(bits))], bits[k := false],
       states[k := LockState(false, states[k].acquired, states[k].freed + 1)])
  }

  /**
   * One attempt of get() at slice k: the bit is tested, then test-and-set, and the slice
   * locked when this call is the one that set it. With no other thread both tests see
   * the bit as it was.
   */
  method TryClaim(usedSlices: FixedLengthBitSet, slices: seq<PooledSlice>, ghost owner: object, k: nat) returns (claimed: bool)
    requires Layout(slices, owner) && Occupancy(usedSlices, slices) && k < |slices|
    modifies usedSlices.words, slices[k].Header()
    ensures Occupancy(usedSlices, slices)
    ensures claimed <==> !old(usedSlices.Bits())[k]
    ensures !claimed ==> usedSlices.Bits() == old(usedSlices.Bits()) && unchanged(slices[k].Header())
    ensures claimed ==>
      var before := old(States(slices));
      && usedSlices.Bits() == old(usedSlices.Bits())[k := true]
      && UsedCount(usedSlices) == old(UsedCount(usedSlices)) + 1
      && States(slices) == before[k := LockState(true, before[k].acquired + 1, before[k].freed)]
  {
    claimed := false;
    var current := usedSlices.Get(k);
    if current == Ok(false) {
      var wasClear := usedSlices.TestAndSet(k);
      if wasClear == Ok(true) {
        ghost var bits := usedSlices.Bits();
        var header := slices[k].Header();
        ghost var before := old(States(slices));
        assert before[k] == header.State();
        ClaimKeepsConsistent(old(usedSlices.Bits()), before, k);
        var locked := header.Lock();
        assert locked == Pass;
        forall i | 0 <= i < |slices| && i != k
          ensures States(slices)[i] == before[i]
        {
          assert slices[i].Header() != header;
        }
        assert States(slices) == before[k := header.State()];
        assert usedSlices.Bits() == bits;
        assert usedSlices.NoPadding();
        PopCountUpdate(old(usedSlices.Bits()), k, true);
        claimed := true;
      }
    }
  }

  /** get(): up to 5 attempts to claim the slice nextSlice() names and lock it. */
  method ClaimFirst(usedSlices: FixedLengthBitSet, slices: seq<PooledSlice>, ghost owner: object) returns (r: Option<PooledSlice>)
    requires Layout(slices, owner) && Occupancy(usedSlices, slices)
    modifies usedSlices.words, HeadersOf(slices)
    ensures Occupancy(usedSlices, slices)
    ensures var step := ClaimStep(old(usedSlices.Bits()), old(States(slices)));
      && usedSlices.Bits() == step.1 && States(slices) == step.2
      && r == (if step.0 == -1 then None else Some(slices[step.0]))
    ensures r.Some? ==> UsedCount(usedSlices) == old(UsedCount(usedSlices)) + 1
  {
    r := None;
    var retry := 0;
    var done := false;
    while !done && retry < 5
      invariant 0 <= retry <= 5
      invariant Occupancy(usedSlices, slices)
      invariant !done ==>
        retry == 0 && r == None && usedSlices.Bits() == old(usedSlices.Bits()) && States(slices) == old(States(slices))
      invariant done ==>
        var step := ClaimStep(old(usedSlices.Bits()), old(States(slices)));
        && usedSlices.Bits() == step.1 && States(slices) == step.2
        && r == (if step.0 == -1 then None else Some(slices[step.0]))
        && (r.Some? ==> UsedCount(usedSlices) == old(UsedCount(usedSlices)) + 1)
    {
      retry := retry + 1;
      r, done := Attempt(usedSlices, slices, owner);
    }
  }

  /**
   * One pass of get()'s retry loop: nextSlice(), then, unless it is -1, the claim of that
   * slice. With no other thread the slice nextSlice() names is still clear when it is
   * claimed, so the first pass always ends the loop.
   */
  method Attempt(usedSlices: FixedLengthBitSet, slices: seq<PooledSlice>, ghost owner: object) returns (r: Option<PooledSlice>, done: bool)
    requires Layout(slices, owner) && Occupancy(usedSlices, slices)
    modifies usedSlices.words, HeadersOf(slices)
    ensures Occupancy(usedSlices, slices) && done
    ensures var step := ClaimStep(old(usedSlices.Bits()), old(States(slices)));
      && usedSlices.Bits() == step.1 && States(slices) == step.2
      && r == (if step.0 == -1 then None else Some(slices[step.0]))
    ensures r.Some? ==> UsedCount(usedSlices) == old(UsedCount(usedSlices)) + 1
  {
    ghost var bits0, states0 := usedSlices.Bits(), States(slices);
    ghost var step := ClaimStep(bits0, states0);
    r, done := None, true;
    var possibleMatch := NextSlice(usedSlices);
    if possibleMatch == -1 {
      assert step == (-1, bits0, states0);
      assert States(slices) == states0;
      assert States(slices) == step.2;
    } else {
      var k := possibleMatch;
      assert step == (k, bits0[k := true], states0[k := LockState(true, states0[k].acquired + 1, states0[k].freed)]);
      assert slices[k].Header() in HeadersOf(slices) && States(slices) == states0;
      var claimed := TryClaim(usedSlices, slices, owner, k);
      assert claimed;
      assert States(slices) == step.2;
      r := Some(slices[k]);
    }
  }

  /**
   * The second half of free(slice) for a slice of this partition, after clear():
   * unlock() fails on an unlocked slice; otherwise the selector is told and the
   * slice's bit is cleared.
   */
  method ReleaseSlice(usedSlices: FixedLengthBitSet, slices: seq<PooledSlice>, ghost owner: object, partitionIndex: int, k: nat)
    returns (r: Outcome, notices: seq<Notice>)
    requires Layout(slices, owner) && Occupancy(usedSlices, slices) && k < |slices|
    modifies usedSlices.words, slices[k].Header()
    ensures Occupancy(usedSlices, slices)
    ensures (r, notices, usedSlices.Bits(), States(slices))
         == ReleaseStep(old(usedSlices.Bits()), old(States(slices)), k, partitionIndex)
    ensures r == Pass ==> UsedCount(usedSlices) == old(UsedCount(usedSlices)) - 1
  {
    var header := slices[k].Header();
    ghost var before := old(States(slices));
    assert before[k] == header.State();
    var unlocked := header.Unlock();
    forall i | 0 <= i < |slices| && i != k
      ensures States(slices)[i] == before[i]
    {
      assert slices[i].Header() != header;
    }
    assert States(slices) == before[k := header.State()];
    if unlocked != Pass {
      assert before[k := before[k]] == before;
      return unlocked, [];
    }
    ReleaseKeepsConsistent(old(usedSlices.Bits()), before, k);
    notices := ClearBit(usedSlices, slices, partitionIndex, k);
    r := Pass;
  }

  /** The bit of a slice just unlocked goes; the selector is told before it does. */
  method ClearBit(usedSlices: FixedLengthBitSet, slices: seq<PooledSlice>, partitionIndex: int, k: nat)
    returns (notices: seq<Notice>)
    requires usedSlices.Valid() && usedSlices.NoPadding() && usedSlices.bits == |slices|
    requires k < |slices| && usedSlices.Bits()[k] && Consistent(usedSlices.Bits()[k := false], States(slices))
    modifies usedSlices.words
    ensures Occupancy(usedSlices, slices)
    ensures notices == [Notice(partitionIndex, |slices| - old(UsedCount(usedSlices)))]
    ensures usedSlices.Bits() == old(usedSlices.Bits())[k := false]
    ensures UsedCount(usedSlices) == old(UsedCount(usedSlices)) - 1
    ensures States(slices) == old(States(slices))
  {
    var available := AvailableOf(usedSlices);
    notices := [Notice(partitionIndex, available)];
    ghost var bits, states := usedSlices.Bits(), States(slices);
    var cleared := usedSlices.Clear(k);
    assert usedSlices.Bits() == bits[k := false];
    assert States(slices) == states;
    assert usedSlices.Valid();
    assert usedSlices.NoPadding();
    assert Consistent(usedSlices.Bits(), States(slices));
    PopCountUpdate(bits, k, false);
  }

  /**
   * free(slice): a slice of another partition is rejected with nothing changed.
   * Otherwise the slice is cleared, then released as above.
   */
  method FreeSliceOf(usedSlices: FixedLengthBitSet, slices: seq<PooledSlice>, owner: object, partitionIndex: int, slice: PooledSlice)
    returns (r: Outcome, notices: seq<Notice>)
    requires Layout(slices, owner) && Occupancy(usedSlices, slices)
    requires slice.Owner() == owner ==> 0 <= slice.Header().index < |slices| && slices[slice.Header().index] == slice
    modifies usedSlices.words, slice.Header(), slice.Body()
    ensures Occupancy(usedSlices, slices)
    ensures slice.Owner() != owner ==>
      r == Fail(IllegalArgument) && notices == [] && unchanged(usedSlices.words, slice.Header()) && unchanged(slice.Body())
    ensures slice.Owner() == owner ==>
      && slice.Cleared()
      && (r, notices, usedSlices.Bits(), States(slices))
         == ReleaseStep(old(usedSlices.Bits()), old(States(slices)), slice.Header().index, partitionIndex)
    ensures r == Pass ==> UsedCount(usedSlices) == old(UsedCount(usedSlices)) - 1
  {
    if slice.Owner() != owner {
      return Fail(IllegalArgument), [];
    }
    var k := slice.Header().index;
    ghost var bits, states := usedSlices.Bits(), States(slices);
    ClearSlice(slice);
    assert usedSlices.Bits() == bits && States(slices) == states;
    r, notices := ReleaseSlice(usedSlices, slices, owner, partitionIndex, k);
  }

  /** What clear() and free() of a slice write is slice objects and raw regions, nothing else. */
  ghost predicate SliceStorage(o: object)
  {
    o is ByteBufferSlice || o is UnsafeSlice || o is array<JByte>
  }

  /** Hence the bitset, the lock headers and the partition itself lie outside it. */
  lemma BodiesApart(usedSlices: FixedLengthBitSet, slices: seq<PooledSlice>)
    ensures forall o :: o in BodiesOf(slices) ==> SliceStorage(o)
    ensures usedSlices.words !in BodiesOf(slices)
    ensures HeadersOf(slices) !! BodiesOf(slices)
  {
  }

  /** One notice per slice, each carrying the same available() count. */
  predicate NotifiedAll(notices: seq<Notice>, count: nat, partitionIndex: int, available: int)
  {
    |notices| == count && forall i :: 0 <= i < |notices| ==> notices[i] == Notice(partitionIndex, available)
  }

  /** Every raw slice has been zeroed and released. */
  ghost predicate RawReleased(slices: seq<PooledSlice>)
    reads BodiesOf(slices)
  {
    forall i :: 0 <= i < |slices| && slices[i].UnsafePooled? ==>
      slices[i].raw.released && slices[i].raw.Zeroed()
  }

  /**
   * close(), after the one-shot guard: for every slice in index order the selector is
   * told and the slice's storage is freed. Bits and locks stay as they are.
   */
  method CloseSlices(usedSlices: FixedLengthBitSet, slices: seq<PooledSlice>, ghost owner: object, partitionIndex: int)
    returns (notices: seq<Notice>)
    requires Layout(slices, owner) && Occupancy(usedSlices, slices)
    modifies BodiesOf(slices)
    ensures Occupancy(usedSlices, slices)
    ensures NotifiedAll(notices, |slices|, partitionIndex, |slices| - UsedCount(usedSlices))
    ensures RawReleased(slices)
  {
    BodiesApart(usedSlices, slices);
    notices := FreeEach(usedSlices, slices, owner, partitionIndex);
  }

  /** The loop of close(): tells the selector about each slice in index order and frees it. */
  method FreeEach(usedSlices: FixedLengthBitSet, slices: seq<PooledSlice>, ghost owner: object, partitionIndex: int)
    returns (notices: seq<Notice>)
    requires usedSlices.Valid() && usedSlices.bits == |slices| && Layout(slices, owner)
    modifies BodiesOf(slices)
    ensures NotifiedAll(notices, |slices|, partitionIndex, |slices| - UsedCount(usedSlices))
    ensures RawReleased(slices)
    ensures forall i :: 0 <= i < |slices| && slices[i].ByteBufferPooled? ==>
      slices[i].bytes.released == (old(slices[i].bytes.released) || slices[i].bytes.cleansOnFree)
  {
    notices := [];
    ghost var available := |slices| - UsedCount(usedSlices);
    var i := 0;
    while i < usedSlices.Size()
      invariant 0 <= i <= |slices| && |notices| == i
      invariant forall k :: 0 <= k < i ==> notices[k] == Notice(partitionIndex, available)
      invariant forall k :: 0 <= k < i && slices[k].UnsafePooled? ==> slices[k].raw.released && slices[k].raw.Zeroed()
      invariant forall k :: 0 <= k < |slices| && slices[k].ByteBufferPooled? ==>
        slices[k].bytes.released == (old(slices[k].bytes.released) || (k < i && slices[k].bytes.cleansOnFree))
    {
      var n := AvailableOf(usedSlices);
      notices := notices + [Notice(partitionIndex, n)];
      var slice := slices[i];
      assert slice.Object() in BodiesOf(slices);
      assert slice.UnsafePooled? ==> slice.raw.memory in BodiesOf(slices);
      FreeSlice(slice);
      i := i + 1;
    }
  }

  /** The AtomicBoolean behind close(): compareAndSet(false, true) lets exactly one call through. */
  class AtomicFlag {
    var value: bool

    constructor (value: bool)
      ensures this.value == value
    {
      this.value := value;
    }

    method CompareAndSet(expected: bool, update: bool) returns (swapped: bool)
      modifies this
      ensures swapped <==> old(value) == expected
      ensures value == (if swapped then update else old(value))
    {
      swapped := value == expected;
      if swapped {
        value := update;
      }
    }
  }

  /**
   * AbstractPartition together with its pooled subclasses ByteBufferPooledPartition
   * (kind DirectByteBuffer or HeapByteBuffer) and UnsafePooledPartition (kind RawMemory),
   * whose get(index) is slices[index].
   */
  class AbstractPartition {
    const partitionIndex: int
    const sliceByteSize: int
    const usedSlices: FixedLengthBitSet
    const pooled: bool
    const kind: SliceKind
    const closed: AtomicFlag
    var slices: seq<PooledSlice>

    ghost predicate Valid()
      reads this, usedSlices.words, HeadersOf(slices)
    {
      Layout(slices, this) && Occupancy(usedSlices, slices)
    }

    /** cardinality() */
    ghost function Used(): nat
      reads usedSlices.words
    {
      UsedCount(usedSlices)
    }

    /** available() */
    ghost function Avail(): int
      reads this, usedSlices.words
    {
      |slices| - UsedCount(usedSlices)
    }

    /** Every object a get() may write. */
    ghost function GetFrame(): set<object>
      reads this
    {
      {usedSlices.words} + HeadersOf(slices)
    }

    /** Every object Valid() depends on. */
    ghost function ValidFrame(): set<object>
      reads this
    {
      {this, usedSlices.words} + HeadersOf(slices)
    }

    /** The pooled factories: `count` slices of the given kind, none in use. */
    constructor (partitionIndex: int, count: nat, sliceByteSize: nat, kind: SliceKind)
      requires CapacityFits(kind, count, sliceByteSize)
      ensures Valid() && fresh(usedSlices.words)
      ensures this.partitionIndex == partitionIndex && this.sliceByteSize == sliceByteSize && this.kind == kind
      ensures pooled && !closed.value && fresh(closed) && |slices| == count && Used() == 0
      ensures forall i :: 0 <= i < count ==>
        Pristine(slices[i], kind, BufferCapacity(kind, count, sliceByteSize)) && fresh(slices[i].Header()) && fresh(slices[i].Body())
    {
      this.partitionIndex := partitionIndex;
      this.sliceByteSize := sliceByteSize;
      usedSlices := new FixedLengthBitSet(count);
      pooled := true;
      this.kind := kind;
      closed := new AtomicFlag(false);
      slices := [];
      new;
      slices := BuildSlices(this, count, sliceByteSize, kind);
      PopCountNone(usedSlices.Bits());
      FreshConsistent(usedSlices.Bits(), States(slices));
      assert Layout(slices, this);
      assert Occupancy(usedSlices, slices);
    }

    /** getSliceCount(): size() of the bitset. */
    function GetSliceCount(): (n: nat)
      reads this, usedSlices.words, HeadersOf(slices)
      requires Valid()
      ensures n == |slices|
    {
      usedSlices.Size()
    }

    method Available() returns (n: int)
      requires Valid()
      ensures n == Avail()
    {
      n := AvailableOf(usedSlices);
    }

    /** used(): cardinality(). */
    method UsedSlices() returns (n: int)
      requires Valid()
      ensures n == Used()
    {
      n := usedSlices.Cardinality();
    }

    method Get() returns (r: Option<PooledSlice>)
      requires Valid()
      modifies GetFrame()
      ensures Valid() && slices == old(slices)
      ensures var step := ClaimStep(old(usedSlices.Bits()), old(States(slices)));
        && usedSlices.Bits() == step.1 && States(slices) == step.2
        && r == (if step.0 == -1 then None else Some(slices[step.0]))
      ensures r.Some? <==> old(Avail()) > 0
      ensures r.Some? ==> Avail() == old(Avail()) - 1
    {
      FullIffAllSet(usedSlices.Bits(), usedSlices.bits);
      r := ClaimFirst(usedSlices, slices, this);
    }

    method Free(slice: PooledSlice) returns (r: Outcome, notices: seq<Notice>)
      requires Valid()
      requires slice.Owner() == this ==> 0 <= slice.Header().index < |slices| && slices[slice.Header().index] == slice
      modifies usedSlices.words, slice.Header(), slice.Body()
      ensures Valid() && slices == old(slices)
      ensures slice.Owner() != this ==> r == Fail(IllegalArgument) && notices == [] && unchanged(usedSlices.words)
      ensures slice.Owner() == this ==>
        && slice.Cleared()
        && (r, notices, usedSlices.Bits(), States(slices))
           == ReleaseStep(old(usedSlices.Bits()), old(States(slices)), slice.Header().index, partitionIndex)
      ensures r == Pass ==> Avail() == old(Avail()) + 1
    {
      r, notices := FreeSliceOf(usedSlices, slices, this, partitionIndex, slice);
    }

    /** close(): one-shot; the first call tells the selector about and frees every slice. */
    method Close() returns (notices: seq<Notice>)
      requires Valid()
      modifies closed, BodiesOf(slices)
      ensures Valid() && closed.value
      ensures old(closed.value) ==> notices == []
      ensures !old(closed.value) ==> NotifiedAll(notices, |slices|, partitionIndex, Avail()) && RawReleased(slices)
    {
      var first := closed.CompareAndSet(false, true);
      if !first {
        return [];
      }
      BodiesApart(usedSlices, slices);
      assert !SliceStorage(this) && this !in BodiesOf(slices);
      ghost var before := slices;
      notices := CloseSlices(usedSlices, slices, this, partitionIndex);
      assert slices == before;
    }
  }

  /**
   * AbstractPooledPartition: the same bounded partition, but with a second bitset of its
   * own that hides the inherited one; every count, get, free and close goes through the
   * own bitset, and the inherited one is never touched. The close guard close0() is not
   * part of the source; it is modelled as the one-shot flag of the parent.
   */
  class AbstractPooledPartition {
    const partitionIndex: int
    const sliceByteSize: int
    const inheritedUsedSlices: FixedLengthBitSet
    const usedSlices: FixedLengthBitSet
    const closed: AtomicFlag
    var slices: seq<PooledSlice>

    ghost predicate Valid()
      reads this, usedSlices.words, HeadersOf(slices)
    {
      && Layout(slices, this) && Occupancy(usedSlices, slices)
      && inheritedUsedSlices.words != usedSlices.words
    }

    ghost function Avail(): int
      reads this, usedSlices.words
    {
      |slices| - UsedCount(usedSlices)
    }

    constructor (partitionIndex: int, count: nat, sliceByteSize: nat, kind: SliceKind)
      requires CapacityFits(kind, count, sliceByteSize)
      ensures Valid() && !closed.value && fresh(closed) && |slices| == count && Avail() == count
      ensures inheritedUsedSlices.Valid() && inheritedUsedSlices.bits == count && UsedCount(inheritedUsedSlices) == 0
      ensures fresh(usedSlices.words) && fresh(inheritedUsedSlices.words) && fresh(HeadersOf(slices))
    {
      this.partitionIndex := partitionIndex;
      this.sliceByteSize := sliceByteSize;
      inheritedUsedSlices := new FixedLengthBitSet(count);
      usedSlices := new FixedLengthBitSet(count);
      closed := new AtomicFlag(false);
      slices := [];
      new;
      slices := BuildSlices(this, count, sliceByteSize, kind);
      PopCountNone(usedSlices.Bits());
      PopCountNone(inheritedUsedSlices.Bits());
      FreshConsistent(usedSlices.Bits(), States(slices));
    }

    method Available() returns (n: int)
      requires Valid()
      ensures n == Avail()
    {
      n := AvailableOf(usedSlices);
    }

    /** get(): claims through the own bitset; the inherited one is not touched. */
    method Get() returns (r: Option<PooledSlice>)
      requires Valid()
      modifies usedSlices.words, HeadersOf(slices)
      ensures Valid() && slices == old(slices)
      ensures var step := ClaimStep(old(usedSlices.Bits()), old(States(slices)));
        && usedSlices.Bits() == step.1 && States(slices) == step.2
        && r == (if step.0 == -1 then None else Some(slices[step.0]))
      ensures unchanged(inheritedUsedSlices.words)
    {
      r := ClaimFirst(usedSlices, slices, this);
    }

    method Free(slice: PooledSlice) returns (r: Outcome, notices: seq<Notice>)
      requires Valid()
      requires slice.Owner() == this ==> 0 <= slice.Header().index < |slices| && slices[slice.Header().index] == slice
      modifies usedSlices.words, slice.Header(), slice.Body()
      ensures Valid() && slices == old(slices)
      ensures slice.Owner() != this ==> r == Fail(IllegalArgument) && notices == [] && unchanged(usedSlices.words)
      ensures slice.Owner() == this ==>
        && slice.Cleared()
        && (r, notices, usedSlices.Bits(), States(slices))
           == ReleaseStep(old(usedSlices.Bits()), old(States(slices)), slice.Header().index, partitionIndex)
      ensures r == Pass ==> Avail() == old(Avail()) + 1
    {
      r, notices := FreeSliceOf(usedSlices, slices, this, partitionIndex, slice);
    }

    method Close() returns (notices: seq<Notice>)
      requires Valid()
      modifies closed, BodiesOf(slices)
      ensures Valid() && closed.value
      ensures old(closed.value) ==> notices == []
      ensures !old(closed.value) ==> NotifiedAll(notices, |slices|, partitionIndex, Avail()) && RawReleased(slices)
    {
      var first := closed.CompareAndSet(false, true);
      if !first {
        return [];
      }
      BodiesApart(usedSlices, slices);
      assert !SliceStorage(this) && this !in BodiesOf(slices);
      ghost var before := slices;
      notices := CloseSlices(usedSlices, slices, this, partitionIndex);
      assert slices == before;
    }
  }

  /** The entries of a registry from id on. */
  ghost function From(registry: map<int, ByteBufferSlice>, id: int): (m: map<int, ByteBufferSlice>)
    ensures forall k :: k in m <==> k in registry && k >= id
  {
    map k | k in registry && k >= id :: registry[k]
  }

  /** Passing id drops at most the entry under id. */
  lemma FromStep(registry: map<int, ByteBufferSlice>, id: int)
    ensures From(registry, id + 1) == From(registry, id) - {id}
    ensures id !in registry ==> From(registry, id + 1) == From(registry, id)
  {
  }

  /**
   * ByteBufferUnpooledPartition over AbstractUnpooledPartition: unbounded; every get()
   * creates a fresh ByteBuffer slice under the next id and keeps it in a map until close().
   */
  class ByteBufferUnpooledPartition {
    const partitionIndex: int
    const sliceByteSize: nat
    const directMemory: bool
    var index: int
    var registry: map<int, ByteBufferSlice>
    var closed: bool

    /** Ids are positive and at most the counter; every entry is a slice of this partition under its own id. */
    ghost predicate Valid()
      reads this
    {
      && index >= 0
      && forall id :: id in registry ==>
           0 < id <= index && registry[id].header.index == id && registry[id].owner == this
           && registry[id].cleansOnFree && registry[id].buffer.Length == sliceByteSize
    }

    constructor (partitionIndex: int, sliceByteSize: nat, directMemory: bool)
      ensures Valid() && index == 0 && registry == map[] && !closed
      ensures this.partitionIndex == partitionIndex && this.sliceByteSize == sliceByteSize
    {
      this.partitionIndex := partitionIndex;
      this.sliceByteSize := sliceByteSize;
      this.directMemory := directMemory;
      index := 0;
      registry := map[];
      closed := false;
    }

    /** available(): Integer.MAX_VALUE. */
    function Available(): (n: int)
      ensures n == INT_MAX
    {
      INT_MAX
    }

    /** used() and getSliceCount(): the registry size. */
    function Used(): (n: nat)
      reads this
      ensures n == |registry.Keys|
    {
      |registry|
    }

    /** nextSlice(): the counter's next value. */
    method NextSlice() returns (id: int)
      modifies this
      ensures id == old(index) + 1 && index == id
      ensures registry == old(registry) && closed == old(closed)
    {
      index := index + 1;
      id := index;
    }

    /** createPartitionSlice(ignored, size): draws its own id and allocates sliceByteSize bytes. */
    method CreatePartitionSlice(ignored: int) returns (slice: ByteBufferSlice)
      modifies this
      ensures index == old(index) + 1 && registry == old(registry) && closed == old(closed)
      ensures fresh(slice) && fresh(slice.header) && fresh(slice.buffer)
      ensures slice.header.index == index && slice.owner == this && slice.cleansOnFree
      ensures slice.buffer.Length == sliceByteSize && slice.writerIndex == 0 && slice.readerIndex == 0
      ensures slice.header.State() == LockState(false, 0, 0)
    {
      var id := NextSlice();
      slice := new ByteBufferSlice(id, this, sliceByteSize, sliceByteSize, true);
    }

    /** get(): never empty-handed; two ids are drawn and the slice is registered under the second. */
    method Get() returns (slice: ByteBufferSlice)
      requires Valid()
      modifies this
      ensures Valid() && closed == old(closed)
      ensures index == old(index) + 2 && slice.header.index == index
      ensures forall id :: id in old(registry) ==> id < slice.header.index
      ensures registry == old(registry)[slice.header.index := slice]
      ensures fresh(slice) && slice.owner == this
    {
      var first := NextSlice();
      slice := CreatePartitionSlice(first);
      registry := registry[slice.header.index := slice];
    }

    /**
     * free(slice): rejects a slice of another partition; otherwise releases the slice's
     * buffer. The registry is keyed by id but the removal passes the slice itself, so the
     * entry stays.
     */
    method Free(slice: ByteBufferSlice) returns (r: Outcome)
      requires Valid()
      modifies slice
      ensures Valid() && registry == old(registry) && index == old(index)
      ensures slice.owner != this ==> r == Fail(IllegalArgument) && unchanged(slice)
      ensures slice.owner == this ==> r == Pass && slice.released == (old(slice.released) || slice.cleansOnFree)
      ensures slice.owner == this ==> slice.writerIndex == old(slice.writerIndex) && slice.readerIndex == old(slice.readerIndex)
    {
      if slice.owner != this {
        return Fail(IllegalArgument);
      }
      slice.Free();
      r := Pass;
    }

    /**
     * free(slice) as evidently intended: the same checks and release, and the entry is
     * removed under the slice's id, so the registry loses exactly that id.
     */
    method FreeById(slice: ByteBufferSlice) returns (r: Outcome)
      requires Valid()
      modifies this, slice
      ensures Valid() && index == old(index) && closed == old(closed)
      ensures slice.owner != this ==> r == Fail(IllegalArgument) && registry == old(registry) && unchanged(slice)
      ensures slice.owner == this ==> r == Pass && registry == old(registry) - {slice.header.index}
      ensures slice.owner == this ==> slice.released == (old(slice.released) || slice.cleansOnFree)
      ensures slice.owner == this ==> slice.writerIndex == old(slice.writerIndex) && slice.readerIndex == old(slice.readerIndex)
    {
      if slice.owner != this {
        return Fail(IllegalArgument);
      }
      registry := registry - {slice.header.index};
      slice.Free();
      r := Pass;
    }

    /** close(): one-shot; the first call frees and removes every registered slice. */
    method Close()
      requires Valid()
      modifies this, registry.Values
      ensures Valid() && closed && index == old(index)
      ensures old(closed) ==> registry == old(registry)
      ensures !old(closed) ==> registry == map[] && forall id :: id in old(registry) ==> old(registry)[id].released
    {
      if closed {
        return;
      }
      closed := true;
      var id := 1;
      while id <= index
        invariant 1 <= id <= index + 1 || (index == 0 && id == 1)
        invariant index == old(index) && closed
        invariant registry == From(old(registry), id)
        invariant forall k :: k in old(registry) && k < id ==> old(registry)[k].released
        invariant forall k :: k in old(registry) ==> old(registry)[k].cleansOnFree
      {
        FromStep(old(registry), id);
        if id in registry {
          var slice := registry[id];
          assert slice in old(registry).Values;
          slice.Free();
          registry := registry - {id};
        }
        id := id + 1;
      }
      assert registry.Keys == {};
    }
  }

  /**
   * One get() and one free() on a new unbounded partition: as written the registry still
   * holds the freed slice, so used() stays 1 and a later close() frees it a second time;
   * removing by id leaves used() at 0.
   */
  method UnpooledFreeScenario() returns (usedAsWritten: nat, usedById: nat)
    ensures usedAsWritten == 1 && usedById == 0
  {
    var asWritten := new ByteBufferUnpooledPartition(0, 16, false);
    var first := asWritten.Get();
    var r := asWritten.Free(first);
    usedAsWritten := asWritten.Used();
    var byId := new ByteBufferUnpooledPartition(0, 16, false);
    var second := byId.Get();
    r := byId.FreeById(second);
    assert byId.registry == map[];
    usedById := byId.Used();
  }
}

=== FILE: pools.dfy ===
/**
 * PartitionBufferPoolImpl: an array of bounded partitions built by a partition factory,
 * the slice selector that decides which partition serves a request, and the pool's
 * geometry and accounting in Java int and long arithmetic.
 */
module Pools {
  import opened Errors
  import opened BufferUtils
  import opened BitSet
  import opened Slices
  import opened Partitions
  import opened Selectors

  // ----- geometry -----

  /** getPartitionByteSize(): slices per partition times the slice size, in int. */
  function PartitionByteSize(slices: int, sliceByteSize: int): (n: int)
    ensures IsInt(n)
    ensures IsInt(slices * sliceByteSize) ==> n == slices * sliceByteSize
  {
    ToInt(slices * sliceByteSize)
  }

  /** getSliceCount(): slices per partition times the partition count, in int. */
  function SliceCount(slices: int, partitions: int): (n: int)
    ensures IsInt(n)
    ensures IsInt(slices * partitions) ==> n == slices * partitions
  {
    ToInt(slices * partitions)
  }

  /**
   * getAllocatedMemory() as written: the partition count times the partition size is an
   * int product, widened to long only afterwards.
   */
  function AllocatedMemoryAsWritten(partitions: int, slices: int, sliceByteSize: int): (n: int)
    ensures IsInt(n)
  {
    ToInt(partitions * PartitionByteSize(slices, sliceByteSize))
  }

  /**
   * getAllocatedMemory() with the product taken in long: the true byte count whenever the
   * partition size itself fits an int, as every pool the builder accepts has it.
   */
  function AllocatedMemory(partitions: int, slices: int, sliceByteSize: int): (n: int)
    requires IsInt(partitions)
    ensures IsLong(n)
    ensures IsInt(slices * sliceByteSize) ==> n == partitions * (slices * sliceByteSize)
  {
    IntProductIsLong(partitions, PartitionByteSize(slices, sliceByteSize));
    ToLong(partitions * PartitionByteSize(slices, sliceByteSize))
  }

  /** Multiplying by a non-negative number keeps the order. */
  lemma MulLe(x: int, y: int, z: int)
    requires 0 <= x <= y && 0 <= z
    ensures x * z <= y * z
  {
    assert (y - x) * z >= 0;
  }

  /** |a * b| is at most m * m when |a| and |b| are at most m. */
  lemma ProductBound(a: int, b: int, m: int)
    requires 0 <= m && -m <= a <= m && -m <= b <= m
    ensures -(m * m) <= a * b <= m * m
  {
    var x := if a < 0 then -a else a;
    var y := if b < 0 then -b else b;
    MulLe(x, m, y);
    MulLe(y, m, m);
    assert x * y <= m * m;
    if a < 0 && b < 0 {
      assert a * b == x * y;
    } else if a < 0 {
      assert a * b == -(x * y);
    } else if b < 0 {
      assert a * b == -(x * y);
    } else {
      assert a * b == x * y;
    }
  }

  /** The product of two ints always fits a long. */
  lemma IntProductIsLong(a: int, b: int)
    requires IsInt(a) && IsInt(b)
    ensures IsLong(a * b)
  {
    ProductBound(a, b, 0x8000_0000);
  }

  /**
   * The int product overflows for a pool of 4 partitions of 1024 slices of 1 MiB, 4 GiB in
   * all, which the builder accepts: as written the pool reports no memory at all.
   */
  lemma AllocatedMemoryAsWrittenOverflows()
    ensures AllocatedMemoryAsWritten(4, 1024, 0x10_0000) == 0
    ensures AllocatedMemory(4, 1024, 0x10_0000) == 0x1_0000_0000
  {
  }

  // ----- the selector -----

  /** The slice selector a pool is configured with. */
  datatype Selector =
    | RoundRobin(rr: RoundRobinSelector)
    | ThreadLocal(tl: ThreadLocalSelector)
    | ProcessorLocal(pl: ProcessorLocalSelector)
  {
    /** Every object the selector's methods may write. */
    ghost function Frame(): set<object>
      reads if ThreadLocal? then {tl} else if ProcessorLocal? then {pl} else {}
    {
      match this
      case RoundRobin(rr) => {rr}
      case ThreadLocal(tl) => {tl} + (if tl.assignedTable == null then {} else {tl.assignedTable})
      case ProcessorLocal(pl) => {pl, pl.cpuLocalPartition} + (if pl.assignedTable == null then {} else {pl.assignedTable})
    }

    /** The selector's state as a value. */
    ghost function State(): SelectorState
      reads Frame()
    {
      match this
      case RoundRobin(rr) => Cursor(rr.index)
      case ThreadLocal(tl) => Affinity(tl.State())
      case ProcessorLocal(pl) => Cpu(pl.State())
    }

    /** The processor-affinity selector's two arrays are distinct. */
    ghost predicate Ready()
      reads Frame()
    {
      ProcessorLocal? ==> pl.Valid()
    }

    /** The selector's own state lies outside `repr`. */
    ghost predicate Apart(repr: set<object>)
      reads Frame()
    {
      match this
      case RoundRobin(rr) => rr !in repr
      case ThreadLocal(tl) => tl.Apart(repr)
      case ProcessorLocal(pl) => pl.Apart(repr)
    }

    /** The selector keeps its state apart from the partitions' and refers to n partitions. */
    ghost predicate Serves(repr: set<object>, n: nat)
      reads Frame()
    {
      Ready() && Apart(repr) && StateServes(State(), n)
    }
  }

  /** A selector's objects are neither slice storage nor close flags. */
  lemma FrameApart(selector: Selector)
    ensures forall o :: o in selector.Frame() ==> !SliceStorage(o) && !(o is AtomicFlag)
  {
  }

  /** The state of each kind of selector. */
  datatype SelectorState = Cursor(index: nat) | Affinity(affinity: AffinityState) | Cpu(cpu: CpuState)

  ghost predicate StateServes(st: SelectorState, n: nat)
  {
    match st
    case Cursor(_) => true
    case Affinity(a) => AffinityServes(a, n)
    case Cpu(c) => CpuServes(c, n)
  }

  /**
   * selectPartitionSlice(partitions) on the partitions' available() counts, by the kind of
   * selector: the new state and the partition picked.
   */
  function SelectStep(st: SelectorState, avail: seq<int>, thread: int, cpu: int): (step: (SelectorState, Pick))
    requires StateServes(st, |avail|)
    ensures StateServes(step.0, |avail|)
    ensures step.1.Picked? ==> step.1.partition < |avail| && avail[step.1.partition] > 0
  {
    match st
    case Cursor(index) => var s := RoundRobinStep(avail, index); (Cursor(s.1), s.0)
    case Affinity(a) => var s := ThreadLocalStep(a, avail, thread); (Affinity(s.0), s.1)
    case Cpu(c) => var s := ProcessorLocalStep(c, avail, cpu); (Cpu(s.0), s.1)
  }

  /**
   * Whatever the kind of selector, a request that finds every partition exhausted fails
   * as exhausted, and a request that fails as exhausted found every partition exhausted
   * (a round-robin cursor or a processor id outside the array aside).
   */
  lemma ExhaustedIffNoneAvailable(st: SelectorState, avail: seq<int>, thread: int, cpu: int)
    requires StateServes(st, |avail|)
    requires st.Cursor? ==> st.index < |avail| || |avail| == 0
    requires st.Cpu? ==> 0 <= cpu < |st.cpu.local|
    ensures SelectStep(st, avail, thread, cpu).1 == Failed(Exhausted) <==> forall i :: 0 <= i < |avail| ==> avail[i] <= 0
  {
    match st
    case Cursor(index) => RoundRobinExhaustedIffFull(avail, index);
    case Affinity(a) => ThreadLocalStepSpec(a, avail, thread);
    case Cpu(c) => ProcessorLocalStepSpec(c, avail, cpu);
  }

  /** freePartitionSlice(partition, partitionIndex, slice) by the kind of selector. */
  function Release(st: SelectorState, notice: Notice): (step: (SelectorState, Outcome))
  {
    match st
    case Cursor(_) => (st, Pass)
    case Affinity(a) => var s := ThreadLocalRelease(a, notice); (Affinity(s.0), s.1)
    case Cpu(c) => var s := ProcessorLocalRelease(c, notice); (Cpu(s.0), s.1)
  }

  /** The selector told about each notice in turn, stopping at the first that fails. */
  function ReleaseAll(st: SelectorState, notices: seq<Notice>): (step: (SelectorState, Outcome))
    decreases |notices|
  {
    if notices == [] then (st, Pass)
    else
      var first := Release(st, notices[0]);
      if first.1 != Pass then first else ReleaseAll(first.0, notices[1..])
  }

  /** Telling the selector about slices returned keeps it referring to the same partitions. */
  lemma {:induction false} ReleaseAllServes(st: SelectorState, notices: seq<Notice>, n: nat)
    requires StateServes(st, n)
    ensures StateServes(ReleaseAll(st, notices).0, n)
    decreases |notices|
  {
    if notices != [] {
      var first := Release(st, notices[0]);
      assert StateServes(first.0, n);
      if first.1 == Pass {
        ReleaseAllServes(first.0, notices[1..], n);
      }
    }
  }

  /**
   * Slices returned to partitions that still had slices available leave every selector
   * as it was: only a partition that was exhausted is handed back to the selection.
   */
  lemma {:induction false} ReleaseFromAvailableIsQuiet(st: SelectorState, notices: seq<Notice>)
    requires forall i :: 0 <= i < |notices| ==> notices[i].available != 0
    ensures ReleaseAll(st, notices) == (st, Pass)
    decreases |notices|
  {
    if notices != [] {
      assert Release(st, notices[0]) == (st, Pass);
      ReleaseFromAvailableIsQuiet(st, notices[1..]);
    }
  }

  /** Telling the selector about two lists of notices is telling it about their concatenation. */
  lemma {:induction false} ReleaseAllAppend(st: SelectorState, a: seq<Notice>, b: seq<Notice>)
    ensures ReleaseAll(st, a + b)
      == (var first := ReleaseAll(st, a); if first.1 == Pass then ReleaseAll(first.0, b) else first)
    decreases |a|
  {
    if a != [] {
      assert (a + b)[0] == a[0] && (a + b)[1..] == a[1..] + b;
      var first := Release(st, a[0]);
      if first.1 == Pass {
        ReleaseAllAppend(first.0, a[1..], b);
      }
    } else {
      assert a + b == b;
    }
  }

  // ----- accounting -----

  /** used() of every partition, in index order. */
  ghost function Useds(partitions: seq<AbstractPartition>, repr: set<object>): (used: seq<int>)
    requires Within(partitions, repr)
    reads repr
    ensures |used| == |partitions|
    ensures forall i :: 0 <= i < |partitions| ==> used[i] == partitions[i].Used()
  {
    seq(|partitions|, i requires 0 <= i < |partitions| reads repr => partitions[i].Used())
  }

  /** The exact sum of some counts. */
  function Sum(counts: seq<int>): int
  {
    if counts == [] then 0 else Sum(counts[..|counts| - 1]) + counts[|counts| - 1]
  }

  /** Two lists of counts that add up entry by entry to c add up to c times their length. */
  lemma {:induction false} SumPairs(used: seq<int>, avail: seq<int>, c: int)
    requires |used| == |avail|
    requires forall i :: 0 <= i < |used| ==> used[i] + avail[i] == c
    ensures Sum(used) + Sum(avail) == |used| * c
    decreases |used|
  {
    if used != [] {
      var n := |used| - 1;
      SumPairs(used[..n], avail[..n], c);
    }
  }

  /** x == y modulo m when they differ by a multiple of m. */
  lemma ShiftMod(x: int, q: int, m: int)
    requires m > 0
    ensures (x + m * q) % m == x % m
  {
    DivModUnique(x + m * q, m, x / m + q, x % m);
  }

  /** An int accumulator may wrap at every step or only at the end: the result is the same. */
  lemma ToIntAdd(a: int, b: int)
    ensures ToInt(ToInt(a) + b) == ToInt(a + b)
  {
    var m := 0x1_0000_0000;
    var t := ToInt(a);
    var q := if a % m < 0x8000_0000 then -(a / m) else -(a / m) - 1;
    assert t == a + m * q;
    ShiftMod(a + b, q, m);
    assert t + b == (a + b) + m * q;
  }

  /** used() summed in int over a prefix of the partitions, as the loop accumulates it. */
  lemma SumStep(counts: seq<int>, i: nat)
    requires i < |counts|
    ensures Sum(counts[..i + 1]) == Sum(counts[..i]) + counts[i]
  {
    assert counts[..i + 1][..i] == counts[..i];
  }

  /** One more count added to an int accumulator holding the wrapped sum of a prefix. */
  lemma Accumulate(counts: seq<int>, i: nat, acc: int)
    requires i < |counts| && acc == ToInt(Sum(counts[..i]))
    ensures ToInt(acc + counts[i]) == ToInt(Sum(counts[..i + 1]))
  {
    SumStep(counts, i);
    ToIntAdd(Sum(counts[..i]), counts[i]);
  }

  /** The notices close() sends, partition by partition, for the partitions that were open. */
  function ClosingNotices(open: seq<bool>, avail: seq<int>, slices: nat): (notices: seq<Notice>)
    requires |open| == |avail|
    ensures (forall i :: 0 <= i < |open| ==> !open[i]) ==> notices == []
    decreases |open|
  {
    if open == [] then []
    else
      var n := |open| - 1;
      ClosingNotices(open[..n], avail[..n], slices) + (if open[n] then seq(slices, _ => Notice(n, avail[n])) else [])
  }

  lemma ClosingNoticesStep(open: seq<bool>, avail: seq<int>, slices: nat, i: nat)
    requires |open| == |avail| && i < |open|
    ensures ClosingNotices(open[..i + 1], avail[..i + 1], slices)
      == ClosingNotices(open[..i], avail[..i], slices) + (if open[i] then seq(slices, _ => Notice(i, avail[i])) else [])
  {
    assert open[..i + 1][..i] == open[..i] && avail[..i + 1][..i] == avail[..i];
  }

  /** The notices for the first m partitions come first. */
  lemma {:induction false} ClosingNoticesPrefix(open: seq<bool>, avail: seq<int>, slices: nat, m: nat)
    requires |open| == |avail| && m <= |open|
    ensures ClosingNotices(open[..m], avail[..m], slices) <= ClosingNotices(open, avail, slices)
    decreases |open|
  {
    if m < |open| {
      var n := |open| - 1;
      ClosingNoticesPrefix(open[..n], avail[..n], slices, m);
      assert open[..n][..m] == open[..m] && avail[..n][..m] == avail[..m];
    } else {
      assert open[..m] == open && avail[..m] == avail;
    }
  }

  /** Once the selector has failed on the notices of the first m partitions, the rest are not delivered. */
  lemma ClosingReleaseStops(st: SelectorState, open: seq<bool>, avail: seq<int>, slices: nat, m: nat)
    requires |open| == |avail| && m <= |open|
    requires ReleaseAll(st, ClosingNotices(open[..m], avail[..m], slices)).1.Fail?
    ensures ReleaseAll(st, ClosingNotices(open, avail, slices)) == ReleaseAll(st, ClosingNotices(open[..m], avail[..m], slices))
  {
    var full, done := ClosingNotices(open, avail, slices), ClosingNotices(open[..m], avail[..m], slices);
    ClosingNoticesPrefix(open, avail, slices, m);
    assert full == done + full[|done|..];
    ReleaseAllAppend(st, done, full[|done|..]);
  }

  /** Closing partition i adds its notices to what has been delivered so far. */
  lemma ClosingReleaseStep(st: SelectorState, open: seq<bool>, avail: seq<int>, slices: nat, i: nat)
    requires |open| == |avail| && i < |open|
    requires ReleaseAll(st, ClosingNotices(open[..i], avail[..i], slices)).1 == Pass
    ensures ReleaseAll(st, ClosingNotices(open[..i + 1], avail[..i + 1], slices))
      == ReleaseAll(ReleaseAll(st, ClosingNotices(open[..i], avail[..i], slices)).0,
                    if open[i] then seq(slices, _ => Notice(i, avail[i])) else [])
  {
    ClosingNoticesStep(open, avail, slices, i);
    ReleaseAllAppend(st, ClosingNotices(open[..i], avail[..i], slices), if open[i] then seq(slices, _ => Notice(i, avail[i])) else []);
  }

  /** Which partitions are still open once the first i have been closed. */
  function Remaining(open: seq<bool>, i: nat): (rest: seq<bool>)
    ensures |rest| == |open|
    ensures forall j :: 0 <= j < |open| ==> rest[j] == (i <= j && open[j])
  {
    seq(|open|, j requires 0 <= j < |open| => i <= j && open[j])
  }

  /** Closing partition i takes it off the remaining ones. */
  lemma RemainingStep(open: seq<bool>, i: nat)
    requires i < |open|
    ensures Remaining(open, i)[i] == open[i]
    ensures Remaining(open, i)[i := false] == Remaining(open, i + 1)
  {
  }

  /** Every object the pool's partitions hold: each one's state as Valid() sees it. */
  ghost predicate PartitionObjects(repr: set<object>)
  {
    forall o :: o in repr ==> o is AbstractPartition || o is array<Word> || o is AbstractPartitionSlice
  }

  /** One more partition, valid and apart from the others, keeps the array separate. */
  lemma SeparateExtend(partitions: seq<AbstractPartition>, repr: set<object>, partition: AbstractPartition)
    requires Separate(partitions, repr) && partition.Valid() && partition.ValidFrame() !! repr
    ensures Separate(partitions + [partition], repr + partition.ValidFrame())
  {
    var after := partitions + [partition];
    forall i | 0 <= i < |partitions|
      ensures after[i].ValidFrame() <= repr && after[i].ValidFrame() !! partition.ValidFrame()
    {
    }
  }

  /** A partition as the pool's construction loop leaves it at index k: empty and open. */
  ghost predicate Built(p: AbstractPartition, k: int, slices: nat, sliceByteSize: nat, kind: SliceKind)
    reads p.usedSlices.words, p.closed
  {
    && p.partitionIndex == k && p.usedSlices.bits == slices
    && p.sliceByteSize == sliceByteSize && p.kind == kind
    && p.Used() == 0 && !p.closed.value
  }

  /**
   * The construction loop of PartitionBufferPoolImpl: partition i is
   * newPartition(i, sliceByteSize, slices) of the pooled factory of the given kind.
   */
  method BuildPartitions(count: nat, sliceByteSize: nat, slices: nat, kind: SliceKind)
    returns (partitions: seq<AbstractPartition>, ghost repr: set<object>)
    requires CapacityFits(kind, slices, sliceByteSize)
    ensures |partitions| == count && Separate(partitions, repr) && PartitionObjects(repr) && fresh(repr)
    ensures forall i :: 0 <= i < count ==>
      && partitions[i].partitionIndex == i && partitions[i].usedSlices.bits == slices
      && partitions[i].sliceByteSize == sliceByteSize && partitions[i].kind == kind
      && partitions[i].Used() == 0 && !partitions[i].closed.value && fresh(partitions[i].closed)
    ensures forall i, j :: 0 <= i < j < count ==> partitions[i].closed != partitions[j].closed
  {
    partitions := [];
    repr := {};
    var i := 0;
    while i < count
      invariant 0 <= i <= count && |partitions| == i
      invariant Separate(partitions, repr) && PartitionObjects(repr) && fresh(repr)
      invariant forall k :: 0 <= k < i ==>
        Built(partitions[k], k, slices, sliceByteSize, kind) && fresh(partitions[k].closed)
      invariant forall k, j :: 0 <= k < j < i ==> partitions[k].closed != partitions[j].closed
    {
      var partition := NewPartition(partitions, repr, i, slices, sliceByteSize, kind);
      assert forall k :: 0 <= k < i ==> (partitions + [partition])[k] == partitions[k];
      partitions := partitions + [partition];
      repr := repr + partition.ValidFrame();
      i := i + 1;
    }
  }

  /** One turn of the construction loop: partition i, kept apart from those built before it. */
  method NewPartition(partitions: seq<AbstractPartition>, ghost repr: set<object>, i: nat,
                      slices: nat, sliceByteSize: nat, kind: SliceKind)
    returns (partition: AbstractPartition)
    requires Separate(partitions, repr) && PartitionObjects(repr) && CapacityFits(kind, slices, sliceByteSize)
    requires forall k :: 0 <= k < |partitions| ==> Built(partitions[k], k, slices, sliceByteSize, kind)
    ensures Built(partition, i, slices, sliceByteSize, kind) && fresh(partition.closed)
    ensures fresh(partition.ValidFrame()) && PartitionObjects(repr + partition.ValidFrame())
    ensures Separate(partitions + [partition], repr + partition.ValidFrame())
    ensures forall k :: 0 <= k < |partitions| ==>
      Built(partitions[k], k, slices, sliceByteSize, kind) && partitions[k].closed != partition.closed
  {
    partition := new AbstractPartition(i, slices, sliceByteSize, kind);
    forall o | o in partition.ValidFrame()
      ensures o !in repr && fresh(o)
    {
      if o in HeadersOf(partition.slices) {
        var k :| 0 <= k < |partition.slices| && o == partition.slices[k].Header();
      }
    }
    SeparateExtend(partitions, repr, partition);
  }

  /**
   * free(slice) on the partition the slice belongs to, partition k of the array: the
   * partition takes the slice back, and the other partitions are left as they were.
   */
  method ReturnSlice(partitions: seq<AbstractPartition>, ghost repr: set<object>, ghost k: int, slice: PooledSlice)
    returns (r: Outcome, notices: seq<Notice>)
    requires Separate(partitions, repr) && PartitionObjects(repr)
    requires 0 <= k < |partitions| && slice.Owner() == partitions[k]
    requires 0 <= slice.Header().index < |partitions[k].slices| && partitions[k].slices[slice.Header().index] == slice
    modifies repr, slice.Body()
    ensures Separate(partitions, repr)
    ensures var p := partitions[k];
      && slice.Cleared()
      && (r, notices, p.usedSlices.Bits(), States(p.slices))
         == ReleaseStep(old(p.usedSlices.Bits()), old(States(p.slices)), slice.Header().index, p.partitionIndex)
    ensures forall j :: 0 <= j < |partitions| ==>
      partitions[j].Avail() == old(Avails(partitions, repr))[j] + (if j == k && r == Pass then 1 else 0)
  {
    var partition := slice.Owner() as AbstractPartition;
    assert partition.Valid() && slice.Header() == partition.slices[slice.Header().index].Header();
    BodiesApart(partition.usedSlices, partition.slices);
    assert slice.Body() !! repr;
    ghost var frames := seq(|partitions|, j requires 0 <= j < |partitions| reads partitions => partitions[j].ValidFrame());
    assert forall i, j :: 0 <= i < j < |frames| ==> frames[i] !! frames[j];
    r, notices := partition.Free(slice);
    forall j | 0 <= j < |partitions|
      ensures partitions[j].ValidFrame() == frames[j] && partitions[j].Valid()
      ensures j != k ==> partitions[j].Avail() == old(partitions[j].Avail())
    {
      if j != k {
        assert frames[j] !! frames[k];
      }
    }
    SeparateByFrames(partitions, repr, frames);
  }

  /**
   * freePartitionSlice for each notice in turn, until one fails: the selector's state
   * follows ReleaseAll.
   */
  method DeliverTo(selector: Selector, notices: seq<Notice>, ghost repr: set<object>, ghost n: nat) returns (r: Outcome)
    requires selector.Serves(repr, n)
    modifies selector.Frame()
    ensures selector.Serves(repr, n) && selector.Frame() == old(selector.Frame())
    ensures (selector.State(), r) == ReleaseAll(old(selector.State()), notices)
  {
    r := Pass;
    var i := 0;
    while i < |notices| && r == Pass
      invariant 0 <= i <= |notices|
      invariant selector.Serves(repr, n) && selector.Frame() == old(selector.Frame())
      invariant ReleaseAll(old(selector.State()), notices)
        == if r == Pass then ReleaseAll(selector.State(), notices[i..]) else (selector.State(), r)
      decreases |notices| - i
    {
      ghost var before := selector.State();
      assert notices[i..][0] == notices[i] && notices[i..][1..] == notices[i + 1..];
      match selector {
        case RoundRobin(rr) => rr.Free(notices[i]);
        case ThreadLocal(tl) => r := tl.Free(notices[i]);
        case ProcessorLocal(pl) => r := pl.Free(notices[i]);
      }
      assert (selector.State(), r) == Release(before, notices[i]);
      ReleaseAllServes(before, [notices[i]], n);
      i := i + 1;
    }
  }

  /** getUsedSliceCount(): used() summed in an int accumulator. */
  method SumUsed(partitions: seq<AbstractPartition>, ghost repr: set<object>) returns (n: int)
    requires Separate(partitions, repr)
    ensures n == ToInt(Sum(Useds(partitions, repr)))
  {
    ghost var used := Useds(partitions, repr);
    n := 0;
    var i := 0;
    while i < |partitions|
      invariant 0 <= i <= |partitions|
      invariant n == ToInt(Sum(used[..i]))
    {
      assert partitions[i].Valid();
      var count := partitions[i].UsedSlices();
      assert count == used[i];
      Accumulate(used, i, n);
      n := ToInt(n + count);
      i := i + 1;
    }
    assert used[..i] == used;
    assert used == Useds(partitions, repr);
  }

  /** getFreeSliceCount(): available() summed in an int accumulator. */
  method SumAvailable(partitions: seq<AbstractPartition>, ghost repr: set<object>) returns (n: int)
    requires Separate(partitions, repr)
    ensures n == ToInt(Sum(Avails(partitions, repr)))
  {
    ghost var avail := Avails(partitions, repr);
    n := 0;
    var i := 0;
    while i < |partitions|
      invariant 0 <= i <= |partitions|
      invariant n == ToInt(Sum(avail[..i]))
    {
      n := AddAvailable(partitions, repr, avail, i, n);
      i := i + 1;
    }
    assert avail[..i] == avail;
  }

  /** One turn of getFreeSliceCount()'s loop: partition i's available() joins the int sum. */
  method AddAvailable(partitions: seq<AbstractPartition>, ghost repr: set<object>, ghost avail: seq<int>, i: nat, n: int)
    returns (m: int)
    requires Separate(partitions, repr) && avail == Avails(partitions, repr) && i < |partitions|
    requires n == ToInt(Sum(avail[..i]))
    ensures m == ToInt(Sum(avail[..i + 1]))
  {
    assert partitions[i].Valid();
    var count := partitions[i].Available();
    assert count == avail[i];
    Accumulate(avail, i, n);
    m := ToInt(n + count);
  }

  /** What closing partition i writes: its close flag and its slices' bodies. */
  ghost function ClosableOf(partitions: seq<AbstractPartition>, i: nat): set<object>
    requires i < |partitions|
    reads partitions
  {
    {partitions[i].closed} + BodiesOf(partitions[i].slices)
  }

  /** What closing every partition writes. */
  ghost function Closable(partitions: seq<AbstractPartition>): set<object>
    reads partitions
  {
    set i, o | 0 <= i < |partitions| && o in ClosableOf(partitions, i) :: o
  }

  /** Closing partition i writes only what closing them all writes. */
  lemma ClosableCovers(partitions: seq<AbstractPartition>, i: nat)
    requires i < |partitions|
    ensures ClosableOf(partitions, i) <= Closable(partitions)
  {
    forall o | o in ClosableOf(partitions, i)
      ensures o in Closable(partitions)
    {
      assert 0 <= i < |partitions| && o in ClosableOf(partitions, i);
    }
  }

  /** The close flags of an array of partitions. */
  ghost function FlagsOf(partitions: seq<AbstractPartition>): set<AtomicFlag>
  {
    set i | 0 <= i < |partitions| :: partitions[i].closed
  }

  /** Which of an array of partitions are still open. */
  ghost function OpenOf(partitions: seq<AbstractPartition>): (open: seq<bool>)
    reads FlagsOf(partitions)
    ensures |open| == |partitions|
    ensures forall i :: 0 <= i < |partitions| ==> open[i] == !partitions[i].closed.value
  {
    seq(|partitions|, i requires 0 <= i < |partitions| reads FlagsOf(partitions) => !partitions[i].closed.value)
  }

  /**
   * close() on partition i of the array: its flag is set and, on the first call, it sends
   * one notice per slice; what the partitions' bookkeeping holds is left as it was.
   */
  method ClosePartition(partitions: seq<AbstractPartition>, ghost repr: set<object>, i: nat, ghost apart: set<object>)
    returns (notices: seq<Notice>)
    requires Separate(partitions, repr) && PartitionObjects(repr) && i < |partitions|
    requires forall j :: 0 <= j < |partitions| && j != i ==> partitions[j].closed != partitions[i].closed
    requires partitions[i].closed !in apart && apart !! BodiesOf(partitions[i].slices)
    modifies partitions[i].closed, BodiesOf(partitions[i].slices)
    ensures unchanged(repr) && unchanged(apart) && partitions[i].closed.value
    ensures OpenOf(partitions) == old(OpenOf(partitions))[i := false]
    ensures var index, available := partitions[i].partitionIndex, old(partitions[i].Avail());
      notices == if old(partitions[i].closed.value) then [] else seq(|partitions[i].slices|, _ => Notice(index, available))
  {
    var partition := partitions[i];
    ClosingApart(partitions, repr, i);
    ghost var open := OpenOf(partitions);
    ghost var index, available := partition.partitionIndex, partition.Avail();
    notices := partition.Close();
    assert unchanged(repr);
    forall j | 0 <= j < |partitions|
      ensures OpenOf(partitions)[j] == open[i := false][j]
    {
      if j != i {
        assert partitions[j].closed !in BodiesOf(partition.slices);
      }
    }
    if !old(partition.closed.value) {
      assert notices == seq(|partition.slices|, _ => Notice(index, available));
    }
  }

  /** What closing partition i writes is no close flag and nothing of the partitions' state. */
  lemma ClosingApart(partitions: seq<AbstractPartition>, repr: set<object>, i: nat)
    requires Separate(partitions, repr) && PartitionObjects(repr) && i < |partitions|
    ensures forall j :: 0 <= j < |partitions| ==> partitions[j].closed !in BodiesOf(partitions[i].slices)
    ensures partitions[i].closed !in repr && repr !! BodiesOf(partitions[i].slices)
  {
    BodiesApart(partitions[i].usedSlices, partitions[i].slices);
  }

  // ----- the pool -----

  /** PartitionBufferPoolImpl over bounded partitions. */
  class PartitionBufferPool {
    const partitions: seq<AbstractPartition>
    const selector: Selector
    const sliceByteSize: int
    const slices: nat
    ghost const repr: set<object>

    /**
     * The partitions are valid and separate, partition i has index i and the pool's
     * geometry, and the selector refers to the partition array and keeps apart from it.
     */
    ghost predicate Valid()
      reads repr, selector.Frame()
    {
      Shape() && Separate(partitions, repr) && selector.Serves(repr, |partitions|)
    }

    /**
     * What never changes: partition i has index i and the pool's geometry, each has a
     * close flag of its own, and the partitions' state is made of partitions, bitset
     * words and slice headers only.
     */
    ghost predicate Shape()
    {
      && PartitionObjects(repr)
      && (forall i :: 0 <= i < |partitions| ==>
            && partitions[i].partitionIndex == i && partitions[i].usedSlices.bits == slices
            && partitions[i].sliceByteSize == sliceByteSize)
      && (forall i, j :: 0 <= i < j < |partitions| ==> partitions[i].closed != partitions[j].closed)
    }

    /** Which partitions are still open. */
    ghost function Open(): (open: seq<bool>)
      reads Flags()
      ensures |open| == |partitions|
    {
      OpenOf(partitions)
    }

    /** The partitions' close flags. */
    ghost function Flags(): set<AtomicFlag>
    {
      FlagsOf(partitions)
    }

    /** The slice belongs to partition k: it is that partition's slice at its own index. */
    ghost predicate Holds(slice: PooledSlice, k: int)
      reads repr
    {
      && Within(partitions, repr)
      && 0 <= k < |partitions| && slice.Owner() == partitions[k]
      && 0 <= slice.Header().index < |partitions[k].slices| && partitions[k].slices[slice.Header().index] == slice
    }

    /**
     * new PartitionBufferPoolImpl(partitions, sliceByteSize, slices, factory, selector)
     * with one of the pooled partition factories.
     */
    constructor (count: nat, sliceByteSize: nat, slices: nat, kind: SliceKind, selector: Selector)
      requires selector.Serves({}, count) && CapacityFits(kind, slices, sliceByteSize)
      ensures Valid() && fresh(repr)
      ensures |partitions| == count && this.sliceByteSize == sliceByteSize && this.slices == slices
      ensures this.selector == selector && selector.State() == old(selector.State())
      ensures forall i :: 0 <= i < count ==>
        partitions[i].kind == kind && partitions[i].Used() == 0 && !partitions[i].closed.value
    {
      var built;
      ghost var frame;
      built, frame := BuildPartitions(count, sliceByteSize, slices, kind);
      match selector {
        case RoundRobin(_) =>
        case ThreadLocal(_) =>
        case ProcessorLocal(_) =>
      }
      partitions := built;
      this.selector := selector;
      this.sliceByteSize := sliceByteSize;
      this.slices := slices;
      repr := frame;
    }

    /**
     * requestSlice(): the selector decides on the partitions' available() counts, and the
     * partition picked hands out one slice.
     */
    method RequestSlice(thread: int, cpu: int) returns (r: Result<PooledSlice>)
      requires Valid()
      modifies repr, selector.Frame()
      ensures Valid()
      ensures var step := SelectStep(old(selector.State()), old(Avails(partitions, repr)), thread, cpu);
        selector.State() == step.0 && Served(partitions, repr, old(Avails(partitions, repr)), step.1, r)
    {
      match selector
      case RoundRobin(rr) => r := RequestRoundRobin(rr);
      case ThreadLocal(tl) => r := RequestThreadLocal(tl, thread);
      case ProcessorLocal(pl) => r := RequestProcessorLocal(pl, cpu);
    }

    /** requestSlice() under the round-robin selector. */
    method RequestRoundRobin(rr: RoundRobinSelector) returns (r: Result<PooledSlice>)
      requires Valid() && selector == RoundRobin(rr)
      modifies repr, selector.Frame()
      ensures Valid()
      ensures var step := SelectStep(old(selector.State()), old(Avails(partitions, repr)), 0, 0);
        selector.State() == step.0 && Served(partitions, repr, old(Avails(partitions, repr)), step.1, r)
    {
      r := rr.Select(partitions, repr);
    }

    /** requestSlice() under the thread-affinity selector, called from `thread`. */
    method RequestThreadLocal(tl: ThreadLocalSelector, thread: int) returns (r: Result<PooledSlice>)
      requires Valid() && selector == ThreadLocal(tl)
      modifies repr, selector.Frame()
      ensures Valid()
      ensures var step := SelectStep(old(selector.State()), old(Avails(partitions, repr)), thread, 0);
        selector.State() == step.0 && Served(partitions, repr, old(Avails(partitions, repr)), step.1, r)
    {
      r := tl.Select(partitions, repr, thread);
    }

    /** requestSlice() under the processor-affinity selector, called on `cpu`. */
    method RequestProcessorLocal(pl: ProcessorLocalSelector, cpu: int) returns (r: Result<PooledSlice>)
      requires Valid() && selector == ProcessorLocal(pl)
      modifies repr, selector.Frame()
      ensures Valid()
      ensures var step := SelectStep(old(selector.State()), old(Avails(partitions, repr)), 0, cpu);
        selector.State() == step.0 && Served(partitions, repr, old(Avails(partitions, repr)), step.1, r)
    {
      CpuReady(pl);
      r := pl.Select(partitions, repr, cpu);
      CpuRestored(pl);
    }

    /** A valid pool with the processor-affinity selector meets what that selector asks for. */
    lemma CpuReady(pl: ProcessorLocalSelector)
      requires Valid() && selector == ProcessorLocal(pl)
      ensures pl.Valid() && Separate(partitions, repr) && pl.Apart(repr) && CpuServes(pl.State(), |partitions|)
    {
    }

    /** What the processor-affinity selector keeps is what the pool needs to stay valid. */
    lemma CpuRestored(pl: ProcessorLocalSelector)
      requires Shape() && selector == ProcessorLocal(pl)
      requires pl.Valid() && Separate(partitions, repr) && pl.Apart(repr) && CpuServes(pl.State(), |partitions|)
      ensures Valid()
    {
    }

    /** The selector told about each notice in turn, until one fails. */
    method Deliver(notices: seq<Notice>) returns (r: Outcome)
      requires Valid()
      modifies selector.Frame()
      ensures Valid() && unchanged(repr) && unchanged(Flags()) && selector.Frame() == old(selector.Frame())
      ensures (selector.State(), r) == ReleaseAll(old(selector.State()), notices)
    {
      FrameApart(selector);
      assert selector.Frame() !! repr && selector.Frame() !! Flags();
      r := DeliverTo(selector, notices, repr, |partitions|);
      assert unchanged(repr);
    }

    /**
     * freeSlice(slice): nothing for null; otherwise the slice's partition takes it back
     * and the selector is told that the partition has a slice available again.
     */
    method FreeSlice(slice: Option<PooledSlice>, ghost k: int) returns (r: Outcome)
      requires Valid()
      requires slice.Some? ==> Holds(slice.value, k)
      modifies repr, selector.Frame(), if slice.Some? then slice.value.Body() else {}
      ensures Valid()
      ensures slice.None? ==> r == Pass && unchanged(repr) && selector.State() == old(selector.State())
      ensures slice.Some? ==>
        var p := partitions[k];
        var step := ReleaseStep(old(p.usedSlices.Bits()), old(States(p.slices)), slice.value.Header().index, k);
        && slice.value.Cleared()
        && (selector.State(), r)
           == (if step.0 == Pass then ReleaseAll(old(selector.State()), step.1) else (old(selector.State()), step.0))
        && forall j :: 0 <= j < |partitions| ==>
             partitions[j].Avail() == old(Avails(partitions, repr))[j] + (if j == k && step.0 == Pass then 1 else 0)
    {
      if slice.None? {
        return Pass;
      }
      r := FreeHeld(slice.value, k);
    }

    /** freeSlice(slice) for a slice of partition k. */
    method FreeHeld(slice: PooledSlice, ghost k: int) returns (r: Outcome)
      requires Valid() && Holds(slice, k)
      modifies repr, selector.Frame(), slice.Body()
      ensures Valid()
      ensures var p := partitions[k];
        var step := ReleaseStep(old(p.usedSlices.Bits()), old(States(p.slices)), slice.Header().index, k);
        && slice.Cleared()
        && (selector.State(), r)
           == (if step.0 == Pass then ReleaseAll(old(selector.State()), step.1) else (old(selector.State()), step.0))
        && forall j :: 0 <= j < |partitions| ==>
             partitions[j].Avail() == old(Avails(partitions, repr))[j] + (if j == k && step.0 == Pass then 1 else 0)
    {
      var notices;
      r, notices := TakeBack(slice, k);
      if r.Fail? {
        return r;
      }
      ghost var after := Avails(partitions, repr);
      BodyApart(slice);
      r := Deliver(notices);
      assert Avails(partitions, repr) == after && slice.Cleared();
    }

    /** The selector's objects are not the bytes of a slice. */
    lemma BodyApart(slice: PooledSlice)
      ensures selector.Frame() !! slice.Body()
    {
      FrameApart(selector);
    }

    /** The first half of freeSlice(slice): the slice's partition takes it back. */
    method TakeBack(slice: PooledSlice, ghost k: int) returns (r: Outcome, notices: seq<Notice>)
      requires Valid() && Holds(slice, k)
      modifies repr, slice.Body()
      ensures Valid() && selector.State() == old(selector.State())
      ensures var p := partitions[k];
        && slice.Cleared()
        && (var step := ReleaseStep(old(p.usedSlices.Bits()), old(States(p.slices)), slice.Header().index, k);
            r == step.0 && notices == step.1)
        && forall j :: 0 <= j < |partitions| ==>
             partitions[j].Avail() == old(Avails(partitions, repr))[j] + (if j == k && r == Pass then 1 else 0)
    {
      FrameApart(selector);
      assert selector.Frame() !! repr && selector.Frame() !! slice.Body();
      r, notices := ReturnSlice(partitions, repr, k, slice);
      match selector {
        case RoundRobin(_) =>
        case ThreadLocal(_) =>
        case ProcessorLocal(_) =>
      }
    }

    /** getUsedSliceCount() */
    method GetUsedSliceCount() returns (n: int)
      requires Valid()
      ensures n == ToInt(Sum(Useds(partitions, repr)))
    {
      n := SumUsed(partitions, repr);
    }

    /** getFreeSliceCount() */
    method GetFreeSliceCount() returns (n: int)
      requires Valid()
      ensures n == ToInt(Sum(Avails(partitions, repr)))
    {
      n := SumAvailable(partitions, repr);
    }

    /** Every slice of the pool is either in use or available. */
    lemma UsedAndFreeAddUp()
      requires Valid()
      ensures Sum(Useds(partitions, repr)) + Sum(Avails(partitions, repr)) == |partitions| * slices
    {
      SumPairs(Useds(partitions, repr), Avails(partitions, repr), slices);
    }

    /**
     * getUsedSliceCount() + getFreeSliceCount() == getSliceCount() in int arithmetic,
     * whatever wraps around.
     */
    lemma CountsAddUpToSliceCount()
      requires Valid()
      ensures ToInt(ToInt(Sum(Useds(partitions, repr))) + ToInt(Sum(Avails(partitions, repr))))
        == SliceCount(slices, |partitions|)
    {
      var u, a := Sum(Useds(partitions, repr)), Sum(Avails(partitions, repr));
      UsedAndFreeAddUp();
      ToIntAdd(u, ToInt(a));
      ToIntAdd(a, u);
      assert u + ToInt(a) == ToInt(a) + u;
    }

    /** getPartitionCount() */
    function GetPartitionCount(): (n: nat)
      ensures n == |partitions|
    {
      |partitions|
    }

    /** getAllocatedMemory() as written. */
    function GetAllocatedMemory(): (n: int)
      ensures IsInt(n)
    {
      AllocatedMemoryAsWritten(|partitions|, slices, sliceByteSize)
    }

    /** One step of close(): partition i is closed and its notices are delivered. */
    method CloseAt(i: nat) returns (r: Outcome)
      requires Valid() && i < |partitions|
      modifies selector.Frame(), ClosableOf(partitions, i)
      ensures Valid() && unchanged(repr) && selector.Frame() == old(selector.Frame())
      ensures Avails(partitions, repr) == old(Avails(partitions, repr)) && Closable(partitions) == old(Closable(partitions))
      ensures Open() == old(Open())[i := false]
      ensures var available := old(partitions[i].Avail());
        var notices := if old(partitions[i].closed.value) then [] else seq(slices, _ => Notice(i, available));
        (selector.State(), r) == ReleaseAll(old(selector.State()), notices)
    {
      var notices := Shut(i);
      ghost var flags, avail, closable := Open(), Avails(partitions, repr), Closable(partitions);
      r := Deliver(notices);
      assert Open() == flags && Avails(partitions, repr) == avail && Closable(partitions) == closable;
    }

    /** The first half of a step of close(): partition i is closed and hands back its notices. */
    method Shut(i: nat) returns (notices: seq<Notice>)
      requires Valid() && i < |partitions|
      modifies ClosableOf(partitions, i)
      ensures Valid() && unchanged(repr)
      ensures selector.Frame() == old(selector.Frame()) && selector.State() == old(selector.State())
      ensures Avails(partitions, repr) == old(Avails(partitions, repr)) && Closable(partitions) == old(Closable(partitions))
      ensures Open() == old(Open())[i := false]
      ensures notices == if old(partitions[i].closed.value) then [] else seq(slices, _ => Notice(i, old(partitions[i].Avail())))
    {
      ShutApart(i);
      notices := ClosePartition(partitions, repr, i, selector.Frame());
    }

    /** What closing partition i writes lies outside the selector's objects. */
    lemma ShutApart(i: nat)
      requires Valid() && i < |partitions|
      ensures partitions[i].closed !in selector.Frame() && selector.Frame() !! BodiesOf(partitions[i].slices)
      ensures selector.Frame() !! Flags()
    {
      BodiesApart(partitions[i].usedSlices, partitions[i].slices);
      FrameApart(selector);
    }

    /**
     * close() has passed the first i partitions, which were open as `open` says and had
     * `avail` slices available: they are closed now and every notice they sent reached a
     * selector that started in state `st`, without an error.
     */
    ghost predicate ClosedUpTo(open: seq<bool>, avail: seq<int>, st: SelectorState, i: nat)
      reads repr, selector.Frame(), Flags()
    {
      && Valid() && i <= |partitions| == |open| == |avail|
      && Avails(partitions, repr) == avail && Open() == Remaining(open, i)
      && (selector.State(), Pass) == ReleaseAll(st, ClosingNotices(open[..i], avail[..i], slices))
    }

    /** One turn of close()'s loop: partition i is closed next. */
    method CloseNext(i: nat, ghost open: seq<bool>, ghost avail: seq<int>, ghost st: SelectorState) returns (r: Outcome)
      requires ClosedUpTo(open, avail, st, i) && i < |partitions|
      modifies selector.Frame(), Closable(partitions)
      ensures Valid() && unchanged(repr) && selector.Frame() == old(selector.Frame())
      ensures Closable(partitions) == old(Closable(partitions))
      ensures r == Pass ==> ClosedUpTo(open, avail, st, i + 1)
      ensures (selector.State(), r) == ReleaseAll(st, ClosingNotices(open[..i + 1], avail[..i + 1], slices))
      ensures r.Fail? ==> (selector.State(), r) == ReleaseAll(st, ClosingNotices(open, avail, slices))
    {
      RemainingStep(open, i);
      ClosableCovers(partitions, i);
      assert partitions[i].Avail() == avail[i] && !partitions[i].closed.value == open[i];
      r := CloseAt(i);
      assert Within(partitions, repr);
      ClosingReleaseStep(st, open, avail, slices, i);
      if r.Fail? {
        ClosingReleaseStops(st, open, avail, slices, i + 1);
      }
    }

    /**
     * close(): every partition closed in index order. Each partition closed for the first
     * time tells the selector about each of its slices and frees them; an error from the
     * selector ends the loop.
     */
    method Close() returns (r: Outcome)
      requires Valid()
      modifies selector.Frame(), Closable(partitions)
      ensures Valid() && unchanged(repr)
      ensures (selector.State(), r)
        == ReleaseAll(old(selector.State()), ClosingNotices(old(Open()), old(Avails(partitions, repr)), slices))
      ensures r == Pass ==> forall i :: 0 <= i < |partitions| ==> partitions[i].closed.value
    {
      ghost var open := Open();
      ghost var avail := Avails(partitions, repr);
      ghost var st := selector.State();
      assert open[..0] == [] && avail[..0] == [];
      r := Pass;
      var i := 0;
      while i < |partitions|
        invariant 0 <= i <= |partitions| && r == Pass
        invariant unchanged(repr) && ClosedUpTo(open, avail, st, i)
        invariant selector.Frame() == old(selector.Frame()) && Closable(partitions) == old(Closable(partitions))
      {
        r := CloseNext(i, open, avail, st);
        if r.Fail? {
          return;
        }
        i := i + 1;
      }
      AllClosed(open, avail, st);
    }

    /** Once every partition has been passed, none remains open and every notice was delivered. */
    lemma AllClosed(open: seq<bool>, avail: seq<int>, st: SelectorState)
      requires ClosedUpTo(open, avail, st, |partitions|)
      ensures (selector.State(), Pass) == ReleaseAll(st, ClosingNotices(open, avail, slices))
      ensures forall i :: 0 <= i < |partitions| ==> partitions[i].closed.value
    {
      assert open[..|open|] == open && avail[..|avail|] == avail;
      forall j | 0 <= j < |partitions|
        ensures partitions[j].closed.value
      {
        assert !Open()[j];
      }
    }
  }
}

=== FILE: selectors.dfy ===
/**
 * Slice selectors: the policies by which a pool picks the partition whose get() serves a
 * request (RoundRobinPartitionSliceSelector, ThreadLocalPartitionSliceSelector and
 * ProcessorLocalPartitionSliceSelector), over the pool's array of bounded partitions.
 */
module Selectors {
  import opened Errors
  import opened Partitions

  // ----- the partitions a selector works on -----

  /** Each partition and its bitset's words lie in `repr`. */
  ghost predicate Within(partitions: seq<AbstractPartition>, repr: set<object>)
  {
    forall i :: 0 <= i < |partitions| ==> partitions[i] in repr && partitions[i].usedSlices.words in repr
  }

  /**
   * Every partition is valid, keeps its state inside `repr`, and no two share any state:
   * the pool's array of partitions as the selectors see it.
   */
  ghost predicate Separate(partitions: seq<AbstractPartition>, repr: set<object>)
    reads repr
  {
    && Within(partitions, repr)
    && (forall i :: 0 <= i < |partitions| ==> partitions[i].ValidFrame() <= repr && partitions[i].Valid())
    && (forall i, j :: 0 <= i < j < |partitions| ==> partitions[i].ValidFrame() !! partitions[j].ValidFrame())
  }

  /** Separate, from each partition's frame given in advance. */
  lemma SeparateByFrames(partitions: seq<AbstractPartition>, repr: set<object>, frames: seq<set<object>>)
    requires Within(partitions, repr) && |frames| == |partitions|
    requires forall j :: 0 <= j < |frames| ==> frames[j] <= repr
    requires forall i, j :: 0 <= i < j < |frames| ==> frames[i] !! frames[j]
    requires forall j :: 0 <= j < |partitions| ==> partitions[j].ValidFrame() == frames[j] && partitions[j].Valid()
    ensures Separate(partitions, repr)
  {
  }

  /** available() of every partition, in index order. */
  ghost function Avails(partitions: seq<AbstractPartition>, repr: set<object>): (avail: seq<int>)
    requires Within(partitions, repr)
    reads repr
    ensures |avail| == |partitions|
    ensures forall i :: 0 <= i < |partitions| ==> avail[i] == partitions[i].Avail()
  {
    seq(|partitions|, i requires 0 <= i < |partitions| reads repr => partitions[i].Avail())
  }

  /** The available() counts after partition k handed out `taken` slices. */
  ghost predicate TookFrom(partitions: seq<AbstractPartition>, repr: set<object>, before: seq<int>, k: int, taken: nat)
    requires Within(partitions, repr)
    reads repr
  {
    && |before| == |partitions|
    && forall j :: 0 <= j < |partitions| ==> partitions[j].Avail() == before[j] - (if j == k then taken else 0)
  }

  /** partitions[i].available() */
  method AvailableAt(partitions: seq<AbstractPartition>, ghost repr: set<object>, i: nat) returns (n: int)
    requires Separate(partitions, repr) && i < |partitions|
    ensures n == partitions[i].Avail()
  {
    n := partitions[i].Available();
  }

  /**
   * partitions[i].get(): a slice of partition i exactly when it has one available, and
   * only partition i's count changes.
   */
  method GetAt(partitions: seq<AbstractPartition>, ghost repr: set<object>, i: nat) returns (r: Option<PooledSlice>)
    requires Separate(partitions, repr) && i < |partitions|
    modifies repr
    ensures Separate(partitions, repr)
    ensures r.Some? <==> old(Avails(partitions, repr))[i] > 0
    ensures r.Some? ==> r.value.Owner() == partitions[i]
    ensures TookFrom(partitions, repr, old(Avails(partitions, repr)), i, if r.Some? then 1 else 0)
  {
    var partition := partitions[i];
    assert partition.Valid() && partition.GetFrame() <= partition.ValidFrame();
    ghost var frame := partition.GetFrame();
    r := partition.Get();
    forall j | 0 <= j < |partitions| && j != i
      ensures partitions[j].Valid() && partitions[j].Avail() == old(partitions[j].Avail())
    {
      assert old(partitions[j].ValidFrame()) !! frame;
    }
  }

  // ----- choosing a partition -----

  /** What a selection step chose: the partition whose get() serves the call, or the error thrown. */
  datatype Pick = Picked(partition: nat) | Failed(error: Error)

  /** The first index from k on whose partition has a slice available. */
  function FirstAvailable(avail: seq<int>, k: nat): (r: Option<nat>)
    requires k <= |avail|
    decreases |avail| - k
    ensures r.Some? ==> k <= r.value < |avail| && avail[r.value] > 0
    ensures r.Some? ==> forall j :: k <= j < r.value ==> avail[j] <= 0
    ensures r.None? <==> forall j :: k <= j < |avail| ==> avail[j] <= 0
  {
    if k == |avail| then None
    else if avail[k] > 0 then Some(k)
    else FirstAvailable(avail, k + 1)
  }

  /** Whatever index is found first, it is the one a left-to-right scan stops at. */
  lemma FirstAvailableIsScanStop(avail: seq<int>, k: nat, stop: nat)
    requires k <= stop < |avail| && avail[stop] > 0
    requires forall j :: k <= j < stop ==> avail[j] <= 0
    ensures FirstAvailable(avail, k) == Some(stop)
  {
  }

  /** Reducing an index at most one lap past the end. */
  lemma OneLap(a: int, n: int)
    requires 0 < n && 0 <= a < 2 * n
    ensures a % n == (if a < n then a else a - n)
  {
  }

  /** The cursor after probing position (start + retry) mod n, advanced and wrapped as selectPartitionSlice does. */
  lemma NextCursor(start: nat, retry: nat, n: nat)
    requires start < n && retry < n
    ensures (start + retry) % n == (if start + retry < n then start + retry else start + retry - n)
    ensures (start + retry + 1) % n == (if (start + retry) % n + 1 == n then 0 else (start + retry) % n + 1)
  {
    OneLap(start + retry, n);
    OneLap(start + retry + 1, n);
  }

  /** The counts in the order a cyclic probe starting at `start` visits them. */
  function Rotate(avail: seq<int>, start: nat): (rotated: seq<int>)
    requires start < |avail|
    ensures |rotated| == |avail|
    ensures forall j :: 0 <= j < |avail| ==> rotated[j] == avail[(start + j) % |avail|]
  {
    var rotated := avail[start..] + avail[..start];
    forall j | 0 <= j < |avail|
      ensures rotated[j] == avail[(start + j) % |avail|]
    {
      OneLap(start + j, |avail|);
    }
    rotated
  }

  /**
   * How a selection ends on the partitions: a picked partition has handed out exactly one
   * slice, which is the one returned; a failed selection returns its error and changes no
   * partition.
   */
  ghost predicate Served(partitions: seq<AbstractPartition>, repr: set<object>, before: seq<int>, pick: Pick, r: Result<PooledSlice>)
    requires Within(partitions, repr)
    reads repr
  {
    match pick
    case Picked(k) => k < |partitions| && r.Ok? && r.value.Owner() == partitions[k] && TookFrom(partitions, repr, before, k, 1)
    case Failed(e) => r == Err(e) && TookFrom(partitions, repr, before, -1, 0)
  }

  // ----- RoundRobinPartitionSliceSelector -----

  /**
   * One selectPartitionSlice() of the round-robin selector whose cursor is `cursor`, over
   * partitions whose available() counts are `avail`: the pick and the new cursor. Up to n
   * partitions are probed cyclically from the cursor, and the cursor moves one past the
   * last one probed. A cursor beyond the array (left over from a larger array) fails the
   * first access, after the cursor has been incremented.
   */
  function RoundRobinStep(avail: seq<int>, cursor: nat): (step: (Pick, nat))
    ensures cursor < |avail| ==> step.1 < |avail|
    ensures step.0.Picked? ==> step.0.partition < |avail| && avail[step.0.partition] > 0
  {
    var n := |avail|;
    if n == 0 then (Failed(Exhausted), cursor)
    else if cursor >= n then (Failed(IndexOutOfBounds), cursor + 1)
    else match FirstAvailable(Rotate(avail, cursor), 0)
      case None => (Failed(Exhausted), cursor)
      case Some(k) => (Picked((cursor + k) % n), (cursor + k + 1) % n)
  }

  /** A probe that finds partition (start + retry) mod n available after `retry` misses ends the step there. */
  lemma ProbeHit(avail: seq<int>, start: nat, retry: nat)
    requires start < |avail| && retry < |avail|
    requires forall j :: 0 <= j < retry ==> Rotate(avail, start)[j] <= 0
    requires avail[(start + retry) % |avail|] > 0
    ensures RoundRobinStep(avail, start) == (Picked((start + retry) % |avail|), (start + retry + 1) % |avail|)
  {
    FirstAvailableIsScanStop(Rotate(avail, start), 0, retry);
  }

  /** The round-robin selector gives up exactly when no partition has a slice available. */
  lemma RoundRobinExhaustedIffFull(avail: seq<int>, cursor: nat)
    requires cursor < |avail| || |avail| == 0
    ensures RoundRobinStep(avail, cursor).0 == Failed(Exhausted) <==> forall i :: 0 <= i < |avail| ==> avail[i] <= 0
  {
    var n := |avail|;
    if n > 0 && forall j :: 0 <= j < n ==> Rotate(avail, cursor)[j] <= 0 {
      forall i | 0 <= i < n
        ensures avail[i] <= 0
      {
        var j := if i >= cursor then i - cursor else i - cursor + n;
        OneLap(cursor + j, n);
        assert Rotate(avail, cursor)[j] <= 0;
      }
    }
  }

  /** How many steps a cyclic probe over n partitions takes from index `from` to index `to`. */
  function Distance(from: nat, to: nat, n: nat): nat
    requires from < n && to < n
  {
    if to >= from then to - from else to + n - from
  }

  /**
   * A pick is the first partition with a slice available in cyclic order from the cursor:
   * every partition the probe passes before it has none, and the cursor ends just past
   * it, wrapped to the array.
   */
  lemma RoundRobinPicksFirstInCycle(avail: seq<int>, cursor: nat)
    requires cursor < |avail|
    requires RoundRobinStep(avail, cursor).0.Picked?
    ensures var n := |avail|;
      var p := RoundRobinStep(avail, cursor).0.partition;
      && RoundRobinStep(avail, cursor).1 == (if p + 1 == n then 0 else p + 1)
      && forall i :: 0 <= i < n && Distance(cursor, i, n) < Distance(cursor, p, n) ==> avail[i] <= 0
  {
    var n := |avail|;
    var rotated := Rotate(avail, cursor);
    var k := FirstAvailable(rotated, 0).value;
    OneLap(cursor + k, n);
    OneLap(cursor + k + 1, n);
    var p := RoundRobinStep(avail, cursor).0.partition;
    assert Distance(cursor, p, n) == k;
    forall i | 0 <= i < n && Distance(cursor, i, n) < k
      ensures avail[i] <= 0
    {
      var j := Distance(cursor, i, n);
      OneLap(cursor + j, n);
      assert rotated[j] <= 0;
    }
  }

  /** RoundRobinPartitionSliceSelector: a cursor over the partition array. */
  class RoundRobinSelector {
    var index: nat

    constructor ()
      ensures index == 0
    {
      index := 0;
    }

    /** selectPartitionSlice(partitions) */
    method Select(partitions: seq<AbstractPartition>, ghost repr: set<object>) returns (r: Result<PooledSlice>)
      requires Separate(partitions, repr) && this !in repr
      modifies this, repr
      ensures Separate(partitions, repr)
      ensures var step := RoundRobinStep(old(Avails(partitions, repr)), old(index));
        index == step.1 && Served(partitions, repr, old(Avails(partitions, repr)), step.0, r)
    {
      var avail := Snapshot(partitions, repr);
      var pick := Choose(avail);
      assert Separate(partitions, repr) && Avails(partitions, repr) == avail;
      r := Serve(partitions, repr, pick);
    }

    /**
     * The probe loop of selectPartitionSlice on the partitions' counts: the pick and the
     * new cursor are those of RoundRobinStep.
     */
    method Choose(avail: seq<int>) returns (pick: Pick)
      modifies this
      ensures (pick, index) == RoundRobinStep(avail, old(index))
    {
      var n := |avail|;
      ghost var start := index;
      var retry := 0;
      while retry < n
        invariant 0 <= retry <= n
        invariant start >= n ==> retry == 0 && index == start
        invariant start < n ==> index == (start + retry) % n
        invariant start < n ==> forall j :: 0 <= j < retry ==> Rotate(avail, start)[j] <= 0
      {
        if index >= n {
          index := index + 1;
          return Failed(IndexOutOfBounds);
        }
        var k := index;
        NextCursor(start, retry, n);
        index := index + 1;
        if index == n {
          index := 0;
        }
        if avail[k] > 0 {
          ProbeHit(avail, start, retry);
          return Picked(k);
        }
        retry := retry + 1;
      }
      if n > 0 {
        OneLap(start + n, n);
        assert FirstAvailable(Rotate(avail, start), 0).None?;
      }
      pick := Failed(Exhausted);
    }

    /** freePartitionSlice(...): the round-robin selector keeps no per-partition state. */
    method Free(notice: Notice)
      ensures unchanged(this)
    {
    }
  }


  /**
   * available() of each partition, read once in index order. available() changes
   * nothing, so a selector deciding on these counts decides as one that calls it on a
   * partition when it reaches it.
   */
  method Snapshot(partitions: seq<AbstractPartition>, ghost repr: set<object>) returns (avail: seq<int>)
    requires Separate(partitions, repr)
    ensures avail == Avails(partitions, repr)
  {
    avail := [];
    var index := 0;
    while index < |partitions|
      invariant 0 <= index <= |partitions| && |avail| == index
      invariant forall j :: 0 <= j < index ==> avail[j] == partitions[j].Avail()
    {
      var available := AvailableAt(partitions, repr, index);
      avail := avail + [available];
      index := index + 1;
    }
  }

  /**
   * The get() that ends a selection: partitions[k].get() for a pick of partition k, which
   * has a slice available; the exception for a failed pick.
   */
  method Serve(partitions: seq<AbstractPartition>, ghost repr: set<object>, pick: Pick) returns (r: Result<PooledSlice>)
    requires Separate(partitions, repr)
    requires pick.Picked? ==> pick.partition < |partitions| && partitions[pick.partition].Avail() > 0
    modifies repr
    ensures Separate(partitions, repr)
    ensures Served(partitions, repr, old(Avails(partitions, repr)), pick, r)
  {
    if pick.Failed? {
      return Err(pick.error);
    }
    var slice := GetAt(partitions, repr, pick.partition);
    r := Ok(slice.value);
  }

  /** The fallback loop of the affinity selectors: the first index with a positive count, or -1. */
  method ScanAvailable(avail: seq<int>) returns (found: int)
    ensures var pick := FirstAvailable(avail, 0);
      found == if pick.Some? then pick.value else -1
  {
    found := -1;
    var index := 0;
    while index < |avail|
      invariant 0 <= index <= |avail| && found == -1
      invariant forall j :: 0 <= j < index ==> avail[j] <= 0
    {
      if avail[index] > 0 {
        found := index;
        FirstAvailableIsScanStop(avail, 0, index);
        break;
      }
      index := index + 1;
    }
  }

  // ----- claim tables -----

  /** The counts with every claimed partition counted as having nothing available. */
  function Unclaimed(avail: seq<int>, claimed: seq<bool>): (counts: seq<int>)
    requires |claimed| == |avail|
    ensures |counts| == |avail|
    ensures forall i :: 0 <= i < |avail| ==> counts[i] == (if claimed[i] then 0 else avail[i])
  {
    seq(|avail|, i requires 0 <= i < |avail| => if claimed[i] then 0 else avail[i])
  }

  /** The claim table after a scan has claimed every entry below `limit`. */
  function ClaimedBelow(claimed: seq<bool>, limit: nat): (after: seq<bool>)
    ensures |after| == |claimed|
    ensures forall i :: 0 <= i < |claimed| ==> after[i] == (claimed[i] || i < limit)
  {
    seq(|claimed|, i requires 0 <= i < |claimed| => claimed[i] || i < limit)
  }

  /**
   * The claim loop of ThreadLocalPartitionSliceSelector: every unclaimed entry it reaches
   * is claimed, and it stops at the first of them whose partition has a slice available
   * (its index) or at the end (-1).
   */
  method ClaimUntilAvailable(avail: seq<int>, table: array<bool>) returns (found: int)
    requires table.Length == |avail|
    modifies table
    ensures var pick := FirstAvailable(Unclaimed(avail, old(table[..])), 0);
      && found == (if pick.Some? then pick.value else -1)
      && table[..] == ClaimedBelow(old(table[..]), if pick.Some? then found + 1 else |avail|)
  {
    found := -1;
    var index := 0;
    while index < table.Length
      invariant 0 <= index <= table.Length && found == -1
      invariant forall j :: 0 <= j < table.Length ==> table[j] == (old(table[j]) || j < index)
      invariant forall j :: 0 <= j < index ==> old(table[j]) || avail[j] <= 0
    {
      if !table[index] {
        table[index] := true;
        if avail[index] > 0 {
          found := index;
          break;
        }
      }
      index := index + 1;
    }
    ghost var masked := Unclaimed(avail, old(table[..]));
    if found == -1 {
      assert FirstAvailable(masked, 0).None?;
    } else {
      FirstAvailableIsScanStop(masked, 0, found);
    }
  }

  /** new boolean[n]: a fresh claim table with every entry false. */
  method NewClaimTable(n: nat) returns (table: array<bool>)
    ensures fresh(table) && table.Length == n
    ensures forall i :: 0 <= i < n ==> !table[i]
  {
    table := new bool[n](_ => false);
  }

  // ----- ThreadLocalPartitionSliceSelector -----

  /**
   * The thread-affinity selector's state as a value: each thread's assigned partition (an
   * index into the partition array), the lazily created claim table, and the statistics
   * counters.
   */
  datatype AffinityState = AffinityState(
    assignment: map<int, nat>,
    claimed: Option<seq<bool>>,
    access: int,
    collisions: int,
    reallocations: int)

  /** The state refers to an array of n partitions only. */
  ghost predicate AffinityServes(st: AffinityState, n: nat)
  {
    && (st.claimed.Some? ==> |st.claimed.value| == n)
    && (forall t :: t in st.assignment ==> st.assignment[t] < n)
  }

  /**
   * One selectPartitionSlice() by thread `thread`: its own partition if that has a slice
   * available; otherwise claim unclaimed partitions in index order until one has a slice
   * available, which becomes the thread's; otherwise the first partition of all with a
   * slice available; otherwise exhausted.
   */
  function ThreadLocalStep(st: AffinityState, avail: seq<int>, thread: int): (step: (AffinityState, Pick))
    requires AffinityServes(st, |avail|)
    ensures AffinityServes(step.0, |avail|)
    ensures step.1.Picked? ==> step.1.partition < |avail| && avail[step.1.partition] > 0
  {
    var n := |avail|;
    var next := st.(access := st.access + 1);
    if thread in st.assignment && avail[st.assignment[thread]] > 0 then
      (next, Picked(st.assignment[thread]))
    else
      var claimed := if st.claimed.Some? then st.claimed.value else seq(n, _ => false);
      match FirstAvailable(Unclaimed(avail, claimed), 0)
      case Some(k) =>
        (next.(claimed := Some(ClaimedBelow(claimed, k + 1)),
               assignment := st.assignment[thread := k],
               reallocations := st.reallocations + 1),
         Picked(k))
      case None =>
        var swept := next.(claimed := Some(ClaimedBelow(claimed, n)));
        match FirstAvailable(avail, 0)
        case Some(k) => (swept.(collisions := st.collisions + 1), Picked(k))
        case None => (swept, Failed(Exhausted))
  }

  /**
   * Every call counts one access; a pick is a partition with a slice available; the call
   * fails, as exhausted, exactly when no partition has one; a thread whose partition has
   * one is served from it with nothing else changed; and only the calling thread's
   * assignment can change, to a partition with a slice available.
   */
  lemma ThreadLocalStepSpec(st: AffinityState, avail: seq<int>, thread: int)
    requires AffinityServes(st, |avail|)
    ensures var step := ThreadLocalStep(st, avail, thread);
      && step.0.access == st.access + 1
      && (step.1.Failed? ==> step.1.error == Exhausted)
      && (step.1.Failed? <==> forall i :: 0 <= i < |avail| ==> avail[i] <= 0)
      && (thread in st.assignment && avail[st.assignment[thread]] > 0 ==>
            step == (st.(access := st.access + 1), Picked(st.assignment[thread])))
      && (forall t :: t in step.0.assignment ==>
            || (t in st.assignment && step.0.assignment[t] == st.assignment[t])
            || (t == thread && avail[step.0.assignment[t]] > 0))
  {
  }

  /**
   * The claim scan only passes over partitions that have nothing available: every entry
   * it newly claims is the partition it picks or an empty one, and no claim is dropped.
   */
  lemma ThreadLocalClaimsSkipOnlyEmpty(st: AffinityState, avail: seq<int>, thread: int)
    requires AffinityServes(st, |avail|)
    ensures var step := ThreadLocalStep(st, avail, thread);
      var before := if st.claimed.Some? then st.claimed.value else seq(|avail|, _ => false);
      && step.0.claimed.Some? == (st.claimed.Some? || !(thread in st.assignment && avail[st.assignment[thread]] > 0))
      && (step.0.claimed.Some? ==>
            forall i :: 0 <= i < |avail| ==>
              && (before[i] ==> step.0.claimed.value[i])
              && (step.0.claimed.value[i] && !before[i] ==> step.1 == Picked(i) || avail[i] <= 0))
  {
    var n := |avail|;
    var claimed := if st.claimed.Some? then st.claimed.value else seq(n, _ => false);
    var masked := Unclaimed(avail, claimed);
    if !(thread in st.assignment && avail[st.assignment[thread]] > 0) {
      match FirstAvailable(masked, 0)
      case Some(k) =>
        forall i | 0 <= i < k && !claimed[i]
          ensures avail[i] <= 0
        {
          assert masked[i] <= 0;
        }
      case None =>
        forall i | 0 <= i < n && !claimed[i]
          ensures avail[i] <= 0
        {
          assert masked[i] <= 0;
        }
    }
  }

  /**
   * freePartitionSlice(partition, partitionIndex, slice) as the notice reports it: the
   * partition's claim is dropped when it had nothing available when the slice came back.
   * Before any selection the table does not exist; an index beyond it is out of range.
   */
  function ThreadLocalRelease(st: AffinityState, notice: Notice): (step: (AffinityState, Outcome))
    ensures step.0.assignment == st.assignment && step.0.access == st.access
    ensures step.0.claimed.Some? == st.claimed.Some?
    ensures st.claimed.Some? ==>
      && |step.0.claimed.value| == |st.claimed.value|
      && forall i :: 0 <= i < |st.claimed.value| ==>
           step.0.claimed.value[i] == (st.claimed.value[i] && !(i == notice.partitionIndex && step.1 == Pass && notice.available == 0))
    ensures step.1 == Pass <==> notice.available != 0 || (st.claimed.Some? && 0 <= notice.partitionIndex < |st.claimed.value|)
    ensures notice.available != 0 ==> step == (st, Pass)
  {
    if notice.available != 0 then (st, Pass)
    else if st.claimed.None? then (st, Fail(NullPointer))
    else if !(0 <= notice.partitionIndex < |st.claimed.value|) then (st, Fail(IndexOutOfBounds))
    else (st.(claimed := Some(st.claimed.value[notice.partitionIndex := false])), Pass)
  }


  /**
   * ThreadLocalPartitionSliceSelector. The ThreadLocal assignment is a map from an explicit
   * thread id to the index of the assigned partition.
   */
  class ThreadLocalSelector {
    var assignment: map<int, nat>
    var assignedTable: array?<bool>
    var access: int
    var collisions: int
    var reallocatePartition: int

    constructor ()
      ensures State() == AffinityState(map[], None, 0, 0, 0)
    {
      assignment := map[];
      assignedTable := null;
      access := 0;
      collisions := 0;
      reallocatePartition := 0;
    }

    ghost function State(): AffinityState
      reads this, assignedTable
    {
      AffinityState(assignment, if assignedTable == null then None else Some(assignedTable[..]),
                    access, collisions, reallocatePartition)
    }

    /** The selector's own state lies outside the partitions'. */
    ghost predicate Apart(repr: set<object>)
      reads this
    {
      this !in repr && (assignedTable == null || assignedTable !in repr)
    }

    /**
     * selectPartitionSlice(partitions) called by thread `thread`: decides which partition
     * serves the call, then takes a slice from it.
     */
    method Select(partitions: seq<AbstractPartition>, ghost repr: set<object>, thread: int) returns (r: Result<PooledSlice>)
      requires Separate(partitions, repr) && Apart(repr) && AffinityServes(State(), |partitions|)
      modifies this, assignedTable, repr
      ensures Separate(partitions, repr) && Apart(repr)
      ensures var step := ThreadLocalStep(old(State()), old(Avails(partitions, repr)), thread);
        State() == step.0 && Served(partitions, repr, old(Avails(partitions, repr)), step.1, r)
    {
      var avail := Snapshot(partitions, repr);
      var pick := Choose(avail, thread, repr);
      ghost var state := State();
      assert unchanged(repr);
      assert Separate(partitions, repr) && Avails(partitions, repr) == avail;
      r := Serve(partitions, repr, pick);
      assert State() == state;
    }

    /**
     * The decision half of selectPartitionSlice on the partitions' counts: the new state and
     * the partition chosen are those of ThreadLocalStep.
     */
    method Choose(avail: seq<int>, thread: int, ghost repr: set<object>) returns (pick: Pick)
      requires AffinityServes(State(), |avail|) && Apart(repr)
      modifies this, assignedTable
      ensures (State(), pick) == ThreadLocalStep(old(State()), avail, thread)
      ensures Apart(repr)
    {
      ghost var claimed := if assignedTable == null then seq(|avail|, _ => false) else assignedTable[..];
      access := access + 1;
      if thread in assignment && avail[assignment[thread]] > 0 {
        return Picked(assignment[thread]);
      }
      if assignedTable == null {
        assignedTable := NewClaimTable(|avail|);
      }
      assert assignedTable[..] == claimed;
      var found := ClaimUntilAvailable(avail, assignedTable);
      if found >= 0 {
        assignment := assignment[thread := found];
        reallocatePartition := reallocatePartition + 1;
        return Picked(found);
      }
      found := ScanAvailable(avail);
      if found >= 0 {
        collisions := collisions + 1;
        return Picked(found);
      }
      pick := Failed(Exhausted);
    }

    /** freePartitionSlice(...), given the notice the partition sends. */
    method Free(notice: Notice) returns (r: Outcome)
      modifies assignedTable
      ensures (State(), r) == ThreadLocalRelease(old(State()), notice)
    {
      if notice.available == 0 {
        if assignedTable == null {
          return Fail(NullPointer);
        }
        if !(0 <= notice.partitionIndex < assignedTable.Length) {
          return Fail(IndexOutOfBounds);
        }
        assignedTable[notice.partitionIndex] := false;
      }
      r := Pass;
    }
  }

  // ----- ProcessorLocalPartitionSliceSelector -----

  /** The entries of an assignment table that some processor holds (-1 is unassigned). */
  function Taken(table: seq<int>): (taken: seq<bool>)
    ensures |taken| == |table|
    ensures forall i :: 0 <= i < |table| ==> taken[i] == (table[i] != -1)
  {
    seq(|table|, i requires 0 <= i < |table| => table[i] != -1)
  }

  /** The assignment table after processor `cpu` has taken every unassigned entry below `limit`. */
  function AssignedBelow(table: seq<int>, cpu: int, limit: nat): (after: seq<int>)
    ensures |after| == |table|
    ensures forall i :: 0 <= i < |table| ==> after[i] == (if i < limit && table[i] == -1 then cpu else table[i])
  {
    seq(|table|, i requires 0 <= i < |table| => if i < limit && table[i] == -1 then cpu else table[i])
  }

  /** The highest unassigned index below `limit`: the last entry a claim loop stopping there took. */
  function LastUnassigned(table: seq<int>, limit: nat): (r: Option<nat>)
    requires limit <= |table|
    ensures r.Some? ==> r.value < limit && table[r.value] == -1
    ensures r.Some? ==> forall j :: r.value < j < limit ==> table[j] != -1
    ensures r.None? <==> forall j :: 0 <= j < limit ==> table[j] != -1
  {
    if limit == 0 then None
    else if table[limit - 1] == -1 then Some(limit - 1)
    else LastUnassigned(table, limit - 1)
  }

  /**
   * The processor-affinity selector's state as a value: each processor's local partition
   * (an index, -1 for none) and the lazily created table of which processor holds each
   * partition (-1 for none).
   */
  datatype CpuState = CpuState(local: seq<int>, owners: Option<seq<int>>)

  /** The state refers to an array of n partitions only. */
  ghost predicate CpuServes(st: CpuState, n: nat)
  {
    && (forall c :: 0 <= c < |st.local| ==> -1 <= st.local[c] < n)
    && (st.owners.Some? ==> |st.owners.value| == n)
  }

  /**
   * One selectPartitionSlice() on processor `cpu`: an id outside the local-partition array
   * fails; the processor's local partition serves if it has a slice available; otherwise
   * the claim loop gives every unassigned partition it reaches to the processor, making it
   * the local partition, and stops at the first with a slice available; otherwise the
   * first partition of all with a slice available; otherwise exhausted.
   */
  function ProcessorLocalStep(st: CpuState, avail: seq<int>, cpu: int): (step: (CpuState, Pick))
    requires CpuServes(st, |avail|)
    ensures CpuServes(step.0, |avail|)
    ensures step.1.Picked? ==> step.1.partition < |avail| && avail[step.1.partition] > 0
  {
    var n := |avail|;
    if !(0 <= cpu < |st.local|) then (st, Failed(IndexOutOfBounds))
    else if st.local[cpu] != -1 && avail[st.local[cpu]] > 0 then (st, Picked(st.local[cpu]))
    else
      var table := if st.owners.Some? then st.owners.value else seq(n, _ => -1);
      match FirstAvailable(Unclaimed(avail, Taken(table)), 0)
      case Some(k) =>
        (CpuState(st.local[cpu := k], Some(AssignedBelow(table, cpu, k + 1))), Picked(k))
      case None =>
        var last := LastUnassigned(table, n);
        var swept := CpuState(if last.Some? then st.local[cpu := last.value] else st.local,
                              Some(AssignedBelow(table, cpu, n)));
        match FirstAvailable(avail, 0)
        case Some(k) => (swept, Picked(k))
        case None => (swept, Failed(Exhausted))
  }

  /**
   * An unknown processor id fails before anything changes; otherwise the call fails, as
   * exhausted, exactly when no partition has a slice available; a processor whose local
   * partition has one is served from it with nothing changed; and only the calling
   * processor's local partition can change.
   */
  lemma ProcessorLocalStepSpec(st: CpuState, avail: seq<int>, cpu: int)
    requires CpuServes(st, |avail|)
    ensures var step := ProcessorLocalStep(st, avail, cpu);
      && (step.1 == Failed(IndexOutOfBounds) <==> !(0 <= cpu < |st.local|))
      && (!(0 <= cpu < |st.local|) ==> step.0 == st)
      && (step.1 == Failed(Exhausted) <==> 0 <= cpu < |st.local| && forall i :: 0 <= i < |avail| ==> avail[i] <= 0)
      && (0 <= cpu < |st.local| && st.local[cpu] != -1 && avail[st.local[cpu]] > 0 ==>
            step == (st, Picked(st.local[cpu])))
      && |step.0.local| == |st.local|
      && (forall c :: 0 <= c < |st.local| && c != cpu ==> step.0.local[c] == st.local[c])
  {
  }

  /**
   * The claim loop only passes over partitions that have nothing available: every entry
   * it newly assigns goes to the calling processor and is the partition it picks or an
   * empty one, and no assignment is dropped or moved.
   */
  lemma ProcessorLocalClaimsSkipOnlyEmpty(st: CpuState, avail: seq<int>, cpu: int)
    requires CpuServes(st, |avail|)
    ensures var step := ProcessorLocalStep(st, avail, cpu);
      var before := if st.owners.Some? then st.owners.value else seq(|avail|, _ => -1);
      step.0.owners.Some? ==>
        forall i :: 0 <= i < |avail| ==>
          && (before[i] != -1 ==> step.0.owners.value[i] == before[i])
          && (step.0.owners.value[i] != before[i] ==>
                step.0.owners.value[i] == cpu && (step.1 == Picked(i) || avail[i] <= 0))
  {
    var n := |avail|;
    var table := if st.owners.Some? then st.owners.value else seq(n, _ => -1);
    var masked := Unclaimed(avail, Taken(table));
    if 0 <= cpu < |st.local| && !(st.local[cpu] != -1 && avail[st.local[cpu]] > 0) {
      match FirstAvailable(masked, 0)
      case Some(k) =>
        forall i | 0 <= i < k && table[i] == -1
          ensures avail[i] <= 0
        {
          assert masked[i] <= 0;
        }
      case None =>
        forall i | 0 <= i < n && table[i] == -1
          ensures avail[i] <= 0
        {
          assert masked[i] <= 0;
        }
    }
  }

  /**
   * freePartitionSlice(partition, partitionIndex, slice) as the notice reports it: the
   * partition's assignment is dropped when it had nothing available when the slice came
   * back. Before any claim loop the table does not exist; an index beyond it is out of range.
   */
  function ProcessorLocalRelease(st: CpuState, notice: Notice): (step: (CpuState, Outcome))
    ensures step.0.local == st.local
    ensures step.0.owners.Some? == st.owners.Some?
    ensures st.owners.Some? ==>
      && |step.0.owners.value| == |st.owners.value|
      && forall i :: 0 <= i < |st.owners.value| ==>
           step.0.owners.value[i] == (if i == notice.partitionIndex && step.1 == Pass && notice.available == 0 then -1 else st.owners.value[i])
    ensures step.1 == Pass <==> notice.available != 0 || (st.owners.Some? && 0 <= notice.partitionIndex < |st.owners.value|)
    ensures notice.available != 0 ==> step == (st, Pass)
  {
    if notice.available != 0 then (st, Pass)
    else if st.owners.None? then (st, Fail(NullPointer))
    else if !(0 <= notice.partitionIndex < |st.owners.value|) then (st, Fail(IndexOutOfBounds))
    else (st.(owners := Some(st.owners.value[notice.partitionIndex := -1])), Pass)
  }

  /** new int[n] filled with -1: a fresh assignment table with no entry assigned. */
  method NewAssignmentTable(n: nat) returns (table: array<int>)
    ensures fresh(table) && table.Length == n
    ensures forall i :: 0 <= i < n ==> table[i] == -1
  {
    table := new int[n](_ => -1);
  }

  /**
   * The claim loop of ProcessorLocalPartitionSliceSelector for processor `cpu`: every
   * unassigned entry it reaches is assigned to the processor and becomes its local
   * partition, and it stops at the first of them whose partition has a slice available
   * (its index) or at the end (-1).
   */
  method AssignUntilAvailable(avail: seq<int>, table: array<int>, local: array<int>, cpu: int) returns (found: int)
    requires table.Length == |avail| && table != local && 0 <= cpu < local.Length
    modifies table, local
    ensures var pick := FirstAvailable(Unclaimed(avail, Taken(old(table[..]))), 0);
      && found == (if pick.Some? then pick.value else -1)
      && table[..] == AssignedBelow(old(table[..]), cpu, if pick.Some? then found + 1 else |avail|)
      && local[..] == if pick.Some? then old(local[..])[cpu := found]
                      else match LastUnassigned(old(table[..]), |avail|)
                           case Some(last) => old(local[..])[cpu := last]
                           case None => old(local[..])
  {
    ghost var t0, l0 := table[..], local[..];
    found := -1;
    var index := 0;
    while index < table.Length
      invariant 0 <= index <= table.Length && found == -1
      invariant table[..] == AssignedBelow(t0, cpu, index)
      invariant forall j :: 0 <= j < index ==> t0[j] != -1 || avail[j] <= 0
      invariant local[..] == match LastUnassigned(t0, index)
                             case Some(last) => l0[cpu := last]
                             case None => l0
    {
      if table[index] == -1 {
        table[index] := cpu;
        local[cpu] := index;
        if avail[index] > 0 {
          assert table[..] == AssignedBelow(t0, cpu, index + 1) && local[..] == l0[cpu := index];
          found := index;
          break;
        }
      }
      index := index + 1;
    }
    ghost var masked := Unclaimed(avail, Taken(t0));
    if found == -1 {
      assert FirstAvailable(masked, 0).None?;
    } else {
      FirstAvailableIsScanStop(masked, 0, found);
    }
  }

  /**
   * ProcessorLocalPartitionSliceSelector. The processor count and the id of the processor
   * a call runs on, which the source obtains from the operating system, are parameters.
   */
  class ProcessorLocalSelector {
    const cpuLocalPartition: array<int>
    var assignedTable: array?<int>

    constructor (processorCount: nat)
      ensures State() == CpuState(seq(processorCount, _ => -1), None)
      ensures Valid() && fresh(cpuLocalPartition)
    {
      cpuLocalPartition := new int[processorCount](_ => -1);
      assignedTable := null;
      new;
      assert cpuLocalPartition[..] == seq(processorCount, _ => -1);
    }

    ghost function State(): CpuState
      reads this, cpuLocalPartition, assignedTable
    {
      CpuState(cpuLocalPartition[..], if assignedTable == null then None else Some(assignedTable[..]))
    }

    /** The two arrays are distinct. */
    ghost predicate Valid()
      reads this
    {
      assignedTable != cpuLocalPartition
    }

    /** The selector's own state lies outside the partitions'. */
    ghost predicate Apart(repr: set<object>)
      reads this
    {
      && this !in repr && cpuLocalPartition !in repr
      && (assignedTable == null || assignedTable !in repr)
    }

    /**
     * selectPartitionSlice(partitions) called on processor `cpu`: decides which partition
     * serves the call, then takes a slice from it.
     */
    method Select(partitions: seq<AbstractPartition>, ghost repr: set<object>, cpu: int) returns (r: Result<PooledSlice>)
      requires Valid() && Separate(partitions, repr) && Apart(repr) && CpuServes(State(), |partitions|)
      modifies this, cpuLocalPartition, assignedTable, repr
      ensures Valid() && Separate(partitions, repr) && Apart(repr)
      ensures var step := ProcessorLocalStep(old(State()), old(Avails(partitions, repr)), cpu);
        State() == step.0 && Served(partitions, repr, old(Avails(partitions, repr)), step.1, r)
    {
      var avail := Snapshot(partitions, repr);
      var pick := Choose(avail, cpu, repr);
      ghost var state := State();
      assert unchanged(repr);
      assert Separate(partitions, repr) && Avails(partitions, repr) == avail;
      r := Serve(partitions, repr, pick);
      assert State() == state;
    }

    /**
     * The decision half of selectPartitionSlice on the partitions' counts: the new state and
     * the partition chosen are those of ProcessorLocalStep.
     */
    method Choose(avail: seq<int>, cpu: int, ghost repr: set<object>) returns (pick: Pick)
      requires Valid() && CpuServes(State(), |avail|) && Apart(repr)
      modifies this, cpuLocalPartition, assignedTable
      ensures (State(), pick) == ProcessorLocalStep(old(State()), avail, cpu)
      ensures Valid() && Apart(repr)
    {
      if !(0 <= cpu < cpuLocalPartition.Length) {
        return Failed(IndexOutOfBounds);
      }
      var own := cpuLocalPartition[cpu];
      if own != -1 && avail[own] > 0 {
        return Picked(own);
      }
      ghost var entries := if assignedTable == null then seq(|avail|, _ => -1) else assignedTable[..];
      ghost var local := cpuLocalPartition[..];
      if assignedTable == null {
        assignedTable := NewAssignmentTable(|avail|);
      }
      assert assignedTable[..] == entries && cpuLocalPartition[..] == local;
      var found := AssignUntilAvailable(avail, assignedTable, cpuLocalPartition, cpu);
      if found >= 0 {
        return Picked(found);
      }
      found := ScanAvailable(avail);
      if found >= 0 {
        return Picked(found);
      }
      pick := Failed(Exhausted);
    }

    /** freePartitionSlice(...), given the notice the partition sends. */
    method Free(notice: Notice) returns (r: Outcome)
      requires Valid()
      modifies assignedTable
      ensures (State(), r) == ProcessorLocalRelease(old(State()), notice)
    {
      if notice.available == 0 {
        if assignedTable == null {
          return Fail(NullPointer);
        }
        if !(0 <= notice.partitionIndex < assignedTable.Length) {
          return Fail(IndexOutOfBounds);
        }
        assignedTable[notice.partitionIndex] := -1;
      }
      r := Pass;
    }
  }
}

=== FILE: slices.dfy ===
/**
 * Partition slices: the lock/unlock protocol every slice inherits
 * (AbstractPartitionSlice) and the two kinds of storage behind a slice, a
 * ByteBuffer (ByteBufferPartitionSlice and its pooled twin) and a raw memory
 * region (UnsafePartitionSlice and its pooled twin).
 */
module Slices {
  import opened Errors
  import opened BufferUtils

  // ----- the lock protocol -----

  /** The lock flag and the acquired/freed counters of a slice. */
  datatype LockState = LockState(locked: bool, acquired: int, freed: int)

  /** The protocol invariant: one acquire more than frees exactly while locked. */
  predicate Balanced(s: LockState)
  {
    s.acquired == s.freed + (if s.locked then 1 else 0)
  }

  /**
   * lock(): the compare-and-set fails on a locked slice; otherwise the flag is set
   * first and only then are the counters compared.
   */
  function LockStep(s: LockState): (Outcome, LockState)
  {
    if s.locked then (Fail(IllegalState), s)
    else if s.acquired != s.freed then (Fail(IllegalState), s.(locked := true))
    else (Pass, LockState(true, s.acquired + 1, s.freed))
  }

  /** unlock(): fails on an unlocked slice; otherwise clears the flag and counts one free. */
  function UnlockStep(s: LockState): (Outcome, LockState)
  {
    if !s.locked then (Fail(IllegalState), s)
    else (Pass, LockState(false, s.acquired, s.freed + 1))
  }

  /** A call of lock() (true) or unlock() (false). */
  function Replay(s: LockState, calls: seq<bool>): LockState
    decreases |calls|
  {
    if calls == [] then s
    else
      var next := if calls[0] then LockStep(s).1 else UnlockStep(s).1;
      Replay(next, calls[1..])
  }

  /** From any balanced state, every sequence of lock/unlock calls, failing ones included, stays balanced. */
  lemma {:induction false} ReplayKeepsBalance(s: LockState, calls: seq<bool>)
    requires Balanced(s)
    ensures Balanced(Replay(s, calls))
    decreases |calls|
  {
    if calls != [] {
      var next := if calls[0] then LockStep(s).1 else UnlockStep(s).1;
      assert Balanced(next);
      ReplayKeepsBalance(next, calls[1..]);
    }
  }

  /** On a balanced slice lock() fails exactly when it is locked, and then changes nothing. */
  lemma LockOnBalanced(s: LockState)
    requires Balanced(s)
    ensures LockStep(s).0 == Pass <==> !s.locked
    ensures s.locked ==> LockStep(s).1 == s
    ensures !s.locked ==> LockStep(s).1 == LockState(true, s.acquired + 1, s.freed)
  {
  }

  /** lock then unlock restores the flag and leaves the counters equal. */
  lemma LockUnlockRoundTrip(s: LockState)
    requires Balanced(s) && !s.locked
    ensures LockStep(s).0 == Pass && UnlockStep(LockStep(s).1).0 == Pass
    ensures var t := UnlockStep(LockStep(s).1).1; !t.locked && t.acquired == t.freed == s.acquired + 1
  {
  }

  /** AbstractPartitionSlice: a slice index fixed at construction plus the lock state. */
  class AbstractPartitionSlice {
    const index: int
    var locked: bool
    var acquired: int
    var freed: int

    function State(): LockState
      reads this
    {
      LockState(locked, acquired, freed)
    }

    constructor (index: int)
      ensures this.index == index && State() == LockState(false, 0, 0)
    {
      this.index := index;
      locked := false;
      acquired := 0;
      freed := 0;
    }

    method Lock() returns (r: Outcome)
      modifies this
      ensures (r, State()) == LockStep(old(State()))
    {
      if locked {
        return Fail(IllegalState);
      }
      locked := true;
      if acquired != freed {
        return Fail(IllegalState);
      }
      acquired := acquired + 1;
      r := Pass;
    }

    method Unlock() returns (r: Outcome)
      modifies this
      ensures (r, State()) == UnlockStep(old(State()))
    {
      if !locked {
        return Fail(IllegalState);
      }
      locked := false;
      freed := freed + 1;
      r := Pass;
    }
  }

  // ----- copies one byte at a time -----

  function Min(a: int, b: int): int { if a <= b then a else b }

  /**
   * How many leading steps of a byte-at-a-time copy of `length` bytes stay in bounds
   * on both sides: positions from `position` in a store of `capacity` bytes and
   * elements from `offset` in an array of `arrayLength` bytes.
   */
  function InBoundsRun(position: int, offset: int, arrayLength: int, capacity: int, length: int): (n: nat)
    ensures length <= 0 ==> n == 0
    ensures length > 0 ==> n <= length
    ensures n > 0 ==> 0 <= position && position + n <= capacity && 0 <= offset && offset + n <= arrayLength
    ensures n < length ==> !(0 <= position + n < capacity && 0 <= offset + n < arrayLength)
  {
    if length <= 0 || position < 0 || offset < 0 then 0
    else
      var m := Min(length, Min(capacity - position, arrayLength - offset));
      if m < 0 then 0 else m
  }

  /** `s` with `src` written over it from position `at` on (positions outside `s` are dropped). */
  function Overwrite(s: seq<JByte>, at: int, src: seq<JByte>): (r: seq<JByte>)
    ensures |r| == |s|
    ensures forall q :: 0 <= q < |s| && !(at <= q < at + |src|) ==> r[q] == s[q]
    ensures forall q :: 0 <= q < |s| && at <= q < at + |src| ==> r[q] == src[q - at]
  {
    seq(|s|, q requires 0 <= q < |s| => if at <= q < at + |src| then src[q - at] else s[q])
  }

  /** The `n` array elements from `offset` on, where the copy has shown them to exist. */
  function Window(src: seq<JByte>, offset: int, n: nat): (w: seq<JByte>)
    requires n > 0 ==> 0 <= offset && offset + n <= |src|
    ensures |w| == n
  {
    if n == 0 then [] else src[offset..offset + n]
  }

  // ----- ByteBuffer slices -----

  /**
   * ByteBufferPartitionSlice (and the pooled partition's inner slice of the same name):
   * a ByteBuffer of `buffer.Length` bytes whose absolute puts and gets reject positions
   * outside [0, capacity), and two cursors. `cleansOnFree` tells the top-level class,
   * whose free() releases the buffer, from the pooled inner class, whose free() does nothing.
   */
  class ByteBufferSlice {
    const header: AbstractPartitionSlice
    const owner: object
    const sliceByteSize: int
    const buffer: array<JByte>
    const cleansOnFree: bool
    var writerIndex: int
    var readerIndex: int
    var released: bool

    constructor (index: int, owner: object, sliceByteSize: int, capacity: nat, cleansOnFree: bool)
      ensures header.index == index && header.State() == LockState(false, 0, 0)
      ensures this.owner == owner && this.sliceByteSize == sliceByteSize && this.cleansOnFree == cleansOnFree
      ensures buffer.Length == capacity && buffer[..] == seq(capacity, _ => 0)
      ensures writerIndex == 0 && readerIndex == 0 && !released
      ensures fresh(header) && fresh(buffer)
    {
      header := new AbstractPartitionSlice(index);
      this.owner := owner;
      this.sliceByteSize := sliceByteSize;
      buffer := new JByte[capacity](_ => 0);
      this.cleansOnFree := cleansOnFree;
      writerIndex := 0;
      readerIndex := 0;
      released := false;
    }

    /** read(position): an absolute get. */
    function ReadAt(position: int): Result<JByte>
      reads buffer
    {
      if 0 <= position < buffer.Length then Ok(buffer[position]) else Err(IndexOutOfBounds)
    }

    function ReadableBytes(): int
      reads this
    {
      writerIndex - readerIndex
    }

    function WriteableBytes(): int
      reads this
    {
      sliceByteSize - writerIndex
    }

    /** clear(): both cursors back to 0; the stored bytes stay. */
    method Clear()
      modifies this
      ensures writerIndex == 0 && readerIndex == 0 && released == old(released)
    {
      writerIndex := 0;
      readerIndex := 0;
    }

    /** put(position, value): an absolute put; the cursors do not move. */
    method PutAt(position: int, value: JByte) returns (r: Outcome)
      modifies buffer
      ensures 0 <= position < buffer.Length ==> r == Pass && buffer[..] == old(buffer[..])[position := value]
      ensures !(0 <= position < buffer.Length) ==> r == Fail(IndexOutOfBounds) && buffer[..] == old(buffer[..])
      ensures r == Pass ==> ReadAt(position) == Ok(value)
      ensures forall q :: q != position ==> ReadAt(q) == old(ReadAt(q))
    {
      if !(0 <= position < buffer.Length) {
        return Fail(IndexOutOfBounds);
      }
      buffer[position] := value;
      r := Pass;
    }

    /** put(value): puts at writerIndex, which has already moved on when the put fails. */
    method Put(value: JByte) returns (r: Outcome)
      modifies this, buffer
      ensures writerIndex == old(writerIndex) + 1 && readerIndex == old(readerIndex)
      ensures 0 <= old(writerIndex) < buffer.Length ==> r == Pass && buffer[..] == old(buffer[..])[old(writerIndex) := value]
      ensures !(0 <= old(writerIndex) < buffer.Length) ==> r == Fail(IndexOutOfBounds) && buffer[..] == old(buffer[..])
    {
      var position := writerIndex;
      writerIndex := writerIndex + 1;
      r := PutAt(position, value);
    }

    /** read(): gets at readerIndex, which has already moved on when the get fails. */
    method Read() returns (r: Result<JByte>)
      modifies this
      ensures readerIndex == old(readerIndex) + 1 && writerIndex == old(writerIndex)
      ensures r == ReadAt(old(readerIndex))
    {
      var position := readerIndex;
      readerIndex := readerIndex + 1;
      r := ReadAt(position);
    }

    /**
     * put(array, offset, length): one put(writerIndex++, array[offset + i]) per step.
     * The bytes of the steps that stayed in bounds are stored from the old writerIndex on;
     * the first failing step has still advanced the cursor and ends the call.
     */
    method PutArray(src: seq<JByte>, offset: int, length: int) returns (r: Outcome)
      modifies this, buffer
      ensures var n := InBoundsRun(old(writerIndex), offset, |src|, buffer.Length, length);
        && r == (if length <= n then Pass else Fail(IndexOutOfBounds))
        && writerIndex == old(writerIndex) + n + (if length <= n then 0 else 1)
        && buffer[..] == Overwrite(old(buffer[..]), old(writerIndex), Window(src, offset, n))
      ensures readerIndex == old(readerIndex)
    {
      ghost var start := writerIndex;
      ghost var before := buffer[..];
      ghost var n := InBoundsRun(start, offset, |src|, buffer.Length, length);
      var i := 0;
      while i < length
        invariant 0 <= i <= n
        invariant writerIndex == start + i && readerIndex == old(readerIndex)
        invariant buffer[..] == Overwrite(before, start, Window(src, offset, i))
      {
        var position := writerIndex;
        writerIndex := writerIndex + 1;
        if !(0 <= offset + i < |src|) || !(0 <= position < buffer.Length) {
          return Fail(IndexOutOfBounds);
        }
        buffer[position] := src[offset + i];
        i := i + 1;
      }
      r := Pass;
    }

    /**
     * read(src, offset, length): one src[offset + i] = read(readerIndex++) per step;
     * the slice read comes before the src store, so a failure of either has already
     * advanced the cursor.
     */
    method ReadArray(dst: array<JByte>, offset: int, length: int) returns (r: Outcome)
      requires dst != buffer
      modifies this, dst
      ensures var n := InBoundsRun(old(readerIndex), offset, dst.Length, buffer.Length, length);
        && r == (if length <= n then Pass else Fail(IndexOutOfBounds))
        && readerIndex == old(readerIndex) + n + (if length <= n then 0 else 1)
        && (n > 0 ==> dst[..] == Overwrite(old(dst[..]), offset, buffer[old(readerIndex)..old(readerIndex) + n]))
      ensures InBoundsRun(old(readerIndex), offset, dst.Length, buffer.Length, length) == 0 ==> dst[..] == old(dst[..])
      ensures writerIndex == old(writerIndex)
    {
      ghost var start := readerIndex;
      ghost var before := dst[..];
      ghost var n := InBoundsRun(start, offset, dst.Length, buffer.Length, length);
      var i := 0;
      while i < length
        invariant 0 <= i <= n
        invariant readerIndex == start + i && writerIndex == old(writerIndex)
        invariant i == 0 ==> dst[..] == before
        invariant i > 0 ==> dst[..] == Overwrite(before, offset, buffer[start..start + i])
      {
        var position := readerIndex;
        readerIndex := readerIndex + 1;
        var value := ReadAt(position);
        if value.Err? || !(0 <= offset + i < dst.Length) {
          return Fail(IndexOutOfBounds);
        }
        dst[offset + i] := value.value;
        i := i + 1;
      }
      r := Pass;
    }

    /** writerIndex(v): range-checked against [0, sliceByteSize]. */
    method SetWriterIndex(v: int) returns (r: Outcome)
      modifies this
      ensures r == RangeCheck(v, 0, sliceByteSize)
      ensures writerIndex == (if r == Pass then v else old(writerIndex)) && readerIndex == old(readerIndex)
    {
      r := RangeCheck(v, 0, sliceByteSize);
      if r == Pass {
        writerIndex := v;
      }
    }

    /** readerIndex(v): range-checked against [0, sliceByteSize]. */
    method SetReaderIndex(v: int) returns (r: Outcome)
      modifies this
      ensures r == RangeCheck(v, 0, sliceByteSize)
      ensures readerIndex == (if r == Pass then v else old(readerIndex)) && writerIndex == old(writerIndex)
    {
      r := RangeCheck(v, 0, sliceByteSize);
      if r == Pass {
        readerIndex := v;
      }
    }

    /** free(): the top-level class releases its buffer; the pooled inner class does nothing. */
    method Free()
      modifies this
      ensures released == (old(released) || cleansOnFree)
      ensures writerIndex == old(writerIndex) && readerIndex == old(readerIndex)
    {
      if cleansOnFree {
        released := true;
      }
    }
  }

  // ----- raw-memory slices -----

  /**
   * UnsafePartitionSlice (and the pooled partition's inner slice of the same name): a
   * region of exactly sliceByteSize bytes of raw memory. Raw accesses have no bounds
   * check, so the model requires them to stay inside the region; the bulk copies check
   * the cursor they compare against the region end.
   */
  class UnsafeSlice {
    const header: AbstractPartitionSlice
    const owner: object
    const sliceByteSize: nat
    const memory: array<JByte>
    var writerIndex: int
    var readerIndex: int
    var released: bool

    /** The region has exactly sliceByteSize bytes. */
    predicate Valid()
    {
      memory.Length == sliceByteSize
    }

    predicate Zeroed()
      reads memory
    {
      forall q :: 0 <= q < memory.Length ==> memory[q] == 0
    }

    /** The constructor allocates the region and ends with clear(). */
    constructor (index: int, owner: object, sliceByteSize: nat)
      ensures header.index == index && header.State() == LockState(false, 0, 0)
      ensures Valid() && this.owner == owner && this.sliceByteSize == sliceByteSize
      ensures Zeroed() && writerIndex == 0 && readerIndex == 0 && !released
      ensures fresh(header) && fresh(memory)
    {
      header := new AbstractPartitionSlice(index);
      this.owner := owner;
      this.sliceByteSize := sliceByteSize;
      memory := new JByte[sliceByteSize];
      released := false;
      new;
      Clear();
    }

    function ReadAt(position: int): JByte
      requires 0 <= position < memory.Length
      reads memory
    {
      memory[position]
    }

    function ReadableBytes(): int
      reads this
    {
      writerIndex - readerIndex
    }

    function WriteableBytes(): int
      reads this
    {
      sliceByteSize - writerIndex
    }

    /** clear(): zeroes the whole region and resets both cursors. */
    method Clear()
      modifies this, memory
      ensures Zeroed() && writerIndex == 0 && readerIndex == 0 && released == old(released)
    {
      forall q | 0 <= q < memory.Length {
        memory[q] := 0;
      }
      writerIndex := 0;
      readerIndex := 0;
    }

    /** put(position, value): a raw store; the cursors do not move. */
    method PutAt(position: int, value: JByte)
      requires 0 <= position < memory.Length
      modifies memory
      ensures memory[..] == old(memory[..])[position := value]
      ensures ReadAt(position) == value
    {
      memory[position] := value;
    }

    /** put(value): a raw store at writerIndex, which then moves on by one. */
    method Put(value: JByte)
      requires 0 <= writerIndex < memory.Length
      modifies this, memory
      ensures memory[..] == old(memory[..])[old(writerIndex) := value]
      ensures writerIndex == old(writerIndex) + 1 && readerIndex == old(readerIndex)
    {
      var position := writerIndex;
      writerIndex := writerIndex + 1;
      PutAt(position, value);
    }

    /** read(): a raw load at readerIndex, which then moves on by one. */
    method Read() returns (value: JByte)
      requires 0 <= readerIndex < memory.Length
      modifies this
      ensures value == ReadAt(old(readerIndex))
      ensures readerIndex == old(readerIndex) + 1 && writerIndex == old(writerIndex)
    {
      var position := readerIndex;
      readerIndex := readerIndex + 1;
      value := ReadAt(position);
    }

    /**
     * put(array, offset, length): rejected when writerIndex + length passes the region
     * end; a negative length passes that check and copyMemory rejects it; otherwise the
     * bytes are copied to the region starting at readerIndex and writerIndex moves on by
     * length.
     */
    method PutArray(src: seq<JByte>, offset: int, length: int) returns (r: Outcome)
      requires writerIndex + length <= sliceByteSize && 0 <= length ==>
        0 <= offset && offset + length <= |src| && 0 <= readerIndex && readerIndex + length <= memory.Length
      modifies this, memory
      ensures old(writerIndex) + length > sliceByteSize ==>
        r == Fail(IndexOutOfBounds) && memory[..] == old(memory[..]) && writerIndex == old(writerIndex)
      ensures old(writerIndex) + length <= sliceByteSize && length < 0 ==>
        r == Fail(IllegalArgument) && memory[..] == old(memory[..]) && writerIndex == old(writerIndex)
      ensures old(writerIndex) + length <= sliceByteSize && 0 <= length ==>
        r == Pass && memory[..] == Overwrite(old(memory[..]), old(readerIndex), src[offset..offset + length])
        && writerIndex == old(writerIndex) + length
      ensures readerIndex == old(readerIndex)
    {
      if writerIndex + length > sliceByteSize {
        return Fail(IndexOutOfBounds);
      }
      if length < 0 {
        return Fail(IllegalArgument);
      }
      forall q | readerIndex <= q < readerIndex + length {
        memory[q] := src[offset + q - readerIndex];
      }
      writerIndex := writerIndex + length;
      r := Pass;
    }

    /**
     * read(src, offset, length): rejected when readerIndex + length passes the region
     * end; a negative length passes that check and copyMemory rejects it; otherwise the
     * bytes from readerIndex on are copied out and readerIndex moves on by length.
     */
    method ReadArray(dst: array<JByte>, offset: int, length: int) returns (r: Outcome)
      requires Valid() && dst != memory
      requires readerIndex + length <= sliceByteSize && 0 <= length ==>
        0 <= offset && offset + length <= dst.Length && 0 <= readerIndex
      modifies this, dst
      ensures old(readerIndex) + length > sliceByteSize ==>
        r == Fail(IndexOutOfBounds) && dst[..] == old(dst[..]) && readerIndex == old(readerIndex)
      ensures old(readerIndex) + length <= sliceByteSize && length < 0 ==>
        r == Fail(IllegalArgument) && dst[..] == old(dst[..]) && readerIndex == old(readerIndex)
      ensures old(readerIndex) + length <= sliceByteSize && 0 <= length ==>
        r == Pass && dst[..] == Overwrite(old(dst[..]), offset, memory[old(readerIndex)..old(readerIndex) + length])
        && readerIndex == old(readerIndex) + length
      ensures writerIndex == old(writerIndex)
    {
      if readerIndex + length > sliceByteSize {
        return Fail(IndexOutOfBounds);
      }
      if length < 0 {
        return Fail(IllegalArgument);
      }
      forall q | offset <= q < offset + length {
        dst[q] := memory[readerIndex + q - offset];
      }
      readerIndex := readerIndex + length;
      r := Pass;
    }

    /** writerIndex(v): range-checked against [0, sliceByteSize]. */
    method SetWriterIndex(v: int) returns (r: Outcome)
      modifies this
      ensures r == RangeCheck(v, 0, sliceByteSize)
      ensures writerIndex == (if r == Pass then v else old(writerIndex)) && readerIndex == old(readerIndex)
    {
      r := RangeCheck(v, 0, sliceByteSize);
      if r == Pass {
        writerIndex := v;
      }
    }

    /** readerIndex(v): range-checked against [0, sliceByteSize]. */
    method SetReaderIndex(v: int) returns (r: Outcome)
      modifies this
      ensures r == RangeCheck(v, 0, sliceByteSize)
      ensures readerIndex == (if r == Pass then v else old(readerIndex)) && writerIndex == old(writerIndex)
    {
      r := RangeCheck(v, 0, sliceByteSize);
      if r == Pass {
        readerIndex := v;
      }
    }

    /** free(): zeroes the region, then releases it. */
    method Free()
      modifies this, memory
      ensures Zeroed() && released
      ensures writerIndex == old(writerIndex) && readerIndex == old(readerIndex)
    {
      forall q | 0 <= q < memory.Length {
        memory[q] := 0;
      }
      released := true;
    }
  }
}
